=== FILE: README.md ===
# duct-sharp core, modelled in Dafny

duct-sharp is a small configuration-text engine. Its core is made of these parts:

- **A variable tree.** Named integer, string, float and bool values live in collections. A collection is an *identifier*, whose children are values, or a *node*, whose children are anything. Each collection keeps its children in order, and each child points back at its parent.
- **The script format.** It has `name = value` statements, `name v1 v2 …` identifier lines and `name { … }` nodes.
  - A character-at-a-time lexer (`ScriptParser`) reads it.
  - A state-machine handler (`StandardScriptParserHandler`) builds the tree from the tokens.
  - `ScriptFormatter` writes values and identifiers back as text.
- **A home-grown CSV format.** Quotes in it are escaped with a backslash.
  - A second lexer, `CSVParser`, reads it.
  - A handler fills a sparse map of rows and columns.
  - `FormatRow` writes one row back.
- **Templates.** They validate identifiers and values by position, name and type. They can also compact runs of matching values in a collection into new identifiers.
- **The leaves.** These are the `Token` accumulator, and character ranges and sets with their `"0-9\\-+"` range syntax.

The model follows the C# code's own form:

- The mutable objects become classes whose methods carry `modifies` clauses. These are the token, the variable tree, the character set, the CSV row and map, both parsers and both handlers.
- Each mutating method is proved against a pure specification function:
  - the lexers against `ReadString`, `ReadNumber`, …, `ParseStep` and `LexFrom`;
  - the handlers against `Handle`, `Run` and `Drive`, and the script handler's tree against `Apply`, which carries out the actions `Handle` lists on a store of entries;
  - `CompactCollection` against `ScanFrom`, `Picked` and `Spliced`.
- Lemmas then state the promised properties of those functions. Examples are the statement forms, balanced scopes, the shape of the CSV map, run detection and the read-back of formatted text.
- Exceptions become `Result`/`Outcome` error values:
  - `NullReference`, `InvalidCast` and `ArgumentOutOfRange` for the runtime exceptions the code can raise;
  - `OverflowError` and `FormatError` for the numeric conversions;
  - `ParserError(…)` and `HierarchyError` for the parsers' own exceptions.
- The end-of-input character `'\xFFFF'` is modelled out of band. A literal U+FFFF in the input also ends it, as in the C#.
- A stream is given as its text.

Modules, one per file:

| file | module | models |
|---|---|---|
| basics.dfy | Basics | ASCII case folding, 32-bit integer text, `Result` and `Outcome` |
| token.dfy | Tokens | `Token<T>` |
| char_range.dfy | CharRanges | `CharacterRange`, `CharacterSet` |
| values.dfy | Values | the type tags, escapes, quoting, bool and number sniffing |
| variables.dfy | Variables | `Variable`, `CollectionVariable`, `Identifier`, `Node` |
| template.dfy | Templates | `Template` validation, rename and lookup passes |
| compaction.dfy | Compaction | `Template.CompactCollection` and `__add` |
| formatter.dfy | ScriptFormatting | `ScriptFormatter.FormatValue` and `FormatIdentifier` |
| script_lexer.dfy | ScriptLexer | `ScriptParser` |
| script_handler.dfy | ScriptHandler | `ScriptParserHandler`, `StandardScriptParserHandler` |
| csv_map.dfy | CsvData | `CSVRow`, `CSVMap`, `CSVFormatter.FormatRow` |
| csv_lexer.dfy | CsvLexer | `CSVParser` |
| csv_handler.dfy | CsvHandler | the pure `StandardCSVParserHandler` and the load specification |
| csv_parser_handler.dfy | CsvParserHandler | the `StandardCSVParserHandler` class and `CSVFormatter.LoadFromStream` |

## Model

| member | source | states |
|---|---|---|
| Basics.ParseInt32 | src/Token.cs:75-78 | The text converts only to an integer within the 32-bit range; out-of-range digits are an overflow |
| Basics.IntToString | src/Variables.cs:689-691 | The decimal text of an integer is never empty |
| Basics.NaturalTextIsDigits | src/Variables.cs:689-691 | The text of a natural number is all digits and denotes that number |
| Basics.IntTextRoundTrip | src/Variables.cs:682-687 | The text an Int32 is written as converts back to the same Int32 |
| Basics.ParseUnsigned | src/Token.cs:75-78 | A digit string within range converts to its value |
| Basics.ParseNegated | src/Token.cs:75-78 | A minus sign and a digit string within range convert to the negated value |
| Basics.NamesEqualReflexive | src/Template.cs:77-79 | Sanity fact: every name compares equal to itself, under either case rule |
| Tokens.Token.constructor | src/Token.cs:20-22 | A new token has the given kind, an empty lexeme and the default capacity |
| Tokens.Token.SetPosition | src/Token.cs:36-39 | Only the line and the column change; the kind and the lexeme are untouched |
| Tokens.Token.Add | src/Token.cs:41-47 | Exactly one character is appended; the capacity adjustments never change the content |
| Tokens.Token.Reset | src/Token.cs:49-53 | The kind is set and the lexeme emptied; the capacity and the position stay |
| Tokens.Token.CompareChar | src/Token.cs:55-61 | True exactly when every lexeme character is c; vacuously true when the lexeme is empty |
| Tokens.Token.CompareSet | src/Token.cs:63-69 | True exactly when every lexeme character is in the set; vacuously true when the lexeme is empty |
| CharRanges.FromBounds | src/CharacterRange.cs:25-30 | The (start, end) constructor fails exactly when end < start, and otherwise covers start..end |
| CharRanges.FromLength | src/CharacterRange.cs:20-23 | The (start, length) constructor covers start..start+length in unchecked uint arithmetic: a sum in 0x10000..2^32-1 is an overflow error, and a sum of 2^32 or more wraps to an end below the start without error |
| CharRanges.Single | src/CharacterRange.cs:32-35 | The one-character constructor gives start = end = c |
| CharRanges.RangeContainsWithinBounds | src/CharacterRange.cs:37-39 | Contains(c) holds exactly when start <= c <= end |
| CharRanges.FirstIndexIn | src/CharacterRange.cs:45-54 | The first index at or after the start whose character is in the range, or -1 when there is none |
| CharRanges.RangeFindInString | src/CharacterRange.cs:45-54 | The scan loop returns the first hit at or after startfrom, and -1 when there is none or startfrom is at or past the end |
| CharRanges.LastIndexIn | src/CharacterRange.cs:60-69 | The last index at or before the start whose character is in the range, or -1 |
| CharRanges.RangeFindLastInString | src/CharacterRange.cs:60-69 | The backward scan starts at startfrom (-1 meaning the last index); a start past the end raises IndexOutOfRange |
| CharRanges.Compare | src/CharacterRange.cs:71-85 | Orders ranges by span, then by start; 0 exactly when both agree |
| CharRanges.CompareAntisymmetric | src/CharacterRange.cs:71-85 | Swapping the arguments negates the comparison |
| CharRanges.CompareZeroIsEquality | src/CharacterRange.cs:71-85 | Compare is 0 exactly for equal ranges |
| CharRanges.Intersects | src/CharacterRange.cs:87-95 | True for equal, overlapping or adjacent ranges, false otherwise |
| CharRanges.IntersectsSymmetric | src/CharacterRange.cs:87-95 | Intersects does not depend on the order of its arguments |
| CharRanges.CharacterSet.constructor | src/CharacterRange.cs:101-103 | A new set is empty |
| CharRanges.CharacterSet.Contains | src/CharacterRange.cs:120-126 | True exactly when some range of the set contains c |
| CharRanges.CharacterSet.ContainsRange | src/CharacterRange.cs:128-134 | True exactly when the set holds a range with the same bounds |
| CharRanges.FirstRangeHit | src/CharacterRange.cs:140-150 | The hit of the first range that has one (not necessarily the smallest index), or -1 when no range has a hit |
| CharRanges.CharacterSet.FindInString | src/CharacterRange.cs:140-150 | The loop over the ranges returns FirstRangeHit, and -1 when startfrom is at or past the end |
| CharRanges.MaxRangeHit | src/CharacterRange.cs:156-166 | The largest hit over all ranges, with no hit after it, or -1 |
| CharRanges.CharacterSet.FindLastInString | src/CharacterRange.cs:156-166 | The loop returns MaxRangeHit; an empty set gives -1; a start past the end raises IndexOutOfRange |
| CharRanges.CharacterSet.Clear | src/CharacterRange.cs:168-170 | The set becomes empty |
| CharRanges.CharacterSet.AddRangeWithLength | src/CharacterRange.cs:172-174 | The range is appended, or the overflow is raised and the set is unchanged |
| CharRanges.CharacterSet.AddRange | src/CharacterRange.cs:176-182 | Exactly the given range is appended |
| CharRanges.CharacterSet.AddRangesWithString | src/CharacterRange.cs:184-223 | The ranges the syntax denotes are appended in order; a trailing unfinished range fails after the earlier ones were added |
| CharRanges.Between | src/CharacterRange.cs:200-209 | `a-b` denotes a well-formed range whichever of a and b is larger |
| CharRanges.RangeSyntaxWellFormed | src/CharacterRange.cs:184-223 | Every range the syntax produces is well formed; a reversed pair is normalised |
| CharRanges.PlainCharsAreSingles | src/CharacterRange.cs:184-223 | Without dashes and backslashes every character is added singly, in order |
| CharRanges.DashPairIsRange | src/CharacterRange.cs:184-223 | `a-b` adds the one inclusive range between a and b |
| CharRanges.EscapeIsLiteral | src/CharacterRange.cs:184-223 | `\x` adds x literally, even a dash or a backslash |
| CharRanges.TrailingDashFails | src/CharacterRange.cs:184-223 | `a-` at the end adds nothing and fails |
| CharRanges.NumberSetSyntax | src/ScriptFormatter.cs:46 | Example: the number set "0-9\\-+" holds exactly the digits and the two signs |
| CharRanges.NumeralSetSyntax | src/ScriptFormatter.cs:47 | Example: the numeral set "0-9" holds exactly the digits |
| CharRanges.SignSetSyntax | src/ScriptFormatter.cs:48 | Example: the sign set "\\-+" holds exactly the two signs |
| CharRanges.WhitespaceSetSyntax | src/ScriptFormatter.cs:45 | Example: the script lexer's whitespace set holds exactly the tab and the space |
| Values.SubsetTestOnKindTags | src/Variables.cs:13-65 | On a concrete kind tag the subset test equals the shared-bit test; ANY selects every kind and NONE none; VALUE and COLLECTION split the kinds in two |
| Values.TypeOf | src/Variables.cs:693-695 | A value's type tag is one of INTEGER, STRING, FLOAT and BOOL |
| Values.GetEscapeChar | src/Variables.cs:325-343 | n, r and t map to newline, carriage return and tab; each of `' " \ { } =` maps to itself; everything else maps to the unknown-escape sentinel |
| Values.EscapeAllSetsAll | src/Variables.cs:128 | STRING_ESCAPE_ALL switches on every escape rule |
| Values.EscapeString | src/Variables.cs:349-421 | The result is the escaped text as the code writes it, escape-pair defect included; empty text and a format without escape flags come back unchanged |
| Values.EscapeAgrees | src/Variables.cs:383-387 | On text holding no escape pair the defect rewrites, the code as written and the intended escape give the same text |
| Values.EscapeLoop | src/Variables.cs:357-420 | The builder loop produces the escaped text of the whole input |
| Values.EscapeStepWellEscaped | src/Variables.cs:360-417 | Each piece one escape step appends is a complete escape pair or a plain character |
| Values.EscapedIsWellEscaped | src/Variables.cs:349-421 | Escaped quote-free text consists of complete escape pairs and plain characters |
| Values.WellEscapedIsFixpoint | src/Variables.cs:349-421 | Text made of complete escape pairs and plain characters is left unchanged by escaping |
| Values.EscapeIdempotent | src/Variables.cs:349-421 | With every escape flag set, escaping quote-free text twice is the same as escaping it once |
| Values.EscapePairDefect | src/Variables.cs:385 | As written, escaping the pair `\t` again yields the digits "101"; the corrected escape keeps the pair |
| Values.UnescapeEscapedTail | src/Variables.cs:357-420 | Decoding the escaped text of quote-free, backslash-free text gives the text back, whatever the flags |
| Values.EscapeRoundTrip | src/Variables.cs:349-421 | Escaping, as written and as intended, is undone by the lexers' escape decoding, for quote-free text without backslashes |
| Values.StringToBool | src/Variables.cs:243-252 | 1 for "true" in any case or "1"; 0 for "false" in any case or "0"; -1 otherwise, including "" |
| Values.BoolTextRoundTrip | src/Variables.cs:870-874 | The text a bool is written as reads back as the same bool |
| Values.VariableToBool | src/Variables.cs:221-241 | A string converts as StringToBool does; a bool gives 1 or 0; an int gives 1 for 1, 0 for 0 and -1 otherwise; null, floats and collections give -1 |
| Values.SniffClassifies | src/Variables.cs:269-288 | The sniffing loop gives Integer for digits and signs only, Float for a single point among them, and String otherwise |
| Values.SniffType | src/Variables.cs:269-288 | The sniffing loop of StringToValue computes the classification stated by SniffClassifies |
| Values.StringToValue | src/Variables.cs:266-309 | Empty text is a String; a requested INTEGER, FLOAT or BOOL is used as given; any other requested type becomes a Bool when the text reads as one, else a String; with no requested type, digits give an Integer, one point a Float, and other text a Bool when it reads as one, else a String |
| Values.NameQuoting | src/Variables.cs:195-208 | The name rules apply in order: always-quote, quote-empty (which returns `""` unescaped), whitespace, then control characters; a name no rule matches is only escaped |
| Values.QuotingPrecedence | src/Variables.cs:749-765 | The value rules apply in order and the first match wins: always-quote, quote-empty, whitespace, safe-bool, safe-number, then control characters; a value no rule matches is unquoted |
| Values.SafeFormatQuotesLookalikes | src/Variables.cs:757-760 | Under the default format a bool-looking or numeric string is quoted, so it does not read back as a bool or a number |
| Values.UnquotedScalarsReadBack | src/Variables.cs:682-687 | Written unquoted, a bool reads back as the same bool and an Int32 as the same Int32 |
| Variables.KindTag | src/Variables.cs:13-45 | Each kind has its own one-bit tag: scalars INTEGER, STRING, FLOAT or BOOL; IDENTIFIER; NODE |
| Variables.KindMasks | src/Variables.cs:56-64 | VALUE selects exactly the scalar kinds, COLLECTION exactly identifiers and nodes, ANY every kind and NONE none |
| Variables.Variable.constructor | src/Variables.cs:668-672 | A new variable has the given kind, name and parent and no children; the parent does not list it |
| Variables.Variable.Clone | src/Variables.cs:916-921 | The clone of an identifier or a node is a fresh variable without a parent, shares no variable with the original, and is the same tree: the same kind, name and value at every position, the children in the same order |
| Variables.Variable.AddClone | src/Variables.cs:919 | Adding a child's clone appends it and makes the clone its parent; the clone so far and the child's clone together describe the grafted tree |
| Variables.GraftTrees | src/Variables.cs:918-919 | After j children are cloned, each of the first j subtrees of the clone is the same tree as the original's subtree at that position |
| Variables.Variable.Clear | src/Variables.cs:447-449 | Every child is dropped; the name and the parent stay |
| Variables.Variable.Add | src/Variables.cs:451-458 | A non-null variable is appended and gets this collection as its parent; null is refused and nothing changes |
| Variables.Variable.Insert | src/Variables.cs:460-468 | An index within 0..Count inserts there and sets the parent; any other index is refused and nothing changes; a null variable at a valid index is a null reference |
| Variables.InsertAtPlaces | src/Variables.cs:462 | After insertion at k the new element is preceded by the old element k-1 and followed by the old element k |
| Variables.Variable.InsertAfter | src/Variables.cs:470-476 | As written, the variable lands at the index `after` had, that is, immediately before `after`; false when `after` is absent; a null variable is a null reference |
| Variables.Variable.InsertAfterIntended | src/Variables.cs:470-476 | As its name promises, the variable lands immediately after `after`; false when `after` is absent |
| Variables.Variable.Remove | src/Variables.cs:487-493 | The first occurrence is deleted and its parent cleared; false, with no change, when the variable is not a child |
| Variables.Variable.RemoveIndex | src/Variables.cs:478-485 | An index within range removes that child; any other index is refused |
| Variables.Variable.RemoveOfType | src/Variables.cs:495-502 | The first child whose tag is a subset of the mask is removed; false when no child qualifies |
| Variables.Variable.RemoveNamed | src/Variables.cs:504-519 | The first child with a matching name and a tag within the mask is removed; false when none qualifies |
| Variables.Variable.Get | src/Variables.cs:521-535 | The first child with a matching name and a tag within the mask, or null |
| Variables.Variable.GetAt | src/Variables.cs:537-546 | The child at the index, or null outside 0..Count-1 |
| Variables.Variable.GetKindAt | src/Variables.cs:557-562 | The child at the index when it is of the requested kind, or null |
| Variables.InsertAt | src/Variables.cs:462 | List insertion: the new element at k, those before it kept, those after it shifted by one |
| Variables.RemoveAt | src/Variables.cs:490 | List deletion: the elements before k kept, those after it shifted back by one |
| Variables.IndexOf | src/Variables.cs:471 | The first position holding the element, or -1 exactly when it is absent |
| Variables.FirstOfType | src/Variables.cs:496-500 | The first position whose tag is within the mask, or -1 exactly when there is none |
| Variables.FirstNamed | src/Variables.cs:513-517 | The first position with a matching name and a tag within the mask, or -1 exactly when there is none |
| Variables.FirstOfTypeAt | src/Variables.cs:495-502 | The first child of a type is also that child's first occurrence, so removing it by reference removes exactly that position |
| Variables.FirstNamedAt | src/Variables.cs:512-519 | The same for the first child selected by name and type |
| Variables.AddThenRemove | src/Variables.cs:451-493 | Add and then Remove of a variable that was not a child gives the original child list back |
| Variables.InsertThenRemove | src/Variables.cs:460-493 | Insert and then Remove of a variable that was not a child gives the original child list back |
| Templates.MakeTemplate | src/Template.cs:34-35 | The two-argument template is case-insensitive and has no infinitism |
| Templates.CheckIden | src/Template.cs:58-75 | A null identity list accepts every name; otherwise the name must equal some entry under the case rule |
| Templates.ValidateIdentifier | src/Template.cs:135-159 | Null gives false and a null layout is dereferenced; otherwise the count, name, slot and extra-child tests of IdentifierFits decide |
| Templates.SlotsMatch | src/Template.cs:141-145 | The loop is true exactly when each of the first children shares a bit with its slot mask |
| Templates.ExtrasMatch | src/Template.cs:147-154 | The loop is true exactly when every child past the layout shares a bit with the infinitism mask |
| Templates.ValidateValue | src/Template.cs:165-176 | Requires a name match, then tests the first slot's mask, or the infinitism mask when there are no slots |
| Templates.ValueFitsEdges | src/Template.cs:165-176 | A template without slots or infinitism accepts no value; a null identity list accepts every name |
| Templates.MatchName | src/Template.cs:81-89 | Positional: an empty identity list accepts any name, position mc compares with entry mc, and positions past the end pass only with infinitism; a null list is dereferenced |
| Templates.ValidateValueIsSlotZero | src/Template.cs:91-97 | ValidateValue is the type test of compaction slot 0 combined with a name test against the whole identity list |
| Templates.NamesEqualSymmetric | src/Template.cs:77-79 | Sanity fact: name comparison does not depend on the order of its arguments |
| Templates.PassStop | src/Template.cs:240-284 | A pass stops at the first child the cast rejects, or at the first child when identifiers meet a null layout; otherwise it runs to the end |
| Templates.CheckChild | src/Template.cs:243-244 | One child's cast and validation: an invalid cast, a null layout, or whether the child validates |
| Templates.RenamePass | src/Template.cs:240-264 | Each child before the stop is validated under the name it carries when the loop reaches it and renamed when it validates; the count is the number of such renames; a child that fails the cast ends the pass with its exception, after the earlier renames; children, parents and the child list do not change |
| Templates.NameAfterSingle | src/Template.cs:243-247 | A child listed once is renamed exactly when it validates under its original name |
| Templates.RenamedStays | src/Template.cs:243-247 | Once renamed, a child listed again keeps the new name: the pass never undoes a rename |
| Templates.RenameIdentifiers | src/Template.cs:240-251 | The rename pass over identifier children; a null collection gives 0 |
| Templates.RenameValues | src/Template.cs:253-264 | The rename pass over value children; a null collection gives 0 |
| Templates.MatchPass | src/Template.cs:266-284 | The first validating child before the stop, null when the pass runs to the end without one, or the stopping child's exception |
| Templates.GetMatchingIdentifier | src/Template.cs:266-274 | The lookup pass over identifier children; a null collection gives null |
| Templates.GetMatchingValue | src/Template.cs:276-284 | The lookup pass over value children; a null collection gives null |
| Compaction.RunLimit | src/Template.cs:188-189 | mmax is the longer of the identity list and the layout, a null one counting 0 |
| Compaction.Fetch | src/Template.cs:197-202 | Re-examine the held value, or fetch the next child (null for a non-value) and advance |
| Compaction.Step | src/Template.cs:195-235 | One loop iteration keeps the scan invariant and advances unless it re-examines; a non-value ends a pending run in sequential mode and is skipped otherwise; a null identity list fails at the first value |
| Compaction.ScanFrom | src/Template.cs:195-235 | The corrected scan reaches the end of the snapshot, or fails only on a null identity list |
| Compaction.ScanSound | src/Template.cs:195-235 | Every run found is non-empty and ascending and fills the template slot by slot; the runs do not overlap |
| Compaction.ScanFull | src/Template.cs:222-225 | Without infinitism, every run has exactly mmax values except possibly the last |
| Compaction.ScanRuns | src/Template.cs:195-235 | The runs handed to the splice are ordered, in range, fill the template slot by slot and, without infinitism, have mmax values except possibly the last |
| Compaction.ScanFails | src/Template.cs:81-82 | The scan fails exactly when the identity list is null and some child is a value |
| Compaction.CompactAsWrittenLoops | src/Template.cs:222-225 | As written, with one slot and two values the loop re-examines the completing value and returns to the same state with one more run, so it never ends |
| Compaction.CompactAsWrittenOverlaps | src/Template.cs:195-226 | Example: as written, with two INTEGER slots and three int values, the completing value opens the next run and the loop ends with the overlapping runs [0, 1] and [1, 2]; the corrected scan gives [0, 1] and [2] |
| Compaction.ScanChildren | src/Template.cs:193-235 | The scan loop returns exactly the runs, or the error, of the specification scan |
| Compaction.ScanIteration | src/Template.cs:196-234 | One iteration of the loop performs exactly one Step |
| Compaction.JudgeValue | src/Template.cs:207-226 | The clauses after the test of a value compute what the specification's Judge does |
| Compaction.Picked | src/Template.cs:113-120 | The values of a run, in match order |
| Compaction.Spliced | src/Template.cs:109-123 | The corrected splice: the identifier replaces the run's first value, the other run values leave, and every other child keeps its place |
| Compaction.AddRun | src/Template.cs:109-123 | A fresh identifier named `name` takes the place of the run's first child and holds the run's values in order, each re-parented to it |
| Compaction.MoveChild | src/Template.cs:113-120 | One step of the splice moves the k-th run value out of the collection into the identifier |
| Compaction.SpliceRuns | src/Template.cs:109-123 | Runs are spliced last to first, each into its own fresh identifier, giving the Compacted child list |
| Compaction.SpliceRun | src/Template.cs:109-123 | One run is spliced while the identifiers made for later runs stay as they were |
| Compaction.Compacted | src/Template.cs:109-123 | The children after every run is spliced; everything before the first run is in place |
| Compaction.CompactedPrefix | src/Template.cs:109-123 | Splicing the runs from j on leaves everything before run j in place |
| Compaction.CompactCollection | src/Template.cs:182-238 | A null collection gives 0; otherwise it fails as the scan does, with the children unchanged, or returns the number of runs and replaces each run with an identifier named `name` holding its values |
| Compaction.AddAsWritten | src/Template.cs:109-123 | __add as written removes, and for the first value inserts, at the recorded indices, with no allowance for earlier removals |
| Compaction.AddAsWrittenMisplaces | src/Template.cs:212 | A one-value run recorded as i+1 removes past the end or removes the wrong sibling; the corrected splice replaces the value |
| ScriptFormatting.ValuesOf | src/ScriptFormatter.cs:681 | The values an identifier holds, in child order |
| ScriptFormatting.FormatIdentifier | src/ScriptFormatter.cs:678-693 | An unnamed identifier gives false and an empty text; a named one gives its line, unless some child is not a value and the loop's cast throws |
| ScriptFormatting.FormatValue | src/ScriptFormatter.cs:717-729 | An unnamed value gives false and an empty text; a named one gives true |
| ScriptFormatting.IdentifierLineReadsBack | src/ScriptFormatter.cs:678-693 | Split at its spaces, an identifier line gives the formatted name and then each value's text in child order: exactly one space before each child |
| ScriptFormatting.ValueLineReadsBack | src/ScriptFormatter.cs:717-729 | A value line splits at its first `=` into the formatted name and the formatted value |
| ScriptLexer.Next | src/ScriptFormatter.cs:120-134 | A carriage return is never the current character; the character after a newline moves to the next line and column 0; each character read advances the column by one |
| ScriptLexer.SkipSpaces | src/ScriptFormatter.cs:141-144 | Stops on the first character outside the whitespace set, or at the end |
| ScriptLexer.SkipLine | src/ScriptFormatter.cs:146-149 | Stops on the newline, or at the end |
| ScriptLexer.SkipTo | src/ScriptFormatter.cs:151-155 | Stops on the character sought, or at the end |
| ScriptLexer.ReadString | src/ScriptFormatter.cs:331-350 | The text only grows and stops before a terminator; a quote or an unknown escape is a PARSER error |
| ScriptLexer.ReadDouble | src/ScriptFormatter.cs:303-329 | The token stays a Double or becomes a String; a quote is a PARSER error |
| ScriptLexer.ReadNumber | src/ScriptFormatter.cs:272-301 | The token stays a Number, becomes a Double at the first point, or becomes a String |
| ScriptLexer.ReadQuoted | src/ScriptFormatter.cs:352-377 | Reads up to the closing quote; the end of input before it, or an unknown escape, is a PARSER error |
| ScriptLexer.CommentLoop | src/ScriptFormatter.cs:381-389 | Finds the closer and reads past it, or reaches the end of input, which is a PARSER error |
| ScriptLexer.ReadCommentBlock | src/ScriptFormatter.cs:379-391 | A comment block is consumed, or the end of input before `*/` is a PARSER error |
| ScriptLexer.ReadBody | src/ScriptFormatter.cs:212-254 | The body of each token kind is read; every kind but String, Comment and EOF consumes input |
| ScriptLexer.ReadTokenSpec | src/ScriptFormatter.cs:212-270 | Read the body, then demote sign-only Numbers and sign-only or point-only Doubles to String |
| ScriptLexer.ParseStep | src/ScriptFormatter.cs:105-118 | Each call hands over one token, and also an EOF token at the end of the input; a call that promises more has consumed input |
| ScriptLexer.TokenMoves | src/ScriptFormatter.cs:164-208 | Every token consumes its first character, so the lexer always progresses |
| ScriptLexer.LexFrom | src/ScriptFormatter.cs:105-118 | The tokens handed over until Parse reports the end; the last one is EOF |
| ScriptLexer.Lex | src/ScriptFormatter.cs:82-94 | The whole input's tokens end with EOF |
| ScriptLexer.TokenShapes | src/ScriptFormatter.cs:256-267 | A resolved Number is an optional sign and at least one digit; a resolved Double has exactly one point and a digit, except a sign followed by the point |
| ScriptLexer.NumberResolved | src/ScriptFormatter.cs:256-262 | A Number text that the resolve step keeps, not being all signs, has a digit |
| ScriptLexer.DoubleResolved | src/ScriptFormatter.cs:263-267 | A Double text that the resolve step keeps has a digit, or is a sign followed by the point |
| ScriptLexer.BodyShapes | src/ScriptFormatter.cs:288-293 | Before resolving, Number text is an optional sign and digits, and Double text has one point |
| ScriptLexer.NumberTextParses | src/Token.cs:75-78 | A number-shaped text with a digit converts unless it overflows |
| ScriptLexer.TwoPointsMakeString | src/ScriptFormatter.cs:318-325 | Example: "12.3.4" lexes as one String token |
| ScriptLexer.QuotedNewlineKeptOnce | src/ScriptFormatter.cs:365-373 | Example: in a quoted string one newline is kept and the next line's indentation is dropped |
| ScriptLexer.SignPointStaysDouble | src/ScriptFormatter.cs:263-266 | As written, "-." stays a Double with no digit, which the handler's conversion cannot convert |
| ScriptLexer.ResolveIntended | src/ScriptFormatter.cs:256-267 | A Number or Double made only of signs and points becomes a String |
| ScriptLexer.ResolvedTokensHaveDigits | src/ScriptFormatter.cs:256-267 | With the intended resolve step every Number and Double token has a digit |
| ScriptLexer.SlashStarSlashCloses | src/ScriptFormatter.cs:379-385 | As written, `/*/` is a complete comment block: the opener's asterisk also starts the closer |
| ScriptLexer.ReadCommentBlockIntended | src/ScriptFormatter.cs:379-391 | The intended reader starts looking for the closer after the opener's asterisk |
| ScriptLexer.IntendedCommentBlockSpan | src/ScriptFormatter.cs:379-391 | With the intended start, a comment block spans at least four characters |
| ScriptLexer.ScriptParser.constructor | src/ScriptFormatter.cs:82-94 | After Clean and the first character, the parser is at the start of its input with an empty token |
| ScriptLexer.ScriptParser.NextChar | src/ScriptFormatter.cs:120-134 | The cursor moves exactly as Next says |
| ScriptLexer.ScriptParser.SkipWhitespace | src/ScriptFormatter.cs:141-144 | The cursor moves as SkipSpaces says |
| ScriptLexer.ScriptParser.SkipToEOL | src/ScriptFormatter.cs:146-149 | The cursor moves as SkipLine says |
| ScriptLexer.ScriptParser.SkipToChar | src/ScriptFormatter.cs:151-155 | The cursor moves as SkipTo says; true exactly when it stops on the character |
| ScriptLexer.ScriptParser.NextToken | src/ScriptFormatter.cs:157-210 | The token starts at the current position with the kind and seed the first character decides; `*/` at a token start is a PARSER error |
| ScriptLexer.ScriptParser.ReadStringToken | src/ScriptFormatter.cs:331-350 | The loop does what ReadString specifies |
| ScriptLexer.ScriptParser.ReadDoubleToken | src/ScriptFormatter.cs:303-329 | The loop does what ReadDouble specifies |
| ScriptLexer.ScriptParser.ReadNumberToken | src/ScriptFormatter.cs:272-301 | The loop does what ReadNumber specifies |
| ScriptLexer.ScriptParser.ReadQuotedStringToken | src/ScriptFormatter.cs:352-377 | The loop does what ReadQuoted specifies, from the character after the opening quote |
| ScriptLexer.ScriptParser.ReadCommentBlockToken | src/ScriptFormatter.cs:379-391 | The loop does what ReadCommentBlock specifies |
| ScriptLexer.NewSignSet | src/ScriptFormatter.cs:48 | The parser's sign set, built from the syntax "\\-+", holds the two sign ranges |
| ScriptLexer.SignSetCompare | src/ScriptFormatter.cs:258 | A lexeme compares equal to the sign set exactly when all its characters are signs |
| ScriptLexer.ScriptParser.ReadToken | src/ScriptFormatter.cs:212-270 | The body is read and the kind resolved against the parser's sign set, as ReadTokenSpec specifies |
| ScriptLexer.ScriptParser.ReadTokenBody | src/ScriptFormatter.cs:212-254 | The switch does what ReadBody specifies |
| ScriptLexer.ScriptParser.Parse | src/ScriptFormatter.cs:105-118 | One call does what ParseStep specifies |
| ScriptHandler.TokenValue | src/ScriptFormatter.cs:510-564 | A quoted string is a string; an unquoted one is a bool when it reads as one; a Number converts as an Int32 and a Double only with a digit |
| ScriptHandler.FinishMode | src/ScriptFormatter.cs:608-616 | A pending `=` at EOL or EOF is a PARSER error; a pending name becomes an identifier without values; the state is cleared |
| ScriptHandler.Handle | src/ScriptFormatter.cs:509-606 | HandleToken's only errors are a pending `=` at the end of a line and a failed number conversion; a misplaced `=` or an unmatched close brace, whose exceptions are built but never thrown, leaves the state as it is |
| ScriptHandler.ValueStep | src/ScriptFormatter.cs:510-564 | A value token can only fail in its number conversion |
| ScriptHandler.Run | src/ScriptFormatter.cs:509-606 | Handling a token list fails only as HandleToken does |
| ScriptHandler.RunConcat | src/ScriptFormatter.cs:509-606 | Handling a + b is handling a, then b from where a left off |
| ScriptHandler.Assignment | src/ScriptFormatter.cs:512-518 | `name = value` appends exactly one value named `name` to the current node and clears the pending name and `=` |
| ScriptHandler.IdentifierValues | src/ScriptFormatter.cs:519-527 | Each value token adds one unnamed value, in order |
| ScriptHandler.ValuesThenEnd | src/ScriptFormatter.cs:519-527 | With an identifier open, every value token appends one unnamed value to it, and the end of the line closes it |
| ScriptHandler.IdentifierStatement | src/ScriptFormatter.cs:519-527 | `name v1 v2 …` up to the end of the line appends one identifier named `name` whose unnamed values are v1, v2, … in order |
| ScriptHandler.OpenIdentifier | src/ScriptFormatter.cs:642-648 | A name followed by a value opens an identifier holding that value |
| ScriptHandler.BareName | src/ScriptFormatter.cs:608-616 | A bare name at EOL or EOF becomes an identifier with no values |
| ScriptHandler.PendingEqualsFails | src/ScriptFormatter.cs:608-611 | EOL or EOF with `=` pending is a PARSER error |
| ScriptHandler.DepthCounts | src/ScriptFormatter.cs:576-593 | The current node's depth is the number of nodes opened less the number closed, and a close brace never acts at the root |
| ScriptHandler.LexedNumbersConvert | src/ScriptFormatter.cs:548 | Every Number token the lexer hands over is well formed, so converting it can fail only by overflow |
| ScriptHandler.Drive | src/ScriptFormatter.cs:409-417 | Parse and HandleToken interleaved: the first error of either ends the run |
| ScriptHandler.DriveIsRunOfLex | src/ScriptFormatter.cs:409-417 | Interleaving changes nothing: driving token by token succeeds exactly when lexing the whole input and handling its tokens do, with the same result |
| ScriptHandler.RunEndsIdle | src/ScriptFormatter.cs:608-616 | Handling tokens that end with EOF leaves no pending name, `=` or identifier |
| ScriptHandler.DriveEndsIdle | src/ScriptFormatter.cs:105-118 | Every successful parse ends on EOF, so the handler ends idle |
| ScriptHandler.DriveRound | src/ScriptFormatter.cs:105-118 | Drive after one Parse call is that call's tokens followed by the rest |
| ScriptHandler.ProcessBalances | src/ScriptFormatter.cs:412-416 | A successful parse closes every node it opens; ending inside a node is a HIERARCHY error |
| ScriptHandler.Apply | src/ScriptFormatter.cs:509-606 | Carrying out the handler's actions in order (append a named or unnamed value to the current node or the open identifier, append an identifier, open a node, close one) keeps the tree well formed |
| ScriptHandler.ApplyConcat | src/ScriptFormatter.cs:509-606 | Carrying out x + y is carrying out x, then y |
| ScriptHandler.StructureActs | src/ScriptFormatter.cs:566-601 | `=`, a brace, a comment or no token never fails: `=` is recorded only after a pending name and nothing else; an open brace opens a node named by the pending name; a close brace closes the current node unless it is the root or `=` is pending |
| ScriptHandler.IdentifierActs | src/ScriptFormatter.cs:519-527 | A value of the open identifier, with a pending name opening a new identifier first, appends one unnamed value to it and leaves the identifier open |
| ScriptHandler.ProcessTree | src/ScriptFormatter.cs:409-417 | The tree Process returns: it exists exactly when the process succeeds, and it is the root after every action of the input |
| ScriptHandler.ConcludedTree | src/ScriptFormatter.cs:412-416 | The actions of the parse and then those of Finish, carried out in turn, are the actions of the whole process; a concluded process ends idle at the root |
| ScriptHandler.AddStored | src/ScriptFormatter.cs:627-630 | collection.Add appends the new variable to the collection and makes the collection its parent; the tree gains it as the collection's last child and no variable occurs twice |
| ScriptHandler.StandardScriptParserHandler.constructor | src/ScriptFormatter.cs:497-507 | A handler with nothing pending over a fresh, empty root node, which is the state Process sets up |
| ScriptHandler.StandardScriptParserHandler.Current | src/ScriptFormatter.cs:576-593 | The current node is the last open node of the tree, and the open identifier is a variable of the tree |
| ScriptHandler.StandardScriptParserHandler.ParentOfCurrent | src/ScriptFormatter.cs:585-591 | The current node has a parent exactly when it is not the root, and that parent is the enclosing open node |
| ScriptHandler.StandardScriptParserHandler.Reset | src/ScriptFormatter.cs:618-625 | Clears the pending name and `=`, and the open identifier when asked |
| ScriptHandler.StandardScriptParserHandler.Adopt | src/ScriptFormatter.cs:627-630 | A fresh variable of the given kind and name is appended to the collection, whose child it becomes; the tree gains it as the collection's last child; nothing else changes |
| ScriptHandler.StandardScriptParserHandler.MakeIdentifier | src/ScriptFormatter.cs:644-649 | Without an open identifier, or when forced, appends an identifier named by the pending name to the current node, makes it the open one and resets; otherwise neither the tree nor the state changes |
| ScriptHandler.StandardScriptParserHandler.Focus | src/ScriptFormatter.cs:646 | The identifier just appended becomes the open one |
| ScriptHandler.StandardScriptParserHandler.Finish | src/ScriptFormatter.cs:608-616 | Fails exactly as FinishMode does; otherwise the state becomes FinishMode's and the tree is the old tree with FinishMode's actions carried out |
| ScriptHandler.StandardScriptParserHandler.AddAssigned | src/ScriptFormatter.cs:627-630 | `name = value` appends one value named by the pending name to the current node and resets; the tree is the old one with that action carried out |
| ScriptHandler.StandardScriptParserHandler.AddToIdentifier | src/ScriptFormatter.cs:627-630 | One more unnamed value of the open identifier; the tree is the old one with that action carried out |
| ScriptHandler.StandardScriptParserHandler.ValueToken | src/ScriptFormatter.cs:510-564 | A value token fails exactly as ValueStep does; otherwise the state becomes ValueStep's and the tree is the old tree with ValueStep's actions carried out |
| ScriptHandler.StandardScriptParserHandler.AssignedValue | src/ScriptFormatter.cs:511-518 | The value of a pending `name =` |
| ScriptHandler.StandardScriptParserHandler.IdentifierValue | src/ScriptFormatter.cs:519-527 | A value of the open identifier, which a pending name opens first |
| ScriptHandler.StandardScriptParserHandler.EnterNode | src/ScriptFormatter.cs:576-581 | A fresh node named by the pending name is appended to the current node and becomes current, with the old current node as its parent; an open identifier stays open |
| ScriptHandler.StandardScriptParserHandler.Descend | src/ScriptFormatter.cs:580 | The node last appended to the current node becomes current and is recorded as open |
| ScriptHandler.StandardScriptParserHandler.LeaveNode | src/ScriptFormatter.cs:582-593 | At the root or with `=` pending nothing happens; otherwise the open identifier closes and the parent becomes current |
| ScriptHandler.StandardScriptParserHandler.HandleToken | src/ScriptFormatter.cs:509-606 | One token fails exactly as Handle does; otherwise the state becomes Handle's and the tree is the old tree with Handle's actions carried out |
| ScriptHandler.StandardScriptParserHandler.StructureToken | src/ScriptFormatter.cs:566-601 | `=`, a brace or a comment never fails; the state becomes Handle's and the tree is the old tree with Handle's actions carried out |
| ScriptHandler.StandardScriptParserHandler.HandAll | src/ScriptFormatter.cs:111-112 | The tokens of one Parse call are handled in order until one fails, as Run specifies, and the tree is the old tree with Run's actions carried out |
| ScriptHandler.StandardScriptParserHandler.HandNext | src/ScriptFormatter.cs:111-112 | Handling the next token continues the run: a failure is the run's failure, and otherwise the tree holds the actions so far |
| ScriptHandler.StandardScriptParserHandler.Round | src/ScriptFormatter.cs:105-118 | One Parse call with its tokens handed over is one round of Drive, and the tree gains that round's actions |
| ScriptHandler.StandardScriptParserHandler.ParseAll | src/ScriptFormatter.cs:412-413 | The loop of Process computes Drive over the whole input, and the tree is the old tree with Drive's actions carried out |
| ScriptHandler.StandardScriptParserHandler.Conclude | src/ScriptFormatter.cs:414-416 | Finish on the last token, then a HIERARCHY error unless the current node is the root; on success the tree gains Finish's actions |
| ScriptHandler.StandardScriptParserHandler.NewRoot | src/ScriptFormatter.cs:410-411 | A fresh root node, which is also the current node, and the tree is that root alone |
| ScriptHandler.StandardScriptParserHandler.Process | src/ScriptFormatter.cs:409-417 | Returns the root exactly when the specified process succeeds, and the same error otherwise; the root returned is fresh, has no parent, and holds exactly the tree ProcessTree describes for the input; a successful process leaves the handler idle at the root |
| CsvData.Least | src/CSV.cs:628 | The least key of a non-empty key set: the next key a sorted walk yields |
| CsvData.CsvRow.constructor | src/CSV.cs:114-117 | A new row has the index and no columns |
| CsvData.CsvRow.Add | src/CSV.cs:119-125 | Stores the value at the column, replacing what was there; null is refused and nothing changes |
| CsvData.CsvRow.Remove | src/CSV.cs:127-129 | Deletes the column; false when it was absent |
| CsvData.CsvRow.Get | src/CSV.cs:131-136 | The value at the column, or null |
| CsvData.CsvRow.Has | src/CSV.cs:138-140 | Agrees with Get |
| CsvData.RowWithinTotal | src/CSV.cs:25-32 | No row holds more values than all rows together |
| CsvData.TotalZero | src/CSV.cs:25-32 | The total is zero exactly when every row is empty |
| CsvData.CsvMap.constructor | src/CSV.cs:42-44 | A new map has no rows |
| CsvData.CsvMap.RowCount | src/CSV.cs:12-14 | The number of row keys |
| CsvData.CsvMap.AddRow | src/CSV.cs:46-52 | Stores the row under its index, replacing any row there; null is refused |
| CsvData.CsvMap.RemoveRow | src/CSV.cs:54-56 | Deletes by key; false when absent |
| CsvData.CsvMap.RemoveRowOf | src/CSV.cs:58-60 | Deletes by the row's index; a null row throws |
| CsvData.CsvMap.GetRow | src/CSV.cs:62-64 | The row stored under the index, or null |
| CsvData.CsvMap.GetOrCreateRow | src/CSV.cs:66-71 | A missing row is created when asked, but not stored |
| CsvData.CsvMap.GetValue | src/CSV.cs:73-78 | Null when the row or the column is missing, otherwise the stored value |
| CsvData.CsvMap.Clear | src/CSV.cs:80-82 | No rows remain |
| CsvData.CsvMap.HeaderCount | src/CSV.cs:16-23 | The size of row -1, or 0 when there is no such row |
| CsvData.CsvMap.ValueCount | src/CSV.cs:25-32 | The sum of the row sizes |
| CsvData.CsvMap.HeaderWithinValues | src/CSV.cs:16-32 | The header row is counted among all values |
| CsvData.SortedKeys | src/CSV.cs:628 | The keys in ascending order, as a SortedDictionary walks them |
| CsvData.RowTexts | src/CSV.cs:631 | Each column's value formatted with the value format |
| CsvData.FormatRow | src/CSV.cs:624-638 | A null row gives false and an empty text; otherwise the row's line |
| CsvData.WriteCells | src/CSV.cs:628-632 | The loop writes the formatted row: separators up to each column, then the cell |
| CsvData.WriteKeys | src/CSV.cs:628-632 | The loop over the sorted columns writes exactly the row line of those columns |
| CsvData.SeparatorsTo | src/CSV.cs:629-630 | One separator per column from the last one up to this one |
| CsvData.RowLineReadsBack | src/CSV.cs:624-638 | Split at its separators, a row line gives each column's text at its position and an empty field for each missing column: exactly k separators precede column k |
| CsvLexer.BlanksForSeparator | src/CSV.cs:201-211 | The whitespace set is space and tab, less the separator |
| CsvLexer.SkipBlanks | src/CSV.cs:266-269 | Stops on the first character outside the whitespace set, or at the end |
| CsvLexer.ReadString | src/CSV.cs:396-413 | Unquoted text ends at the separator, a newline or the end, not at whitespace; a quote or an unknown escape is a PARSER error |
| CsvLexer.ReadDouble | src/CSV.cs:378-394 | The token stays a Double or becomes a String; a quote is a PARSER error |
| CsvLexer.ReadNumber | src/CSV.cs:355-376 | The token stays a Number, becomes a Double at the first point, or becomes a String |
| CsvLexer.ReadQuoted | src/CSV.cs:415-440 | Reads up to the closing quote; the end of input before it, or an unknown escape, is a PARSER error |
| CsvLexer.Classify | src/CSV.cs:271-304 | The first character decides the kind; a separator not shadowed by the quote, newline or point tests is a Separator |
| CsvLexer.ReadBody | src/CSV.cs:306-334 | The body of each token kind is read; every kind but String and EOF consumes input |
| CsvLexer.Resolve | src/CSV.cs:338-350 | A sign-only Number, or a sign-only or point-only Double, becomes a String; nothing else changes kind |
| CsvLexer.ReadTokenSpec | src/CSV.cs:306-353 | Read the body, then resolve the kind |
| CsvLexer.ParseStep | src/CSV.cs:235-248 | Each call hands over one token, and at the end of input the EOF token too; a call that promises more has consumed input |
| CsvLexer.TokenMoves | src/CSV.cs:271-304 | Every token consumes its first character |
| CsvLexer.SecondTestNeverFires | src/CSV.cs:243-245 | A read token of kind EOF always ends the parse, so the test of an EOF token while input remains cannot succeed |
| CsvLexer.LexFrom | src/CSV.cs:235-248 | The tokens handed over until Parse reports the end; the last one is EOF |
| CsvLexer.Lex | src/CSV.cs:221-225 | The whole input's tokens end with EOF |
| CsvLexer.TokenShapes | src/CSV.cs:338-350 | A resolved Number is an optional sign and a digit; a resolved Double has one point and a digit, except a sign followed by the point |
| CsvLexer.BodyShapes | src/CSV.cs:355-394 | Before resolving, Number text is an optional sign and digits, and Double text has one point |
| CsvLexer.NumbersParse | src/CSV.cs:566-568 | Every Number token converts unless it overflows |
| CsvLexer.CsvParser.constructor | src/CSV.cs:213-215 | A parser as Clean leaves it, with no stream |
| CsvLexer.CsvParser.Clean | src/CSV.cs:227-233 | No stream, line 1, column 0, no current character; the separator stays |
| CsvLexer.CsvParser.InitWithStream | src/CSV.cs:221-225 | Clean, take the stream, read its first character |
| CsvLexer.CsvParser.SetSeparator | src/CSV.cs:201-211 | The whitespace set becomes space and tab, less the separator |
| CsvLexer.CsvParser.NextChar | src/CSV.cs:250-264 | The cursor moves as the shared NextChar specification says |
| CsvLexer.CsvParser.AtBlank | src/CSV.cs:267 | True exactly when the current character is in the whitespace set |
| CsvLexer.CsvParser.SkipWhitespace | src/CSV.cs:266-269 | The cursor moves as SkipBlanks says |
| CsvLexer.CsvParser.NextToken | src/CSV.cs:271-304 | The token starts at the current position with the kind and seed Classify gives |
| CsvLexer.CsvParser.ReadStringToken | src/CSV.cs:396-413 | The loop does what ReadString specifies |
| CsvLexer.CsvParser.AtNumberEnd | src/CSV.cs:365 | True exactly when the character ends a number token |
| CsvLexer.CsvParser.ReadDoubleToken | src/CSV.cs:378-394 | The loop does what ReadDouble specifies |
| CsvLexer.CsvParser.ReadNumberToken | src/CSV.cs:355-376 | The loop does what ReadNumber specifies |
| CsvLexer.CsvParser.ReadQuotedStringToken | src/CSV.cs:415-440 | The loop does what ReadQuoted specifies |
| CsvLexer.CsvParser.ReadToken | src/CSV.cs:306-353 | The body is read and the kind resolved against the parser's sign set, as ReadTokenSpec specifies |
| CsvLexer.CsvParser.ReadTokenBody | src/CSV.cs:306-334 | The switch does what ReadBody specifies |
| CsvLexer.CsvParser.Parse | src/CSV.cs:235-248 | One call does what ParseStep specifies |
| CsvHandler.Trim | src/CSV.cs:556 | The text between the leading and trailing white space; nothing is left of all-white text, and the rest neither starts nor ends with white space |
| CsvHandler.CellValue | src/CSV.cs:555-570 | An unquoted string is trimmed and a bool when it reads as one; a quoted one is kept verbatim; a Number converts as an Int32 and a Double only with a digit |
| CsvHandler.Handle | src/CSV.cs:553-588 | A token fails exactly when its number conversion fails |
| CsvHandler.Run | src/CSV.cs:553-588 | Handling a token list fails only in a number conversion |
| CsvHandler.RunConcat | src/CSV.cs:553-588 | Handling a + b is handling a, then b |
| CsvHandler.NextRowShaped | src/CSV.cs:603-610 | NewRow files a gap-free row and starts an empty one with the next index |
| CsvHandler.WithCellShaped | src/CSV.cs:595-601 | A value goes into the current column, which then counts as filled |
| CsvHandler.HandleShaped | src/CSV.cs:572-582 | Every token keeps the map's shape, and EOL or EOF leaves an empty current row |
| CsvHandler.RunEndsOnEmptyRow | src/CSV.cs:578-582 | After tokens ending with EOF, nothing read is left outside the map |
| CsvHandler.Drive | src/CSV.cs:469-474 | Parse and HandleToken interleaved: the first error of either ends the run |
| CsvHandler.DriveIsRunOfLex | src/CSV.cs:469-474 | Driving token by token succeeds exactly when lexing the whole input and handling its tokens do, with the same result |
| CsvHandler.ProcessShape | src/CSV.cs:476-485 | Rows are numbered from the beginning row without a gap, each row holds columns 0 to n-1 without a gap, and every value read is in the map |
| CsvHandler.ProcessTokens | src/CSV.cs:476-485 | A successful load handles the whole token list of the input, which ends with EOF |
| CsvHandler.LoadedHeader | src/CSV.cs:674 | With a header the header line is row -1 and the data rows follow from 0 |
| CsvHandler.EmptyInputOneEmptyRow | src/CSV.cs:238-243 | Example: an empty input still gives one empty row 0, because EOF is handed over twice |
| CsvHandler.TrimmedTrue | src/CSV.cs:556-558 | Example: the unquoted cell `true ` is the bool true |
| CsvHandler.TrailingSeparatorAndNewline | src/CSV.cs:572-582 | Example: a trailing separator leaves an empty string in the last column, and a final newline is followed by one more, empty, row |
| CsvParserHandler.DriveRound | src/CSV.cs:471-472 | One round of Drive is one Parse call and its tokens |
| CsvParserHandler.RowsInStore | src/CSV.cs:46-52 | Filing a row under an index files its values there |
| CsvParserHandler.StandardCsvHandler.constructor | src/CSV.cs:544-546 | A handler with its own parser, which has no stream yet |
| CsvParserHandler.StandardCsvHandler.SetSeparator | src/CSV.cs:454-456 | The parser's separator, and with it its whitespace set, is set |
| CsvParserHandler.StandardCsvHandler.SetBeginningRow | src/CSV.cs:458-460 | Only the beginning row changes |
| CsvParserHandler.StandardCsvHandler.Clean | src/CSV.cs:548-551 | No map, no current row, the beginning row next, column 0, last field empty |
| CsvParserHandler.StandardCsvHandler.NewRow | src/CSV.cs:603-610 | The current row, if any, goes into the map, and a fresh empty row with the next index becomes current |
| CsvParserHandler.StandardCsvHandler.FileCurrent | src/CSV.cs:604-605 | The current row is stored in the map under its index |
| CsvParserHandler.StandardCsvHandler.StartRow | src/CSV.cs:606-609 | A fresh, empty row with the next index, column 0 |
| CsvParserHandler.StandardCsvHandler.AddToRow | src/CSV.cs:595-601 | A value goes into the current column of the current row, which is made first if there is none |
| CsvParserHandler.StandardCsvHandler.AddToCurrent | src/CSV.cs:597-600 | With a current row, the value is stored in its current column and nothing else in the map changes |
| CsvParserHandler.StandardCsvHandler.HandleToken | src/CSV.cs:553-588 | One token does to the map and the state what Handle specifies |
| CsvParserHandler.StandardCsvHandler.SeparatorToken | src/CSV.cs:572-577 | After an empty field an empty string goes into the column; then the next column begins |
| CsvParserHandler.StandardCsvHandler.CellToken | src/CSV.cs:555-570 | A value token stores CellValue in the current column, or fails as it does |
| CsvParserHandler.StandardCsvHandler.EndOfRow | src/CSV.cs:578-582 | After a trailing separator one more empty string is added; then a new row starts |
| CsvParserHandler.StandardCsvHandler.HandAll | src/CSV.cs:238-243 | The tokens of one Parse call are handled in order until one fails |
| CsvParserHandler.StandardCsvHandler.Round | src/CSV.cs:471-472 | One Parse call with its tokens is one round of Drive |
| CsvParserHandler.StandardCsvHandler.ParseAll | src/CSV.cs:469-474 | The loop of Process computes Drive over the whole input |
| CsvParserHandler.StandardCsvHandler.Start | src/CSV.cs:476-478 | The parser takes the stream, the handler is cleaned and a new map is made |
| CsvParserHandler.StandardCsvHandler.ProcessFromStream | src/CSV.cs:476-485 | Returns a fresh map holding exactly the specified rows, or the error of the specified load, and leaves handler and parser cleaned |
| CsvParserHandler.LoadFromStream | src/CSV.cs:672-679 | No stream gives no map; otherwise the first row is -1 with a header and 0 without, and the separator is set before reading |

## Left out

- Streams and files: a stream is given as its text. LoadFromFile, WriteToFile, WriteToStream and the file plumbing of src/Archive.cs are not part of this model.
- Floating point:
  - a float is carried as its lexeme text;
  - FloatVariable parsing and its `"0.0###"` formatting are not modelled;
  - `Convert.ToSingle` overflow is not modelled;
  - a Double token converts exactly when it has a digit;
  - `StringVariable.isNumeric` (Double.TryParse) is a predicate parameter.
- Basics.ParseInt32: `Convert.ToInt32` is modelled only on the lexemes the lexers can produce (an optional sign and digits). Leading whitespace and culture-specific forms are not modelled.
- Basics.EqualsIgnoreCase: culture-sensitive `String.Compare(…, ignoreCase)` is approximated by ASCII case folding.
- Exception messages, `ToString` and `ErrorName` of the exception classes, and the finalizers are not modelled. An exception is its error kind.
- The parsers hand their tokens to the driving loop instead of calling the handler themselves. `Drive` interleaves the two exactly as the callback does.
- Static shared state:
  - The formatters' static handler instances are passed as parameters.
  - The parsers' static sign set is a constant field of each parser, built from the same syntax.
  - The script handler's `Process` creates its parser for the input it is given.
- ScriptHandler.StandardScriptParserHandler.Process requires a handler with no pending name, `=` or identifier. The C# handler is one shared static instance (src/ScriptFormatter.cs:654), and `ProcessFromStream` cleans it only after a successful Process (src/ScriptFormatter.cs:419-426). After an exception the next Process starts with the pending name, `=` and open identifier the failed one left, and values may then go into an identifier of the old tree. That carry-over is not modelled.
- StandardScriptParserHandler's `_currentvalue` is written but never read, so it is not modelled.
- ScriptHandler.StandardScriptParserHandler.constructor: the C# constructor only runs Init (src/ScriptFormatter.cs:497-499), so `_varname` stays null until the first Clean or Reset. The model starts with an empty name. With the null name, a leading `=` throws a NullReferenceException at `_varname.Length` (src/ScriptFormatter.cs:569) and a leading `{` opens a node whose name is null. Neither is modelled; every other use treats null as empty.
- Tree value setters (`Value`, `SetFromString`) are not modelled. A scalar's value is fixed when it is made.
- Variables.Variable.Clone is one method for every kind. On a scalar it is the Int/String/Float/Bool `Clone` (src/Variables.cs:701-703 and its siblings), since a scalar has no children and its value is part of its kind.
- Variables.Variable.Insert: with a null variable at a valid index, `List.Insert` has already stored the null before the parent assignment throws. The model's child list cannot hold null, so it is stated unchanged on that path.
- Variables.Variable.InsertAfter and Variables.Variable.InsertAfterIntended: the same null path (src/Variables.cs:470-476). `List.Insert` stores the null before the parent assignment throws; the model states the list unchanged.
- Parent back-references are kept by Add, Insert, Remove and the compaction splice. The model does not keep a global "every child's parent lists it" invariant across arbitrary aliasing.
- The CharacterSet constructors that call AddRangesWithString or AddRange are covered by those methods. `InitWith*` and the copy constructors are not modelled separately.
- Token.ToString is the lexeme itself. Tokens.Token.Add's contract states that characters are kept in the order appended.
- Token.ToLong, ToFloat and ToDouble are not modelled; see floating point above.
- The second test of CSV `Parse` (src/CSV.cs:243-245, a token of kind EOF away from the end of the input) is omitted from CsvLexer.ParseStep because it cannot succeed; CsvLexer.SecondTestNeverFires states this.
- Compaction.CompactCollection:
  - It splices after the scan, from the last run to the first. The source splices during the scan at recorded indices, which is the defect under Findings.
  - The interleaving of splice and scan, which the as-written indices depend on, is therefore not modelled end to end. The as-written index bookkeeping is shown separately.
- Compaction.ScanFrom models the loop with the corrected re-examine flag, and the model does not reproduce the as-written loop end to end:
  - With one slot, no infinitism and a match before the last value, the as-written flag makes the loop run forever (Compaction.CompactAsWrittenLoops), so it has no terminating specification.
  - With two or more slots, the as-written loop ends, but the value that completes a run also opens the next, so its runs overlap (Compaction.CompactAsWrittenOverlaps). The splice of such runs (`__add` on a position already removed, which can throw ArgumentOutOfRange) is not modelled.
- Three findings keep the as-written behaviour in the main path: the escape of an existing escape pair, the lexer's sign-point resolve and the comment-block start. Both the as-written and the intended members are stated side by side. EscapeString, the formatters and the lexer are modelled as the code runs, so that the formatter, handler and load specifications describe the program's actual behaviour; Values.EscapeAgrees states where the two escapes coincide.

- Text is a sequence of Unicode scalar values, where a C# string is a sequence of UTF-16 code units. For text with characters outside the Basic Multilingual Plane, the model counts one position per scalar value:
  - CharRanges.FirstIndexIn, CharRanges.LastIndexIn, CharRanges.RangeFindInString, CharRanges.RangeFindLastInString, CharRanges.CharacterSet.FindInString and CharRanges.CharacterSet.FindLastInString return indices in scalar values, where the C# methods count code units;
  - ScriptLexer.Next, ScriptLexer.ScriptParser.NextChar and CsvLexer.CsvParser.NextChar add one column for such a character, where the C# reader adds two;
  - a lone surrogate, which a C# string may hold, cannot be represented.
  Only CharRanges.CharacterSet.AddRangesWithString, with the range-syntax function and lemmas behind it, requires its text to lie in the Basic Multilingual Plane, because the ranges it makes are bounded by 0xFFFF.

## Findings

| source | as written | input that shows it | evidently intended | confidence | as-written member | corrected member |
|---|---|---|---|---|---|---|
| src/Variables.cs:385 | `'\\'+c2` adds two chars as numbers, so the decimal digits of their sum are appended | the text `\t` (backslash, t) under STRING_ESCAPE_OTHER becomes "101" | copy the existing escape pair `\t` unchanged | not executed | Values.EscapePairDefect | Values.EscapeIdempotent |
| src/Variables.cs:470-476 | InsertAfter inserts at the index of `after`, before it | children [a], InsertAfter(v, a) gives [v, a] | [a, v] | not executed | Variables.Variable.InsertAfter | Variables.Variable.InsertAfterIntended |
| src/Template.cs:222-225 | after a complete run the reset sets repeatmatch to `matched`, so the value that completed the run is examined again | a one-slot INTEGER template over two values whose first is an int: the same run is added again and again (with two slots the loop ends, but its runs overlap) | re-examine only a value that did not match | not executed | Compaction.CompactAsWrittenLoops | Compaction.ScanRuns |
| src/Template.cs:212 | a pair records `i` after `i++`, one past the value's index, and `__add` removes at recorded indices from a list that shrinks | a one-value run over [x, y] removes y and keeps x; over [x] it removes past the end | remove the run's own values and put the identifier in place of the first | not executed | Compaction.AddAsWrittenMisplaces | Compaction.AddRun |
| src/ScriptFormatter.cs:263-266 | the resolve step demotes texts made only of signs or only of points, not of both | "-." stays a Double and its conversion throws a FormatException | a Number or Double made only of signs and points is a String | not executed | ScriptLexer.SignPointStaysDouble | ScriptLexer.ResolvedTokensHaveDigits |
| src/ScriptFormatter.cs:379-385 | ReadCommentBlockToken's first NextChar lands on the opener's asterisk, which the closer search then uses | `/*/` is a complete comment block | look for the closer after the opener's asterisk | not executed | ScriptLexer.SlashStarSlashCloses | ScriptLexer.IntendedCommentBlockSpan |

=== FILE: basics.dfy ===
/** Shared helpers: optional values, error results and the character predicates
    the lexers and the data model use. */
module Basics {

  datatype Option<+T> = None | Some(value: T)

  /** Why a lexer rejected its input (the PARSER error kind of both lexers). */
  datatype LexReason =
    | UnexpectedQuote
    | UnknownEscape
    | EofInQuotedString
    | EofInCommentBlock
    | UnexpectedCommentEnd
    | ValueExpectedAtEol

  /** Every exception the modelled code can raise, as a value. */
  datatype Failure =
    | ParserError(reason: LexReason)   // ScriptParserException / CSVParserException, PARSER
    | HierarchyError                   // ScriptParserException, HIERARCHY
    | OverflowError                    // System.OverflowException
    | FormatError                      // System.FormatException
    | ArgumentOutOfRange               // System.ArgumentOutOfRangeException
    | IndexOutOfRange                  // System.IndexOutOfRangeException
    | NullReference                    // System.NullReferenceException
    | InvalidCast                      // System.InvalidCastException
    | InvalidRange                     // the plain Exception of CharacterRange / CharacterSet

  datatype Result<+T> = Ok(value: T) | Err(error: Failure)

  /** The outcome of an operation that returns nothing but may throw. */
  datatype Outcome = Pass | Fail(error: Failure)

  const MAX_INT32: int := 0x7FFF_FFFF
  const MIN_INT32: int := -0x8000_0000

  predicate IsDigit(c: char) { '0' <= c <= '9' }

  predicate IsSign(c: char) { c == '-' || c == '+' }

  /** ASCII case folding; stands in for the culture-sensitive comparison of the source. */
  function AsciiLower(c: char): char
  {
    if 'A' <= c <= 'Z' then (c as int + 32) as char else c
  }

  predicate EqualsIgnoreCase(a: string, b: string)
  {
    |a| == |b| && forall i :: 0 <= i < |a| ==> AsciiLower(a[i]) == AsciiLower(b[i])
  }

  /** String.Compare(a, b, !casesens) == 0 */
  predicate NamesEqual(a: string, b: string, casesens: bool)
  {
    if casesens then a == b else EqualsIgnoreCase(a, b)
  }

  lemma NamesEqualReflexive(a: string, casesens: bool)
    ensures NamesEqual(a, a, casesens)
  {
  }

  /** The value of a string of decimal digits. */
  function DigitsValue(s: string): (n: nat)
    requires forall i :: 0 <= i < |s| ==> IsDigit(s[i])
    decreases |s|
  {
    if s == [] then 0 else DigitsValue(s[..|s| - 1]) * 10 + DigitValue(s[|s| - 1])
  }

  function DigitValue(c: char): (d: nat)
    requires IsDigit(c)
    ensures d <= 9
  {
    assert '0' as int <= c as int <= '9' as int;
    c as int - '0' as int
  }

  /** Int32.TryParse / Convert.ToInt32 on the lexemes the model produces: an optional
      sign followed by at least one digit, in the 32-bit range. */
  function ParseInt32(s: string): (r: Result<int>)
    ensures r.Ok? ==> MIN_INT32 <= r.value <= MAX_INT32
  {
    var negative := |s| > 0 && s[0] == '-';
    var digits := if |s| > 0 && IsSign(s[0]) then s[1..] else s;
    if digits == [] || exists i :: 0 <= i < |digits| && !IsDigit(digits[i]) then
      Err(FormatError)
    else
      var magnitude := DigitsValue(digits);
      var v: int := if negative then 0 - magnitude else magnitude;
      if v < MIN_INT32 || MAX_INT32 < v then Err(OverflowError) else Ok(v)
  }

  /** Decimal rendering of an integer, as Int32.ToString() gives it. */
  function IntToString(n: int): (s: string)
    ensures s != []
    decreases if n < 0 then -n + 1 else n
  {
    if n < 0 then "-" + IntToString(-n)
    else if n < 10 then [('0' as int + n) as char]
    else IntToString(n / 10) + [('0' as int + n % 10) as char]
  }

  lemma {:induction false} NaturalTextIsDigits(n: nat)
    ensures forall i :: 0 <= i < |IntToString(n)| ==> IsDigit(IntToString(n)[i])
    ensures DigitsValue(IntToString(n)) == n
    decreases n
  {
    var s := IntToString(n);
    if n < 10 {
      assert s[..|s| - 1] == [];
    } else {
      NaturalTextIsDigits(n / 10);
      var d := ('0' as int + n % 10) as char;
      assert s == IntToString(n / 10) + [d];
      assert s[..|s| - 1] == IntToString(n / 10);
    }
  }

  /** The decimal text of a 32-bit integer parses back to the same integer. */
  lemma IntTextRoundTrip(n: int)
    requires MIN_INT32 <= n <= MAX_INT32
    ensures ParseInt32(IntToString(n)) == Ok(n)
  {
    if n < 0 {
      NaturalTextIsDigits(-n);
      ParseNegated(IntToString(-n));
    } else {
      NaturalTextIsDigits(n);
      ParseUnsigned(IntToString(n));
    }
  }

  lemma ParseUnsigned(s: string)
    requires s != [] && forall i :: 0 <= i < |s| ==> IsDigit(s[i])
    ensures DigitsValue(s) <= MAX_INT32 ==> ParseInt32(s) == Ok(DigitsValue(s))
  {
    assert IsDigit(s[0]);
  }

  lemma ParseNegated(s: string)
    requires s != [] && forall i :: 0 <= i < |s| ==> IsDigit(s[i])
    ensures DigitsValue(s) <= -MIN_INT32 ==> ParseInt32("-" + s) == Ok(0 - DigitsValue(s))
  {
    assert ("-" + s)[1..] == s;
  }
}

=== FILE: char_range.dfy ===
/** Inclusive character ranges and sets of them (CharacterRange and CharacterSet).
    A range keeps its bounds in 0..0xFFFF, the values of a C# char. Text is a
    sequence of Unicode scalar values, so a character outside the Basic
    Multilingual Plane counts as one position where C# counts two code units. */
module CharRanges {
  import opened Basics

  const MAX_CODE_UNIT: int := 0xFFFF

  /** The '\xFFFF' value CharacterSet uses as "no pending character". */
  const NO_CHAR: char := '\U{FFFF}'

  type CodeUnit = x: int | 0 <= x <= MAX_CODE_UNIT

  datatype CharRange = CharRange(start: CodeUnit, end: CodeUnit)

  predicate WellFormed(r: CharRange) { r.start <= r.end }

  /** CharacterRange(char start, char end): refuses an end below the start. */
  function FromBounds(start: char, end: char): (r: Result<CharRange>)
    requires start as int <= MAX_CODE_UNIT && end as int <= MAX_CODE_UNIT
    ensures r.Ok? <==> start as int <= end as int
    ensures r.Ok? ==> WellFormed(r.value) && r.value.start == start as int && r.value.end == end as int
  {
    if end as int < start as int then Err(InvalidRange) else Ok(CharRange(start as int, end as int))
  }

  /** CharacterRange(char start, uint length): the end is start + length, computed in
      unchecked unsigned 32-bit arithmetic and converted back to a char, which overflows
      above 0xFFFF. A sum that wraps past 2^32 converts without error, to an end below
      the start. */
  function FromLength(start: CodeUnit, length: nat): (r: Result<CharRange>)
    requires length < 0x1_0000_0000
    ensures start + length <= MAX_CODE_UNIT ==> r == Ok(CharRange(start, start + length))
    ensures MAX_CODE_UNIT < start + length < 0x1_0000_0000 ==> r == Err(OverflowError)
    ensures 0x1_0000_0000 <= start + length ==> r == Ok(CharRange(start, start + length - 0x1_0000_0000)) && r.value.end < r.value.start
  {
    var sum := (start + length) % 0x1_0000_0000;
    if sum > MAX_CODE_UNIT then Err(OverflowError) else Ok(CharRange(start, sum))
  }

  /** CharacterRange(char start): a one-character range. */
  function Single(c: CodeUnit): (r: CharRange)
    ensures WellFormed(r) && r.start == r.end == c
  {
    CharRange(c, c)
  }

  predicate RangeContains(r: CharRange, c: char)
  {
    r.start == c as int || (r.start <= c as int && c as int <= r.end)
  }

  lemma RangeContainsWithinBounds(r: CharRange, c: char)
    requires WellFormed(r)
    ensures RangeContains(r, c) <==> r.start <= c as int <= r.end
  {
  }

  /** The first index at or after `from` whose character is in `r`, or -1. */
  function FirstIndexIn(r: CharRange, s: string, from: nat): (k: int)
    ensures k == -1 ==> forall i :: from <= i < |s| ==> !RangeContains(r, s[i])
    ensures k != -1 ==> from <= k < |s| && RangeContains(r, s[k])
                        && forall i :: from <= i < k ==> !RangeContains(r, s[i])
    decreases |s| - from
  {
    if from >= |s| then -1
    else if RangeContains(r, s[from]) then from
    else FirstIndexIn(r, s, from + 1)
  }

  /** The last index at or before `from` whose character is in `r`, or -1. */
  function LastIndexIn(r: CharRange, s: string, from: int): (k: int)
    requires from < |s|
    ensures k == -1 ==> forall i :: 0 <= i <= from ==> !RangeContains(r, s[i])
    ensures k != -1 ==> 0 <= k <= from && RangeContains(r, s[k])
                        && forall i :: k < i <= from ==> !RangeContains(r, s[i])
    decreases from + 1
  {
    if from < 0 then -1
    else if RangeContains(r, s[from]) then from
    else LastIndexIn(r, s, from - 1)
  }

  /** CharacterRange.FindInString(str, startfrom). */
  method RangeFindInString(r: CharRange, s: string, startfrom: nat) returns (k: int)
    ensures k == -1 <==> forall i :: startfrom <= i < |s| ==> !RangeContains(r, s[i])
    ensures k != -1 ==> startfrom <= k < |s| && RangeContains(r, s[k])
                        && forall i :: startfrom <= i < k ==> !RangeContains(r, s[i])
  {
    if startfrom >= |s| {
      return -1;
    }
    var i := startfrom;
    while i < |s|
      invariant startfrom <= i <= |s|
      invariant forall j :: startfrom <= j < i ==> !RangeContains(r, s[j])
    {
      if RangeContains(r, s[i]) {
        return i;
      }
      i := i + 1;
    }
    return -1;
  }

  /** CharacterRange.FindLastInString(str, startfrom): -1 stands for the last index;
      a start at or past the end indexes outside the string and throws. */
  method RangeFindLastInString(r: CharRange, s: string, startfrom: int) returns (k: Result<int>)
    ensures (startfrom == -1 && |s| == 0) || startfrom < -1 ==> k == Ok(-1)
    ensures startfrom >= |s| ==> k == Err(IndexOutOfRange)
    ensures -1 <= startfrom < |s| ==> k == Ok(LastIndexIn(r, s, if startfrom == -1 then |s| - 1 else startfrom))
  {
    var from := if startfrom == -1 then |s| - 1 else startfrom;
    if from >= |s| {
      return Err(IndexOutOfRange);
    } else if from < 0 {
      return Ok(-1);
    }
    var i := from;
    while i > -1
      invariant -1 <= i <= from
      invariant LastIndexIn(r, s, i) == LastIndexIn(r, s, from)
    {
      if RangeContains(r, s[i]) {
        return Ok(i);
      }
      i := i - 1;
    }
    return Ok(-1);
  }

  function Span(r: CharRange): int { r.end - r.start }

  /** CharacterRange.Compare: orders by span, then by start. */
  function Compare(a: CharRange, b: CharRange): (c: int)
    ensures c == 0 <==> Span(a) == Span(b) && a.start == b.start
    ensures c < 0 <==> Span(a) < Span(b) || (Span(a) == Span(b) && a.start < b.start)
    ensures -1 <= c <= 1
  {
    if Span(a) < Span(b) then -1
    else if Span(a) > Span(b) then 1
    else if a.start < b.start then -1
    else if a.start > b.start then 1
    else 0
  }

  lemma CompareAntisymmetric(a: CharRange, b: CharRange)
    ensures Compare(a, b) == -Compare(b, a)
  {
  }

  lemma CompareZeroIsEquality(a: CharRange, b: CharRange)
    ensures Compare(a, b) == 0 <==> a == b
  {
  }

  /** CharacterRange.Intersects: equal, adjacent or overlapping. */
  function Intersects(a: CharRange, b: CharRange): (i: bool)
    ensures WellFormed(a) && WellFormed(b) ==>
              (i <==> a.start <= b.end + 1 && b.start <= a.end + 1)
  {
    if Compare(a, b) == 0 then true
    else if a.end == b.start - 1 then true
    else if a.start - 1 == b.end then true
    else !(a.start > b.end || a.end < b.start)
  }

  lemma IntersectsSymmetric(a: CharRange, b: CharRange)
    requires WellFormed(a) && WellFormed(b)
    ensures Intersects(a, b) == Intersects(b, a)
  {
  }

  /** Membership in a set: the OR over its ranges. */
  predicate SetHas(ranges: seq<CharRange>, c: char)
  {
    exists k :: 0 <= k < |ranges| && RangeContains(ranges[k], c)
  }

  /** The hit CharacterSet.FindInString reports: that of the first range with any hit. */
  function FirstRangeHit(ranges: seq<CharRange>, s: string, from: nat): (k: int)
    ensures k == -1 <==> forall j, i :: 0 <= j < |ranges| && from <= i < |s| ==> !RangeContains(ranges[j], s[i])
    ensures k != -1 ==> from <= k < |s| && SetHas(ranges, s[k])
    decreases |ranges|
  {
    if ranges == [] then -1
    else
      var h := FirstIndexIn(ranges[0], s, from);
      if h != -1 then h
      else
        var rest := FirstRangeHit(ranges[1..], s, from);
        assert forall j :: 1 <= j < |ranges| ==> ranges[j] == ranges[1..][j - 1];
        rest
  }

  /** The largest hit over all ranges, as CharacterSet.FindLastInString reports it. */
  function MaxRangeHit(ranges: seq<CharRange>, s: string, from: int): (k: int)
    requires from < |s|
    ensures k == -1 <==> forall j, i :: 0 <= j < |ranges| && 0 <= i <= from ==> !RangeContains(ranges[j], s[i])
    ensures k != -1 ==> 0 <= k <= from && SetHas(ranges, s[k])
                        && forall j, i :: 0 <= j < |ranges| && k < i <= from ==> !RangeContains(ranges[j], s[i])
    decreases |ranges|
  {
    if ranges == [] then -1
    else
      var rest := MaxRangeHit(ranges[1..], s, from);
      assert forall j :: 1 <= j < |ranges| ==> ranges[j] == ranges[1..][j - 1];
      var h := LastIndexIn(ranges[0], s, from);
      if h != -1 && (h > rest || rest == -1) then h else rest
  }

  /** The state of the range-syntax scanner of AddRangesWithString. */
  datatype SyntaxState = SyntaxState(lastchar: char, isrange: bool, escape: bool)

  const SYNTAX_START := SyntaxState(NO_CHAR, false, false)

  /** The range that `a-b` (in either order) denotes. */
  function Between(a: char, b: char): (r: CharRange)
    requires a as int <= MAX_CODE_UNIT && b as int <= MAX_CODE_UNIT
    ensures WellFormed(r)
  {
    if b == a then Single(b as int)
    else if b as int < a as int then CharRange(b as int, a as int)
    else CharRange(a as int, b as int)
  }

  /** One character of the range syntax: the ranges it adds and the next state. */
  function SyntaxStep(st: SyntaxState, chr: char): (seq<CharRange>, SyntaxState)
    requires st.lastchar as int <= MAX_CODE_UNIT && chr as int <= MAX_CODE_UNIT
  {
    if !st.escape && chr == '\\' then ([], st.(escape := true))
    else if !st.escape && st.lastchar != NO_CHAR && chr == '-' && !st.isrange then ([], st.(isrange := true))
    else
      if st.lastchar != NO_CHAR then
        if st.isrange then ([Between(st.lastchar, chr)], SYNTAX_START)
        else ([Single(st.lastchar as int)], SyntaxState(chr, st.isrange, false))
      else ([], SyntaxState(chr, st.isrange, false))
  }

  predicate InBmp(s: string) { forall i :: 0 <= i < |s| ==> s[i] as int <= MAX_CODE_UNIT }

  /** The ranges AddRangesWithString appends for s[i..] from state `st`, and whether
      it finishes without throwing (it throws on a trailing unfinished range, after
      the ranges before it were already added). */
  function RangeSyntaxFrom(s: string, i: nat, st: SyntaxState): (seq<CharRange>, bool)
    requires i <= |s| && InBmp(s) && st.lastchar as int <= MAX_CODE_UNIT
    decreases |s| - i
  {
    if i == |s| then
      if st.lastchar != NO_CHAR then
        if st.isrange then ([], false) else ([Single(st.lastchar as int)], true)
      else ([], true)
    else
      var step := SyntaxStep(st, s[i]);
      var rest := RangeSyntaxFrom(s, i + 1, step.1);
      (step.0 + rest.0, rest.1)
  }

  function RangeSyntax(s: string): (seq<CharRange>, bool)
    requires InBmp(s)
  {
    RangeSyntaxFrom(s, 0, SYNTAX_START)
  }

  lemma {:induction false} RangeSyntaxWellFormedFrom(s: string, i: nat, st: SyntaxState)
    requires i <= |s| && InBmp(s) && st.lastchar as int <= MAX_CODE_UNIT
    ensures forall k :: 0 <= k < |RangeSyntaxFrom(s, i, st).0| ==> WellFormed(RangeSyntaxFrom(s, i, st).0[k])
    decreases |s| - i
  {
    if i < |s| {
      RangeSyntaxWellFormedFrom(s, i + 1, SyntaxStep(st, s[i]).1);
    }
  }

  /** Every range the syntax produces is well formed (a reversed pair is normalised). */
  lemma RangeSyntaxWellFormed(s: string)
    requires InBmp(s)
    ensures forall k :: 0 <= k < |RangeSyntax(s).0| ==> WellFormed(RangeSyntax(s).0[k])
  {
    RangeSyntaxWellFormedFrom(s, 0, SYNTAX_START);
  }

  predicate PlainChars(s: string)
  {
    forall i :: 0 <= i < |s| ==> s[i] != '\\' && s[i] != '-' && s[i] != NO_CHAR && s[i] as int <= MAX_CODE_UNIT
  }

  lemma {:induction false} PlainCharsFrom(s: string, i: nat, last: char)
    requires i <= |s| && PlainChars(s) && last as int <= MAX_CODE_UNIT && last != NO_CHAR
    ensures RangeSyntaxFrom(s, i, SyntaxState(last, false, false)).1
    ensures RangeSyntaxFrom(s, i, SyntaxState(last, false, false)).0
            == [Single(last as int)] + seq(|s| - i, k requires 0 <= k < |s| - i => Single(s[i + k] as int))
    decreases |s| - i
  {
    if i < |s| {
      PlainCharsFrom(s, i + 1, s[i]);
    }
  }

  /** Without dashes and backslashes every character is added as its own range. */
  lemma PlainCharsAreSingles(s: string)
    requires PlainChars(s)
    ensures RangeSyntax(s).1
    ensures RangeSyntax(s).0 == seq(|s|, k requires 0 <= k < |s| => Single(s[k] as int))
  {
    assert InBmp(s);
    if |s| > 0 {
      PlainCharsFrom(s, 1, s[0]);
      var rest := RangeSyntaxFrom(s, 1, SyntaxState(s[0], false, false));
      assert SyntaxStep(SYNTAX_START, s[0]) == ([], SyntaxState(s[0], false, false));
      assert RangeSyntax(s) == ([] + rest.0, rest.1);
    }
  }

  /** `a-b` adds the inclusive range between a and b, whichever is larger. */
  lemma DashPairIsRange(a: char, b: char)
    requires a != '\\' && a != '-' && a != NO_CHAR && a as int <= MAX_CODE_UNIT
    requires b != '\\' && b as int <= MAX_CODE_UNIT
    ensures RangeSyntax([a, '-', b]) == ([Between(a, b)], true)
  {
    var s := [a, '-', b];
    assert InBmp(s) && |s| == 3 && s[0] == a && s[1] == '-' && s[2] == b;
    assert SyntaxStep(SYNTAX_START, a) == ([], SyntaxState(a, false, false));
    assert SyntaxStep(SyntaxState(a, false, false), '-') == ([], SyntaxState(a, true, false));
    assert SyntaxStep(SyntaxState(a, true, false), b) == ([Between(a, b)], SYNTAX_START);
    assert RangeSyntaxFrom(s, 3, SYNTAX_START) == ([], true);
    assert RangeSyntaxFrom(s, 2, SyntaxState(a, true, false)) == ([Between(a, b)] + [], true);
    assert [Between(a, b)] + [] == [Between(a, b)];
    assert RangeSyntaxFrom(s, 1, SyntaxState(a, false, false)) == ([] + [Between(a, b)], true);
    assert [] + [Between(a, b)] == [Between(a, b)];
    assert RangeSyntaxFrom(s, 0, SYNTAX_START) == ([] + [Between(a, b)], true);
    assert [] + [Between(a, b)] == [Between(a, b)];
  }

  /** `\x` adds x literally, even when x is a dash or a backslash. */
  lemma EscapeIsLiteral(x: char)
    requires x != NO_CHAR && x as int <= MAX_CODE_UNIT
    ensures RangeSyntax(['\\', x]) == ([Single(x as int)], true)
  {
    var s := ['\\', x];
    assert InBmp(s) && |s| == 2 && s[0] == '\\' && s[1] == x;
    assert SyntaxStep(SYNTAX_START, '\\') == ([], SyntaxState(NO_CHAR, false, true));
    assert SyntaxStep(SyntaxState(NO_CHAR, false, true), x) == ([], SyntaxState(x, false, false));
    assert RangeSyntaxFrom(s, 2, SyntaxState(x, false, false)) == ([Single(x as int)], true);
    assert RangeSyntaxFrom(s, 1, SyntaxState(NO_CHAR, false, true)) == ([] + [Single(x as int)], true);
    assert [] + [Single(x as int)] == [Single(x as int)];
    assert RangeSyntaxFrom(s, 0, SYNTAX_START) == ([] + [Single(x as int)], true);
    assert [] + [Single(x as int)] == [Single(x as int)];
  }

  /** A trailing unfinished range throws. */
  lemma TrailingDashFails(a: char)
    requires a != '\\' && a != '-' && a != NO_CHAR && a as int <= MAX_CODE_UNIT
    ensures RangeSyntax([a, '-']) == ([], false)
  {
    var s := [a, '-'];
    assert InBmp(s) && |s| == 2 && s[0] == a && s[1] == '-';
    assert SyntaxStep(SYNTAX_START, a) == ([], SyntaxState(a, false, false));
    assert SyntaxStep(SyntaxState(a, false, false), '-') == ([], SyntaxState(a, true, false));
    assert RangeSyntaxFrom(s, 2, SyntaxState(a, true, false)) == ([], false);
    var none: seq<CharRange> := [];
    assert none + none == none;
    assert RangeSyntaxFrom(s, 1, SyntaxState(a, false, false)) == (none, false);
    assert RangeSyntaxFrom(s, 0, SYNTAX_START) == (none, false);
  }

  /** The number set of both lexers, "0-9\\-+": the digits and the two signs. */
  lemma NumberSetSyntax(c: char)
    ensures RangeSyntax("0-9\\-+") == ([CharRange('0' as int, '9' as int), Single('-' as int), Single('+' as int)], true)
    ensures SetHas(RangeSyntax("0-9\\-+").0, c) <==> IsDigit(c) || IsSign(c)
  {
    var s := "0-9\\-+";
    assert InBmp(s) && |s| == 6 && s[0] == '0' && s[1] == '-' && s[2] == '9' && s[3] == '\\' && s[4] == '-' && s[5] == '+';
    var digits, minus, plus := CharRange('0' as int, '9' as int), Single('-' as int), Single('+' as int);
    assert SyntaxStep(SYNTAX_START, '0') == ([], SyntaxState('0', false, false));
    assert SyntaxStep(SyntaxState('0', false, false), '-') == ([], SyntaxState('0', true, false));
    assert SyntaxStep(SyntaxState('0', true, false), '9') == ([digits], SYNTAX_START);
    assert SyntaxStep(SYNTAX_START, '\\') == ([], SyntaxState(NO_CHAR, false, true));
    assert SyntaxStep(SyntaxState(NO_CHAR, false, true), '-') == ([], SyntaxState('-', false, false));
    assert SyntaxStep(SyntaxState('-', false, false), '+') == ([minus], SyntaxState('+', false, false));
    assert RangeSyntaxFrom(s, 6, SyntaxState('+', false, false)) == ([plus], true);
    assert RangeSyntaxFrom(s, 5, SyntaxState('-', false, false)) == ([minus] + [plus], true);
    assert [minus] + [plus] == [minus, plus];
    assert RangeSyntaxFrom(s, 4, SyntaxState(NO_CHAR, false, true)) == ([] + [minus, plus], true);
    assert [] + [minus, plus] == [minus, plus];
    assert RangeSyntaxFrom(s, 3, SYNTAX_START) == ([] + [minus, plus], true);
    assert [] + [minus, plus] == [minus, plus];
    assert RangeSyntaxFrom(s, 2, SyntaxState('0', true, false)) == ([digits] + [minus, plus], true);
    assert [digits] + [minus, plus] == [digits, minus, plus];
    assert RangeSyntaxFrom(s, 1, SyntaxState('0', false, false)) == ([] + [digits, minus, plus], true);
    assert [] + [digits, minus, plus] == [digits, minus, plus];
    assert RangeSyntaxFrom(s, 0, SYNTAX_START) == ([] + [digits, minus, plus], true);
    assert [] + [digits, minus, plus] == [digits, minus, plus];
    var ranges := RangeSyntax(s).0;
    if IsDigit(c) {
      assert RangeContains(ranges[0], c);
    } else if c == '-' {
      assert RangeContains(ranges[1], c);
    } else if c == '+' {
      assert RangeContains(ranges[2], c);
    }
  }

  /** The numeral set "0-9". */
  lemma NumeralSetSyntax(c: char)
    ensures RangeSyntax("0-9") == ([CharRange('0' as int, '9' as int)], true)
    ensures SetHas(RangeSyntax("0-9").0, c) <==> IsDigit(c)
  {
    assert "0-9" == ['0', '-', '9'];
    DashPairIsRange('0', '9');
    if IsDigit(c) {
      assert RangeContains(RangeSyntax("0-9").0[0], c);
    }
  }

  /** The sign set "\\-+". */
  lemma SignSetSyntax(c: char)
    ensures RangeSyntax("\\-+") == ([Single('-' as int), Single('+' as int)], true)
    ensures SetHas(RangeSyntax("\\-+").0, c) <==> IsSign(c)
  {
    var s := "\\-+";
    assert InBmp(s) && |s| == 3 && s[0] == '\\' && s[1] == '-' && s[2] == '+';
    var minus, plus := Single('-' as int), Single('+' as int);
    assert SyntaxStep(SYNTAX_START, '\\') == ([], SyntaxState(NO_CHAR, false, true));
    assert SyntaxStep(SyntaxState(NO_CHAR, false, true), '-') == ([], SyntaxState('-', false, false));
    assert SyntaxStep(SyntaxState('-', false, false), '+') == ([minus], SyntaxState('+', false, false));
    assert RangeSyntaxFrom(s, 3, SyntaxState('+', false, false)) == ([plus], true);
    assert RangeSyntaxFrom(s, 2, SyntaxState('-', false, false)) == ([minus] + [plus], true);
    assert [minus] + [plus] == [minus, plus];
    assert RangeSyntaxFrom(s, 1, SyntaxState(NO_CHAR, false, true)) == ([] + [minus, plus], true);
    assert [] + [minus, plus] == [minus, plus];
    assert RangeSyntaxFrom(s, 0, SYNTAX_START) == ([] + [minus, plus], true);
    assert [] + [minus, plus] == [minus, plus];
    var ranges := RangeSyntax(s).0;
    if c == '-' {
      assert RangeContains(ranges[0], c);
    } else if c == '+' {
      assert RangeContains(ranges[1], c);
    }
  }

  /** The script lexer's whitespace set "\t ": tab and space only. */
  lemma WhitespaceSetSyntax(c: char)
    ensures RangeSyntax("\t ") == ([Single('\t' as int), Single(' ' as int)], true)
    ensures SetHas(RangeSyntax("\t ").0, c) <==> c == '\t' || c == ' '
  {
    var s := "\t ";
    assert PlainChars(s) && |s| == 2 && s[0] == '\t' && s[1] == ' ';
    PlainCharsAreSingles(s);
    assert RangeSyntax(s).0 == [Single('\t' as int), Single(' ' as int)];
    var ranges := RangeSyntax(s).0;
    if c == '\t' {
      assert RangeContains(ranges[0], c);
    } else if c == ' ' {
      assert RangeContains(ranges[1], c);
    }
  }

  /** CharacterSet: an ordered list of ranges. */
  class CharacterSet {
    var ranges: seq<CharRange>

    constructor ()
      ensures ranges == []
    {
      ranges := [];
    }

    /** CharacterSet.Contains(char): true when some range contains c. */
    method Contains(c: char) returns (b: bool)
      ensures b <==> SetHas(ranges, c)
    {
      var k := 0;
      while k < |ranges|
        invariant 0 <= k <= |ranges|
        invariant forall j :: 0 <= j < k ==> !RangeContains(ranges[j], c)
      {
        if RangeContains(ranges[k], c) {
          return true;
        }
        k := k + 1;
      }
      return false;
    }

    /** CharacterSet.Contains(CharacterRange): true when some range of the set
        compares equal to `other`, that is, has its bounds. */
    method ContainsRange(other: CharRange) returns (b: bool)
      ensures b <==> other in ranges
    {
      var k := 0;
      while k < |ranges|
        invariant 0 <= k <= |ranges|
        invariant forall j :: 0 <= j < k ==> ranges[j] != other
      {
        CompareZeroIsEquality(ranges[k], other);
        if ranges[k] == other || Compare(ranges[k], other) == 0 {
          return true;
        }
        k := k + 1;
      }
      return false;
    }

    /** CharacterSet.FindInString(str, startfrom). */
    method FindInString(s: string, startfrom: nat) returns (k: int)
      ensures k == (if startfrom >= |s| then -1 else FirstRangeHit(ranges, s, startfrom))
    {
      if startfrom >= |s| {
        return -1;
      }
      var j := 0;
      while j < |ranges|
        invariant 0 <= j <= |ranges|
        invariant FirstRangeHit(ranges[j..], s, startfrom) == FirstRangeHit(ranges, s, startfrom)
      {
        assert ranges[j..][1..] == ranges[j + 1..];
        var h := RangeFindInString(ranges[j], s, startfrom);
        if h != -1 {
          return h;
        }
        j := j + 1;
      }
      return -1;
    }

    /** CharacterSet.FindLastInString(str, startfrom): the largest hit over all ranges. */
    method FindLastInString(s: string, startfrom: int) returns (k: Result<int>)
      ensures startfrom >= |s| && ranges != [] ==> k == Err(IndexOutOfRange)
      ensures startfrom < -1 || (startfrom == -1 && |s| == 0) || ranges == [] ==> k == Ok(-1)
      ensures -1 <= startfrom < |s| ==> k == Ok(MaxRangeHit(ranges, s, if startfrom == -1 then |s| - 1 else startfrom))
    {
      var from := if startfrom == -1 then |s| - 1 else startfrom;
      var result := -1;
      var j := |ranges|;
      // The source scans the ranges front to back keeping the maximum; scanning them
      // back to front keeps the same maximum and follows MaxRangeHit's recursion.
      while j > 0
        invariant 0 <= j <= |ranges|
        invariant from < |s| ==> result == MaxRangeHit(ranges[j..], s, from)
        invariant from >= |s| ==> j == |ranges| && result == -1
      {
        j := j - 1;
        var h := RangeFindLastInString(ranges[j], s, from);
        if h.Err? {
          return h;
        }
        assert ranges[j..][1..] == ranges[j + 1..];
        if h.value != -1 && (h.value > result || result == -1) {
          result := h.value;
        }
      }
      return Ok(result);
    }

    /** Clear: the set becomes empty. */
    method Clear()
      modifies this
      ensures ranges == []
    {
      ranges := [];
    }

    /** AddRange(char start, uint length). */
    method AddRangeWithLength(start: CodeUnit, length: nat) returns (o: Outcome)
      requires length < 0x1_0000_0000
      modifies this
      ensures FromLength(start, length).Ok? ==> o == Pass && ranges == old(ranges) + [FromLength(start, length).value]
      ensures FromLength(start, length).Err? ==> o == Fail(OverflowError) && ranges == old(ranges)
    {
      var r := FromLength(start, length);
      if r.Err? {
        return Fail(r.error);
      }
      ranges := ranges + [r.value];
      return Pass;
    }

    /** AddRange(char c) and AddRange(CharacterRange). */
    method AddRange(r: CharRange)
      modifies this
      ensures ranges == old(ranges) + [r]
    {
      ranges := ranges + [r];
    }

    /** AddRangesWithString: appends the ranges that the range syntax of `s` denotes;
        on a trailing unfinished range it throws after the earlier ranges were added. */
    method AddRangesWithString(s: string) returns (o: Outcome)
      requires InBmp(s)
      modifies this
      ensures ranges == old(ranges) + RangeSyntax(s).0
      ensures o == (if RangeSyntax(s).1 then Pass else Fail(InvalidRange))
    {
      var lastchar := NO_CHAR;
      var isrange, escape := false, false;
      var i := 0;
      while i < |s|
        invariant 0 <= i <= |s|
        invariant lastchar as int <= MAX_CODE_UNIT
        invariant old(ranges) + RangeSyntax(s).0
                  == ranges + RangeSyntaxFrom(s, i, SyntaxState(lastchar, isrange, escape)).0
        invariant RangeSyntax(s).1 == RangeSyntaxFrom(s, i, SyntaxState(lastchar, isrange, escape)).1
      {
        var chr := s[i];
        ghost var st := SyntaxState(lastchar, isrange, escape);
        if escape {
          escape := false;
        } else if chr == '\\' {
          escape := true;
          i := i + 1;
          continue;
        } else if lastchar != NO_CHAR && chr == '-' && !isrange {
          isrange := true;
          i := i + 1;
          continue;
        }
        if lastchar != NO_CHAR {
          if isrange {
            AddRange(Between(lastchar, chr));
            lastchar := NO_CHAR;
            isrange := false;
          } else {
            AddRange(Single(lastchar as int));
            lastchar := chr;
          }
        } else {
          lastchar := chr;
        }
        assert SyntaxStep(st, chr).1 == SyntaxState(lastchar, isrange, escape);
        i := i + 1;
      }
      if lastchar != NO_CHAR {
        if isrange {
          return Fail(InvalidRange);
        }
        AddRange(Single(lastchar as int));
      }
      return Pass;
    }
  }
}

=== FILE: compaction.dfy ===
/** Template.CompactCollection: a scan over a snapshot of a collection's
    children that groups runs of values matching the template position by
    position, and the splice that replaces each run by one identifier holding
    the run's values. */
module Compaction {
  import opened Basics
  import opened Values
  import opened Variables
  import opened Templates

  /** mmax: the longer of the identity list and the layout (a null one counts 0). */
  function RunLimit(t: Template): (mmax: nat)
    ensures t.identity.Some? ==> |t.identity.value| <= mmax
    ensures t.layout.Some? ==> |t.layout.value| <= mmax
    ensures mmax == 0 || (t.identity.Some? && mmax == |t.identity.value|)
                      || (t.layout.Some? && mmax == |t.layout.value|)
  {
    var ni := if t.identity.Some? then |t.identity.value| else 0;
    var nl := if t.layout.Some? then |t.layout.value| else 0;
    if nl > ni then nl else ni
  }

  /** The variables of the scan loop: the index of the next child to fetch,
      the number of positions matched so far, the re-examine flag, the value
      under examination (null for a non-value child), the positions of the
      pending run, and the runs handed to the splice so far (one per
      identifier created). */
  datatype ScanState = ScanState(i: nat, mc: nat, repeat: bool, val: Variable?, pairs: seq<nat>, runs: seq<seq<nat>>)

  const SCAN_START: ScanState := ScanState(0, 0, false, null, [], [])

  /** What the loop keeps between iterations: the examined value is the child
      before i, the pending run has one position per match, and a re-examined
      value starts a fresh run. */
  predicate ScanInv(items: seq<Variable>, s: ScanState)
  {
    s.i <= |items| && |s.pairs| == s.mc
    && (s.repeat ==> s.mc == 0 && s.val != null)
    && (s.val != null ==> 0 < s.i && s.val == items[s.i - 1] && s.val.kind.Scalar?)
  }

  /** __add followed by its counter: an empty run creates nothing. */
  function Flush(pairs: seq<nat>, runs: seq<seq<nat>>): seq<seq<nat>>
  {
    if pairs == [] then runs else runs + [pairs]
  }

  /** The child one iteration examines: the re-examined value, or the next child. */
  function Examined(items: seq<Variable>, s: ScanState): Variable
    requires ScanInv(items, s) && s.i < |items|
  {
    if s.repeat then s.val else items[s.i]
  }

  function Measure(items: seq<Variable>, s: ScanState): int
  {
    2 * (|items| - s.i) + (if s.repeat then 1 else 0)
  }

  /** The head of an iteration: either clear the re-examine flag, or fetch the
      next child (null when it is not a value) and advance. */
  function Fetch(items: seq<Variable>, s: ScanState): (f: ScanState)
    requires ScanInv(items, s) && s.i < |items|
    ensures f.i == (if s.repeat then s.i else s.i + 1) && !f.repeat
    ensures f.mc == s.mc && f.pairs == s.pairs && f.runs == s.runs
    ensures f.val == (if s.repeat then s.val else if items[s.i].kind.Scalar? then items[s.i] else null)
  {
    if s.repeat then s.(repeat := false)
    else s.(i := s.i + 1, val := if items[s.i].kind.Scalar? then items[s.i] else null)
  }

  /** The two clauses that follow the examination of a value: extend the run
      on a match, give up a partial run on a mismatch (handing it to the
      splice only when no limit applies or it overran the limit) and examine
      the value again; then hand over a run that is complete, or any pending
      run at the last child. `fixed` selects the flag the second reset sets:
      the source writes `matched`, the corrected loop `!matched`. */
  function Judge(t: Template, n: nat, fixed: bool, f: ScanState, matched: bool): ScanState
    requires 0 < f.i
  {
    var mmax := RunLimit(t);
    var s1 :=
      if matched then f.(mc := f.mc + 1, pairs := f.pairs + [f.i - 1])
      else if f.mc > 0 && f.mc != mmax then
        f.(mc := 0, repeat := true, pairs := [], runs := if mmax == 0 || f.mc > mmax then Flush(f.pairs, f.runs) else f.runs)
      else f;
    if mmax > 0 && ((s1.mc == mmax && t.infinitism == NONE) || (s1.mc > 0 && f.i == n)) then
      s1.(mc := 0, repeat := if fixed then !matched else matched, pairs := [], runs := Flush(s1.pairs, s1.runs))
    else
      s1
  }

  /** A non-value child: in sequential mode it ends the pending run. */
  function Skip(t: Template, sequential: bool, f: ScanState): ScanState
  {
    var mmax := RunLimit(t);
    if f.mc > 0 && sequential then
      f.(mc := 0, pairs := [], runs := if mmax == 0 || f.mc > mmax then Flush(f.pairs, f.runs) else f.runs)
    else
      f
  }

  /** One iteration of the scan loop. A null identity list is dereferenced by
      the name test. */
  function Step(t: Template, items: seq<Variable>, sequential: bool, fixed: bool, s: ScanState): (r: Result<ScanState>)
    requires ScanInv(items, s) && s.i < |items|
    reads items
    ensures r.Err? ==> t.identity.None? && r.error == NullReference && Examined(items, s).kind.Scalar?
    ensures r.Ok? ==> ScanInv(items, r.value) && r.value.i == (if s.repeat then s.i else s.i + 1)
    ensures fixed && r.Ok? ==> Measure(items, r.value) < Measure(items, s)
    ensures r.Ok? && !Examined(items, s).kind.Scalar? ==> r.value.val == null
    ensures r.Ok? && !Examined(items, s).kind.Scalar? && sequential ==> r.value.mc == 0
    ensures r.Ok? && !Examined(items, s).kind.Scalar? && !sequential ==>
              r.value.mc == s.mc && r.value.pairs == s.pairs && r.value.runs == s.runs
  {
    var f := Fetch(items, s);
    if f.val != null then
      var nameOk := MatchName(f.mc, t.identity, f.val.name, t.caseSensitive, t.infinitism);
      if nameOk.Err? then Err(nameOk.error)
      else Ok(Judge(t, |items|, fixed, f, nameOk.value && MatchVariable(f.mc, t.layout, t.infinitism, f.val.Type())))
    else
      Ok(Skip(t, sequential, f))
  }

  /** The corrected scan from a state to the end of the snapshot. */
  function ScanFrom(t: Template, items: seq<Variable>, sequential: bool, s: ScanState): (r: Result<ScanState>)
    requires ScanInv(items, s)
    reads items
    ensures r.Ok? ==> ScanInv(items, r.value) && r.value.i == |items|
    ensures r.Err? ==> t.identity.None? && r.error == NullReference
    decreases Measure(items, s)
  {
    if s.i == |items| then Ok(s)
    else
      match Step(t, items, sequential, true, s)
      case Err(e) => Err(e)
      case Ok(next) => ScanFrom(t, items, sequential, next)
  }


  predicate Ascending(ps: seq<nat>)
  {
    forall a, b :: 0 <= a < b < |ps| ==> ps[a] < ps[b]
  }

  function Last<T>(xs: seq<T>): T
    requires xs != []
  {
    xs[|xs| - 1]
  }

  /** The position the next iteration examines. */
  function Next(s: ScanState): int
  {
    if s.repeat then s.i - 1 else s.i
  }

  /** Position p holds a value that fills slot k of the template: its name
      passes the positional name test and its type the positional type test. */
  predicate SlotOk(t: Template, items: seq<Variable>, k: nat, p: nat)
    reads items
  {
    p < |items| && items[p].kind.Scalar?
    && MatchName(k, t.identity, items[p].name, t.caseSensitive, t.infinitism) == Ok(true)
    && MatchVariable(k, t.layout, t.infinitism, items[p].Type())
  }

  /** A run: ascending positions whose k-th value fills slot k. */
  predicate RunOk(t: Template, items: seq<Variable>, run: seq<nat>)
    reads items
  {
    run != [] && Ascending(run) && forall k :: 0 <= k < |run| ==> SlotOk(t, items, k, run[k])
  }

  /** Runs that do not overlap and come in the order of the children. */
  predicate RunsOrdered(runs: seq<seq<nat>>)
  {
    (forall j :: 0 <= j < |runs| ==> runs[j] != [] && Ascending(runs[j]))
    && forall a, b :: 0 <= a < b < |runs| ==> Last(runs[a]) < runs[b][0]
  }

  /** Runs and a pending run, all in order and before position `bound`, each
      filling the template slot by slot. */
  predicate SoundParts(t: Template, items: seq<Variable>, runs: seq<seq<nat>>, pairs: seq<nat>, bound: int)
    reads items
  {
    RunsOrdered(runs)
    && (forall j :: 0 <= j < |runs| ==> RunOk(t, items, runs[j]))
    && Ascending(pairs)
    && (forall k :: 0 <= k < |pairs| ==> SlotOk(t, items, k, pairs[k]))
    && (runs != [] && pairs != [] ==> Last(Last(runs)) < pairs[0])
    && (pairs != [] ==> Last(pairs) < bound)
    && (runs != [] ==> Last(Last(runs)) < bound)
  }

  /** The scan's bookkeeping is sound: every run handed to the splice, and
      the pending one, fills the template slot by slot, and all of them lie
      in order before the position the loop examines next. */
  predicate RunsSound(t: Template, items: seq<Variable>, s: ScanState)
    reads items
  {
    SoundParts(t, items, s.runs, s.pairs, Next(s))
  }

  lemma FlushSound(t: Template, items: seq<Variable>, runs: seq<seq<nat>>, pairs: seq<nat>, bound: int)
    requires SoundParts(t, items, runs, pairs, bound)
    ensures SoundParts(t, items, Flush(pairs, runs), [], bound)
  {
    if pairs != [] {
      OrderedAppend(runs, pairs);
      RunsOkAppend(t, items, runs, pairs);
    }
  }

  lemma OrderedAppend(runs: seq<seq<nat>>, pairs: seq<nat>)
    requires RunsOrdered(runs) && pairs != [] && Ascending(pairs)
    requires runs != [] ==> Last(Last(runs)) < pairs[0]
    ensures RunsOrdered(runs + [pairs])
  {
    var rs := runs + [pairs];
    forall a, b | 0 <= a < b < |rs|
      ensures Last(rs[a]) < rs[b][0]
    {
      if b == |runs| {
        var z := |runs| - 1;
        if a < z {
          assert Last(runs[a]) < runs[z][0] <= Last(runs[z]);
        }
      } else {
        assert rs[a] == runs[a] && rs[b] == runs[b];
      }
    }
  }

  lemma RunsOkAppend(t: Template, items: seq<Variable>, runs: seq<seq<nat>>, pairs: seq<nat>)
    requires forall j :: 0 <= j < |runs| ==> RunOk(t, items, runs[j])
    requires RunOk(t, items, pairs)
    ensures forall j :: 0 <= j < |runs + [pairs]| ==> RunOk(t, items, (runs + [pairs])[j])
  {
    var rs := runs + [pairs];
    forall j | 0 <= j < |rs| ensures RunOk(t, items, rs[j]) {
      if j < |runs| { assert rs[j] == runs[j]; }
    }
  }

  lemma PushSound(t: Template, items: seq<Variable>, runs: seq<seq<nat>>, pairs: seq<nat>, p: nat)
    requires SoundParts(t, items, runs, pairs, p) && SlotOk(t, items, |pairs|, p)
    ensures SoundParts(t, items, runs, pairs + [p], p + 1)
  {
  }

  lemma WidenSound(t: Template, items: seq<Variable>, runs: seq<seq<nat>>, pairs: seq<nat>, bound: int, wider: int)
    requires SoundParts(t, items, runs, pairs, bound) && bound <= wider
    ensures SoundParts(t, items, runs, pairs, wider)
  {
  }

  lemma JudgeSound(t: Template, items: seq<Variable>, f: ScanState, matched: bool)
    requires 0 < f.i && !f.repeat && SoundParts(t, items, f.runs, f.pairs, f.i - 1)
    requires matched ==> SlotOk(t, items, |f.pairs|, f.i - 1)
    ensures var g := Judge(t, |items|, true, f, matched);
            SoundParts(t, items, g.runs, g.pairs, Next(g))
  {
    if matched {
      JudgeMatchSound(t, items, f);
    } else if f.mc > 0 && f.mc != RunLimit(t) {
      JudgeRetrySound(t, items, f);
    } else {
      JudgeKeepSound(t, items, f);
    }
  }

  lemma JudgeMatchSound(t: Template, items: seq<Variable>, f: ScanState)
    requires 0 < f.i && !f.repeat && SoundParts(t, items, f.runs, f.pairs, f.i - 1)
    requires SlotOk(t, items, |f.pairs|, f.i - 1)
    ensures var g := Judge(t, |items|, true, f, true);
            SoundParts(t, items, g.runs, g.pairs, Next(g))
  {
    var g := Judge(t, |items|, true, f, true);
    var pairs := f.pairs + [f.i - 1];
    PushSound(t, items, f.runs, f.pairs, f.i - 1);
    if g.pairs == [] {
      assert g.runs == Flush(pairs, f.runs) && !g.repeat;
      FlushSound(t, items, f.runs, pairs, f.i);
    } else {
      assert g.runs == f.runs && g.pairs == pairs && !g.repeat;
    }
  }

  lemma JudgeRetrySound(t: Template, items: seq<Variable>, f: ScanState)
    requires 0 < f.i && !f.repeat && SoundParts(t, items, f.runs, f.pairs, f.i - 1)
    requires f.mc > 0 && f.mc != RunLimit(t)
    ensures var g := Judge(t, |items|, true, f, false);
            SoundParts(t, items, g.runs, g.pairs, Next(g))
  {
    var mmax := RunLimit(t);
    var g := Judge(t, |items|, true, f, false);
    FlushSound(t, items, f.runs, f.pairs, f.i - 1);
    assert g.runs == (if mmax == 0 || f.mc > mmax then Flush(f.pairs, f.runs) else f.runs);
    assert g.pairs == [] && g.repeat;
  }

  lemma JudgeKeepSound(t: Template, items: seq<Variable>, f: ScanState)
    requires 0 < f.i && !f.repeat && SoundParts(t, items, f.runs, f.pairs, f.i - 1)
    requires !(f.mc > 0 && f.mc != RunLimit(t))
    ensures var g := Judge(t, |items|, true, f, false);
            SoundParts(t, items, g.runs, g.pairs, Next(g))
  {
    var g := Judge(t, |items|, true, f, false);
    if g.pairs == [] && f.pairs != [] {
      assert g.runs == Flush(f.pairs, f.runs);
      FlushSound(t, items, f.runs, f.pairs, f.i - 1);
    } else {
      assert g.runs == f.runs && g.pairs == f.pairs;
      WidenSound(t, items, f.runs, f.pairs, f.i - 1, Next(g));
    }
  }

  lemma StepSound(t: Template, items: seq<Variable>, sequential: bool, s: ScanState)
    requires ScanInv(items, s) && s.i < |items| && RunsSound(t, items, s)
    requires Step(t, items, sequential, true, s).Ok?
    ensures RunsSound(t, items, Step(t, items, sequential, true, s).value)
  {
    var f := Fetch(items, s);
    if f.val != null {
      var matched := MatchName(f.mc, t.identity, f.val.name, t.caseSensitive, t.infinitism).value
                     && MatchVariable(f.mc, t.layout, t.infinitism, f.val.Type());
      assert matched ==> SlotOk(t, items, |f.pairs|, f.i - 1);
      JudgeSound(t, items, f, matched);
    } else {
      FlushSound(t, items, f.runs, f.pairs, f.i - 1);
    }
  }

  /** Soundness of run detection: every run the corrected scan hands to the
      splice is non-empty, ascending, fills the template slot by slot, and
      the runs follow one another without overlapping. */
  lemma {:induction false} ScanSound(t: Template, items: seq<Variable>, sequential: bool, s: ScanState)
    requires ScanInv(items, s) && RunsSound(t, items, s)
    ensures ScanFrom(t, items, sequential, s).Ok? ==> RunsSound(t, items, ScanFrom(t, items, sequential, s).value)
    decreases Measure(items, s)
  {
    if s.i < |items| {
      var r := Step(t, items, sequential, true, s);
      if r.Ok? {
        StepSound(t, items, sequential, s);
        ScanSound(t, items, sequential, r.value);
      }
    }
  }

  /** Without infinitism, the limit bounds every run and the pending one stays
      short of it; every run is complete except, once the end of the children
      is reached, the last. */
  predicate FullParts(mmax: nat, runs: seq<seq<nat>>, pairs: seq<nat>, complete: bool)
  {
    |pairs| < mmax
    && forall j :: 0 <= j < |runs| ==>
         0 < |runs[j]| <= mmax && (j < |runs| - 1 || complete ==> |runs[j]| == mmax)
  }

  lemma JudgeFull(t: Template, n: nat, f: ScanState, matched: bool)
    requires t.infinitism == NONE && RunLimit(t) > 0
    requires 0 < f.i <= n && |f.pairs| == f.mc && FullParts(RunLimit(t), f.runs, f.pairs, true)
    ensures var g := Judge(t, n, true, f, matched);
            FullParts(RunLimit(t), g.runs, g.pairs, g.i < n)
  {
    var mmax := RunLimit(t);
    var g := Judge(t, n, true, f, matched);
    if matched {
      var s1 := f.(mc := f.mc + 1, pairs := f.pairs + [f.i - 1]);
      if s1.mc == mmax || f.i == n {
        assert g.runs == s1.runs + [s1.pairs];
      } else {
        assert g == s1;
      }
    } else {
      assert g.runs == f.runs;
    }
  }

  /** Bounded runs: without infinitism and with a non-empty identity list or
      layout, the corrected scan hands over runs of exactly the limit's
      length, except that the last one may be shorter when the children end
      before it is complete. */
  lemma {:induction false} ScanFull(t: Template, items: seq<Variable>, sequential: bool, s: ScanState)
    requires t.infinitism == NONE && RunLimit(t) > 0
    requires ScanInv(items, s) && FullParts(RunLimit(t), s.runs, s.pairs, s.i < |items|)
    ensures var r := ScanFrom(t, items, sequential, s);
            r.Ok? ==> FullParts(RunLimit(t), r.value.runs, r.value.pairs, false)
    decreases Measure(items, s)
  {
    if s.i < |items| {
      var r := Step(t, items, sequential, true, s);
      if r.Ok? {
        var f := Fetch(items, s);
        if f.val != null {
          var matched := MatchName(f.mc, t.identity, f.val.name, t.caseSensitive, t.infinitism).value
                         && MatchVariable(f.mc, t.layout, t.infinitism, f.val.Type());
          JudgeFull(t, |items|, f, matched);
        }
        ScanFull(t, items, sequential, r.value);
      }
    }
  }

  /** What the corrected scan of a collection's children hands to the splice:
      ordered, non-overlapping runs that each fill the template slot by slot;
      without infinitism and with a limit, each run is exactly as long as the
      limit, except possibly the last. */
  lemma ScanRuns(t: Template, items: seq<Variable>, sequential: bool)
    ensures var r := ScanFrom(t, items, sequential, SCAN_START);
            r.Ok? ==> RunsOrdered(r.value.runs)
                      && (forall j :: 0 <= j < |r.value.runs| ==> RunOk(t, items, r.value.runs[j]))
                      && (forall j :: 0 <= j < |r.value.runs| ==> Last(r.value.runs[j]) < |items|)
                      && (t.infinitism == NONE && RunLimit(t) > 0 ==>
                            forall j :: 0 <= j < |r.value.runs| ==>
                              |r.value.runs[j]| <= RunLimit(t)
                              && (j < |r.value.runs| - 1 ==> |r.value.runs[j]| == RunLimit(t)))
  {
    ScanSound(t, items, sequential, SCAN_START);
    if t.infinitism == NONE && RunLimit(t) > 0 {
      ScanFull(t, items, sequential, SCAN_START);
    }
    var r := ScanFrom(t, items, sequential, SCAN_START);
    if r.Ok? {
      forall j | 0 <= j < |r.value.runs|
        ensures Last(r.value.runs[j]) < |items|
      {
        assert RunOk(t, items, r.value.runs[j]);
        assert SlotOk(t, items, |r.value.runs[j]| - 1, Last(r.value.runs[j]));
      }
    }
  }

  /** The source as written: a one-slot template and two values, the first of
      which fills the slot. After the first iteration completes a run, the
      loop re-examines the same value, completes the same run again, and
      comes back to the state it started from with one more run: the loop
      never ends. */
  lemma CompactAsWrittenLoops(x: Variable, y: Variable)
    requires x.kind.Scalar? && x.kind.value.IntValue?
    ensures var t := MakeTemplate(Some([]), Some([INTEGER]));
            var items := [x, y];
            var s1 := ScanState(1, 0, true, x, [], [[0]]);
            Step(t, items, false, false, SCAN_START) == Ok(s1)
            && Step(t, items, false, false, s1) == Ok(s1.(runs := [[0], [0]]))
  {
    var t := MakeTemplate(Some([]), Some([INTEGER]));
    var items := [x, y];
    var s1 := ScanState(1, 0, true, x, [], [[0]]);
    assert RunLimit(t) == 1;
    assert x.Type() == INTEGER;
    assert MatchName(0, t.identity, x.name, t.caseSensitive, t.infinitism) == Ok(true);
    assert MatchVariable(0, t.layout, t.infinitism, INTEGER) by {
      assert INTEGER & INTEGER != 0;
    }
    assert ScanInv(items, SCAN_START);
    assert [] + [0] == [0];
    assert Flush([0], []) == [[0]];
    assert Flush([0], [[0]]) == [[0], [0]];
    assert Step(t, items, false, false, SCAN_START) == Ok(s1);
    assert ScanInv(items, s1);
    assert Step(t, items, false, false, s1) == Ok(s1.(runs := [[0], [0]]));
  }

  /** The source as written with two slots: a run-completing value is examined
      again and opens the next run, so over three values the loop ends with the
      overlapping runs [0, 1] and [1, 2]. The corrected scan gives [0, 1] and [2]. */
  lemma CompactAsWrittenOverlaps(x: Variable, y: Variable, z: Variable)
    requires x.kind.Scalar? && x.kind.value.IntValue?
    requires y.kind.Scalar? && y.kind.value.IntValue?
    requires z.kind.Scalar? && z.kind.value.IntValue?
    ensures var t := MakeTemplate(Some([]), Some([INTEGER, INTEGER]));
            var items := [x, y, z];
            var s1 := ScanState(1, 1, false, x, [0], []);
            var s2 := ScanState(2, 0, true, y, [], [[0, 1]]);
            var s3 := ScanState(2, 1, false, y, [1], [[0, 1]]);
            var s4 := ScanState(3, 0, true, z, [], [[0, 1], [1, 2]]);
            Step(t, items, false, false, SCAN_START) == Ok(s1)
            && Step(t, items, false, false, s1) == Ok(s2)
            && Step(t, items, false, false, s2) == Ok(s3)
            && Step(t, items, false, false, s3) == Ok(s4)
            && s4.i == |items|
            && ScanFrom(t, items, false, SCAN_START) == Ok(ScanState(3, 0, false, z, [], [[0, 1], [2]]))
  {
    var t := MakeTemplate(Some([]), Some([INTEGER, INTEGER]));
    var items := [x, y, z];
    assert RunLimit(t) == 2;
    assert x.Type() == INTEGER && y.Type() == INTEGER && z.Type() == INTEGER;
    assert MatchName(0, t.identity, x.name, t.caseSensitive, t.infinitism) == Ok(true);
    assert MatchName(1, t.identity, y.name, t.caseSensitive, t.infinitism) == Ok(true);
    assert MatchName(0, t.identity, y.name, t.caseSensitive, t.infinitism) == Ok(true);
    assert MatchName(1, t.identity, z.name, t.caseSensitive, t.infinitism) == Ok(true);
    assert MatchName(0, t.identity, z.name, t.caseSensitive, t.infinitism) == Ok(true);
    assert MatchVariable(0, t.layout, t.infinitism, INTEGER) && MatchVariable(1, t.layout, t.infinitism, INTEGER) by {
      assert INTEGER & INTEGER != 0;
    }
    var s1 := ScanState(1, 1, false, x, [0], []);
    var s2 := ScanState(2, 0, true, y, [], [[0, 1]]);
    var s3 := ScanState(2, 1, false, y, [1], [[0, 1]]);
    var s4 := ScanState(3, 0, true, z, [], [[0, 1], [1, 2]]);
    assert [] + [0] == [0] && [0] + [1] == [0, 1] && [] + [1] == [1] && [1] + [2] == [1, 2] && [] + [2] == [2];
    assert Flush([0, 1], []) == [[0, 1]];
    assert Flush([1, 2], [[0, 1]]) == [[0, 1], [1, 2]];
    assert Flush([2], [[0, 1]]) == [[0, 1], [2]];
    assert ScanInv(items, SCAN_START);
    assert Step(t, items, false, false, SCAN_START) == Ok(s1);
    assert ScanInv(items, s1);
    assert Step(t, items, false, false, s1) == Ok(s2);
    assert ScanInv(items, s2);
    assert Step(t, items, false, false, s2) == Ok(s3);
    assert ScanInv(items, s3);
    assert Step(t, items, false, false, s3) == Ok(s4);
    var c2 := ScanState(2, 0, false, y, [], [[0, 1]]);
    var c3 := ScanState(3, 0, false, z, [], [[0, 1], [2]]);
    assert Step(t, items, false, true, SCAN_START) == Ok(s1);
    assert Step(t, items, false, true, s1) == Ok(c2);
    assert ScanInv(items, c2);
    assert Step(t, items, false, true, c2) == Ok(c3);
    assert ScanInv(items, c3);
    assert ScanFrom(t, items, false, c3) == Ok(c3);
    assert ScanFrom(t, items, false, c2) == Ok(c3);
    assert ScanFrom(t, items, false, s1) == Ok(c3);
  }

  /** The scan loop of CompactCollection over a snapshot of the children,
      with the corrected re-examine flag. It returns the runs to splice, in
      the order it hands them over, or the error the name test raises. */
  method ScanChildren(t: Template, items: seq<Variable>, sequential: bool) returns (r: Result<seq<seq<nat>>>)
    ensures var spec := ScanFrom(t, items, sequential, SCAN_START);
            (r.Ok? <==> spec.Ok?) && (r.Ok? ==> r.value == spec.value.runs) && (r.Err? ==> r.error == spec.error)
  {
    var i: nat, mc: nat, repeatmatch, val: Variable? := 0, 0, false, null;
    var pairs: seq<nat>, runs: seq<seq<nat>> := [], [];
    while i < |items|
      invariant ScanInv(items, ScanState(i, mc, repeatmatch, val, pairs, runs))
      invariant ScanFrom(t, items, sequential, ScanState(i, mc, repeatmatch, val, pairs, runs))
                == ScanFrom(t, items, sequential, SCAN_START)
      decreases Measure(items, ScanState(i, mc, repeatmatch, val, pairs, runs))
    {
      var next := ScanIteration(t, items, sequential, i, mc, repeatmatch, val, pairs, runs);
      if next.Err? {
        return Err(next.error);
      }
      i, mc, repeatmatch, val, pairs, runs :=
        next.value.i, next.value.mc, next.value.repeat, next.value.val, next.value.pairs, next.value.runs;
    }
    r := Ok(runs);
  }

  /** One iteration of the scan loop: fetch (or re-examine) a child, then
      test a value against the slot the pending run has reached, or end the
      pending run at a non-value in sequential mode. */
  method ScanIteration(t: Template, items: seq<Variable>, sequential: bool,
                       i: nat, mc: nat, repeatmatch: bool, val: Variable?, pairs: seq<nat>, runs: seq<seq<nat>>)
    returns (next: Result<ScanState>)
    requires ScanInv(items, ScanState(i, mc, repeatmatch, val, pairs, runs)) && i < |items|
    ensures next == Step(t, items, sequential, true, ScanState(i, mc, repeatmatch, val, pairs, runs))
  {
    var mmax := RunLimit(t);
    var i, mc, repeatmatch, val, pairs, runs := i, mc, repeatmatch, val, pairs, runs;
    if repeatmatch {
      repeatmatch := false;
    } else {
      val := if items[i].kind.Scalar? then items[i] else null;
      i := i + 1;
    }
    if val != null {
      var nameOk := MatchName(mc, t.identity, val.name, t.caseSensitive, t.infinitism);
      if nameOk.Err? {
        return Err(nameOk.error);
      }
      var matched := nameOk.value && MatchVariable(mc, t.layout, t.infinitism, val.Type());
      mc, repeatmatch, pairs, runs := JudgeValue(t, |items|, i, val, mc, pairs, runs, matched);
    } else if mc > 0 && sequential {
      if mmax == 0 || mc > mmax {
        runs := Flush(pairs, runs);
      }
      mc, repeatmatch, pairs := 0, false, [];
    }
    next := Ok(ScanState(i, mc, repeatmatch, val, pairs, runs));
  }

  /** The clauses of the scan loop that follow the test of a value. */
  method JudgeValue(t: Template, n: nat, i: nat, val: Variable?, mc: nat, pairs: seq<nat>, runs: seq<seq<nat>>, matched: bool)
    returns (mc': nat, repeatmatch: bool, pairs': seq<nat>, runs': seq<seq<nat>>)
    requires 0 < i
    ensures ScanState(i, mc', repeatmatch, val, pairs', runs')
            == Judge(t, n, true, ScanState(i, mc, false, val, pairs, runs), matched)
  {
    var mmax := RunLimit(t);
    mc', repeatmatch, pairs', runs' := mc, false, pairs, runs;
    if matched {
      pairs' := pairs' + [i - 1];
      mc' := mc' + 1;
    } else if mc' > 0 && mc' != mmax {
      if mmax == 0 || mc' > mmax {
        runs' := Flush(pairs', runs');
      }
      mc', repeatmatch, pairs' := 0, true, [];
    }
    if mmax > 0 && ((mc' == mmax && t.infinitism == NONE) || (mc' > 0 && i == n)) {
      runs' := Flush(pairs', runs');
      mc', repeatmatch, pairs' := 0, !matched, [];
    }
  }

  // ---------------------------------------------------------------------
  // The splice (__add)

  lemma {:induction false} AscendingSpread(ps: seq<nat>)
    requires Ascending(ps) && ps != []
    ensures ps[0] + |ps| - 1 <= Last(ps)
    decreases |ps|
  {
    if |ps| > 1 {
      AscendingSpread(ps[..|ps| - 1]);
    }
  }

  /** The values at the positions of a run, in order. */
  function Picked<T>(xs: seq<T>, ps: seq<nat>): (r: seq<T>)
    requires forall k :: 0 <= k < |ps| ==> ps[k] < |xs|
    ensures |r| == |ps| && forall k {:trigger r[k]} :: 0 <= k < |ps| ==> r[k] == xs[ps[k]]
    decreases |ps|
  {
    if ps == [] then [] else Picked(xs, ps[..|ps| - 1]) + [xs[Last(ps)]]
  }

  /** The children strictly between consecutive positions of a run. */
  function Between<T>(xs: seq<T>, qs: seq<nat>): (r: seq<T>)
    requires Ascending(qs) && (qs != [] ==> Last(qs) < |xs|)
    ensures qs != [] ==> |r| == Last(qs) - qs[0] - (|qs| - 1)
    decreases |qs|
  {
    if |qs| <= 1 then []
    else Between(xs, qs[..|qs| - 1]) + xs[qs[|qs| - 2] + 1..Last(qs)]
  }

  lemma PickedUnfold<T>(xs: seq<T>, ps: seq<nat>, init: seq<nat>)
    requires ps != [] && (forall k :: 0 <= k < |ps| ==> ps[k] < |xs|) && init == ps[..|ps| - 1]
    ensures forall k :: 0 <= k < |init| ==> init[k] < |xs|
    ensures Picked(xs, ps) == Picked(xs, init) + [xs[Last(ps)]]
  {
  }

  lemma BetweenUnfold<T>(xs: seq<T>, ps: seq<nat>, init: seq<nat>)
    requires Ascending(ps) && |ps| > 1 && Last(ps) < |xs| && init == ps[..|ps| - 1]
    ensures Last(init) < Last(ps)
    ensures Between(xs, ps) == Between(xs, init) + xs[Last(init) + 1..Last(ps)]
  {
  }

  /** The corrected __add on the child list: the children before the run,
      the new identifier in the place of the run's first child, the children
      between the run's positions, and the children after the run. */
  function Spliced<T>(xs: seq<T>, ps: seq<nat>, iden: T): (r: seq<T>)
    requires Ascending(ps) && ps != [] && Last(ps) < |xs|
    ensures ps[0] + |ps| - 1 <= Last(ps)
    ensures |r| == |xs| - |ps| + 1 && r[ps[0]] == iden
    ensures r[..ps[0]] == xs[..ps[0]]
  {
    AscendingSpread(ps);
    var r := xs[..ps[0]] + [iden] + Between(xs, ps) + xs[Last(ps) + 1..];
    assert r[..ps[0]] == xs[..ps[0]];
    r
  }

  lemma DeleteInBack<T>(front: seq<T>, back: seq<T>, j: nat, q: nat)
    requires j < |back| && q == |front| + j
    ensures (front + back)[..q] + (front + back)[q + 1..] == front + (back[..j] + back[j + 1..])
  {
    assert (front + back)[..q] == front + back[..j];
    assert (front + back)[q + 1..] == back[j + 1..];
  }

  /** The first deletion and insertion of the splice. */
  lemma SpliceFirst<T>(xs: seq<T>, ps: seq<nat>, iden: T)
    requires Ascending(ps) && ps != [] && Last(ps) < |xs|
    ensures Ascending(ps[..1]) && Last(ps[..1]) == ps[0]
    ensures var ys := xs[..ps[0]] + xs[ps[0] + 1..];
            ys[..ps[0]] + [iden] + ys[ps[0]..] == Spliced(xs, ps[..1], iden)
  {
    assert forall k :: 0 <= k < |ps| ==> ps[k] <= Last(ps);
    var ys := xs[..ps[0]] + xs[ps[0] + 1..];
    assert ys[..ps[0]] == xs[..ps[0]] && ys[ps[0]..] == xs[ps[0] + 1..];
    assert Between(xs, ps[..1]) == [];
  }

  lemma SplicedUnfold<T>(xs: seq<T>, ps: seq<nat>, iden: T, first: nat, last: nat)
    requires Ascending(ps) && ps != [] && Last(ps) < |xs| && first == ps[0] && last == Last(ps)
    ensures Spliced(xs, ps, iden) == xs[..first] + [iden] + Between(xs, ps) + xs[last + 1..]
  {
  }

  lemma BackSplit<T>(xs: seq<T>, last: nat, p: nat)
    requires last < p < |xs|
    ensures xs[last + 1..][..p - last - 1] == xs[last + 1..p]
    ensures xs[last + 1..][p - last..] == xs[p + 1..]
  {
  }

  lemma Assemble<T>(front: seq<T>, iden: T, b: seq<T>, back: seq<T>, gap: seq<T>, rest: seq<T>, j: nat, q: nat)
    requires j < |back| && back[..j] == gap && back[j + 1..] == rest
    requires q == |front| + 1 + |b| + j
    ensures var live := front + [iden] + b + back;
            q < |live| && live[..q] + live[q + 1..] == front + [iden] + (b + gap) + rest
  {
    var live := front + [iden] + b + back;
    assert live[..q] == front + [iden] + b + gap;
    assert live[q + 1..] == rest;
  }

  /** Each later deletion of the splice: the k-th child of the run sits at
      position ps[k] - k + 1 of the list as the earlier steps left it. */
  lemma SpliceNext<T>(xs: seq<T>, ps: seq<nat>, k: nat, iden: T)
    requires Ascending(ps) && 0 < k < |ps| && Last(ps) < |xs|
    ensures Ascending(ps[..k]) && Ascending(ps[..k + 1]) && Last(ps[..k + 1]) < |xs|
    ensures var live := Spliced(xs, ps[..k], iden);
            var q := ps[k] - k + 1;
            q < |live| && live[..q] + live[q + 1..] == Spliced(xs, ps[..k + 1], iden)
  {
    AscendingPrefix(ps, k);
    AscendingPrefix(ps, k + 1);
    SpliceGrow(xs, ps[..k + 1], ps[..k], iden, ps[0], ps[k - 1], ps[k]);
    AscendingSpread(ps[..k]);
  }

  lemma AscendingPrefix(ps: seq<nat>, n: nat)
    requires Ascending(ps) && n <= |ps|
    ensures Ascending(ps[..n])
  {
  }

  lemma SpliceGrow<T>(xs: seq<T>, b: seq<nat>, a: seq<nat>, iden: T, first: nat, last: nat, p: nat)
    requires Ascending(b) && |b| > 1 && Last(b) < |xs|
    requires a == b[..|b| - 1] && first == b[0] && last == b[|b| - 2] && p == Last(b)
    requires Ascending(a) && last < p
    ensures var live := Spliced(xs, a, iden);
            var q := first + 1 + |Between(xs, a)| + (p - last - 1);
            q < |live| && live[..q] + live[q + 1..] == Spliced(xs, b, iden)
  {
    SplicedUnfold(xs, a, iden, first, last);
    SplicedUnfold(xs, b, iden, first, p);
    BetweenUnfold(xs, b, a);
    BackSplit(xs, last, p);
    Assemble(xs[..first], iden, Between(xs, a), xs[last + 1..], xs[last + 1..p], xs[p + 1..],
             p - last - 1, first + 1 + |Between(xs, a)| + (p - last - 1));
  }

  /** The corrected __add: a fresh identifier named `name` takes the place of
      the run's first child, the run's children move into it in order, and
      every other child of the collection keeps its place. The source
      deletes at the recorded index, which is one past the run's child (see
      AddAsWritten). */
  method AddRun(collection: Variable, ps: seq<nat>, name: string) returns (iden: Variable)
    requires collection.IsCollection()
    requires Ascending(ps) && ps != [] && Last(ps) < |collection.children|
    requires forall k :: 0 <= k < |ps| ==> ps[k] < |collection.children| && collection.children[ps[k]].kind.Scalar?
    modifies collection, Picked(collection.children, ps)
    ensures fresh(iden) && iden.kind == IdentifierKind && iden.name == name && iden.parent == collection
    ensures iden.children == Picked(old(collection.children), ps)
    ensures collection.children == Spliced(old(collection.children), ps, iden)
    ensures collection.name == old(collection.name) && collection.parent == old(collection.parent)
    ensures forall v :: v in iden.children ==> v.name == old(v.name) && v.children == old(v.children)
    ensures forall v :: v in iden.children ==> v.parent == iden
  {
    var xs := collection.children;
    assert forall k :: 0 <= k < |ps| ==> ps[k] <= Last(ps);
    iden := new Variable(IdentifierKind, name, collection);
    var k := 0;
    while k < |ps|
      invariant 0 <= k <= |ps|
      invariant fresh(iden) && iden.kind == IdentifierKind && iden.name == name && iden.parent == collection
      invariant iden.children == Picked(xs, ps[..k])
      invariant k == 0 ==> collection.children == xs
      invariant k > 0 ==> collection.children == Spliced(xs, ps[..k], iden)
      invariant collection.name == old(collection.name) && collection.parent == old(collection.parent)
      invariant forall v :: v in xs ==> v.name == old(v.name)
      invariant forall v :: v in xs && v != collection ==> v.children == old(v.children)
      invariant forall v :: v in iden.children ==> v.parent == iden
    {
      assert Picked(xs, ps)[k] == xs[ps[k]];
      MoveChild(collection, iden, xs, ps, k);
      k := k + 1;
    }
    assert ps[..|ps|] == ps;
    PickedMembers(xs, ps);
  }

  /** The runs hold values only, at positions inside the list. */
  predicate ValuesAt(xs: seq<Variable>, runs: seq<seq<nat>>)
  {
    InBounds(runs, |xs|)
    && forall j, k :: 0 <= j < |runs| && 0 <= k < |runs[j]| ==> xs[runs[j][k]].kind.Scalar?
  }

  /** Phase two of the corrected CompactCollection: the runs are spliced from
      the last to the first, each into a fresh identifier named `name`, so
      that every run's recorded positions still hold when its turn comes. */
  method SpliceRuns(collection: Variable, runs: seq<seq<nat>>, name: string) returns (ghost idens: seq<Variable>)
    requires collection.IsCollection()
    requires RunsOrdered(runs) && (runs != [] ==> Last(Last(runs)) < |collection.children|)
    requires ValuesAt(collection.children, runs)
    modifies collection, collection.children
    ensures |idens| == |runs|
    ensures collection.children == Compacted(old(collection.children), runs, 0, idens)
    ensures forall j :: 0 <= j < |runs| ==>
              fresh(idens[j]) && idens[j].kind == IdentifierKind && idens[j].name == name
              && idens[j].parent == collection && idens[j].children == Picked(old(collection.children), runs[j])
    ensures collection.name == old(collection.name) && collection.parent == old(collection.parent)
    ensures forall i :: 0 <= i < |old(collection.children)| ==> old(collection.children)[i].name == old(collection.children[i].name)
  {
    var xs := collection.children;
    ghost var contents := seq(|runs|, m requires 0 <= m < |runs| => Picked(xs, runs[m]));
    var j := |runs|;
    idens := [];
    while j > 0
      invariant 0 <= j <= |runs| && |idens| == |runs| - j
      invariant collection.children == Compacted(xs, runs, j, idens)
      invariant forall m :: 0 <= m < |idens| ==> fresh(idens[m]) && idens[m] !in xs && idens[m] != collection
      invariant Holding(idens, name, collection, contents, j)
      invariant collection.name == old(collection.name) && collection.parent == old(collection.parent)
      invariant forall i :: 0 <= i < |xs| ==> xs[i].name == old(xs[i].name)
    {
      j := j - 1;
      ghost var later := idens;
      var iden := SpliceRun(collection, xs, runs, j, name, later, contents);
      idens := [iden] + later;
      forall m | 0 < m < |idens|
        ensures fresh(idens[m]) && idens[m] !in xs && idens[m] != collection
      {
        assert idens[m] == later[m - 1];
      }
    }
    forall m | 0 <= m < |runs|
      ensures IdentifierOf(idens[m], name, collection, Picked(xs, runs[m]))
    {
      assert IdentifierOf(idens[m], name, collection, contents[0 + m]);
    }
  }

  /** Objects outside xs are not among the values of a run of xs. */
  lemma Untouched<T>(xs: seq<T>, ps: seq<nat>, others: seq<T>)
    requires forall k :: 0 <= k < |ps| ==> ps[k] < |xs|
    requires forall m :: 0 <= m < |others| ==> others[m] !in xs
    ensures forall m :: 0 <= m < |others| ==> others[m] !in Picked(xs, ps)
  {
    PickedMembers(xs, ps);
  }

  /** v is an identifier named `name`, owned by `parent`, holding `values`. */
  predicate IdentifierOf(v: Variable, name: string, parent: Variable, values: seq<Variable>)
    reads v
  {
    v.kind == IdentifierKind && v.name == name && v.parent == parent && v.children == values
  }

  /** Identifier m of `idens` is named `name`, owned by `parent` and holds
      contents[from + m]. */
  predicate Holding(idens: seq<Variable>, name: string, parent: Variable, contents: seq<seq<Variable>>, from: nat)
    requires from + |idens| == |contents|
    reads idens
  {
    forall m :: 0 <= m < |idens| ==> IdentifierOf(idens[m], name, parent, contents[from + m])
  }

  lemma HoldingCons(iden: Variable, later: seq<Variable>, name: string, parent: Variable,
                    contents: seq<seq<Variable>>, j: nat)
    requires j + 1 + |later| == |contents|
    requires Holding(later, name, parent, contents, j + 1)
    requires IdentifierOf(iden, name, parent, contents[j])
    ensures Holding([iden] + later, name, parent, contents, j)
  {
    var idens := [iden] + later;
    forall m | 0 < m < |idens|
      ensures IdentifierOf(idens[m], name, parent, contents[j + m])
    {
      assert idens[m] == later[m - 1] && j + m == j + 1 + (m - 1);
    }
  }

  /** One turn of phase two: run j is spliced into a fresh identifier while
      the runs after it are already spliced; the identifiers made for them
      are left as they were. */
  method SpliceRun(collection: Variable, xs: seq<Variable>, runs: seq<seq<nat>>, j: nat, name: string,
                   ghost later: seq<Variable>, ghost contents: seq<seq<Variable>>)
    returns (iden: Variable)
    requires collection.IsCollection() && j < |runs| && |later| == |runs| - j - 1
    requires RunsOrdered(runs) && Last(Last(runs)) < |xs| && ValuesAt(xs, runs)
    requires collection.children == Compacted(xs, runs, j + 1, later)
    requires forall m :: 0 <= m < |later| ==> later[m] !in xs && later[m] != collection
    requires |contents| == |runs| && contents[j] == Picked(xs, runs[j])
    requires Holding(later, name, collection, contents, j + 1)
    modifies collection, Picked(xs, runs[j])
    ensures fresh(iden) && iden !in xs && iden != collection
    ensures iden.kind == IdentifierKind && iden.name == name && iden.parent == collection
    ensures collection.children == Compacted(xs, runs, j, [iden] + later)
    ensures Holding([iden] + later, name, collection, contents, j)
    ensures collection.name == old(collection.name) && collection.parent == old(collection.parent)
    ensures forall i :: 0 <= i < |xs| ==> xs[i].name == old(xs[i].name)
  {
    ghost var rest := collection.children;
    ghost var bound := if j + 1 == |runs| then |xs| else runs[j + 1][0];
    CompactedKeeps(xs, runs, j, later, rest);
    RunReady(xs, runs, j, rest, bound);
    Untouched(xs, runs[j], later);
    iden := AddRun(collection, runs[j], name);
    RunDone(xs, runs, j, later, rest, iden);
    HoldingCons(iden, later, name, collection, contents, j);
  }

  /** Before run j is spliced: its positions hold the same values as in the
      original list, and they are values. */
  lemma RunReady(xs: seq<Variable>, runs: seq<seq<nat>>, j: nat, rest: seq<Variable>, bound: nat)
    requires j < |runs| && ValuesAt(xs, runs) && runs[j] != [] && Ascending(runs[j])
    requires Last(runs[j]) < bound <= |rest| && bound <= |xs| && rest[..bound] == xs[..bound]
    ensures forall k :: 0 <= k < |runs[j]| ==> runs[j][k] < |xs| && runs[j][k] < |rest| && rest[runs[j][k]].kind.Scalar?
    ensures Picked(rest, runs[j]) == Picked(xs, runs[j])
    ensures forall v :: v in Picked(xs, runs[j]) ==> v in xs
  {
    FirstRunKept(xs, rest, runs[j], bound);
    RunValuesKept(xs, rest, runs, j, bound);
    PickedMembers(xs, runs[j]);
  }

  /** After run j is spliced, the list is the compaction of runs j and on. */
  lemma RunDone<T>(xs: seq<T>, runs: seq<seq<nat>>, j: nat, later: seq<T>, rest: seq<T>, iden: T)
    requires j < |runs| && |later| == |runs| - j - 1
    requires RunsOrdered(runs) && Last(Last(runs)) < |xs|
    requires rest == Compacted(xs, runs, j + 1, later)
    ensures Ascending(runs[j]) && runs[j] != [] && Last(runs[j]) < |rest|
    ensures Compacted(xs, runs, j, [iden] + later) == Spliced(rest, runs[j], iden)
  {
    CompactedStep(xs, runs, j, [iden] + later, rest);
  }

  /** The values of an earlier run are still values where the later splices
      left them. */
  lemma RunValuesKept(xs: seq<Variable>, rest: seq<Variable>, runs: seq<seq<nat>>, j: nat, bound: nat)
    requires ValuesAt(xs, runs) && j < |runs|
    requires forall k :: 0 <= k < |runs[j]| ==> runs[j][k] < bound
    requires bound <= |rest| && bound <= |xs| && rest[..bound] == xs[..bound]
    ensures forall k :: 0 <= k < |runs[j]| ==> runs[j][k] < |rest| && rest[runs[j][k]].kind.Scalar?
    ensures forall v :: v in Picked(rest, runs[j]) ==> v.kind.Scalar?
  {
    forall k | 0 <= k < |runs[j]|
      ensures rest[runs[j][k]] == xs[runs[j][k]]
    {
      assert rest[runs[j][k]] == rest[..bound][runs[j][k]];
    }
  }

  lemma PickedMembers<T>(xs: seq<T>, ps: seq<nat>)
    requires forall k :: 0 <= k < |ps| ==> ps[k] < |xs|
    ensures forall v :: v in Picked(xs, ps) ==> v in xs
  {
    forall v | v in Picked(xs, ps)
      ensures v in xs
    {
      var k :| 0 <= k < |ps| && Picked(xs, ps)[k] == v;
      assert xs[ps[k]] == v;
    }
  }

  /** One step of the splice: the k-th child of the run leaves the
      collection (the first one giving its place to the identifier) and is
      appended to the identifier. */
  method MoveChild(collection: Variable, iden: Variable, xs: seq<Variable>, ps: seq<nat>, k: nat)
    requires collection.IsCollection() && iden.kind == IdentifierKind && iden != collection && iden !in xs
    requires Ascending(ps) && k < |ps| && Last(ps) < |xs|
    requires forall j :: 0 <= j < |ps| ==> ps[j] < |xs|
    requires xs[ps[k]].kind.Scalar?
    requires iden.children == Picked(xs, ps[..k])
    requires k == 0 ==> collection.children == xs
    requires k > 0 ==> collection.children == Spliced(xs, ps[..k], iden)
    requires forall v :: v in iden.children ==> v.parent == iden
    modifies collection, iden, xs[ps[k]]
    ensures iden.children == Picked(xs, ps[..k + 1]) && iden.children == old(iden.children) + [xs[ps[k]]]
    ensures collection.children == Spliced(xs, ps[..k + 1], iden)
    ensures collection.name == old(collection.name) && iden.name == old(iden.name)
    ensures iden.parent == old(iden.parent) && collection.parent == old(collection.parent)
    ensures xs[ps[k]].parent == iden
    ensures forall v :: v in xs && v != xs[ps[k]] ==> v.parent == old(v.parent)
    ensures forall v :: v in xs ==> v.name == old(v.name)
    ensures forall v :: v in xs && v != collection ==> v.children == old(v.children)
    ensures forall v :: v in iden.children ==> v.parent == iden
  {
    var q := if k == 0 then ps[0] else ps[k] - k + 1;
    PickedMembers(xs, ps[..k]);
    SpliceAdvance(xs, ps, k, iden, collection.children);
    PickedUnfold(xs, ps[..k + 1], ps[..k]);
    collection.children := RemoveAt(collection.children, q);
    if k == 0 {
      collection.children := InsertAt(collection.children, q, iden);
    }
    var _ := iden.Add(xs[ps[k]]);
  }

  /** The list the k-th step of the splice leaves: the k-th child of the run
      removed from where the earlier steps left it, and for the first one the
      identifier inserted in its place. */
  lemma SpliceAdvance<T>(xs: seq<T>, ps: seq<nat>, k: nat, iden: T, live: seq<T>)
    requires Ascending(ps) && k < |ps| && Last(ps) < |xs|
    requires k == 0 ==> live == xs
    requires k > 0 ==> Ascending(ps[..k]) && live == Spliced(xs, ps[..k], iden)
    ensures Ascending(ps[..k + 1]) && Last(ps[..k + 1]) < |xs|
    ensures var q := if k == 0 then ps[0] else ps[k] - k + 1;
            var gone := live[..q] + live[q + 1..];
            q < |live| && q <= |gone|
            && (k == 0 ==> gone[..q] + [iden] + gone[q..] == Spliced(xs, ps[..k + 1], iden))
            && (k > 0 ==> gone == Spliced(xs, ps[..k + 1], iden))
  {
    if k == 0 {
      assert forall j :: 0 <= j < |ps| ==> ps[j] <= Last(ps);
      SpliceFirst(xs, ps, iden);
    } else {
      SpliceNext(xs, ps, k, iden);
    }
  }

  /** The children after every run has been spliced, the last run first so
      that the positions of the earlier runs still hold. */
  function Compacted<T>(xs: seq<T>, runs: seq<seq<nat>>, j: nat, idens: seq<T>): (r: seq<T>)
    requires j <= |runs| && |idens| == |runs| - j
    requires RunsOrdered(runs) && (runs != [] ==> Last(Last(runs)) < |xs|)
    ensures j < |runs| ==> runs[j][0] < |r|
    decreases |runs| - j
  {
    if j == |runs| then xs
    else
      var rest := Compacted(xs, runs, j + 1, idens[1..]);
      assert j + 1 < |runs| ==> Last(runs[j]) < runs[j + 1][0];
      Spliced(rest, runs[j], idens[0])
  }

  /** Splicing the runs from j on leaves everything before run j in place. */
  lemma {:induction false} CompactedPrefix<T>(xs: seq<T>, runs: seq<seq<nat>>, j: nat, idens: seq<T>)
    requires j < |runs| && |idens| == |runs| - j
    requires RunsOrdered(runs) && Last(Last(runs)) < |xs|
    ensures var r := Compacted(xs, runs, j, idens);
            runs[j][0] < |r| && runs[j][0] < |xs| && r[..runs[j][0]] == xs[..runs[j][0]]
    decreases |runs| - j
  {
    var rest := Compacted(xs, runs, j + 1, idens[1..]);
    var p := runs[j][0];
    assert p <= Last(runs[j]);
    if j + 1 == |runs| {
      assert rest == xs;
    } else {
      CompactedPrefix(xs, runs, j + 1, idens[1..]);
      var bound := runs[j + 1][0];
      assert p < bound;
      assert rest[..p] == rest[..bound][..p] && xs[..p] == xs[..bound][..p];
    }
  }

  /** Every position of every run is below n. */
  predicate InBounds(runs: seq<seq<nat>>, n: nat)
  {
    forall j, k :: 0 <= j < |runs| && 0 <= k < |runs[j]| ==> runs[j][k] < n
  }

  lemma PickedPrefix<T>(xs: seq<T>, ys: seq<T>, ps: seq<nat>, n: nat)
    requires n <= |xs| && n <= |ys| && xs[..n] == ys[..n]
    requires forall k :: 0 <= k < |ps| ==> ps[k] < n
    ensures Picked(xs, ps) == Picked(ys, ps)
  {
    assert forall k :: 0 <= k < |ps| ==> xs[ps[k]] == xs[..n][ps[k]] && ys[ps[k]] == ys[..n][ps[k]];
  }

  /** One level of Compacted, with the values of the first run unaffected by
      the splices after it. */
  lemma CompactedStep<T>(xs: seq<T>, runs: seq<seq<nat>>, j: nat, idens: seq<T>, rest: seq<T>)
    requires j < |runs| && |idens| == |runs| - j
    requires RunsOrdered(runs) && Last(Last(runs)) < |xs|
    requires rest == Compacted(xs, runs, j + 1, idens[1..])
    ensures Last(runs[j]) < |rest|
    ensures Compacted(xs, runs, j, idens) == Spliced(rest, runs[j], idens[0])
    ensures var bound := if j + 1 == |runs| then |xs| else runs[j + 1][0];
            Last(runs[j]) < bound <= |rest| && bound <= |xs| && rest[..bound] == xs[..bound]
  {
    CompactedKeeps(xs, runs, j, idens[1..], rest);
  }

  /** Splicing the runs after run j leaves everything before run j + 1 in
      place. */
  lemma CompactedKeeps<T>(xs: seq<T>, runs: seq<seq<nat>>, j: nat, later: seq<T>, rest: seq<T>)
    requires j < |runs| && |later| == |runs| - j - 1
    requires RunsOrdered(runs) && Last(Last(runs)) < |xs|
    requires rest == Compacted(xs, runs, j + 1, later)
    ensures var bound := if j + 1 == |runs| then |xs| else runs[j + 1][0];
            Last(runs[j]) < bound <= |rest| && bound <= |xs| && rest[..bound] == xs[..bound]
  {
    if j + 1 == |runs| {
      assert rest == xs;
    } else {
      CompactedPrefix(xs, runs, j + 1, later);
      assert Last(runs[j]) < runs[j + 1][0];
    }
  }

  /** Splicing later runs leaves the values of an earlier run where they were. */
  lemma FirstRunKept<T>(xs: seq<T>, rest: seq<T>, run: seq<nat>, bound: nat)
    requires Ascending(run) && run != [] && Last(run) < bound <= |rest| && bound <= |xs|
    requires rest[..bound] == xs[..bound]
    ensures forall k :: 0 <= k < |run| ==> run[k] < |xs| && run[k] < |rest|
    ensures Picked(rest, run) == Picked(xs, run)
  {
    AscendingBelow(run, bound);
    PickedPrefix(rest, xs, run, bound);
  }

  lemma AscendingBelow(ps: seq<nat>, bound: nat)
    requires Ascending(ps) && ps != [] && Last(ps) < bound
    ensures forall k :: 0 <= k < |ps| ==> ps[k] < bound
  {
    assert forall k :: 0 <= k < |ps| ==> ps[k] <= Last(ps);
  }

  /** The only exception of the scan is the dereference of a null identity
      list, raised at the first value examined: the scan fails exactly when
      the identity list is null and some child is a value, and by then no run
      has been handed over. */
  lemma ScanFails(t: Template, items: seq<Variable>, sequential: bool)
    ensures ScanFrom(t, items, sequential, SCAN_START).Err? <==>
              t.identity.None? && exists p :: 0 <= p < |items| && items[p].kind.Scalar?
  {
    if t.identity.None? {
      ScanFailsFrom(t, items, sequential, SCAN_START);
    }
  }

  lemma {:induction false} ScanFailsFrom(t: Template, items: seq<Variable>, sequential: bool, s: ScanState)
    requires t.identity.None? && ScanInv(items, s) && s.mc == 0 && !s.repeat && s.pairs == []
    ensures ScanFrom(t, items, sequential, s).Err? <==> exists p :: s.i <= p < |items| && items[p].kind.Scalar?
    decreases |items| - s.i
  {
    if s.i < |items| && !items[s.i].kind.Scalar? {
      var next := Step(t, items, sequential, true, s).value;
      assert next.i == s.i + 1 && next.mc == 0 && !next.repeat && next.pairs == [];
      ScanFailsFrom(t, items, sequential, next);
      assert forall p :: s.i <= p < |items| && items[p].kind.Scalar? ==> s.i + 1 <= p;
    }
  }

  /** The runs a successful scan finds are runs of values inside the list. */
  lemma RunsAreValues(t: Template, items: seq<Variable>, runs: seq<seq<nat>>)
    requires forall j :: 0 <= j < |runs| ==> RunOk(t, items, runs[j])
    ensures ValuesAt(items, runs)
  {
    forall j, k | 0 <= j < |runs| && 0 <= k < |runs[j]|
      ensures runs[j][k] < |items| && items[runs[j][k]].kind.Scalar?
    {
      assert SlotOk(t, items, k, runs[j][k]);
    }
  }

  /** Template.CompactCollection: scan a snapshot of the children for runs of
      values that fill the template, then replace each run by a new
      identifier named `name` that holds the run's values; the result is the
      number of identifiers created. A null collection gives 0. */
  method CompactCollection(t: Template, collection: Variable?, name: string, sequential: bool)
    returns (r: Result<int>, ghost runs: seq<seq<nat>>, ghost idens: seq<Variable>)
    requires collection != null ==> collection.IsCollection()
    modifies collection, if collection == null then [] else collection.children
    ensures collection == null ==> r == Ok(0)
    ensures collection != null ==>
              var scan := old(ScanFrom(t, collection.children, sequential, SCAN_START));
              (r.Err? <==> scan.Err?)
              && (r.Err? ==> r.error == scan.error && collection.children == old(collection.children))
              && (r.Ok? ==> runs == scan.value.runs && r.value == |runs| && |idens| == |runs|
                            && RunsOrdered(runs) && (runs != [] ==> Last(Last(runs)) < |old(collection.children)|)
                            && ValuesAt(old(collection.children), runs)
                            && collection.children == Compacted(old(collection.children), runs, 0, idens))
    ensures collection != null && r.Ok? ==>
              forall j :: 0 <= j < |runs| ==>
                fresh(idens[j]) && IdentifierOf(idens[j], name, collection, Picked(old(collection.children), runs[j]))
  {
    runs, idens := [], [];
    if collection == null {
      return Ok(0), runs, idens;
    }
    var items := collection.children;
    var scanned := ScanChildren(t, items, sequential);
    if scanned.Err? {
      return Err(scanned.error), runs, idens;
    }
    var found := scanned.value;
    runs := found;
    ScanRuns(t, items, sequential);
    RunsAreValues(t, items, found);
    idens := SpliceRuns(collection, found, name);
    r := Ok(|found|);
  }

  /** __add as written: the loop records for each matched value the counter
      after its increment, the value's snapshot position plus one, and __add
      removes (and, for the first value, inserts the identifier) at those
      recorded indices with no allowance for the elements removed before. */
  function AddAsWritten(live: seq<Variable>, recorded: seq<nat>, iden: Variable, first: bool): (r: Result<seq<Variable>>)
    ensures r.Err? ==> r.error == ArgumentOutOfRange
    ensures r.Ok? ==> |r.value| == |live| - |recorded| + (if first && recorded != [] then 1 else 0)
    decreases |recorded|
  {
    if recorded == [] then Ok(live)
    else if recorded[0] >= |live| then Err(ArgumentOutOfRange)
    else
      var removed := RemoveAt(live, recorded[0]);
      AddAsWritten(if first then InsertAt(removed, recorded[0], iden) else removed, recorded[1..], iden, false)
  }

  /** A one-value run at the end of the children (position 0 of [x], recorded
      as 1) makes __add remove past the end of the list; one followed by a
      sibling y removes y and leaves x in the collection. The corrected splice
      replaces x by the identifier in both cases. */
  lemma AddAsWrittenMisplaces(x: Variable, y: Variable, iden: Variable)
    ensures AddAsWritten([x], [0 + 1], iden, true) == Err(ArgumentOutOfRange)
    ensures AddAsWritten([x, y], [0 + 1], iden, true) == Ok([x, iden])
    ensures Spliced([x], [0], iden) == [iden]
    ensures Spliced([x, y], [0], iden) == [iden, y]
  {
    assert RemoveAt([x, y], 1) == [x];
    assert InsertAt([x], 1, iden) == [x, iden];
    assert Between([x], [0]) == [] && Between([x, y], [0]) == [];
    assert [x, y][1..] == [y];
  }
}

=== FILE: csv_handler.dfy ===
/** StandardCSVParserHandler and the loading half of CSVFormatter: the state
    machine that files the parser's tokens into the rows and columns of a
    CSVMap. The handler's state is first described as a value (HState) with
    one transition per token; the handler class below is proved to carry
    those transitions out on its map and row objects. */
module CsvHandler {
  import opened Basics
  import opened Values
  import opened Variables
  import opened CsvData
  import opened CsvLexer
  import SL = ScriptLexer

  // ---------------------------------------------------------------- String.Trim

  /** Char.IsWhiteSpace: tab to carriage return, the space, U+0085, U+00A0 and
      the Unicode space, line and paragraph separators. */
  predicate IsWhiteSpace(c: char)
  {
    '\t' <= c <= '\r' || c == ' ' || c == '\U{85}' || c == '\U{A0}' || c == '\U{1680}'
    || '\U{2000}' <= c <= '\U{200A}' || c == '\U{2028}' || c == '\U{2029}' || c == '\U{202F}'
    || c == '\U{205F}' || c == '\U{3000}'
  }

  predicate AllWhiteSpace(s: string)
  {
    forall i :: 0 <= i < |s| ==> IsWhiteSpace(s[i])
  }

  /** How many white-space characters the text starts with. */
  function Leading(s: string): (n: nat)
    ensures n <= |s| && AllWhiteSpace(s[..n]) && (n < |s| ==> !IsWhiteSpace(s[n]))
  {
    if s != [] && IsWhiteSpace(s[0]) then
      var n := 1 + Leading(s[1..]);
      assert s[..n] == [s[0]] + s[1..][..n - 1];
      n
    else 0
  }

  /** How many white-space characters the text ends with. */
  function Trailing(s: string): (n: nat)
    ensures n <= |s| && AllWhiteSpace(s[|s| - n..]) && (n < |s| ==> !IsWhiteSpace(s[|s| - n - 1]))
  {
    if s != [] && IsWhiteSpace(s[|s| - 1]) then
      var n := 1 + Trailing(s[..|s| - 1]);
      assert s[|s| - n..] == s[..|s| - 1][|s| - n..] + [s[|s| - 1]];
      n
    else 0
  }

  /** String.Trim: the text between its leading and its trailing white
      space; nothing is left of a text that is all white space, and what is
      left neither starts nor ends with white space. */
  function Trim(s: string): (r: string)
    ensures r == [] <==> AllWhiteSpace(s)
    ensures r != [] ==> Leading(s) + |r| + Trailing(s) == |s| && r == s[Leading(s)..Leading(s) + |r|]
    ensures r != [] ==> !IsWhiteSpace(r[0]) && !IsWhiteSpace(r[|r| - 1])
  {
    var a, b := Leading(s), Trailing(s);
    if a == |s| then
      assert s[..a] == s;
      []
    else
      assert !AllWhiteSpace(s) by { assert !IsWhiteSpace(s[a]); }
      s[a..|s| - b]
  }

  // ---------------------------------------------------------------- the handler as a value

  /** A row being filled: its index and its cells by column. */
  datatype Row = Row(index: int, cells: map<int, Value>)

  /** The handler's state: the rows already in the map, the current row
      (none before the first), the index the next row gets, the current
      column, and whether nothing has been put in the current column yet. */
  datatype HState = HState(rows: map<int, map<int, Value>>, current: Option<Row>, rowindex: int,
                           column: int, lastempty: bool)

  /** The state Clean leaves: no rows, no current row, the beginning row next, column 0. */
  function Cleaned(begin: int): HState
  {
    HState(map[], None, begin, 0, true)
  }

  /** NewRow: the current row, if there is one, goes into the map under its
      index, and an empty row with the next index becomes current. */
  function NextRow(st: HState): HState
  {
    HState(if st.current.Some? then st.rows[st.current.value.index := st.current.value.cells] else st.rows,
           Some(Row(st.rowindex, map[])), st.rowindex + 1, 0, true)
  }

  /** AddToRow: a value in the current column of the current row, which is
      made first if there is none. */
  function WithCell(st: HState, v: Value): HState
  {
    var s := if st.current.None? then NextRow(st) else st;
    var row := s.current.value;
    s.(current := Some(row.(cells := row.cells[s.column := v])), lastempty := false)
  }

  /** A separator: a column still empty gets the empty string, then the
      next column begins, empty. */
  function NextColumn(st: HState): HState
  {
    var s := if st.lastempty then WithCell(st, StringValue([])) else st;
    s.(column := s.column + 1, lastempty := true)
  }

  /** An end of line or of input: a separator just before it leaves an empty
      string in the last column, then a new row begins. */
  function EndRow(st: HState): HState
  {
    NextRow(if st.lastempty && st.column != 0 then WithCell(st, StringValue([])) else st)
  }

  predicate IsValueToken(kind: CsvToken)
  {
    kind == String || kind == QuotedString || kind == Number || kind == Double
  }

  /** The value of a cell token: an unquoted string is trimmed and is a bool
      when it reads as one, a quoted one is kept as it is, a Number is
      converted by Token.ToInt and a Double by Token.ToFloat, either of
      which may throw. */
  function CellValue(kind: CsvToken, text: string): (r: Result<Value>)
    requires IsValueToken(kind)
    ensures kind == String ==> r.Ok? && (r.value.BoolValue? <==> StringToBool(Trim(text)) != -1)
                               && (r.value.StringValue? ==> r.value.s == Trim(text))
    ensures kind == QuotedString ==> r == Ok(StringValue(text))
    ensures kind == Number ==> (r.Ok? <==> ParseInt32(text).Ok?) && (r.Ok? ==> r.value == IntValue(ParseInt32(text).value))
    ensures kind == Double ==> (r.Ok? <==> SL.HasDigit(text)) && (r.Ok? ==> r.value == FloatValue(text))
    ensures r.Err? ==> r.error == OverflowError || r.error == FormatError
  {
    match kind
    case String =>
      var str := Trim(text);
      var bv := StringToBool(str);
      if bv != -1 then Ok(BoolValue(bv == 1)) else Ok(StringValue(str))
    case QuotedString => Ok(StringValue(text))
    case Number =>
      var n := ParseInt32(text);
      if n.Err? then Err(n.error) else Ok(IntValue(n.value))
    case Double => SL.DoubleOf(text)
  }

  /** HandleToken: one token's effect on the state. */
  function Handle(st: HState, l: Lexeme): (r: Result<HState>)
    ensures r.Err? <==> IsValueToken(l.kind) && CellValue(l.kind, l.text).Err?
    ensures r.Err? ==> r.error == OverflowError || r.error == FormatError
  {
    match l.kind
    case Separator => Ok(NextColumn(st))
    case EOL => Ok(EndRow(st))
    case EOF => Ok(EndRow(st))
    case NoToken => Ok(st)
    case _ =>
      match CellValue(l.kind, l.text)
      case Ok(v) => Ok(WithCell(st, v))
      case Err(e) => Err(e)
  }

  /** The tokens handed to HandleToken in order, until one throws. */
  function Run(st: HState, ls: seq<Lexeme>): (r: Result<HState>)
    ensures r.Err? ==> r.error == OverflowError || r.error == FormatError
    decreases |ls|
  {
    if ls == [] then Ok(st)
    else
      var h := Handle(st, ls[0]);
      if h.Err? then h else Run(h.value, ls[1..])
  }

  lemma {:induction false} RunConcat(st: HState, a: seq<Lexeme>, b: seq<Lexeme>)
    ensures Run(st, a + b) == if Run(st, a).Err? then Run(st, a) else Run(Run(st, a).value, b)
    decreases |a|
  {
    if a == [] {
      assert a + b == b;
    } else {
      assert (a + b)[0] == a[0] && (a + b)[1..] == a[1..] + b;
      var h := Handle(st, a[0]);
      if h.Ok? {
        RunConcat(h.value, a[1..], b);
      }
    }
  }

  /** Tokens each of which takes one state to the next take the first to the last. */
  lemma {:induction false} RunChain(sts: seq<HState>, ls: seq<Lexeme>)
    requires |sts| == |ls| + 1 && forall i :: 0 <= i < |ls| ==> Handle(sts[i], ls[i]) == Ok(sts[i + 1])
    ensures Run(sts[0], ls) == Ok(sts[|ls|])
    decreases |ls|
  {
    if ls != [] {
      RunChain(sts[1..], ls[1..]);
    }
  }

  // ---------------------------------------------------------------- the shape the handler keeps

  /** The cells are exactly the columns 0 to n - 1. */
  ghost predicate Spans(cells: map<int, Value>, n: int)
  {
    |cells| == n && forall k :: k in cells <==> 0 <= k < n
  }

  /** A row without gaps: its cells are the columns 0 to its size - 1. */
  ghost predicate Dense(cells: map<int, Value>)
  {
    forall k :: k in cells <==> 0 <= k < |cells|
  }

  /** The columns the current row holds: those before the current column,
      and the current column once a value went into it. */
  function Filled(st: HState): int
  {
    if st.lastempty then st.column else st.column + 1
  }

  /** What the handler keeps true from Cleaned(begin) on: before the first row
      nothing is stored; afterwards the stored rows are exactly those from
      begin up to the current row, which has the latest index; every stored
      row is without gaps, and the current row holds the columns before the
      current one (and the current one once it has a value). */
  ghost predicate Shaped(st: HState, begin: int)
  {
    && st.column >= 0
    && (st.current.None? ==> st.rows == map[] && st.rowindex == begin && st.column == 0 && st.lastempty)
    && (st.current.Some? ==>
          && st.current.value.index == st.rowindex - 1 && begin < st.rowindex
          && (forall k :: k in st.rows <==> begin <= k < st.rowindex - 1)
          && Spans(st.current.value.cells, Filled(st)))
    && (forall k :: k in st.rows ==> Dense(st.rows[k]))
  }

  lemma CleanedShaped(begin: int)
    ensures Shaped(Cleaned(begin), begin)
  {
  }

  /** NewRow files a gap-free row and starts an empty one. */
  lemma NextRowShaped(st: HState, begin: int)
    requires Shaped(st, begin)
    ensures Shaped(NextRow(st), begin)
    ensures NextRow(st).current == Some(Row(NextRow(st).rowindex - 1, map[]))
  {
    var r := NextRow(st);
    if st.current.Some? {
      var cells := st.current.value.cells;
      assert Dense(cells);
      forall k | k in r.rows
        ensures Dense(r.rows[k])
      {
        if k != st.current.value.index {
          assert k in st.rows;
        }
      }
    }
  }

  /** A value goes into the current column, which then counts as filled. */
  lemma WithCellShaped(st: HState, v: Value, begin: int)
    requires Shaped(st, begin)
    ensures Shaped(WithCell(st, v), begin)
    ensures WithCell(st, v).column == st.column && !WithCell(st, v).lastempty
  {
    var s := if st.current.None? then NextRow(st) else st;
    NextRowShaped(st, begin);
    var cells := s.current.value.cells;
    if s.lastempty {
      assert s.column !in cells;
    } else {
      assert s.column in cells;
    }
  }

  lemma EndRowShaped(st: HState, begin: int)
    requires Shaped(st, begin)
    ensures Shaped(EndRow(st), begin)
    ensures EndRow(st).current == Some(Row(EndRow(st).rowindex - 1, map[]))
  {
    var s := if st.lastempty && st.column != 0 then WithCell(st, StringValue([])) else st;
    WithCellShaped(st, StringValue([]), begin);
    NextRowShaped(s, begin);
  }

  /** Every token keeps the shape, and an end of line or of input leaves an
      empty current row. */
  lemma HandleShaped(st: HState, l: Lexeme, begin: int)
    requires Shaped(st, begin) && Handle(st, l).Ok?
    ensures Shaped(Handle(st, l).value, begin)
    ensures l.kind == EOL || l.kind == EOF ==> Handle(st, l).value.current == Some(Row(Handle(st, l).value.rowindex - 1, map[]))
  {
    match l.kind
    case Separator =>
      var s := if st.lastempty then WithCell(st, StringValue([])) else st;
      WithCellShaped(st, StringValue([]), begin);
      assert Filled(s) == s.column + 1;
    case EOL => EndRowShaped(st, begin);
    case EOF => EndRowShaped(st, begin);
    case NoToken =>
    case _ => WithCellShaped(st, CellValue(l.kind, l.text).value, begin);
  }

  lemma {:induction false} RunShaped(st: HState, ls: seq<Lexeme>, begin: int)
    requires Shaped(st, begin) && Run(st, ls).Ok?
    ensures Shaped(Run(st, ls).value, begin)
    decreases |ls|
  {
    if ls != [] {
      var h := Handle(st, ls[0]);
      assert h.Ok? && Run(st, ls) == Run(h.value, ls[1..]);
      HandleShaped(st, ls[0], begin);
      RunShaped(h.value, ls[1..], begin);
    }
  }

  /** Handling tokens that end with EOF leaves an empty current row: nothing
      read is left outside the map. */
  lemma RunEndsOnEmptyRow(st: HState, ls: seq<Lexeme>, begin: int)
    requires Shaped(st, begin) && ls != [] && ls[|ls| - 1].kind == EOF && Run(st, ls).Ok?
    ensures Run(st, ls).value.current == Some(Row(Run(st, ls).value.rowindex - 1, map[]))
  {
    var init, last := ls[..|ls| - 1], ls[|ls| - 1];
    assert init + [last] == ls;
    RunConcat(st, init, [last]);
    RunShaped(st, init, begin);
    var s := Run(st, init).value;
    assert [last][1..] == [];
    assert Run(s, [last]) == Handle(s, last);
    HandleShaped(s, last, begin);
  }

  // ---------------------------------------------------------------- Process

  /** Process as it runs: each call of Parse hands its tokens to the handler
      before the next token is read, so the first error, of either, ends it.
      The only errors are the parser's and the number conversions'. Drive is
      the whole run and Pump its first round; the two halves keep a proof
      about one round from having to look inside the next. */
  function Drive(input: string, cfg: Config, c: SL.Cursor, st: HState): (r: Result<HState>)
    requires c.pos <= |input|
    ensures r.Err? ==> r.error.ParserError? || r.error == OverflowError || r.error == FormatError
    decreases SL.Measure(input, c), 1
  {
    Pump(input, cfg, c, st)
  }

  /** One call of Parse, its tokens handed to the handler, then the rest. */
  function Pump(input: string, cfg: Config, c: SL.Cursor, st: HState): (r: Result<HState>)
    requires c.pos <= |input|
    ensures r.Err? ==> r.error.ParserError? || r.error == OverflowError || r.error == FormatError
    decreases SL.Measure(input, c), 0
  {
    var step := ParseStep(input, cfg, c);
    if step.Err? then Err(step.error)
    else
      var h := Run(st, step.value.handed);
      if h.Err? || !step.value.more then h
      else Drive(input, cfg, step.value.at, h.value)
  }

  /** Interleaving changes nothing when both succeed: driving the handler
      token by token is handling the whole token list of the input. */
  lemma {:induction false} DriveIsRunOfLex(input: string, cfg: Config, c: SL.Cursor, st: HState)
    requires c.pos <= |input|
    ensures Drive(input, cfg, c, st).Ok? <==> LexFrom(input, cfg, c).Ok? && Run(st, LexFrom(input, cfg, c).value).Ok?
    ensures Drive(input, cfg, c, st).Ok? ==> Drive(input, cfg, c, st) == Run(st, LexFrom(input, cfg, c).value)
    decreases SL.Measure(input, c)
  {
    assert Drive(input, cfg, c, st) == Pump(input, cfg, c, st);
    var step := ParseStep(input, cfg, c);
    if step.Ok? && step.value.more {
      var h := Run(st, step.value.handed);
      if h.Ok? {
        DriveIsRunOfLex(input, cfg, step.value.at, h.value);
      }
      if LexFrom(input, cfg, step.value.at).Ok? {
        RunConcat(st, step.value.handed, LexFrom(input, cfg, step.value.at).value);
      }
    }
  }

  /** ProcessFromStream on a whole input, from a handler cleaned for the
      beginning row `begin`: the state it leaves, whose rows are the map. */
  function ProcessSpec(input: string, cfg: Config, begin: int): Result<HState>
  {
    Drive(input, cfg, SL.Start(input), Cleaned(begin))
  }

  /** What a successful load gives: rows numbered from the beginning row on
      without a gap, each row holding columns 0 to n - 1 without a gap, and
      an empty current row, so that every value read is in the map. */
  lemma ProcessShape(input: string, cfg: Config, begin: int)
    ensures var p := ProcessSpec(input, cfg, begin);
            p.Ok? ==> Complete(p.value, begin)
  {
    ProcessTokens(input, cfg, begin);
    if ProcessSpec(input, cfg, begin).Ok? {
      RunShape(LexFrom(input, cfg, SL.Start(input)).value, begin);
    }
  }

  /** A successful ProcessFromStream handles the whole token list of the
      input (which ends with EOF), in one go. */
  lemma ProcessTokens(input: string, cfg: Config, begin: int)
    ensures var p := ProcessSpec(input, cfg, begin);
            var lexed := LexFrom(input, cfg, SL.Start(input));
            p.Ok? ==> lexed.Ok? && p == Run(Cleaned(begin), lexed.value)
  {
    DriveIsRunOfLex(input, cfg, SL.Start(input), Cleaned(begin));
  }

  /** Rows numbered from begin on without a gap, each without a gap, and an
      empty current row, the next after them. */
  ghost predicate Complete(s: HState, begin: int)
  {
    && s.rowindex - 1 >= begin
    && (forall k :: k in s.rows <==> begin <= k < s.rowindex - 1)
    && (forall k :: k in s.rows ==> Dense(s.rows[k]))
    && s.current == Some(Row(s.rowindex - 1, map[]))
  }

  /** The same, for the tokens of the whole input handled in one go. */
  lemma RunShape(ls: seq<Lexeme>, begin: int)
    requires ls != [] && ls[|ls| - 1].kind == EOF && Run(Cleaned(begin), ls).Ok?
    ensures Complete(Run(Cleaned(begin), ls).value, begin)
  {
    CleanedShaped(begin);
    RunShaped(Cleaned(begin), ls, begin);
    RunEndsOnEmptyRow(Cleaned(begin), ls, begin);
    var s := Run(Cleaned(begin), ls).value;
    assert Shaped(s, begin) && s.current.Some?;
  }

  /** CSVFormatter.LoadFromStream(stream, separator, header): the first row
      read is row -1 when there is a header line and row 0 otherwise. */
  function Load(input: string, sep: char, header: bool): Result<HState>
  {
    ProcessSpec(input, Config(sep, BlanksFor(sep)), if header then -1 else 0)
  }

  /** With a header, the header line is row -1, where HeaderCount looks, and
      the data rows follow from 0. */
  lemma LoadedHeader(input: string, sep: char)
    ensures var p := Load(input, sep, true);
            p.Ok? ==> forall k :: k in p.value.rows <==> -1 <= k < p.value.rowindex - 1
  {
    ProcessShape(input, Config(sep, BlanksFor(sep)), -1);
  }

  // ---------------------------------------------------------------- examples

  /** An empty input still gives one row, row 0, with no cells: the parser
      hands over EOF twice and each starts a row. */
  lemma EmptyInputOneEmptyRow()
    ensures Load("", ',', false) == Ok(HState(map[0 := map[]], Some(Row(1, map[])), 2, 0, true))
  {
    var cfg := Config(',', BlanksFor(','));
    var c := SL.Start("");
    assert c == SL.Cursor(0, SL.EndOfInput, 1, 0);
    assert SkipBlanks("", cfg, c) == c;
    assert Classify(cfg, c) == (EOF, "");
    assert ReadTokenSpec("", cfg, Lexed(c, EOF, "")) == Ok(Lexed(c, EOF, ""));
    var eof := Lexeme(EOF, "", 1, 0);
    assert ParseStep("", cfg, c) == Ok(Step(c, [eof, eof], false));
    var st1 := HState(map[], Some(Row(0, map[])), 1, 0, true);
    assert Handle(Cleaned(0), eof) == Ok(st1);
    assert Run(Cleaned(0), [eof, eof]) == Run(st1, [eof]);
  }

  /** The unquoted cell `true ` is trimmed to `true`, a bool. */
  lemma TrimmedTrue()
    ensures CellValue(String, "true ") == Ok(BoolValue(true))
  {
    assert Leading("true ") == 0;
    assert Trailing("true ") == 1 by {
      assert Trailing("true") == 0;
      assert "true "[..4] == "true";
    }
    assert Trim("true ") == "true";
    assert EqualsIgnoreCase("true", "true");
  }

  /** A trailing separator leaves an empty string in the last column, an
      unquoted cell is trimmed and read as a bool when it is one, and a
      final newline is followed by one more, empty, row. The tokens are
      those of `true ,` and a newline. */
  lemma TrailingSeparatorAndNewline(ls: seq<Lexeme>)
    requires ls == [Lexeme(String, "true ", 1, 1), Lexeme(Separator, ",", 1, 6), Lexeme(EOL, "", 1, 7), Lexeme(EOF, "", 2, 0)]
    ensures Run(Cleaned(0), ls)
            == Ok(HState(map[0 := map[0 := BoolValue(true), 1 := StringValue([])], 1 := map[]],
                         Some(Row(2, map[])), 3, 0, true))
  {
    var sts := [Cleaned(0),
                HState(map[], Some(Row(0, map[0 := BoolValue(true)])), 1, 0, false),
                HState(map[], Some(Row(0, map[0 := BoolValue(true)])), 1, 1, true),
                HState(map[0 := map[0 := BoolValue(true), 1 := StringValue([])]], Some(Row(1, map[])), 2, 0, true),
                HState(map[0 := map[0 := BoolValue(true), 1 := StringValue([])], 1 := map[]], Some(Row(2, map[])), 3, 0, true)];
    TrailingSteps(ls, sts);
    RunChain(sts, ls);
  }

  lemma TrailingSteps(ls: seq<Lexeme>, sts: seq<HState>)
    requires ls == [Lexeme(String, "true ", 1, 1), Lexeme(Separator, ",", 1, 6), Lexeme(EOL, "", 1, 7), Lexeme(EOF, "", 2, 0)]
    requires sts == [Cleaned(0),
                     HState(map[], Some(Row(0, map[0 := BoolValue(true)])), 1, 0, false),
                     HState(map[], Some(Row(0, map[0 := BoolValue(true)])), 1, 1, true),
                     HState(map[0 := map[0 := BoolValue(true), 1 := StringValue([])]], Some(Row(1, map[])), 2, 0, true),
                     HState(map[0 := map[0 := BoolValue(true), 1 := StringValue([])], 1 := map[]], Some(Row(2, map[])), 3, 0, true)]
    ensures |sts| == |ls| + 1 && forall i :: 0 <= i < |ls| ==> Handle(sts[i], ls[i]) == Ok(sts[i + 1])
  {
    TrueCell(ls[0], sts[0], sts[1]);
    EmptySecondCell(ls[1], sts[1], sts[2]);
    FirstRowFiled(ls[2], sts[2], sts[3]);
    SecondRowFiled(ls[3], sts[3], sts[4]);
  }

  lemma TrueCell(l: Lexeme, st: HState, next: HState)
    requires l == Lexeme(String, "true ", 1, 1) && st == Cleaned(0)
    requires next == HState(map[], Some(Row(0, map[0 := BoolValue(true)])), 1, 0, false)
    ensures Handle(st, l) == Ok(next)
  {
    TrimmedTrue();
  }

  lemma EmptySecondCell(l: Lexeme, st: HState, next: HState)
    requires l == Lexeme(Separator, ",", 1, 6)
    requires st == HState(map[], Some(Row(0, map[0 := BoolValue(true)])), 1, 0, false)
    requires next == HState(map[], Some(Row(0, map[0 := BoolValue(true)])), 1, 1, true)
    ensures Handle(st, l) == Ok(next)
  {
  }

  lemma FirstRowFiled(l: Lexeme, st: HState, next: HState)
    requires l == Lexeme(EOL, "", 1, 7)
    requires st == HState(map[], Some(Row(0, map[0 := BoolValue(true)])), 1, 1, true)
    requires next == HState(map[0 := map[0 := BoolValue(true), 1 := StringValue([])]], Some(Row(1, map[])), 2, 0, true)
    ensures Handle(st, l) == Ok(next)
  {
  }

  lemma SecondRowFiled(l: Lexeme, st: HState, next: HState)
    requires l == Lexeme(EOF, "", 2, 0)
    requires st == HState(map[0 := map[0 := BoolValue(true), 1 := StringValue([])]], Some(Row(1, map[])), 2, 0, true)
    requires next == HState(map[0 := map[0 := BoolValue(true), 1 := StringValue([])], 1 := map[]], Some(Row(2, map[])), 3, 0, true)
    ensures Handle(st, l) == Ok(next)
  {
  }
}

=== FILE: csv_lexer.dfy ===
/** CSVParser: the character-at-a-time tokenizer of the CSV reader. It reads
    the stream exactly as the script lexer does (the same cursor, the same
    treatment of carriage returns and of the end of input), but its token
    kinds are fixed by the separator, and its whitespace set is whatever the
    Separator setter last made it. Each token the parser hands to its handler
    is returned instead, in order. */
module CsvLexer {
  import opened Basics
  import opened CharRanges
  import opened Values
  import opened Tokens
  import SL = ScriptLexer

  datatype CsvToken =
    | NoToken
    | String
    | QuotedString
    | Number
    | Double
    | Separator
    | EOF
    | EOL

  /** What the parser's behaviour depends on besides the input: the
      separator and the ranges of its whitespace set. */
  datatype Config = Config(sep: char, blanks: seq<CharRange>)

  predicate IsBlank(cfg: Config, ch: char) { SetHas(cfg.blanks, ch) }

  /** A token being read: where the cursor is, the kind so far and the lexeme so far. */
  datatype Lexed = Lexed(at: SL.Cursor, kind: CsvToken, text: string)

  /** A token as the handler receives it. */
  datatype Lexeme = Lexeme(kind: CsvToken, text: string, line: int, col: int)

  // ---------------------------------------------------------------- the separator

  /** The ranges the Separator setter leaves in the whitespace set: a space
      unless the separator is a space, then a tab unless it is a tab. */
  function BlanksFor(sep: char): seq<CharRange>
  {
    (if sep != ' ' then [Single(' ' as int)] else []) + (if sep != '\t' then [Single('\t' as int)] else [])
  }

  /** The whitespace set is space and tab, less the separator: a separator
      is never skipped as whitespace. */
  lemma BlanksForSeparator(sep: char, c: char)
    ensures SetHas(BlanksFor(sep), c) <==> (c == ' ' || c == '\t') && c != sep
  {
    var bs := BlanksFor(sep);
    if c == ' ' && sep != ' ' {
      assert RangeContains(bs[0], c);
    } else if c == '\t' && sep != '\t' {
      assert RangeContains(bs[|bs| - 1], c);
    }
  }

  // ---------------------------------------------------------------- reading tokens

  /** SkipWhitespace: past the characters of the whitespace set. */
  function SkipBlanks(input: string, cfg: Config, c: SL.Cursor): (r: SL.Cursor)
    requires c.pos <= |input|
    ensures r.pos <= |input| && SL.Measure(input, r) <= SL.Measure(input, c)
    ensures !(r.cur.Chr? && IsBlank(cfg, r.cur.c))
    decreases SL.Measure(input, c)
  {
    if c.cur.Chr? && IsBlank(cfg, c.cur.c) then SkipBlanks(input, cfg, SL.Next(input, c)) else c
  }

  /** ReadStringToken: decodes escapes and stops before the separator or a
      newline; whitespace belongs to the string. A quote or an unknown
      escape is a PARSER error. */
  function ReadString(input: string, cfg: Config, s: Lexed): (r: Result<Lexed>)
    requires s.at.pos <= |input|
    ensures s.at.cur == SL.Chr('"') ==> r == Err(ParserError(UnexpectedQuote))
    ensures r.Ok? ==> r.value.at.pos <= |input| && SL.Measure(input, r.value.at) <= SL.Measure(input, s.at)
    ensures r.Ok? ==> r.value.kind == s.kind && |s.text| <= |r.value.text| && r.value.text[..|s.text|] == s.text
    ensures r.Ok? ==> r.value.at.cur in {SL.EndOfInput, SL.Chr(cfg.sep), SL.Chr('\n')}
    ensures r.Err? ==> r.error == ParserError(UnexpectedQuote) || r.error == ParserError(UnknownEscape)
    decreases SL.Measure(input, s.at)
  {
    match s.at.cur
    case EndOfInput => Ok(s)
    case Chr(ch) =>
      if ch == '"' then Err(ParserError(UnexpectedQuote))
      else if ch == '\\' then
        var n := SL.Next(input, s.at);
        var e := if n.cur.Chr? then GetEscapeChar(n.cur.c) else None;
        if e.None? then Err(ParserError(UnknownEscape))
        else ReadString(input, cfg, s.(at := SL.Next(input, n), text := s.text + [e.value]))
      else if ch == cfg.sep || ch == '\n' then Ok(s)
      else ReadString(input, cfg, s.(at := SL.Next(input, s.at), text := s.text + [ch]))
  }

  /** What ends a Number or a Double: the separator, a newline or whitespace. */
  predicate EndsNumber(cfg: Config, ch: char)
  {
    ch == cfg.sep || ch == '\n' || IsBlank(cfg, ch)
  }

  /** ReadDoubleToken: digits extend the token; anything else that does not
      end it (a second point among them) turns it into a String. */
  function ReadDouble(input: string, cfg: Config, s: Lexed): (r: Result<Lexed>)
    requires s.at.pos <= |input|
    ensures s.at.cur == SL.Chr('"') ==> r == Err(ParserError(UnexpectedQuote))
    ensures r.Ok? ==> r.value.at.pos <= |input| && SL.Measure(input, r.value.at) <= SL.Measure(input, s.at)
    ensures r.Ok? ==> r.value.kind == s.kind || r.value.kind == String
    ensures r.Err? ==> r.error == ParserError(UnexpectedQuote) || r.error == ParserError(UnknownEscape)
    decreases SL.Measure(input, s.at)
  {
    match s.at.cur
    case EndOfInput => Ok(s)
    case Chr(ch) =>
      if ch == '"' then Err(ParserError(UnexpectedQuote))
      else if EndsNumber(cfg, ch) then Ok(s)
      else if IsDigit(ch) then ReadDouble(input, cfg, s.(at := SL.Next(input, s.at), text := s.text + [ch]))
      else ReadString(input, cfg, s.(kind := String))
  }

  /** ReadNumberToken: digits extend the token, the first point makes it a
      Double, and anything else that does not end it makes it a String. */
  function ReadNumber(input: string, cfg: Config, s: Lexed): (r: Result<Lexed>)
    requires s.at.pos <= |input|
    ensures s.at.cur == SL.Chr('"') ==> r == Err(ParserError(UnexpectedQuote))
    ensures r.Ok? ==> r.value.at.pos <= |input| && SL.Measure(input, r.value.at) <= SL.Measure(input, s.at)
    ensures r.Ok? ==> r.value.kind in {s.kind, Double, String}
    ensures r.Err? ==> r.error == ParserError(UnexpectedQuote) || r.error == ParserError(UnknownEscape)
    decreases SL.Measure(input, s.at)
  {
    match s.at.cur
    case EndOfInput => Ok(s)
    case Chr(ch) =>
      if ch == '"' then Err(ParserError(UnexpectedQuote))
      else if EndsNumber(cfg, ch) then Ok(s)
      else if IsDigit(ch) then ReadNumber(input, cfg, s.(at := SL.Next(input, s.at), text := s.text + [ch]))
      else if ch == '.' then ReadDouble(input, cfg, Lexed(SL.Next(input, s.at), Double, s.text + [ch]))
      else ReadString(input, cfg, s.(kind := String))
  }

  /** The loop of ReadQuotedStringToken, up to the closing quote: `eol` is
      set once a newline has been kept; further newlines and whitespace are
      dropped until the next other character, which is kept. */
  function ReadQuoted(input: string, cfg: Config, s: Lexed, eol: bool): (r: Result<Lexed>)
    requires s.at.pos <= |input|
    ensures r.Ok? ==> r.value.at.pos <= |input| && SL.Measure(input, r.value.at) <= SL.Measure(input, s.at)
    ensures r.Ok? ==> r.value.kind == s.kind && r.value.at.cur == SL.Chr('"')
    ensures r.Err? ==> r.error == ParserError(EofInQuotedString) || r.error == ParserError(UnknownEscape)
    decreases SL.Measure(input, s.at)
  {
    match s.at.cur
    case EndOfInput => Err(ParserError(EofInQuotedString))
    case Chr(ch) =>
      if ch == '"' then Ok(s)
      else if ch == '\\' then
        var n := SL.Next(input, s.at);
        var e := if n.cur.Chr? then GetEscapeChar(n.cur.c) else None;
        if e.None? then Err(ParserError(UnknownEscape))
        else ReadQuoted(input, cfg, s.(at := SL.Next(input, n), text := s.text + [e.value]), eol)
      else
        var kept := if eol then s.text else s.text + [ch];
        var text := if ch != '\n' && eol && !IsBlank(cfg, ch) then kept + [ch] else kept;
        var eol' := if ch == '\n' then true else if eol && !IsBlank(cfg, ch) then false else eol;
        ReadQuoted(input, cfg, s.(at := SL.Next(input, s.at), text := text), eol')
  }

  /** NextToken: the first character decides the kind, and a digit, sign or
      point seeds the lexeme. The quote, the newline and the point are
      tested before the separator. */
  function Classify(cfg: Config, c: SL.Cursor): (r: (CsvToken, string))
    ensures r.0 == EOF <==> c.cur == SL.EndOfInput
    ensures r.0 == Separator <==> c.cur == SL.Chr(cfg.sep) && !(cfg.sep in {'"', '\n', '.'})
  {
    match c.cur
    case EndOfInput => (EOF, "")
    case Chr(ch) =>
      if ch == '"' then (QuotedString, "")
      else if ch == '\n' then (EOL, "")
      else if ch == '.' then (Double, ".")
      else if ch == cfg.sep then (Separator, "")
      else if IsDigit(ch) || IsSign(ch) then (Number, [ch])
      else (String, "")
  }

  /** The first switch of ReadToken: read the rest of the token by its kind. */
  function ReadBody(input: string, cfg: Config, s: Lexed): (r: Result<Lexed>)
    requires s.at.pos <= |input|
    ensures r.Ok? ==> r.value.at.pos <= |input| && SL.Measure(input, r.value.at) <= SL.Measure(input, s.at)
    ensures r.Ok? && s.at.cur.Chr? && s.kind !in {String, NoToken, EOF} ==> SL.Measure(input, r.value.at) < SL.Measure(input, s.at)
    ensures r.Err? ==> r.error.ParserError?
  {
    match s.kind
    case QuotedString =>
      var q := ReadQuoted(input, cfg, s.(at := SL.Next(input, s.at)), false);
      if q.Err? then q else Ok(q.value.(at := SL.Next(input, q.value.at)))
    case String => ReadString(input, cfg, s)
    case Number => ReadNumber(input, cfg, s.(at := SL.Next(input, s.at)))
    case Double => ReadDouble(input, cfg, s.(at := SL.Next(input, s.at)))
    case Separator => Ok(s.(at := SL.Next(input, s.at)))
    case EOL => Ok(s.(at := SL.Next(input, s.at)))
    case EOF => Ok(s)
    case NoToken => Ok(s)
  }

  /** The second switch of ReadToken: a Number of signs only, or a Double of
      signs only or of points only, is a String. */
  function Resolve(kind: CsvToken, text: string): (k: CsvToken)
    ensures kind == Number ==> (k == String <==> SL.AllSigns(text)) && (k != String ==> k == Number)
    ensures kind == Double ==> (k == String <==> SL.AllSigns(text) || SL.AllPoints(text)) && (k != String ==> k == Double)
    ensures kind !in {Number, Double} ==> k == kind
  {
    if kind == Number && SL.AllSigns(text) then String
    else if kind == Double && (SL.AllSigns(text) || SL.AllPoints(text)) then String
    else kind
  }

  /** ReadToken: read the body, then resolve the kind. */
  function ReadTokenSpec(input: string, cfg: Config, s: Lexed): (r: Result<Lexed>)
    requires s.at.pos <= |input|
    ensures r.Ok? ==> r.value.at.pos <= |input| && SL.Measure(input, r.value.at) <= SL.Measure(input, s.at)
    ensures r.Ok? && s.at.cur.Chr? && s.kind !in {String, NoToken, EOF} ==> SL.Measure(input, r.value.at) < SL.Measure(input, s.at)
    ensures r.Err? ==> r.error.ParserError?
  {
    var b := ReadBody(input, cfg, s);
    if b.Err? then b else Ok(b.value.(kind := Resolve(b.value.kind, b.value.text)))
  }

  /** What one call of Parse leaves: the cursor, the tokens handed to the
      handler (the token read, and an EOF token when the input has ended),
      and whether the parse goes on. */
  datatype Step = Step(at: SL.Cursor, handed: seq<Lexeme>, more: bool)

  /** Parse: skip whitespace, classify, read; at the end of the input an EOF
      token is handed over as well. Its second test, of a token of kind EOF
      away from the end of the input, is left out: SecondTestNeverFires shows
      that it cannot succeed. */
  function ParseStep(input: string, cfg: Config, c: SL.Cursor): (r: Result<Step>)
    requires c.pos <= |input|
    ensures r.Ok? ==> r.value.at.pos <= |input| && 1 <= |r.value.handed| <= 2
    ensures r.Ok? && r.value.more ==> SL.Measure(input, r.value.at) < SL.Measure(input, c) && |r.value.handed| == 1
    ensures r.Ok? && !r.value.more ==> |r.value.handed| == 2 && r.value.handed[1].kind == EOF
    ensures r.Ok? && !r.value.more ==> r.value.at.cur == SL.EndOfInput
    ensures r.Err? ==> r.error.ParserError?
  {
    var w := SkipBlanks(input, cfg, c);
    var k := Classify(cfg, w);
    var t := ReadTokenSpec(input, cfg, Lexed(w, k.0, k.1));
    if t.Err? then Err(t.error)
    else
      var read := Lexeme(t.value.kind, t.value.text, w.line, w.col);
      if t.value.at.cur == SL.EndOfInput then
        Ok(Step(t.value.at, [read, Lexeme(EOF, "", w.line, w.col)], false))
      else
        TokenMoves(input, cfg, w);
        Ok(Step(t.value.at, [read], true))
  }

  /** The second test of Parse, a token of kind EOF while input remains,
      never succeeds: a read token of that kind always ends the parse. */
  lemma SecondTestNeverFires(input: string, cfg: Config, c: SL.Cursor)
    requires c.pos <= |input|
    ensures var r := ParseStep(input, cfg, c); r.Ok? && r.value.handed[0].kind == EOF ==> !r.value.more
  {
  }

  /** A token consumes its first character: the character that selects a
      String is neither the separator nor a newline. */
  lemma TokenMoves(input: string, cfg: Config, w: SL.Cursor)
    requires w.pos <= |input| && w.cur.Chr?
    requires ReadTokenSpec(input, cfg, Lexed(w, Classify(cfg, w).0, Classify(cfg, w).1)).Ok?
    ensures SL.Measure(input, ReadTokenSpec(input, cfg, Lexed(w, Classify(cfg, w).0, Classify(cfg, w).1)).value.at)
              < SL.Measure(input, w)
  {
    var (kind, text) := Classify(cfg, w);
    if kind == String {
      var ch := w.cur.c;
      assert ch != '"' && ch != cfg.sep && ch != '\n';
      if ch != '\\' {
        assert ReadString(input, cfg, Lexed(w, kind, text))
               == ReadString(input, cfg, Lexed(SL.Next(input, w), kind, text + [ch]));
      }
    }
  }

  /** The tokens the parser hands over from cursor c until Parse reports the end. */
  function LexFrom(input: string, cfg: Config, c: SL.Cursor): (r: Result<seq<Lexeme>>)
    requires c.pos <= |input|
    ensures r.Ok? ==> |r.value| >= 2 && r.value[|r.value| - 1].kind == EOF
    decreases SL.Measure(input, c)
  {
    var st := ParseStep(input, cfg, c);
    if st.Err? then Err(st.error)
    else if !st.value.more then Ok(st.value.handed)
    else
      var rest := LexFrom(input, cfg, st.value.at);
      if rest.Err? then rest else Ok(st.value.handed + rest.value)
  }

  /** Every token the parser hands over for the whole input. */
  function Lex(input: string, sep: char): (r: Result<seq<Lexeme>>)
    ensures r.Ok? ==> |r.value| >= 2 && r.value[|r.value| - 1].kind == EOF
  {
    var r := LexFrom(input, Config(sep, BlanksFor(sep)), SL.Start(input));
    r
  }

  // ---------------------------------------------------------------- token shapes

  lemma {:induction false} DoubleShape(input: string, cfg: Config, s: Lexed)
    requires s.at.pos <= |input| && s.kind == Double && SL.DoubleText(s.text)
    ensures var r := ReadDouble(input, cfg, s); r.Ok? && r.value.kind == Double ==> SL.DoubleText(r.value.text)
    decreases SL.Measure(input, s.at)
  {
    match s.at.cur
    case EndOfInput =>
    case Chr(ch) =>
      if ch != '"' && !EndsNumber(cfg, ch) && IsDigit(ch) {
        var t := s.text + [ch];
        assert multiset(t) == multiset(s.text) + multiset{ch};
        DoubleShape(input, cfg, s.(at := SL.Next(input, s.at), text := t));
      }
  }

  lemma {:induction false} NumberShape(input: string, cfg: Config, s: Lexed)
    requires s.at.pos <= |input| && s.kind == Number && SL.NumberText(s.text)
    ensures var r := ReadNumber(input, cfg, s);
            r.Ok? ==> (r.value.kind == Number ==> SL.NumberText(r.value.text))
                      && (r.value.kind == Double ==> SL.DoubleText(r.value.text))
    decreases SL.Measure(input, s.at)
  {
    match s.at.cur
    case EndOfInput =>
    case Chr(ch) =>
      if ch != '"' && !EndsNumber(cfg, ch) {
        var t := s.text + [ch];
        if IsDigit(ch) {
          NumberShape(input, cfg, s.(at := SL.Next(input, s.at), text := t));
        } else if ch == '.' {
          assert multiset(t) == multiset(s.text) + multiset{'.'};
          assert '.' !in multiset(s.text) by {
            if '.' in multiset(s.text) {
              var i :| 0 <= i < |s.text| && s.text[i] == '.';
            }
          }
          DoubleShape(input, cfg, Lexed(SL.Next(input, s.at), Double, t));
        }
      }
  }

  /** Once resolved, a Number token is an optional sign and at least one
      digit, and a Double token has exactly one point and at least one digit
      unless it is a sign followed by the point (such as "-."), which the
      resolve step leaves a Double. */
  lemma TokenShapes(input: string, cfg: Config, w: SL.Cursor)
    requires w.pos <= |input|
    ensures var k := Classify(cfg, w);
            var r := ReadTokenSpec(input, cfg, Lexed(w, k.0, k.1));
            r.Ok? ==> (r.value.kind == Number ==> SL.NumberText(r.value.text) && SL.HasDigit(r.value.text))
                      && (r.value.kind == Double ==>
                            SL.DoubleText(r.value.text)
                            && (SL.HasDigit(r.value.text) || (|r.value.text| == 2 && IsSign(r.value.text[0]))))
  {
    var k := Classify(cfg, w);
    var b := ReadBody(input, cfg, Lexed(w, k.0, k.1));
    BodyShapes(input, cfg, w);
    if b.Ok? {
      var t := b.value.text;
      if b.value.kind == Number && !SL.AllSigns(t) {
        SL.NumberResolved(t);
      }
      if b.value.kind == Double && !SL.AllSigns(t) && !SL.AllPoints(t) {
        SL.DoubleResolved(t);
      }
    }
  }

  /** Before the kind is resolved: the text of a Number token is an optional
      sign and digits, that of a Double token has one point. */
  lemma BodyShapes(input: string, cfg: Config, w: SL.Cursor)
    requires w.pos <= |input|
    ensures var k := Classify(cfg, w);
            var b := ReadBody(input, cfg, Lexed(w, k.0, k.1));
            b.Ok? ==> (b.value.kind == Number ==> SL.NumberText(b.value.text))
                      && (b.value.kind == Double ==> SL.DoubleText(b.value.text))
  {
    var k := Classify(cfg, w);
    var s := Lexed(w, k.0, k.1);
    if k.0 == Number {
      NumberShape(input, cfg, s.(at := SL.Next(input, s.at)));
    } else if k.0 == Double {
      assert multiset(k.1) == multiset{'.'};
      DoubleShape(input, cfg, s.(at := SL.Next(input, s.at)));
    }
  }

  /** Every Number token the parser hands over converts with Token.ToInt
      unless it overflows: it is never malformed. */
  lemma NumbersParse(input: string, cfg: Config, c: SL.Cursor)
    requires c.pos <= |input| && ParseStep(input, cfg, c).Ok?
    ensures forall l :: l in ParseStep(input, cfg, c).value.handed && l.kind == Number ==> ParseInt32(l.text) != Err(FormatError)
  {
    var w := SkipBlanks(input, cfg, c);
    TokenShapes(input, cfg, w);
    var k := Classify(cfg, w);
    var t := ReadTokenSpec(input, cfg, Lexed(w, k.0, k.1)).value;
    if t.kind == Number {
      SL.NumberTextParses(t.text);
    }
  }

  // ---------------------------------------------------------------- the parser object

  class CsvParser {
    var input: string
    var pos: nat
    var cur: SL.Ch
    var line: int
    var col: int
    const token: Token<CsvToken>
    var separator: char
    const whitespace: CharacterSet
    const signset: CharacterSet

    function Here(): SL.Cursor
      reads this
    {
      SL.Cursor(pos, cur, line, col)
    }

    function Cfg(): Config
      reads this, whitespace
    {
      Config(separator, whitespace.ranges)
    }

    function State(): Lexed
      reads this, token
    {
      Lexed(Here(), token.kind, token.lexeme)
    }

    predicate Valid()
      reads this, token, signset
    {
      pos <= |input| && token.Valid() && signset.ranges == SL.SIGN_RANGES && signset != whitespace
    }

    /** The token object holds the lexeme l. */
    predicate Holds(l: Lexeme)
      reads token
    {
      token.kind == l.kind && token.lexeme == l.text && token.line == l.line && token.col == l.col
    }

    /** A parser without a stream, as Clean leaves it. The separator is the
        default character and the whitespace set is empty until the
        Separator setter runs. */
    constructor ()
      ensures Valid() && input == [] && Here() == SL.Cursor(0, SL.EndOfInput, 1, 0)
      ensures fresh(token) && token.kind == NoToken && token.lexeme == []
      ensures fresh(whitespace) && Cfg() == Config('\0', [])
    {
      var signs := SL.NewSignSet();
      input := [];
      token := new Token(NoToken);
      whitespace := new CharacterSet();
      signset := signs;
      separator := '\0';
      pos, cur, line, col := 0, SL.EndOfInput, 1, 0;
    }

    /** Clean: no stream, line 1, column 0, no current character; the
        separator and the whitespace set stay. */
    method Clean()
      requires Valid()
      modifies this, token
      ensures Valid() && input == [] && Here() == SL.Cursor(0, SL.EndOfInput, 1, 0)
      ensures token.kind == NoToken && token.lexeme == [] && separator == old(separator)
    {
      token.Reset(NoToken);
      line, col := 1, 0;
      input, pos := [], 0;
      cur := SL.EndOfInput;
    }

    /** InitWithStream: Clean, take the stream, read its first character. */
    method InitWithStream(stream: string)
      requires Valid()
      modifies this, token
      ensures Valid() && input == stream && Here() == SL.Start(stream)
      ensures token.kind == NoToken && token.lexeme == [] && separator == old(separator)
    {
      Clean();
      input := stream;
      var _ := NextChar();
    }

    /** The Separator setter: the whitespace set becomes space and tab, less
        the separator. */
    method SetSeparator(sep: char)
      modifies this, whitespace
      ensures Cfg() == Config(sep, BlanksFor(sep)) && input == old(input)
      ensures forall c :: IsBlank(Cfg(), c) <==> (c == ' ' || c == '\t') && c != sep
      ensures Here() == old(Here())
    {
      separator := sep;
      whitespace.Clear();
      if sep != ' ' {
        whitespace.AddRange(Single(' ' as int));
      }
      if sep != '\t' {
        whitespace.AddRange(Single('\t' as int));
      }
      assert whitespace.ranges == BlanksFor(sep);
      forall c
        ensures IsBlank(Cfg(), c) <==> (c == ' ' || c == '\t') && c != sep
      {
        BlanksForSeparator(sep, c);
      }
    }

    method NextChar() returns (ch: SL.Ch)
      requires pos <= |input|
      modifies this
      ensures input == old(input) && separator == old(separator)
      ensures Here() == SL.Next(input, old(Here())) && ch == cur
      decreases |input| - pos
    {
      if cur == SL.Chr('\n') {
        line, col := line + 1, 0;
      }
      if pos < |input| {
        cur := SL.CharAt(input, pos);
        pos := pos + 1;
      } else {
        cur := SL.EndOfInput;
      }
      if cur == SL.Chr('\r') {
        ch := NextChar();
      } else {
        if cur.Chr? {
          col := col + 1;
        }
        ch := cur;
      }
    }

    /** Whether the current character is in the whitespace set. */
    method AtBlank() returns (b: bool)
      ensures b <==> cur.Chr? && IsBlank(Cfg(), cur.c)
    {
      if cur == SL.EndOfInput {
        return false;
      }
      b := whitespace.Contains(cur.c);
    }

    method SkipWhitespace()
      requires Valid()
      modifies this
      ensures input == old(input) && separator == old(separator)
      ensures Valid() && Here() == SkipBlanks(input, Cfg(), old(Here()))
    {
      var blank := AtBlank();
      while blank
        invariant Valid() && separator == old(separator) && input == old(input)
        invariant SkipBlanks(input, Cfg(), Here()) == SkipBlanks(input, Cfg(), old(Here()))
        invariant blank <==> cur.Chr? && IsBlank(Cfg(), cur.c)
        decreases SL.Measure(input, Here())
      {
        var _ := NextChar();
        blank := AtBlank();
      }
    }

    /** NextToken: start a token at the current position and classify it. */
    method NextToken()
      requires Valid()
      modifies token
      ensures Valid() && token.line == line && token.col == col
      ensures token.kind == Classify(Cfg(), Here()).0 && token.lexeme == Classify(Cfg(), Here()).1
    {
      token.Reset(NoToken);
      token.SetPosition(line, col);
      if cur == SL.EndOfInput {
        token.kind := EOF;
        return;
      }
      var ch := cur.c;
      if ch == '"' {
        token.kind := QuotedString;
      } else if ch == '\n' {
        token.kind := EOL;
      } else if ch == '.' {
        token.kind := Double;
        token.Add(ch);
      } else if ch == separator {
        token.kind := Separator;
      } else if IsDigit(ch) || IsSign(ch) {
        token.kind := Number;
        token.Add(ch);
      } else {
        token.kind := String;
      }
    }

    method ReadStringToken() returns (o: Outcome)
      requires Valid()
      modifies this, token
      ensures Valid() && token.line == old(token.line) && token.col == old(token.col) && separator == old(separator)
                && input == old(input)
      ensures var spec := ReadString(input, Cfg(), old(State()));
              (o.Fail? <==> spec.Err?) && (o.Fail? ==> o.error == spec.error) && (o.Pass? ==> State() == spec.value)
    {
      while cur.Chr?
        invariant Valid() && token.line == old(token.line) && token.col == old(token.col) && separator == old(separator)
                && input == old(input)
        invariant ReadString(input, Cfg(), State()) == ReadString(input, Cfg(), old(State()))
        decreases SL.Measure(input, Here())
      {
        var ch := cur.c;
        if ch == '"' {
          return Fail(ParserError(UnexpectedQuote));
        } else if ch == '\\' {
          var n := NextChar();
          var e := if n.Chr? then GetEscapeChar(n.c) else None;
          if e.None? {
            return Fail(ParserError(UnknownEscape));
          }
          token.Add(e.value);
        } else if ch == separator || ch == '\n' {
          break;
        } else {
          token.Add(ch);
        }
        var _ := NextChar();
      }
      return Pass;
    }

    /** Whether the current character ends a Number or a Double. */
    method AtNumberEnd(ch: char) returns (b: bool)
      ensures b <==> EndsNumber(Cfg(), ch)
    {
      if ch == separator || ch == '\n' {
        return true;
      }
      b := whitespace.Contains(ch);
    }

    method ReadDoubleToken() returns (o: Outcome)
      requires Valid()
      modifies this, token
      ensures Valid() && token.line == old(token.line) && token.col == old(token.col) && separator == old(separator)
                && input == old(input)
      ensures var spec := ReadDouble(input, Cfg(), old(State()));
              (o.Fail? <==> spec.Err?) && (o.Fail? ==> o.error == spec.error) && (o.Pass? ==> State() == spec.value)
    {
      while cur.Chr?
        invariant Valid() && token.line == old(token.line) && token.col == old(token.col) && separator == old(separator)
                && input == old(input)
        invariant ReadDouble(input, Cfg(), State()) == ReadDouble(input, Cfg(), old(State()))
        decreases SL.Measure(input, Here())
      {
        var ch := cur.c;
        var ends := AtNumberEnd(ch);
        if ch == '"' {
          return Fail(ParserError(UnexpectedQuote));
        } else if ends {
          break;
        } else if IsDigit(ch) {
          token.Add(ch);
        } else {
          token.kind := String;
          o := ReadStringToken();
          return;
        }
        var _ := NextChar();
      }
      return Pass;
    }

    method ReadNumberToken() returns (o: Outcome)
      requires Valid()
      modifies this, token
      ensures Valid() && token.line == old(token.line) && token.col == old(token.col) && separator == old(separator)
                && input == old(input)
      ensures var spec := ReadNumber(input, Cfg(), old(State()));
              (o.Fail? <==> spec.Err?) && (o.Fail? ==> o.error == spec.error) && (o.Pass? ==> State() == spec.value)
    {
      while cur.Chr?
        invariant Valid() && token.line == old(token.line) && token.col == old(token.col) && separator == old(separator)
                && input == old(input)
        invariant ReadNumber(input, Cfg(), State()) == ReadNumber(input, Cfg(), old(State()))
        decreases SL.Measure(input, Here())
      {
        var ch := cur.c;
        var ends := AtNumberEnd(ch);
        if ch == '"' {
          return Fail(ParserError(UnexpectedQuote));
        } else if ends {
          break;
        } else if IsDigit(ch) {
          token.Add(ch);
        } else if ch == '.' {
          token.Add(ch);
          var _ := NextChar();
          token.kind := Double;
          o := ReadDoubleToken();
          return;
        } else {
          token.kind := String;
          o := ReadStringToken();
          return;
        }
        var _ := NextChar();
      }
      return Pass;
    }

    /** ReadQuotedStringToken: called on the opening quote, stops on the closing one. */
    method ReadQuotedStringToken() returns (o: Outcome)
      requires Valid()
      modifies this, token
      ensures Valid() && token.line == old(token.line) && token.col == old(token.col) && separator == old(separator)
                && input == old(input)
      ensures var spec := ReadQuoted(input, Cfg(), old(State()).(at := SL.Next(input, old(Here()))), false);
              (o.Fail? <==> spec.Err?) && (o.Fail? ==> o.error == spec.error) && (o.Pass? ==> State() == spec.value)
    {
      var eolreached := false;
      var _ := NextChar();
      while cur != SL.Chr('"')
        invariant Valid() && token.line == old(token.line) && token.col == old(token.col) && separator == old(separator)
                && input == old(input)
        invariant ReadQuoted(input, Cfg(), State(), eolreached)
                  == ReadQuoted(input, Cfg(), old(State()).(at := SL.Next(input, old(Here()))), false)
        decreases SL.Measure(input, Here())
      {
        if cur == SL.EndOfInput {
          return Fail(ParserError(EofInQuotedString));
        }
        var ch := cur.c;
        if ch == '\\' {
          var n := NextChar();
          var e := if n.Chr? then GetEscapeChar(n.c) else None;
          if e.None? {
            return Fail(ParserError(UnknownEscape));
          }
          token.Add(e.value);
        } else {
          if !eolreached {
            token.Add(ch);
          }
          var blank := whitespace.Contains(ch);
          if ch == '\n' {
            eolreached := true;
          } else if eolreached && !blank {
            eolreached := false;
            token.Add(ch);
          }
        }
        var _ := NextChar();
      }
      return Pass;
    }

    /** ReadToken: read the body of the token by its kind, then resolve a
        Number or Double made of signs or points only into a String. */
    method ReadToken() returns (o: Outcome)
      requires Valid()
      modifies this, token
      ensures Valid() && token.line == old(token.line) && token.col == old(token.col) && separator == old(separator)
                && input == old(input)
      ensures var spec := ReadTokenSpec(input, Cfg(), old(State()));
              (o.Fail? <==> spec.Err?) && (o.Fail? ==> o.error == spec.error) && (o.Pass? ==> State() == spec.value)
    {
      o := ReadTokenBody();
      if o.Fail? {
        return;
      }
      SL.SignSetCompare(token.lexeme);
      if token.kind == Number {
        var signs := token.CompareSet(signset);
        if signs {
          token.kind := String;
        }
      } else if token.kind == Double {
        var signs := token.CompareSet(signset);
        var points := token.CompareChar('.');
        if signs || points {
          token.kind := String;
        }
      }
    }

    /** The switch of ReadToken: the body of the token, by its kind. */
    method ReadTokenBody() returns (o: Outcome)
      requires Valid()
      modifies this, token
      ensures Valid() && token.line == old(token.line) && token.col == old(token.col) && separator == old(separator)
                && input == old(input)
      ensures var b := ReadBody(input, Cfg(), old(State()));
              (o.Fail? <==> b.Err?) && (o.Fail? ==> o.error == b.error) && (o.Pass? ==> State() == b.value)
    {
      o := Pass;
      match token.kind {
        case QuotedString =>
          o := ReadQuotedStringToken();
          if o.Pass? {
            var _ := NextChar();
          }
        case String =>
          o := ReadStringToken();
        case Number =>
          var _ := NextChar();
          o := ReadNumberToken();
        case Double =>
          var _ := NextChar();
          o := ReadDoubleToken();
        case Separator =>
          var _ := NextChar();
        case EOL =>
          var _ := NextChar();
        case EOF =>
        case NoToken =>
      }
    }

    /** Parse: one token (and an EOF token at the end of the input) per call. */
    method Parse() returns (r: Result<Step>)
      requires Valid()
      modifies this, token
      ensures input == old(input) && separator == old(separator)
      ensures Valid() && r == ParseStep(input, Cfg(), old(Here()))
      ensures r.Ok? ==> Here() == r.value.at && Holds(r.value.handed[|r.value.handed| - 1])
    {
      SkipWhitespace();
      NextToken();
      var o := ReadToken();
      if o.Fail? {
        return Err(o.error);
      }
      var read := Lexeme(token.kind, token.lexeme, token.line, token.col);
      if cur == SL.EndOfInput {
        token.Reset(EOF);
        return Ok(Step(Here(), [read, Lexeme(EOF, "", token.line, token.col)], false));
      }
      return Ok(Step(Here(), [read], true));
    }
  }
}

=== FILE: csv_map.dfy ===
/** The sparse table the CSV reader fills (CSVMap and CSVRow, each over a
    SortedDictionary): rows keyed by their index, and in each row the value
    variables keyed by column; and CSVFormatter.FormatRow, which writes one
    row back as a line. A SortedDictionary is walked in ascending key order,
    which the model follows by always taking the least remaining key. */
module CsvData {
  import opened Basics
  import opened Values
  import opened Variables
  import opened ScriptFormatting

  /** Some element of a non-empty set. */
  lemma Pick(s: set<int>) returns (x: int)
    requires s != {}
    ensures x in s
  {
    if exists y :: y in s {
      x :| x in s;
    } else {
      assert false;
    }
  }

  lemma {:induction false} LeastOf(s: set<int>) returns (least: int)
    requires s != {}
    ensures least in s && forall y :: y in s ==> least <= y
    decreases |s|
  {
    var x := Pick(s);
    if s == {x} {
      least := x;
    } else {
      var m := LeastOf(s - {x});
      least := if x < m then x else m;
      forall y | y in s
        ensures least <= y
      {
        if y != x {
          assert y in s - {x};
        }
      }
    }
  }

  lemma LeastExists(s: set<int>)
    requires s != {}
    ensures exists m :: m in s && forall x :: x in s ==> m <= x
  {
    var least := LeastOf(s);
  }

  /** The least key of a non-empty key set: the next key a sorted walk yields. */
  function Least(s: set<int>): (m: int)
    requires s != {}
    ensures m in s && forall x :: x in s ==> m <= x
  {
    LeastExists(s);
    var m :| m in s && forall x :: x in s ==> m <= x;
    m
  }

  class CsvRow {
    var columns: map<int, Variable>
    var index: int

    /** A row holds value variables only. */
    predicate Valid()
      reads this
    {
      forall k :: k in columns ==> columns[k].kind.Scalar?
    }

    constructor (index: int)
      ensures Valid() && columns == map[] && this.index == index
    {
      columns := map[];
      this.index := index;
    }

    /** Add(index, val): stores val at the column, replacing what was there;
        a null value is rejected and changes nothing. */
    method Add(column: int, val: Variable?) returns (added: bool)
      requires Valid() && (val != null ==> val.kind.Scalar?)
      modifies this
      ensures Valid() && index == old(index)
      ensures added <==> val != null
      ensures columns == if val != null then old(columns)[column := val] else old(columns)
    {
      if val != null {
        columns := columns[column := val];
        return true;
      }
      return false;
    }

    /** Remove(index): deletes the column; false when it was absent. */
    method Remove(column: int) returns (removed: bool)
      requires Valid()
      modifies this
      ensures Valid() && index == old(index)
      ensures removed <==> column in old(columns)
      ensures columns == old(columns) - {column}
    {
      removed := column in columns;
      columns := columns - {column};
    }

    /** Get(index): the value at the column, or null. */
    function Get(column: int): (r: Variable?)
      reads this
      ensures r != null <==> column in columns
      ensures r != null ==> r == columns[column]
    {
      if column in columns then columns[column] else null
    }

    /** Has(index) agrees with Get. */
    function Has(column: int): (b: bool)
      reads this
      ensures b <==> Get(column) != null
    {
      column in columns
    }
  }

  /** The values of a row by column. */
  function ValuesOfRow(columns: map<int, Variable>): (vs: map<int, Value>)
    requires forall k :: k in columns ==> columns[k].kind.Scalar?
    ensures vs.Keys == columns.Keys
  {
    map k | k in columns :: columns[k].kind.value
  }

  /** The number of values in all the rows. */
  function Total(rows: map<int, CsvRow>): nat
    reads rows.Values
    decreases |rows|
  {
    if rows == map[] then 0
    else
      var k := Least(rows.Keys);
      assert (rows - {k}).Values <= rows.Values;
      |rows[k].columns| + Total(rows - {k})
  }

  /** No row holds more values than all the rows together. */
  lemma {:induction false} RowWithinTotal(rows: map<int, CsvRow>, k: int)
    requires k in rows
    ensures |rows[k].columns| <= Total(rows)
    decreases |rows|
  {
    var least := Least(rows.Keys);
    if least != k {
      RowWithinTotal(rows - {least}, k);
    }
  }

  /** The total is zero exactly when every row is empty. */
  lemma {:induction false} TotalZero(rows: map<int, CsvRow>)
    ensures Total(rows) == 0 <==> forall k :: k in rows ==> rows[k].columns == map[]
    decreases |rows|
  {
    if rows != map[] {
      var least := Least(rows.Keys);
      TotalZero(rows - {least});
      if Total(rows) == 0 {
        forall k | k in rows
          ensures rows[k].columns == map[]
        {
          if k != least {
            assert k in rows - {least};
          }
        }
      }
    }
  }

  class CsvMap {
    var rows: map<int, CsvRow>

    constructor ()
      ensures rows == map[]
    {
      rows := map[];
    }

    function RowCount(): (n: nat)
      reads this
      ensures n == |rows.Keys|
    {
      |rows|
    }

    /** AddRow(row): stores the row under its index, replacing any row there;
        a null row is rejected. */
    method AddRow(row: CsvRow?) returns (added: bool)
      modifies this
      ensures added <==> row != null
      ensures rows == if row != null then old(rows)[row.index := row] else old(rows)
    {
      if row != null {
        rows := rows[row.index := row];
        return true;
      }
      return false;
    }

    /** RemoveRow(index): deletes by key; false when absent. */
    method RemoveRow(index: int) returns (removed: bool)
      modifies this
      ensures removed <==> index in old(rows)
      ensures rows == old(rows) - {index}
    {
      removed := index in rows;
      rows := rows - {index};
    }

    /** RemoveRow(row): deletes by the row's index; a null row throws. */
    method RemoveRowOf(row: CsvRow?) returns (r: Result<bool>)
      modifies this
      ensures row == null ==> r == Err(NullReference) && rows == old(rows)
      ensures row != null ==> r == Ok(row.index in old(rows)) && rows == old(rows) - {row.index}
    {
      if row == null {
        return Err(NullReference);
      }
      var removed := RemoveRow(row.index);
      return Ok(removed);
    }

    /** GetRow(index): the row stored under the index, or null. */
    function GetRow(index: int): (r: CsvRow?)
      reads this
      ensures r != null <==> index in rows
      ensures r != null ==> r == rows[index]
    {
      if index in rows then rows[index] else null
    }

    /** GetRow(index, autocreate): a missing row is created when asked, but
        not stored. */
    method GetOrCreateRow(index: int, autocreate: bool) returns (r: CsvRow?)
      ensures index in rows ==> r == rows[index]
      ensures index !in rows && !autocreate ==> r == null
      ensures index !in rows && autocreate ==> r != null && fresh(r) && r.Valid() && r.index == index && r.columns == map[]
    {
      if index in rows {
        return rows[index];
      }
      if autocreate {
        r := new CsvRow(index);
      } else {
        r := null;
      }
    }

    /** GetValue(row, column): null when the row or the column is missing. */
    function GetValue(row: int, column: int): (r: Variable?)
      reads this, if row in rows then {rows[row]} else {}
      ensures r != null <==> row in rows && column in rows[row].columns
      ensures r != null ==> r == rows[row].columns[column]
    {
      var crow := GetRow(row);
      if crow != null then crow.Get(column) else null
    }

    method Clear()
      modifies this
      ensures rows == map[]
    {
      rows := map[];
    }

    /** HeaderCount: the size of row -1, or 0 when there is no such row. */
    function HeaderCount(): (n: nat)
      reads this, rows.Values
      ensures -1 !in rows ==> n == 0
      ensures -1 in rows ==> n == |rows[-1].columns|
    {
      var header := GetRow(-1);
      if header != null then |header.columns| else 0
    }

    /** ValueCount: the sum of the row sizes, walking the rows in key order. */
    method ValueCount() returns (count: nat)
      ensures count == Total(rows)
    {
      count := 0;
      var rest := rows;
      while rest != map[]
        invariant rest.Values <= rows.Values
        invariant count + Total(rest) == Total(rows)
        decreases |rest|
      {
        var k := Least(rest.Keys);
        count := count + |rest[k].columns|;
        rest := rest - {k};
      }
    }

    /** The header row is counted among all values. */
    lemma HeaderWithinValues()
      ensures HeaderCount() <= Total(rows)
    {
      if -1 in rows {
        RowWithinTotal(rows, -1);
      }
    }
  }

  // ------------------------------------------------------------- FormatRow

  /** `n` separators (none when n <= 0). */
  function Seps(sep: char, n: int): (s: string)
    ensures |s| == (if n > 0 then n else 0)
    decreases n
  {
    if n <= 0 then [] else [sep] + Seps(sep, n - 1)
  }

  /** The formatted text of every value of a row, by column. */
  function RowTexts(columns: map<int, Variable>, varformat: ValueFormat, isNumeric: string -> bool): (ts: map<int, string>)
    requires forall k :: k in columns ==> columns[k].kind.Scalar?
    ensures ts.Keys == columns.Keys
    ensures forall k :: k in ts ==> ts[k] == ValueText(columns[k].kind.value, varformat, isNumeric)
  {
    map k | k in columns :: ValueText(columns[k].kind.value, varformat, isNumeric)
  }

  /** The keys of a set in ascending order: the order a SortedDictionary
      walks them in. */
  function SortedKeys(s: set<int>): (ks: seq<int>)
    ensures forall k :: k in ks <==> k in s
    ensures forall i, j :: 0 <= i < j < |ks| ==> ks[i] < ks[j]
    decreases |s|
  {
    if s == {} then []
    else
      var m := Least(s);
      var rest := SortedKeys(s - {m});
      assert forall j :: 0 <= j < |rest| ==> m < rest[j] by {
        forall j | 0 <= j < |rest|
          ensures m < rest[j]
        {
          assert rest[j] in s - {m};
        }
      }
      [m] + rest
  }

  /** The line FormatRow writes for the cells at `ks`, in that order: before
      each cell, the separators that bring the last column written up to the
      cell's column. */
  function RowLine(texts: map<int, string>, ks: seq<int>, sep: char, last: int): string
  {
    if ks == [] then []
    else
      var k := ks[0];
      Seps(sep, k - last) + Cell(texts, k) + RowLine(texts, ks[1..], sep, if k > last then k else last)
  }

  /** The line of a whole row. */
  function FormattedRow(texts: map<int, string>, sep: char): string
  {
    RowLine(texts, SortedKeys(texts.Keys), sep, 0)
  }

  /** FormatRow(row, out result, separator, varformat): a null row gives false
      and an empty text; otherwise the row's line. */
  method FormatRow(row: CsvRow?, sep: char, varformat: ValueFormat, isNumeric: string -> bool)
    returns (ok: bool, result: string)
    requires row != null ==> row.Valid()
    ensures ok <==> row != null
    ensures !ok ==> result == []
    ensures ok ==> result == FormattedRow(RowTexts(row.columns, varformat, isNumeric), sep)
  {
    if row == null {
      return false, [];
    }
    var texts := RowTexts(row.columns, varformat, isNumeric);
    result := WriteCells(texts, sep);
    ok := true;
  }

  /** The loop of FormatRow over the formatted cells in ascending column
      order: separators up to the cell's column, then the cell. */
  method WriteCells(texts: map<int, string>, sep: char) returns (result: string)
    ensures result == FormattedRow(texts, sep)
  {
    var keys := SortedKeys(texts.Keys);
    result := WriteKeys(texts, keys, sep);
  }

  method WriteKeys(texts: map<int, string>, keys: seq<int>, sep: char) returns (result: string)
    requires forall j :: 0 <= j < |keys| ==> keys[j] in texts
    ensures result == RowLine(texts, keys, sep, 0)
  {
    result := [];
    var lastcolumn := 0;
    var i := 0;
    while i < |keys|
      invariant 0 <= i <= |keys|
      invariant result + RowLine(texts, keys[i..], sep, lastcolumn) == RowLine(texts, keys, sep, 0)
    {
      var k := keys[i];
      var seps, reached := SeparatorsTo(sep, lastcolumn, k);
      WrittenCell(texts, keys, i, sep, lastcolumn, result, seps);
      result := result + seps + texts[k];
      lastcolumn := reached;
      i := i + 1;
    }
    assert keys[|keys|..] == [];
  }

  /** One turn of the loop of WriteKeys keeps its invariant. */
  lemma WrittenCell(texts: map<int, string>, ks: seq<int>, i: int, sep: char, last: int, result: string, seps: string)
    requires 0 <= i < |ks| && ks[i] in texts
    requires result + RowLine(texts, ks[i..], sep, last) == RowLine(texts, ks, sep, 0)
    requires seps == Seps(sep, ks[i] - last)
    ensures result + seps + texts[ks[i]] + RowLine(texts, ks[i + 1..], sep, if ks[i] > last then ks[i] else last)
              == RowLine(texts, ks, sep, 0)
  {
    var tail := RowLine(texts, ks[i + 1..], sep, if ks[i] > last then ks[i] else last);
    assert ks[i..][1..] == ks[i + 1..];
    assert RowLine(texts, ks[i..], sep, last) == seps + texts[ks[i]] + tail;
    assert result + (seps + texts[ks[i]] + tail) == result + seps + texts[ks[i]] + tail;
  }

  /** The inner loop of FormatRow: one separator per column from `last` up
      to `column`. */
  method SeparatorsTo(sep: char, last: int, column: int) returns (seps: string, reached: int)
    ensures seps == Seps(sep, column - last)
    ensures reached == if column > last then column else last
  {
    seps := [];
    reached := last;
    while reached < column
      invariant if last < column then last <= reached <= column else reached == last
      invariant seps + Seps(sep, column - reached) == Seps(sep, column - last)
    {
      assert Seps(sep, column - reached) == [sep] + Seps(sep, column - (reached + 1));
      seps := seps + [sep];
      reached := reached + 1;
    }
    assert Seps(sep, column - reached) == [];
    assert seps == seps + Seps(sep, column - reached);
  }

  /** The text of column j, empty where the row has no value. */
  function Cell(texts: map<int, string>, j: int): string
  {
    if j in texts then texts[j] else []
  }

  /** The cells from column j to column m, separated by `sep`. */
  function JoinFrom(texts: map<int, string>, sep: char, j: int, m: int): string
    decreases m - j
  {
    if j >= m then Cell(texts, j) else Cell(texts, j) + [sep] + JoinFrom(texts, sep, j + 1, m)
  }

  predicate Ascending(ks: seq<int>)
  {
    forall i, j :: 0 <= i < j < |ks| ==> ks[i] < ks[j]
  }

  lemma RowLineSeparator(texts: map<int, string>, ks: seq<int>, sep: char, last: int)
    requires ks != [] && ks[0] > last
    ensures RowLine(texts, ks, sep, last) == [sep] + RowLine(texts, ks, sep, last + 1)
  {
    var tail := RowLine(texts, ks[1..], sep, ks[0]);
    var s1 := Seps(sep, ks[0] - (last + 1));
    assert Seps(sep, ks[0] - last) == [sep] + s1;
    assert [sep] + s1 + Cell(texts, ks[0]) + tail == [sep] + (s1 + Cell(texts, ks[0]) + tail);
  }

  /** When the ascending columns `ks` are exactly the columns of the row from
      `last` to m, and m is the last of them, the line is the cells from
      `last` to m joined by separators. */
  lemma {:induction false} RowLineIsJoin(texts: map<int, string>, ks: seq<int>, sep: char, last: int, m: int)
    requires Ascending(ks) && ks != [] && ks[|ks| - 1] == m
    requires forall i :: 0 <= i < |ks| ==> last <= ks[i]
    requires forall c :: last <= c <= m ==> (c in texts <==> c in ks)
    ensures RowLine(texts, ks, sep, last) == JoinFrom(texts, sep, last, m)
    decreases m - last, 1
  {
    if last == m {
      AscendingSpan(ks);
      assert |ks| == 1 && ks[1..] == [];
      assert RowLine(texts, ks, sep, last) == Seps(sep, 0) + Cell(texts, m) + [];
    } else if ks[0] == last {
      JoinPresent(texts, ks, sep, last, m);
    } else {
      JoinAbsent(texts, ks, sep, last, m);
    }
  }

  /** RowLineIsJoin where column `last` holds a value. */
  lemma {:induction false} JoinPresent(texts: map<int, string>, ks: seq<int>, sep: char, last: int, m: int)
    requires Ascending(ks) && ks != [] && ks[|ks| - 1] == m
    requires forall i :: 0 <= i < |ks| ==> last <= ks[i]
    requires forall c :: last <= c <= m ==> (c in texts <==> c in ks)
    requires ks[0] == last < m
    ensures RowLine(texts, ks, sep, last) == JoinFrom(texts, sep, last, m)
    decreases m - last, 0
  {
    var rest := ks[1..];
    FirstColumnDropped(texts, ks, last, m);
    RowLineSeparator(texts, rest, sep, last);
    RowLineIsJoin(texts, rest, sep, last + 1, m);
    assert RowLine(texts, ks, sep, last) == Seps(sep, 0) + Cell(texts, last) + RowLine(texts, rest, sep, last);
    assert JoinFrom(texts, sep, last, m) == Cell(texts, last) + [sep] + JoinFrom(texts, sep, last + 1, m);
    assert Cell(texts, last) + ([sep] + JoinFrom(texts, sep, last + 1, m))
        == Cell(texts, last) + [sep] + JoinFrom(texts, sep, last + 1, m);
  }

  /** RowLineIsJoin where column `last` is empty. */
  lemma {:induction false} JoinAbsent(texts: map<int, string>, ks: seq<int>, sep: char, last: int, m: int)
    requires Ascending(ks) && ks != [] && ks[|ks| - 1] == m
    requires forall i :: 0 <= i < |ks| ==> last <= ks[i]
    requires forall c :: last <= c <= m ==> (c in texts <==> c in ks)
    requires ks[0] != last && last < m
    ensures RowLine(texts, ks, sep, last) == JoinFrom(texts, sep, last, m)
    decreases m - last, 0
  {
    EmptyColumnSkipped(texts, ks, last, m);
    RowLineSeparator(texts, ks, sep, last);
    RowLineIsJoin(texts, ks, sep, last + 1, m);
    assert Cell(texts, last) == [];
    assert JoinFrom(texts, sep, last, m) == [] + [sep] + JoinFrom(texts, sep, last + 1, m);
  }

  lemma FirstColumnDropped(texts: map<int, string>, ks: seq<int>, last: int, m: int)
    requires Ascending(ks) && ks != [] && ks[|ks| - 1] == m && ks[0] == last < m
    requires forall c :: last <= c <= m ==> (c in texts <==> c in ks)
    ensures |ks| > 1 && Ascending(ks[1..]) && ks[1..][|ks[1..]| - 1] == m && ks[1..][0] > last
    ensures forall i :: 0 <= i < |ks[1..]| ==> last + 1 <= ks[1..][i]
    ensures forall c :: last + 1 <= c <= m ==> (c in texts <==> c in ks[1..])
  {
    var rest := ks[1..];
    forall i | 0 <= i < |rest|
      ensures last + 1 <= rest[i]
    {
      assert ks[0] < ks[i + 1];
    }
    forall c | last + 1 <= c <= m
      ensures c in texts <==> c in rest
    {
      if c in ks {
        var i :| 0 <= i < |ks| && ks[i] == c;
        assert rest[i - 1] == c;
      }
    }
  }

  lemma EmptyColumnSkipped(texts: map<int, string>, ks: seq<int>, last: int, m: int)
    requires Ascending(ks) && ks != [] && ks[0] != last
    requires forall i :: 0 <= i < |ks| ==> last <= ks[i]
    requires forall c :: last <= c <= m ==> (c in texts <==> c in ks)
    ensures ks[0] > last
    ensures forall i :: 0 <= i < |ks| ==> last + 1 <= ks[i]
  {
    forall i | 0 <= i < |ks|
      ensures last + 1 <= ks[i]
    {
      if i > 0 {
        assert ks[0] < ks[i];
      }
    }
  }

  /** Ascending columns are at least one apart. */
  lemma {:induction false} AscendingSpan(ks: seq<int>)
    requires Ascending(ks) && ks != []
    ensures ks[0] + |ks| - 1 <= ks[|ks| - 1]
    decreases |ks|
  {
    if |ks| > 1 {
      var rest := ks[1..];
      assert Ascending(rest) by {
        forall i, j | 0 <= i < j < |rest|
          ensures rest[i] < rest[j]
        {
          assert ks[i + 1] < ks[j + 1];
        }
      }
      AscendingSpan(rest);
      assert ks[0] < ks[1];
    }
  }

  /** The cells from column j to column m, one per column. */
  function Cells(texts: map<int, string>, j: int, m: int): (cs: seq<string>)
    requires j <= m
    ensures |cs| == m - j + 1
    ensures forall i :: 0 <= i < |cs| ==> cs[i] == Cell(texts, j + i)
    decreases m - j
  {
    if j == m then [Cell(texts, j)] else [Cell(texts, j)] + Cells(texts, j + 1, m)
  }

  lemma {:induction false} JoinFromFields(texts: map<int, string>, sep: char, j: int, m: int)
    requires j <= m
    requires forall i :: j <= i <= m ==> sep !in Cell(texts, i)
    ensures Fields(JoinFrom(texts, sep, j, m), sep) == Cells(texts, j, m)
    decreases m - j
  {
    var head := Cell(texts, j);
    if j == m {
      assert SplitFirst(head, sep).None?;
    } else {
      var rest := JoinFrom(texts, sep, j + 1, m);
      SplitFirstConcat(head, sep, rest);
      JoinFromFields(texts, sep, j + 1, m);
    }
  }

  /** Read back at its separators, a formatted row whose columns run from 0
      to m gives each column's text at its position and an empty field for
      every missing column: exactly k separators come before the value of
      column k. */
  lemma RowLineReadsBack(texts: map<int, string>, sep: char, m: int)
    requires m in texts && forall k :: k in texts ==> 0 <= k <= m
    requires forall k :: k in texts ==> sep !in texts[k]
    ensures Fields(FormattedRow(texts, sep), sep) == Cells(texts, 0, m)
  {
    FormattedRowIsJoin(texts, sep, m);
    JoinFromFields(texts, sep, 0, m);
  }

  lemma FormattedRowIsJoin(texts: map<int, string>, sep: char, m: int)
    requires m in texts && forall k :: k in texts ==> 0 <= k <= m
    ensures FormattedRow(texts, sep) == JoinFrom(texts, sep, 0, m)
  {
    SortedColumns(texts, m);
    RowLineIsJoin(texts, SortedKeys(texts.Keys), sep, 0, m);
  }

  /** The sorted columns of a row whose columns run from 0 to m are what
      RowLineIsJoin asks of them. */
  lemma SortedColumns(texts: map<int, string>, m: int)
    requires m in texts && forall k :: k in texts ==> 0 <= k <= m
    ensures var ks := SortedKeys(texts.Keys);
      && Ascending(ks) && ks != [] && ks[|ks| - 1] == m
      && (forall i :: 0 <= i < |ks| ==> 0 <= ks[i])
      && (forall c :: 0 <= c <= m ==> (c in texts <==> c in ks))
  {
    var ks := SortedKeys(texts.Keys);
    LastKeyIsGreatest(texts.Keys, m);
    forall i | 0 <= i < |ks|
      ensures 0 <= ks[i]
    {
      assert ks[i] in texts.Keys;
    }
  }

  lemma LastKeyIsGreatest(s: set<int>, m: int)
    requires m in s && forall k :: k in s ==> k <= m
    ensures var ks := SortedKeys(s); ks != [] && ks[|ks| - 1] == m
  {
    var ks := SortedKeys(s);
    assert m in ks;
    var i :| 0 <= i < |ks| && ks[i] == m;
    assert ks[|ks| - 1] in s;
  }
}

=== FILE: csv_parser_handler.dfy ===
/** StandardCSVParserHandler as an object: the handler owns its parser,
    keeps the map it fills and the row it is filling, and is proved to carry
    out, token by token, the transitions of the value-level handler in
    module CsvHandler. */
module CsvParserHandler {
  import opened Basics
  import opened Values
  import opened Variables
  import opened CsvData
  import opened CsvLexer
  import opened CsvHandler
  import SL = ScriptLexer

  // ---------------------------------------------------------------- the handler object

  /** One round of Drive: a call of Parse that succeeds, then its tokens. */
  lemma DriveRound(input: string, cfg: Config, c: SL.Cursor, st: HState, step: Step)
    requires c.pos <= |input| && ParseStep(input, cfg, c) == Ok(step)
    ensures Run(st, step.handed).Err? || !step.more ==> Drive(input, cfg, c, st) == Run(st, step.handed)
    ensures Run(st, step.handed).Ok? && step.more ==> Drive(input, cfg, c, st) == Drive(input, cfg, step.at, Run(st, step.handed).value)
  {
    assert Drive(input, cfg, c, st) == Pump(input, cfg, c, st);
  }

  /** The rows of a map as values, the row objects being among objs. */
  ghost function RowsIn(rows: map<int, CsvRow>, objs: set<CsvRow>): map<int, map<int, Value>>
    requires forall k :: k in rows ==> rows[k] in objs && rows[k].Valid()
    reads objs
  {
    map k | k in rows :: assert rows[k].Valid(); ValuesOfRow(rows[k].columns)
  }

  /** Filing a row under an index files its values there. */
  lemma RowsInStore(rows: map<int, CsvRow>, objs: set<CsvRow>, i: int, row: CsvRow)
    requires forall k :: k in rows ==> rows[k] in objs && rows[k].Valid()
    requires row.Valid()
    ensures RowsIn(rows[i := row], objs + {row}) == RowsIn(rows, objs)[i := ValuesOfRow(row.columns)]
  {
  }

  /** What RowsIn says, row by row. */
  ghost predicate Holds(rows: map<int, CsvRow>, vals: map<int, map<int, Value>>)
    reads set k | k in rows :: rows[k]
  {
    && rows.Keys == vals.Keys
    && forall k :: k in rows ==> rows[k].Valid() && ValuesOfRow(rows[k].columns) == vals[k]
  }

  lemma RowsInHolds(rows: map<int, CsvRow>, objs: set<CsvRow>)
    requires forall k :: k in rows ==> rows[k] in objs && rows[k].Valid()
    ensures Holds(rows, RowsIn(rows, objs))
  {
  }

  /** A value variable stored in a column shows as its value there. */
  lemma ValuesOfStore(columns: map<int, Variable>, c: int, x: Variable)
    requires forall k :: k in columns ==> columns[k].kind.Scalar?
    requires x.kind.Scalar?
    ensures ValuesOfRow(columns[c := x]) == ValuesOfRow(columns)[c := x.kind.value]
  {
  }

  class StandardCsvHandler {
    const parser: CsvParser
    var csvmap: CsvMap?
    var currentrow: CsvRow?
    var rowindex: int
    var beginningrow: int
    var columnindex: int
    var lastempty: bool
    /** The row objects filed in the map so far. */
    ghost var filed: set<CsvRow>

    /** While a stream is processed: there is a map, its rows are filed and
        hold values only, and the current row is not one of them. */
    ghost predicate Valid()
      reads this, csvmap, currentrow, filed
    {
      && Filed()
      && currentrow !in filed
      && (currentrow != null ==> currentrow.Valid())
    }

    /** There is a map, and its rows are filed and hold values only. */
    ghost predicate Filed()
      reads this, csvmap, filed
    {
      && csvmap != null
      && forall k :: k in csvmap.rows ==> csvmap.rows[k] in filed && csvmap.rows[k].Valid()
    }

    /** The state the pure handler speaks of. */
    ghost function Abs(): HState
      requires Valid()
      reads this, csvmap, currentrow, filed
    {
      HState(Stored(), Current(), rowindex, columnindex, lastempty)
    }

    /** The rows in the map, as values. */
    ghost function Stored(): map<int, map<int, Value>>
      requires Filed()
      reads this, csvmap, filed
    {
      RowsIn(csvmap.rows, filed)
    }

    /** The current row, as a value. */
    ghost function Current(): Option<Row>
      requires currentrow != null ==> currentrow.Valid()
      reads this, currentrow
    {
      if currentrow == null then None else Some(Row(currentrow.index, ValuesOfRow(currentrow.columns)))
    }

    /** A handler with its own parser, which has no stream yet. */
    constructor ()
      ensures fresh(parser) && fresh(parser.token) && fresh(parser.whitespace)
      ensures parser.Valid() && parser.input == [] && csvmap == null && currentrow == null
    {
      parser := new CsvParser();
      csvmap, currentrow := null, null;
      rowindex, beginningrow, columnindex, lastempty := 0, 0, 0, false;
      filed := {};
    }

    /** SetSeparator: the parser's separator, and with it its whitespace set. */
    method SetSeparator(sep: char)
      modifies parser, parser.whitespace
      ensures parser.Cfg() == Config(sep, BlanksFor(sep)) && parser.input == old(parser.input)
      ensures parser.Here() == old(parser.Here())
    {
      parser.SetSeparator(sep);
    }

    method SetBeginningRow(begin: int)
      modifies this
      ensures beginningrow == begin && csvmap == old(csvmap) && currentrow == old(currentrow)
    {
      beginningrow := begin;
    }

    /** Clean: no map, no current row, the beginning row next, column 0. */
    method Clean()
      modifies this
      ensures csvmap == null && currentrow == null && beginningrow == old(beginningrow)
      ensures rowindex == beginningrow && columnindex == 0 && lastempty
    {
      csvmap, currentrow := null, null;
      rowindex, columnindex := beginningrow, 0;
      lastempty := true;
    }

    /** NewRow: the current row, if any, into the map; a fresh empty row with
        the next index becomes current. */
    method NewRow()
      requires Valid()
      modifies this, csvmap
      ensures Valid() && Abs() == NextRow(old(Abs()))
      ensures beginningrow == old(beginningrow) && csvmap == old(csvmap) && fresh(currentrow)
    {
      ghost var st := Abs();
      if currentrow != null {
        FileCurrent();
      }
      assert Stored() == NextRow(st).rows;
      StartRow();
    }

    /** The first half of NewRow: the current row goes into the map under
        its index. */
    method FileCurrent()
      requires Valid() && currentrow != null
      modifies this, csvmap
      ensures Filed() && Stored() == old(Stored())[old(currentrow.index) := old(Current()).value.cells]
      ensures csvmap == old(csvmap) && currentrow == old(currentrow) && currentrow in filed
      ensures rowindex == old(rowindex) && beginningrow == old(beginningrow)
    {
      RowsInStore(csvmap.rows, filed, currentrow.index, currentrow);
      var _ := csvmap.AddRow(currentrow);
      filed := filed + {currentrow};
    }

    /** The second half of NewRow: a fresh, empty row with the next index. */
    method StartRow()
      requires Filed()
      modifies this
      ensures Valid() && Abs() == HState(old(Stored()), Some(Row(old(rowindex), map[])), old(rowindex) + 1, 0, true)
      ensures beginningrow == old(beginningrow) && csvmap == old(csvmap) && fresh(currentrow)
    {
      var row := new CsvRow(rowindex);
      currentrow, rowindex, columnindex, lastempty := row, rowindex + 1, 0, true;
    }

    /** AddToRow: a new value variable in the current column of the current
        row, which is made first if there is none. */
    method AddToRow(v: Value)
      requires Valid()
      modifies this, csvmap, currentrow
      ensures Valid() && Abs() == WithCell(old(Abs()), v)
      ensures beginningrow == old(beginningrow) && csvmap == old(csvmap) && (currentrow == old(currentrow) || fresh(currentrow))
    {
      if currentrow == null {
        NewRow();
      }
      AddToCurrent(v);
    }

    /** AddToRow once there is a current row. */
    method AddToCurrent(v: Value)
      requires Valid() && currentrow != null
      modifies this, currentrow
      ensures beginningrow == old(beginningrow) && csvmap == old(csvmap) && currentrow == old(currentrow)
      ensures Valid() && Abs() == WithCell(old(Abs()), v)
    {
      ghost var stored, cells := Stored(), Current().value.cells;
      var val := new Variable(Scalar(v), [], null);
      ValuesOfStore(currentrow.columns, columnindex, val);
      var _ := currentrow.Add(columnindex, val);
      lastempty := false;
      assert Stored() == stored;
      assert Current() == Some(Row(currentrow.index, cells[columnindex := v]));
    }

    /** HandleToken: one token's effect on the state, as the pure handler
        describes it; a number that does not convert throws. */
    method HandleToken(l: Lexeme) returns (o: Outcome)
      requires Valid()
      modifies this, csvmap, currentrow
      ensures var h := Handle(old(Abs()), l);
              (o.Pass? <==> h.Ok?) && (o.Fail? ==> o.error == h.error) && (o.Pass? ==> Valid() && Abs() == h.value)
      ensures beginningrow == old(beginningrow) && csvmap == old(csvmap) && (currentrow == old(currentrow) || fresh(currentrow))
    {
      o := Pass;
      if IsValueToken(l.kind) {
        o := CellToken(l.kind, l.text);
      } else if l.kind == Separator {
        SeparatorToken();
      } else if l.kind == EOL || l.kind == EOF {
        EndOfRow();
      }
    }

    /** HandleToken on a Separator. */
    method SeparatorToken()
      requires Valid()
      modifies this, csvmap, currentrow
      ensures Valid() && Abs() == NextColumn(old(Abs()))
      ensures beginningrow == old(beginningrow) && csvmap == old(csvmap) && (currentrow == old(currentrow) || fresh(currentrow))
    {
      ghost var st := Abs();
      if lastempty {
        AddToRow(StringValue([]));
      }
      ghost var s := Abs();
      assert s == if st.lastempty then WithCell(st, StringValue([])) else st;
      columnindex, lastempty := columnindex + 1, true;
      assert Stored() == s.rows && Current() == s.current;
    }

    /** HandleToken on a String, QuotedString, Number or Double. */
    method CellToken(kind: CsvToken, text: string) returns (o: Outcome)
      requires Valid() && IsValueToken(kind)
      modifies this, csvmap, currentrow
      ensures var v := CellValue(kind, text);
              (o.Pass? <==> v.Ok?) && (o.Fail? ==> o.error == v.error) && (o.Pass? ==> Valid() && Abs() == WithCell(old(Abs()), v.value))
      ensures beginningrow == old(beginningrow) && csvmap == old(csvmap) && (currentrow == old(currentrow) || fresh(currentrow))
    {
      o := Pass;
      match kind
      case String =>
        var str := Trim(text);
        var bv := StringToBool(str);
        if bv != -1 {
          AddToRow(BoolValue(bv == 1));
        } else {
          AddToRow(StringValue(str));
        }
      case QuotedString =>
        AddToRow(StringValue(text));
      case Number =>
        var n := ParseInt32(text);
        if n.Err? {
          return Fail(n.error);
        }
        AddToRow(IntValue(n.value));
      case Double =>
        var d := SL.DoubleOf(text);
        if d.Err? {
          return Fail(d.error);
        }
        AddToRow(d.value);
    }

    /** The shared case of EOL and EOF. */
    method EndOfRow()
      requires Valid()
      modifies this, csvmap, currentrow
      ensures Valid() && Abs() == EndRow(old(Abs()))
      ensures beginningrow == old(beginningrow) && csvmap == old(csvmap) && fresh(currentrow)
    {
      if lastempty && columnindex != 0 {
        AddToRow(StringValue([]));
      }
      NewRow();
    }

    /** The tokens one call of Parse hands over, handed to HandleToken in
        order until one throws. */
    method HandAll(handed: seq<Lexeme>) returns (o: Outcome)
      requires Valid()
      modifies this, csvmap, currentrow
      ensures var h := Run(old(Abs()), handed);
              (o.Pass? <==> h.Ok?) && (o.Fail? ==> o.error == h.error) && (o.Pass? ==> Valid() && Abs() == h.value)
      ensures beginningrow == old(beginningrow) && csvmap == old(csvmap) && (currentrow == old(currentrow) || fresh(currentrow))
    {
      ghost var st0 := Abs();
      var i := 0;
      while i < |handed|
        invariant 0 <= i <= |handed|
        invariant Valid() && beginningrow == old(beginningrow) && csvmap == old(csvmap) && (currentrow == old(currentrow) || fresh(currentrow))
        invariant Run(st0, handed) == Run(Abs(), handed[i..])
      {
        ghost var st := Abs();
        o := HandleToken(handed[i]);
        assert handed[i..][1..] == handed[i + 1..];
        assert Run(st, handed[i..]) == if Handle(st, handed[i]).Err? then Handle(st, handed[i]) else Run(Handle(st, handed[i]).value, handed[i + 1..]);
        if o.Fail? {
          return;
        }
        i := i + 1;
      }
      return Pass;
    }

    /** One pass of the loop of Process: Parse once, then hand over what it
        returned. */
    method Round(ghost input: string, ghost cfg: Config) returns (o: Outcome, more: bool)
      requires Valid() && parser.Valid() && parser.input == input && parser.Cfg() == cfg
      modifies this, csvmap, currentrow, parser, parser.token
      ensures beginningrow == old(beginningrow) && csvmap == old(csvmap) && (currentrow == old(currentrow) || fresh(currentrow))
      ensures parser.Valid() && parser.input == input && parser.Cfg() == cfg
      ensures var d := Drive(input, cfg, old(parser.Here()), old(Abs()));
              (o.Fail? ==> d == Err(o.error)) && (o.Pass? ==> Valid() && (if more then d == Drive(input, cfg, parser.Here(), Abs()) else d == Ok(Abs())))
      ensures o.Pass? && more ==> SL.Measure(input, parser.Here()) < SL.Measure(input, old(parser.Here()))
    {
      ghost var c, st := parser.Here(), Abs();
      var step := parser.Parse();
      if step.Err? {
        return Fail(step.error), false;
      }
      DriveRound(input, cfg, c, st, step.value);
      ghost var h := Run(st, step.value.handed);
      ghost var d := Drive(input, cfg, c, st);
      o := HandAll(step.value.handed);
      more := step.value.more;
      assert o.Fail? ==> d == Err(o.error);
      assert o.Pass? && more ==> d == Drive(input, cfg, step.value.at, Abs());
      assert o.Pass? && !more ==> d == Ok(Abs());
    }

    /** The loop of Process: Parse until it reports the end, each call's
        tokens handed to HandleToken; the first error of either ends it. */
    method ParseAll(ghost input: string, ghost cfg: Config) returns (o: Outcome)
      requires Valid() && parser.Valid() && parser.input == input && parser.Cfg() == cfg
      modifies this, csvmap, currentrow, parser, parser.token
      ensures var d := Drive(input, cfg, old(parser.Here()), old(Abs()));
              (o.Pass? <==> d.Ok?) && (o.Fail? ==> o.error == d.error) && (o.Pass? ==> Valid() && Abs() == d.value)
      ensures beginningrow == old(beginningrow) && csvmap == old(csvmap) && parser.Valid() && parser.input == input && parser.Cfg() == cfg
    {
      ghost var d := Drive(input, cfg, parser.Here(), Abs());
      var more := true;
      o := Pass;
      while more
        invariant Valid() && parser.Valid() && beginningrow == old(beginningrow) && csvmap == old(csvmap)
        invariant parser.input == input && parser.Cfg() == cfg
        invariant currentrow == old(currentrow) || fresh(currentrow)
        invariant more ==> d == Drive(input, cfg, parser.Here(), Abs())
        invariant o.Pass? && (!more ==> d == Ok(Abs()))
        decreases more, SL.Measure(input, parser.Here())
      {
        o, more := Round(input, cfg);
        if o.Fail? {
          return;
        }
      }
    }

    /** The start of ProcessFromStream: the parser takes the stream, the
        handler is cleaned, and Process makes a new, empty map. */
    method Start(input: string)
      requires parser.Valid()
      modifies this, parser, parser.token
      ensures Valid() && Abs() == Cleaned(beginningrow) && fresh(csvmap)
      ensures parser.Valid() && parser.input == input && parser.Here() == SL.Start(input)
      ensures parser.Cfg() == old(parser.Cfg()) && beginningrow == old(beginningrow)
    {
      parser.InitWithStream(input);
      Clean();
      csvmap := new CsvMap();
      filed := {};
    }

    /** ProcessFromStream, with the stream given as its text: the parser
        takes the stream, the handler is cleaned, a new map is filled by
        Parse and HandleToken until the end, and the map is returned with
        the handler and the parser cleaned again. An exception leaves both
        as they are. */
    method ProcessFromStream(input: string) returns (r: Result<CsvMap>)
      requires parser.Valid()
      modifies this, parser, parser.token
      ensures var p := ProcessSpec(input, old(parser.Cfg()), beginningrow);
              (r.Ok? <==> p.Ok?) && (r.Err? ==> r.error == p.error)
              && (r.Ok? ==> fresh(r.value) && Holds(r.value.rows, p.value.rows))
      ensures r.Ok? ==> csvmap == null && currentrow == null && parser.input == []
      ensures beginningrow == old(beginningrow) && parser.Valid() && parser.Cfg() == old(parser.Cfg())
    {
      ghost var cfg := parser.Cfg();
      Start(input);
      ghost var p := ProcessSpec(input, cfg, beginningrow);
      var o := ParseAll(input, cfg);
      if o.Fail? {
        return Err(o.error);
      }
      var result := csvmap;
      ghost var objs := filed;
      assert RowsIn(result.rows, objs) == p.value.rows;
      Clean();
      parser.Clean();
      RowsInHolds(result.rows, objs);
      return Ok(result);
    }
  }

  /** CSVFormatter.LoadFromStream(stream, separator, header) on the
      formatter's one handler: no stream gives no map; otherwise the first
      row is -1 with a header and 0 without, and the separator is set before
      the stream is read. */
  method LoadFromStream(handler: StandardCsvHandler, stream: Option<string>, sep: char, header: bool)
    returns (r: Result<CsvMap?>)
    requires handler.parser.Valid()
    modifies handler, handler.parser, handler.parser.token, handler.parser.whitespace
    ensures stream.None? ==> r == Ok(null)
    ensures stream.Some? ==> var p := Load(stream.value, sep, header);
              (r.Ok? <==> p.Ok?) && (r.Err? ==> r.error == p.error)
              && (r.Ok? ==> r.value != null && fresh(r.value) && Holds(r.value.rows, p.value.rows))
  {
    if stream.None? {
      return Ok(null);
    }
    handler.SetBeginningRow(if header then -1 else 0);
    handler.SetSeparator(sep);
    var m := handler.ProcessFromStream(stream.value);
    if m.Err? {
      return Err(m.error);
    }
    return Ok(m.value);
  }
}

=== FILE: formatter.dfy ===
/** The one-line writers of ScriptFormatter: a named value as `name=value` and
    an identifier as its name followed by its values, each after one space. */
module ScriptFormatting {
  import opened Basics
  import opened Values
  import opened Variables

  /** GetValueFormatted of a scalar; `isNumeric` stands for Double.TryParse,
      which decides whether a string value reads as a number. */
  function ValueText(v: Value, format: ValueFormat, isNumeric: string -> bool): string
  {
    ValueFormatted(v, format, v.StringValue? && isNumeric(v.s))
  }

  /** The values an identifier holds, in child order. */
  function ValuesOf(children: seq<Variable>): (vs: seq<Value>)
    requires forall i :: 0 <= i < |children| ==> children[i].kind.Scalar?
    ensures |vs| == |children|
    ensures forall i :: 0 <= i < |vs| ==> vs[i] == children[i].kind.value
  {
    seq(|children|, i requires 0 <= i < |children| => children[i].kind.value)
  }

  function Texts(vs: seq<Value>, format: ValueFormat, isNumeric: string -> bool): (ts: seq<string>)
    ensures |ts| == |vs|
    ensures forall i :: 0 <= i < |vs| ==> ts[i] == ValueText(vs[i], format, isNumeric)
  {
    seq(|vs|, i requires 0 <= i < |vs| => ValueText(vs[i], format, isNumeric))
  }

  /** Every part preceded by a single space. */
  function Spaced(parts: seq<string>): string
  {
    if parts == [] then [] else " " + parts[0] + Spaced(parts[1..])
  }

  lemma {:induction false} SpacedSnoc(parts: seq<string>, p: string)
    ensures Spaced(parts + [p]) == Spaced(parts) + " " + p
  {
    if parts == [] {
      assert Spaced([p]) == " " + p + Spaced([]);
    } else {
      assert (parts + [p])[1..] == parts[1..] + [p];
      SpacedSnoc(parts[1..], p);
    }
  }

  /** The (success, text) pair FormatIdentifier produces for an identifier
      named `name` holding `vs`. */
  function IdentifierLine(name: string, vs: seq<Value>, nameformat: ValueFormat, varformat: ValueFormat,
                          isNumeric: string -> bool): (bool, string)
  {
    if name == [] then (false, [])
    else (true, NameFormatted(name, nameformat) + Spaced(Texts(vs, varformat, isNumeric)))
  }

  /** FormatIdentifier(iden, out result, nameformat, varformat). An unnamed
      identifier gives false and an empty text; a named one gives its line,
      unless a child is not a value, where the cast of the loop throws. */
  method FormatIdentifier(iden: Variable, nameformat: ValueFormat, varformat: ValueFormat,
                          isNumeric: string -> bool) returns (r: Result<(bool, string)>)
    requires iden.kind.IdentifierKind?
    ensures r.Err? <==> iden.name != [] && exists i :: 0 <= i < |iden.children| && iden.children[i].IsCollection()
    ensures r.Err? ==> r.error == InvalidCast
    ensures r.Ok? && iden.name != [] ==> forall i :: 0 <= i < |iden.children| ==> iden.children[i].kind.Scalar?
    ensures r.Ok? ==> (r.value.0 <==> iden.name != [])
    ensures r.Ok? && !r.value.0 ==> r.value.1 == []
    ensures r.Ok? && r.value.0 ==>
              r.value.1 == IdentifierLine(iden.name, ValuesOf(iden.children), nameformat, varformat, isNumeric).1
  {
    if iden.name == [] {
      return Ok((false, []));
    }
    var children := iden.children;
    var builder := NameFormatted(iden.name, nameformat);
    ghost var texts: seq<string> := [];
    var i := 0;
    while i < |children|
      invariant 0 <= i <= |children|
      invariant forall j :: 0 <= j < i ==> children[j].kind.Scalar?
      invariant |texts| == i
      invariant forall j :: 0 <= j < i ==> texts[j] == ValueText(children[j].kind.value, varformat, isNumeric)
      invariant builder == NameFormatted(iden.name, nameformat) + Spaced(texts)
    {
      var child := children[i];
      if child.IsCollection() {
        return Err(InvalidCast);
      }
      var text := ValueText(child.kind.value, varformat, isNumeric);
      SpacedSnoc(texts, text);
      builder := builder + " " + text;
      texts := texts + [text];
      i := i + 1;
    }
    assert texts == Texts(ValuesOf(children), varformat, isNumeric);
    r := Ok((true, builder));
  }

  /** FormatValue(val, out result, nameformat, varformat): an unnamed value
      gives false and an empty text. */
  function FormatValue(val: Variable, nameformat: ValueFormat, varformat: ValueFormat,
                       isNumeric: string -> bool): (r: (bool, string))
    requires val.kind.Scalar?
    reads val
    ensures r.0 <==> val.name != []
    ensures !r.0 ==> r.1 == []
  {
    if val.name == [] then (false, [])
    else (true, NameFormatted(val.name, nameformat) + "=" + ValueText(val.kind.value, varformat, isNumeric))
  }

  // ------------------------------------------------------------ reading back

  /** The text before and after the first `c` of `s`, if there is one. */
  function SplitFirst(s: string, c: char): (r: Option<(string, string)>)
    ensures r.None? <==> c !in s
    ensures r.Some? ==> s == r.value.0 + [c] + r.value.1 && c !in r.value.0
  {
    if s == [] then None
    else if s[0] == c then
      assert s == [] + [c] + s[1..];
      Some(([], s[1..]))
    else
      match SplitFirst(s[1..], c)
      case None => None
      case Some((a, b)) =>
        assert s == [s[0]] + a + [c] + b;
        Some(([s[0]] + a, b))
  }

  lemma {:induction false} SplitFirstConcat(a: string, c: char, b: string)
    requires c !in a
    ensures SplitFirst(a + [c] + b, c) == Some((a, b))
  {
    if a == [] {
      assert a + [c] + b == [c] + b;
    } else {
      assert (a + [c] + b)[1..] == a[1..] + [c] + b;
      SplitFirstConcat(a[1..], c, b);
      assert [a[0]] + a[1..] == a;
    }
  }

  /** The fields of a line between its `sep` characters. */
  function Fields(s: string, sep: char): (fs: seq<string>)
    ensures fs != []
    decreases |s|
  {
    match SplitFirst(s, sep)
    case None => [s]
    case Some((a, b)) => [a] + Fields(b, sep)
  }

  lemma {:induction false} FieldsOfSpaced(first: string, parts: seq<string>)
    requires ' ' !in first
    requires forall i :: 0 <= i < |parts| ==> ' ' !in parts[i]
    ensures Fields(first + Spaced(parts), ' ') == [first] + parts
    decreases |parts|
  {
    if parts == [] {
      assert first + Spaced(parts) == first;
    } else {
      var rest := parts[0] + Spaced(parts[1..]);
      assert first + Spaced(parts) == first + [' '] + rest;
      SplitFirstConcat(first, ' ', rest);
      FieldsOfSpaced(parts[0], parts[1..]);
    }
  }

  /** When neither the formatted name nor any formatted value contains a
      space, splitting an identifier line at its spaces gives back the name
      and then each value's text, in child order: there is exactly one space
      before each child. */
  lemma IdentifierLineReadsBack(name: string, vs: seq<Value>, nameformat: ValueFormat, varformat: ValueFormat,
                                isNumeric: string -> bool)
    requires name != []
    requires ' ' !in NameFormatted(name, nameformat)
    requires forall i :: 0 <= i < |vs| ==> ' ' !in ValueText(vs[i], varformat, isNumeric)
    ensures IdentifierLine(name, vs, nameformat, varformat, isNumeric).0
    ensures Fields(IdentifierLine(name, vs, nameformat, varformat, isNumeric).1, ' ')
              == [NameFormatted(name, nameformat)] + Texts(vs, varformat, isNumeric)
  {
    FieldsOfSpaced(NameFormatted(name, nameformat), Texts(vs, varformat, isNumeric));
  }

  /** When the formatted name holds no `=`, the text of a named value splits at
      its first `=` into the formatted name and the formatted value. */
  lemma ValueLineReadsBack(val: Variable, nameformat: ValueFormat, varformat: ValueFormat, isNumeric: string -> bool)
    requires val.kind.Scalar? && val.name != []
    requires '=' !in NameFormatted(val.name, nameformat)
    ensures SplitFirst(FormatValue(val, nameformat, varformat, isNumeric).1, '=')
              == Some((NameFormatted(val.name, nameformat), ValueText(val.kind.value, varformat, isNumeric)))
  {
    SplitFirstConcat(NameFormatted(val.name, nameformat), '=', ValueText(val.kind.value, varformat, isNumeric));
  }
}

=== FILE: script_handler.dfy ===
/** StandardScriptParserHandler: the state machine that turns the token stream
    of the script lexer into a tree of nodes, identifiers and values, and
    ScriptParserHandler.Process, which drives lexer and handler together.

    The pure part describes one token's effect on the handler's state
    (pending name, pending `=`, whether an identifier is open, how deep the
    current node is) as a list of tree actions; the class below carries out
    those actions on the variable tree. */
module ScriptHandler {
  import opened Basics
  import opened Values
  import opened Variables
  import opened ScriptLexer

  /** The handler's state apart from the tree: `_varname`, `_equals`, whether
      `_currentiden` is set, and how many nodes lie between the root and
      `_currentnode`. */
  datatype Mode = Mode(varname: string, equals: bool, iden: bool, depth: nat)

  /** The state after Clean, at the given depth. */
  function Idle(depth: nat): Mode { Mode([], false, false, depth) }

  /** What handling a token does to the tree. */
  datatype Action =
    | AddValue(toIden: bool, name: string, value: Value)  // to the current identifier, or else to the current node
    | AddIdentifier(name: string)                          // a new identifier appended to the current node
    | OpenNode(name: string)                               // a new node appended to the current node, which it becomes
    | CloseNode                                            // the parent of the current node becomes current

  predicate IsValueToken(kind: ScriptToken)
  {
    kind == String || kind == QuotedString || kind == Number || kind == Double
  }

  /** The value a value token stands for: an unquoted string that reads as a
      bool is a bool, a Number is converted by Token.ToInt and a Double by
      Token.ToDouble, either of which may throw. */
  function TokenValue(kind: ScriptToken, text: string): (r: Result<Value>)
    requires IsValueToken(kind)
    ensures kind == QuotedString ==> r == Ok(StringValue(text))
    ensures kind == String ==> r.Ok? && (r.value.BoolValue? <==> StringToBool(text) != -1)
    ensures kind == Number ==> (r.Ok? <==> ParseInt32(text).Ok?) && (r.Ok? ==> r.value == IntValue(ParseInt32(text).value))
    ensures kind == Double ==> (r.Ok? <==> HasDigit(text)) && (r.Ok? ==> r.value.FloatValue?)
  {
    match kind
    case String =>
      var bv := StringToBool(text);
      if bv != -1 then Ok(BoolValue(bv == 1)) else Ok(StringValue(text))
    case QuotedString => Ok(StringValue(text))
    case Number =>
      var n := ParseInt32(text);
      if n.Err? then Err(n.error) else Ok(IntValue(n.value))
    case Double => DoubleOf(text)
  }

  /** Finish: at an end of line or of input a pending `=` is a PARSER error;
      a pending name becomes an identifier without values; the state is
      cleared either way. */
  function FinishMode(m: Mode, kind: ScriptToken): (r: Result<(Mode, seq<Action>)>)
    ensures r.Err? <==> (kind == EOL || kind == EOF) && m.equals
    ensures r.Err? ==> r.error == ParserError(ValueExpectedAtEol)
    ensures r.Ok? ==> r.value.0 == Idle(m.depth)
    ensures r.Ok? ==> r.value.1 == (if m.varname != [] then [AddIdentifier(m.varname)] else [])
  {
    if (kind == EOL || kind == EOF) && m.equals then Err(ParserError(ValueExpectedAtEol))
    else if m.varname != [] then Ok((Idle(m.depth), [AddIdentifier(m.varname)]))
    else Ok((Idle(m.depth), []))
  }

  /** HandleToken on one token. The structural errors the source constructs
      without throwing (a number as a name, `=` in the wrong place, a brace
      after an identifier, an unmatched close brace) leave the state as it is. */
  function Handle(m: Mode, l: Lexeme): (r: Result<(Mode, seq<Action>)>)
    ensures r.Err? ==> r.error == ParserError(ValueExpectedAtEol) || r.error == OverflowError || r.error == FormatError
  {
    match l.kind
    case Equals =>
      if m.iden || m.varname == [] || m.equals then Ok((m, [])) else Ok((m.(equals := true), []))
    case OpenBrace =>
      Ok((Mode([], false, m.iden, m.depth + 1), [OpenNode(m.varname)]))
    case CloseBrace =>
      if m.depth == 0 || m.equals then Ok((m, []))
      else if m.iden then Ok((Idle(m.depth - 1), [CloseNode]))
      else Ok((m.(depth := m.depth - 1), [CloseNode]))
    case Comment => Ok((m, []))
    case CommentBlock => Ok((m, []))
    case EOL => FinishMode(m, EOL)
    case EOF => FinishMode(m, EOF)
    case NoToken => Ok((m, []))
    case _ => ValueStep(m, l.kind, l.text)
  }

  /** HandleToken on a String, QuotedString, Number or Double token: the value
      of a pending `name =`; else a value of the open identifier (opened first
      for a pending name); else the pending name. */
  function ValueStep(m: Mode, kind: ScriptToken, text: string): (r: Result<(Mode, seq<Action>)>)
    requires IsValueToken(kind)
    ensures r.Err? ==> r.error == OverflowError || r.error == FormatError
  {
    if m.varname != [] && m.equals then
      var v := TokenValue(kind, text);
      if v.Err? then Err(v.error)
      else Ok((Mode([], false, m.iden, m.depth), [AddValue(false, m.varname, v.value)]))
    else if (m.varname != [] || m.iden) && !m.equals then
      var made := if m.iden then [] else [AddIdentifier(m.varname)];
      var v := TokenValue(kind, text);
      if v.Err? then Err(v.error)
      else Ok((Mode([], false, true, m.depth), made + [AddValue(true, [], v.value)]))
    else
      Ok((m.(varname := text), []))
  }

  /** The handler's state and the actions after handling the tokens ls in order. */
  function Run(m: Mode, ls: seq<Lexeme>): (r: Result<(Mode, seq<Action>)>)
    ensures r.Err? ==> r.error == ParserError(ValueExpectedAtEol) || r.error == OverflowError || r.error == FormatError
    decreases |ls|
  {
    if ls == [] then Ok((m, []))
    else
      var s := Handle(m, ls[0]);
      if s.Err? then s
      else
        var rest := Run(s.value.0, ls[1..]);
        if rest.Err? then rest else Ok((rest.value.0, s.value.1 + rest.value.1))
  }

  /** Handling a + b is handling a, then b from where a left off. */
  lemma {:induction false} RunConcat(m: Mode, a: seq<Lexeme>, b: seq<Lexeme>)
    ensures Run(m, a + b) == (var ra := Run(m, a);
                              if ra.Err? then ra
                              else var rb := Run(ra.value.0, b);
                                   if rb.Err? then rb else Ok((rb.value.0, ra.value.1 + rb.value.1)))
    decreases |a|
  {
    if a == [] {
      assert a + b == b;
      if Run(m, b).Ok? {
        assert [] + Run(m, b).value.1 == Run(m, b).value.1;
      }
    } else {
      assert (a + b)[0] == a[0] && (a + b)[1..] == a[1..] + b;
      var h := Handle(m, a[0]);
      if h.Ok? {
        RunConcat(h.value.0, a[1..], b);
        var ra := Run(h.value.0, a[1..]);
        assert Run(m, a + b) == (var r := Run(h.value.0, a[1..] + b);
                                 if r.Err? then r else Ok((r.value.0, h.value.1 + r.value.1)));
        if ra.Ok? {
          assert Run(m, a) == Ok((ra.value.0, h.value.1 + ra.value.1));
          var rb := Run(ra.value.0, b);
          if rb.Ok? {
            assert h.value.1 + (ra.value.1 + rb.value.1) == (h.value.1 + ra.value.1) + rb.value.1;
          }
        }
      }
    }
  }

  lemma RunOne(m: Mode, l: Lexeme)
    ensures Run(m, [l]) == Handle(m, l)
  {
    assert [l][1..] == [];
    if Handle(m, l).Ok? {
      var s := Handle(m, l).value;
      assert s.1 + [] == s.1;
    }
  }

  // ---------------------------------------------------------------- statement forms

  /** `name = value` appends exactly one value named `name` to the current
      node and clears the pending name and `=`. */
  lemma Assignment(m: Mode, name: Lexeme, eq: Lexeme, value: Lexeme)
    requires m.varname == [] && !m.iden
    requires IsValueToken(name.kind) && name.text != []
    requires eq.kind == Equals
    requires IsValueToken(value.kind) && TokenValue(value.kind, value.text).Ok?
    ensures Run(m, [name, eq, value])
            == Ok((Idle(m.depth), [AddValue(false, name.text, TokenValue(value.kind, value.text).value)]))
  {
    var m1 := m.(varname := name.text);
    var m2 := m1.(equals := true);
    var act := AddValue(false, name.text, TokenValue(value.kind, value.text).value);
    RunOne(m, name);
    RunOne(m1, eq);
    RunOne(m2, value);
    assert [name, eq, value] == [name] + ([eq] + [value]);
    RunConcat(m, [name], [eq] + [value]);
    RunConcat(m1, [eq], [value]);
    assert [] + ([] + [act]) == [act];
  }

  /** The values of a list of value tokens, each appended to the open identifier. */
  function IdentifierValues(vs: seq<Lexeme>): (acts: seq<Action>)
    requires forall i :: 0 <= i < |vs| ==> IsValueToken(vs[i].kind) && TokenValue(vs[i].kind, vs[i].text).Ok?
    ensures |acts| == |vs|
    ensures forall i :: 0 <= i < |vs| ==> acts[i] == AddValue(true, [], TokenValue(vs[i].kind, vs[i].text).value)
    decreases |vs|
  {
    if vs == [] then []
    else [AddValue(true, [], TokenValue(vs[0].kind, vs[0].text).value)] + IdentifierValues(vs[1..])
  }

  /** With an identifier open, every value token appends one unnamed value to
      it, and the end of the line closes it. */
  lemma {:induction false} ValuesThenEnd(depth: nat, vs: seq<Lexeme>, eol: Lexeme)
    requires forall i :: 0 <= i < |vs| ==> IsValueToken(vs[i].kind) && TokenValue(vs[i].kind, vs[i].text).Ok?
    requires eol.kind == EOL || eol.kind == EOF
    ensures Run(Mode([], false, true, depth), vs + [eol]) == Ok((Idle(depth), IdentifierValues(vs)))
    decreases |vs|
  {
    var m := Mode([], false, true, depth);
    if vs == [] {
      assert vs + [eol] == [eol];
      RunOne(m, eol);
    } else {
      var act := AddValue(true, [], TokenValue(vs[0].kind, vs[0].text).value);
      assert (vs + [eol])[0] == vs[0] && (vs + [eol])[1..] == vs[1..] + [eol];
      assert Handle(m, vs[0]) == Ok((m, [] + [act]));
      ValuesThenEnd(depth, vs[1..], eol);
      assert IdentifierValues(vs) == ([] + [act]) + IdentifierValues(vs[1..]);
    }
  }

  /** `name v1 v2 …` up to the end of the line appends one identifier named
      `name` whose unnamed values are v1, v2, … in order, and closes it. */
  lemma IdentifierStatement(m: Mode, name: Lexeme, vs: seq<Lexeme>, eol: Lexeme)
    requires m.varname == [] && !m.iden && !m.equals
    requires IsValueToken(name.kind) && name.text != []
    requires vs != []
    requires forall i :: 0 <= i < |vs| ==> IsValueToken(vs[i].kind) && TokenValue(vs[i].kind, vs[i].text).Ok?
    requires eol.kind == EOL || eol.kind == EOF
    ensures Run(m, [name] + vs + [eol])
            == Ok((Idle(m.depth), [AddIdentifier(name.text)] + IdentifierValues(vs)))
  {
    var first := AddValue(true, [], TokenValue(vs[0].kind, vs[0].text).value);
    var tail := IdentifierValues(vs[1..]);
    var rest := vs[1..] + [eol];
    assert [name] + vs + [eol] == [name, vs[0]] + rest;
    assert IdentifierValues(vs) == [first] + tail;
    assert [AddIdentifier(name.text), first] + tail == [AddIdentifier(name.text)] + IdentifierValues(vs);
    OpenIdentifier(m, name, vs[0]);
    ValuesThenEnd(m.depth, vs[1..], eol);
    RunThen(m, [name, vs[0]], rest, Mode([], false, true, m.depth), [AddIdentifier(name.text), first], Idle(m.depth), tail);
  }

  /** Handling a and then b, each with its known outcome. */
  lemma RunThen(m: Mode, a: seq<Lexeme>, b: seq<Lexeme>, ma: Mode, xa: seq<Action>, mb: Mode, xb: seq<Action>)
    requires Run(m, a) == Ok((ma, xa)) && Run(ma, b) == Ok((mb, xb))
    ensures Run(m, a + b) == Ok((mb, xa + xb))
  {
    RunConcat(m, a, b);
  }

  /** A name followed by a value opens an identifier holding that value. */
  lemma OpenIdentifier(m: Mode, name: Lexeme, v: Lexeme)
    requires m.varname == [] && !m.iden && !m.equals
    requires IsValueToken(name.kind) && name.text != []
    requires IsValueToken(v.kind) && TokenValue(v.kind, v.text).Ok?
    ensures Run(m, [name, v]) == Ok((Mode([], false, true, m.depth),
                                     [AddIdentifier(name.text), AddValue(true, [], TokenValue(v.kind, v.text).value)]))
  {
    var m1 := m.(varname := name.text);
    var acts := [AddIdentifier(name.text), AddValue(true, [], TokenValue(v.kind, v.text).value)];
    RunOne(m, name);
    RunOne(m1, v);
    assert Handle(m1, v) == Ok((Mode([], false, true, m.depth), [AddIdentifier(name.text)] + [acts[1]]));
    assert [name, v] == [name] + [v];
    RunConcat(m, [name], [v]);
    assert [] + ([AddIdentifier(name.text)] + [acts[1]]) == acts;
  }

  /** A bare name at the end of a line becomes an identifier with no values. */
  lemma BareName(m: Mode, name: Lexeme, eol: Lexeme)
    requires m.varname == [] && !m.iden && !m.equals
    requires IsValueToken(name.kind) && name.text != []
    requires eol.kind == EOL || eol.kind == EOF
    ensures Run(m, [name, eol]) == Ok((Idle(m.depth), [AddIdentifier(name.text)]))
  {
    var m1 := m.(varname := name.text);
    RunOne(m, name);
    RunOne(m1, eol);
    assert [name, eol] == [name] + [eol];
    RunConcat(m, [name], [eol]);
    assert [] + [AddIdentifier(name.text)] == [AddIdentifier(name.text)];
  }

  /** The end of a line or of the input with `=` pending is a PARSER error. */
  lemma PendingEqualsFails(m: Mode, ls: seq<Lexeme>, eol: Lexeme)
    requires Run(m, ls).Ok? && Run(m, ls).value.0.equals
    requires eol.kind == EOL || eol.kind == EOF
    ensures Run(m, ls + [eol]) == Err(ParserError(ValueExpectedAtEol))
  {
    RunConcat(m, ls, [eol]);
    RunOne(Run(m, ls).value.0, eol);
  }

  // ---------------------------------------------------------------- scopes

  /** How many of the actions open a node. */
  function Opened(acts: seq<Action>): nat
  {
    if acts == [] then 0 else (if acts[0].OpenNode? then 1 else 0) + Opened(acts[1..])
  }

  /** How many of the actions close a node. */
  function Closed(acts: seq<Action>): nat
  {
    if acts == [] then 0 else (if acts[0].CloseNode? then 1 else 0) + Closed(acts[1..])
  }

  lemma {:induction false} CountsAppend(a: seq<Action>, b: seq<Action>)
    ensures Opened(a + b) == Opened(a) + Opened(b) && Closed(a + b) == Closed(a) + Closed(b)
    decreases |a|
  {
    if a == [] {
      assert a + b == b;
    } else {
      assert (a + b)[0] == a[0] && (a + b)[1..] == a[1..] + b;
      CountsAppend(a[1..], b);
    }
  }

  lemma HandleCounts(m: Mode, l: Lexeme)
    requires Handle(m, l).Ok?
    ensures var s := Handle(m, l).value;
            s.0.depth + Closed(s.1) == m.depth + Opened(s.1)
  {
    var acts := Handle(m, l).value.1;
    if IsValueToken(l.kind) {
      assert forall i :: 0 <= i < |acts| ==> acts[i].AddIdentifier? || acts[i].AddValue?;
      NoScopes(acts);
    } else if acts != [] {
      assert acts[1..] == [];
    }
  }

  lemma {:induction false} NoScopes(acts: seq<Action>)
    requires forall i :: 0 <= i < |acts| ==> acts[i].AddIdentifier? || acts[i].AddValue?
    ensures Opened(acts) == 0 && Closed(acts) == 0
    decreases |acts|
  {
    if acts != [] {
      NoScopes(acts[1..]);
    }
  }

  /** The depth of the current node is the number of nodes opened less the
      number closed: a CloseNode never happens at the root. */
  lemma {:induction false} DepthCounts(m: Mode, ls: seq<Lexeme>)
    requires Run(m, ls).Ok?
    ensures var r := Run(m, ls).value;
            r.0.depth + Closed(r.1) == m.depth + Opened(r.1)
    decreases |ls|
  {
    if ls != [] {
      var s := Handle(m, ls[0]).value;
      DepthCounts(s.0, ls[1..]);
      CountsAppend(s.1, Run(s.0, ls[1..]).value.1);
      HandleCounts(m, ls[0]);
    }
  }

  // ---------------------------------------------------------------- conversions

  /** Every Number token of the list converts unless it overflows. */
  predicate NumbersConvert(ls: seq<Lexeme>)
  {
    forall i :: 0 <= i < |ls| && ls[i].kind == Number ==> ParseInt32(ls[i].text) != Err(FormatError)
  }

  /** Token.ToInt never meets a malformed number: every Number token the lexer
      hands over is a sign or digit followed by digits, with a digit among
      them, so converting it can fail only by overflow. */
  lemma {:induction false} LexedNumbersConvert(input: string, c: Cursor)
    requires c.pos <= |input|
    ensures LexFrom(input, c).Ok? ==> NumbersConvert(LexFrom(input, c).value)
    decreases Measure(input, c)
  {
    var st := ParseStep(input, c);
    if st.Ok? {
      var w := SkipSpaces(input, c);
      TokenShapes(input, w);
      var t := ReadTokenSpec(input, Lexed(w, Classify(input, w).value.0, Classify(input, w).value.1)).value;
      if t.kind == Number {
        NumberTextParses(t.text);
      }
      assert NumbersConvert(st.value.handed);
      if st.value.more {
        LexedNumbersConvert(input, st.value.at);
        if LexFrom(input, st.value.at).Ok? {
          var rest := LexFrom(input, st.value.at).value;
          var all := st.value.handed + rest;
          forall i | 0 <= i < |all| && all[i].kind == Number
            ensures ParseInt32(all[i].text) != Err(FormatError)
          {
            if i >= |st.value.handed| {
              assert all[i] == rest[i - |st.value.handed|];
            }
          }
        }
      }
    }
  }

  // ---------------------------------------------------------------- Process

  /** Process as it runs: each call of Parse hands its tokens to the handler
      before the next token is read, so the first error, of either, ends it. */
  function Drive(input: string, c: Cursor, m: Mode): (r: Result<(Mode, seq<Action>)>)
    requires c.pos <= |input|
    ensures r.Err? ==> r.error.ParserError? || r.error == OverflowError || r.error == FormatError
    decreases Measure(input, c)
  {
    var st := ParseStep(input, c);
    if st.Err? then Err(st.error)
    else
      var h := Run(m, st.value.handed);
      if h.Err? then h
      else if !st.value.more then h
      else
        var rest := Drive(input, st.value.at, h.value.0);
        if rest.Err? then rest else Ok((rest.value.0, h.value.1 + rest.value.1))
  }

  /** Interleaving changes nothing when both succeed: driving the handler
      token by token is handling the whole token list of the input. */
  lemma {:induction false} DriveIsRunOfLex(input: string, c: Cursor, m: Mode)
    requires c.pos <= |input|
    ensures Drive(input, c, m).Ok? <==> LexFrom(input, c).Ok? && Run(m, LexFrom(input, c).value).Ok?
    ensures Drive(input, c, m).Ok? ==> Drive(input, c, m) == Run(m, LexFrom(input, c).value)
    decreases Measure(input, c)
  {
    var st := ParseStep(input, c);
    if st.Ok? && st.value.more {
      if Run(m, st.value.handed).Ok? {
        DriveIsRunOfLex(input, st.value.at, Run(m, st.value.handed).value.0);
      }
      if LexFrom(input, st.value.at).Ok? {
        RunConcat(m, st.value.handed, LexFrom(input, st.value.at).value);
      }
    }
  }

  /** Handling tokens that end with EOF leaves the handler idle. */
  lemma RunEndsIdle(m: Mode, h: seq<Lexeme>)
    requires h != [] && h[|h| - 1].kind == EOF
    ensures Run(m, h).Ok? ==> Run(m, h).value.0 == Idle(Run(m, h).value.0.depth)
  {
    assert h[..|h| - 1] + [h[|h| - 1]] == h;
    RunConcat(m, h[..|h| - 1], [h[|h| - 1]]);
  }

  /** Every parse that succeeds ends on an EOF token, so the handler is left
      with no pending name, `=` or identifier. */
  lemma {:induction false} DriveEndsIdle(input: string, c: Cursor, m: Mode)
    requires c.pos <= |input|
    ensures Drive(input, c, m).Ok? ==> Drive(input, c, m).value.0 == Idle(Drive(input, c, m).value.0.depth)
    decreases Measure(input, c)
  {
    var st := ParseStep(input, c);
    if st.Ok? {
      var h := st.value.handed;
      if st.value.more {
        if Run(m, h).Ok? {
          DriveEndsIdle(input, st.value.at, Run(m, h).value.0);
        }
      } else {
        RunEndsIdle(m, h);
      }
    }
  }

  /** The result r with the actions acts carried out before it. */
  function After(acts: seq<Action>, r: Result<(Mode, seq<Action>)>): Result<(Mode, seq<Action>)>
  {
    if r.Err? then r else Ok((r.value.0, acts + r.value.1))
  }

  /** One more of the tokens ls handled, after the actions done. */
  lemma RunNext(m0: Mode, ls: seq<Lexeme>, i: nat, done: seq<Action>, m: Mode)
    requires i < |ls| && Run(m0, ls) == After(done, Run(m, ls[i..]))
    ensures Handle(m, ls[i]).Err? ==> Run(m0, ls) == Handle(m, ls[i])
    ensures Handle(m, ls[i]).Ok? ==>
              Run(m0, ls) == After(done + Handle(m, ls[i]).value.1, Run(Handle(m, ls[i]).value.0, ls[i + 1..]))
  {
    assert ls[i..][0] == ls[i] && ls[i..][1..] == ls[i + 1..];
    var h := Handle(m, ls[i]);
    if h.Ok? {
      AfterAfter(done, h.value.1, Run(h.value.0, ls[i + 1..]));
    }
  }

  /** Drive after one successful call of Parse, in terms of what it read. */
  lemma DriveRound(input: string, c: Cursor, m: Mode, st: Step)
    requires c.pos <= |input| && ParseStep(input, c) == Ok(st)
    ensures Run(m, st.handed).Err? ==> Drive(input, c, m) == Run(m, st.handed)
    ensures Run(m, st.handed).Ok? && !st.more ==> Drive(input, c, m) == Run(m, st.handed)
    ensures Run(m, st.handed).Ok? && st.more ==>
              Drive(input, c, m) == After(Run(m, st.handed).value.1, Drive(input, st.at, Run(m, st.handed).value.0))
  {
  }

  lemma AfterAfter(a: seq<Action>, b: seq<Action>, r: Result<(Mode, seq<Action>)>)
    ensures After(a, After(b, r)) == After(a + b, r)
    ensures After([], r) == r
  {
    if r.Ok? {
      assert a + (b + r.value.1) == (a + b) + r.value.1;
      assert [] + r.value.1 == r.value.1;
    }
  }

  /** ScriptParserHandler.Process on a whole input: drive from the first
      character, finish (the last token the parser holds is EOF), and require
      the current node to be the root again, or else a HIERARCHY error. */
  function ProcessSpec(input: string): Result<(Mode, seq<Action>)>
  {
    Conclusion(Drive(input, Start(input), Idle(0)))
  }

  /** What Process makes of the result d of driving the handler over the input. */
  function Conclusion(d: Result<(Mode, seq<Action>)>): Result<(Mode, seq<Action>)>
  {
    if d.Err? then d
    else
      var f := FinishMode(d.value.0, EOF);
      if f.Err? then f
      else if f.value.0.depth != 0 then Err(HierarchyError)
      else Ok((f.value.0, d.value.1 + f.value.1))
  }

  /** A successful parse closes every node it opens, and a parse that ends
      inside a node fails with a HIERARCHY error. */
  lemma ProcessBalances(input: string)
    ensures ProcessSpec(input).Ok? ==> Opened(ProcessSpec(input).value.1) == Closed(ProcessSpec(input).value.1)
    ensures ProcessSpec(input) == Err(HierarchyError) <==>
              Drive(input, Start(input), Idle(0)).Ok? && Drive(input, Start(input), Idle(0)).value.0.depth != 0
  {
    var d := Drive(input, Start(input), Idle(0));
    DriveIsRunOfLex(input, Start(input), Idle(0));
    DriveEndsIdle(input, Start(input), Idle(0));
    if d.Ok? {
      DepthCounts(Idle(0), LexFrom(input, Start(input)).value);
      var f := FinishMode(d.value.0, EOF);
      if f.Ok? {
        CountsAppend(d.value.1, f.value.1);
      }
    }
  }

  // ---------------------------------------------------------------- the tree the actions build

  /** The tree being built, as a store of entries, with the store positions of
      the open nodes (root first) and of the identifier created last (-1
      before the first). */
  datatype Build = Build(store: seq<Entry>, open: seq<nat>, iden: int)

  /** A new root node, which is also the current node. */
  const Begin := Build([Entry(NodeKind, [], [])], [0], -1)

  /** The open nodes are node entries starting from the root, and the last
      identifier is an identifier entry. */
  predicate BuildOk(b: Build)
  {
    StoreOk(b.store) && |b.open| >= 1 && b.open[0] == 0
    && (forall k :: 0 <= k < |b.open| ==> b.open[k] < |b.store| && b.store[b.open[k]].kind == NodeKind)
    && (b.iden >= 0 ==> b.iden < |b.store| && b.store[b.iden].kind == IdentifierKind)
  }

  /** The store with a new childless entry appended to the children of p. */
  function Attach(s: seq<Entry>, p: nat, kind: Kind, name: string): (r: seq<Entry>)
    requires p < |s|
    ensures |r| == |s| + 1 && r[|s|] == Entry(kind, name, [])
    ensures r[p] == s[p].(kids := s[p].kids + [|s|])
    ensures forall q :: 0 <= q < |s| && q != p ==> r[q] == s[q]
  {
    s[p := s[p].(kids := s[p].kids + [|s|])] + [Entry(kind, name, [])]
  }

  lemma AttachOk(s: seq<Entry>, p: nat, kind: Kind, name: string)
    requires StoreOk(s) && p < |s| && !s[p].kind.Scalar?
    ensures StoreOk(Attach(s, p, kind, name))
  {
    var r := Attach(s, p, kind, name);
    forall q, k | 0 <= q < |r| && 0 <= k < |r[q].kids|
      ensures q < r[q].kids[k] < |r|
    {
      if q == p && k == |s[p].kids| {
      } else if q < |s| {
        assert r[q].kids[k] == s[q].kids[k];
      }
    }
  }

  /** Attaching a new entry leaves every other old entry mirrored by the same
      variable. */
  lemma AttachMirrors(made: seq<Variable>, s: seq<Entry>, p: nat, x: Variable)
    requires Mirrors(made, s) && p < |s|
    ensures forall q :: 0 <= q < |s| && q != p ==> MirrorsAt(made + [x], Attach(s, p, x.kind, x.name), q)
  {
    var m1, s1 := made + [x], Attach(s, p, x.kind, x.name);
    forall q | 0 <= q < |s| && q != p
      ensures MirrorsAt(m1, s1, q)
    {
      assert MirrorsAt(made, s, q);
      assert m1[q] == made[q] && s1[q] == s[q];
      forall k | 0 <= k < |s[q].kids|
        ensures m1[q].children[k] == m1[s1[q].kids[k]]
      {
        assert m1[s[q].kids[k]] == made[s[q].kids[k]];
      }
    }
  }

  /** The node the current node is: the last open one. */
  function Top(b: Build): nat
    requires |b.open| > 0
  {
    b.open[|b.open| - 1]
  }

  /** One action carried out on the tree. */
  function Apply1(b: Build, a: Action): (r: Build)
    requires BuildOk(b)
    ensures BuildOk(r)
  {
    match a
    case AddValue(toIden, name, value) =>
      if !toIden then
        AttachOk(b.store, Top(b), Scalar(value), name);
        b.(store := Attach(b.store, Top(b), Scalar(value), name))
      else if b.iden >= 0 then
        AttachOk(b.store, b.iden, Scalar(value), name);
        b.(store := Attach(b.store, b.iden, Scalar(value), name))
      else b
    case AddIdentifier(name) =>
      AttachOk(b.store, Top(b), IdentifierKind, name);
      Build(Attach(b.store, Top(b), IdentifierKind, name), b.open, |b.store|)
    case OpenNode(name) =>
      AttachOk(b.store, Top(b), NodeKind, name);
      Build(Attach(b.store, Top(b), NodeKind, name), b.open + [|b.store|], b.iden)
    case CloseNode =>
      if |b.open| > 1 then b.(open := b.open[..|b.open| - 1]) else b
  }

  /** The actions carried out in order. */
  function Apply(b: Build, acts: seq<Action>): (r: Build)
    requires BuildOk(b)
    ensures BuildOk(r)
    decreases |acts|
  {
    if acts == [] then b else Apply(Apply1(b, acts[0]), acts[1..])
  }

  lemma {:induction false} ApplyConcat(b: Build, x: seq<Action>, y: seq<Action>)
    requires BuildOk(b)
    ensures Apply(b, x + y) == Apply(Apply(b, x), y)
    decreases |x|
  {
    if x == [] {
      assert x + y == y;
    } else {
      assert (x + y)[0] == x[0] && (x + y)[1..] == x[1..] + y;
      ApplyConcat(Apply1(b, x[0]), x[1..], y);
    }
  }

  lemma ApplyOne(b: Build, a: Action)
    requires BuildOk(b)
    ensures Apply(b, [a]) == Apply1(b, a)
  {
    assert [a][1..] == [];
  }

  /** HandleToken on `=`, a brace, a comment or no token, and the actions it
      gives applied to a tree. */
  lemma StructureActs(m: Mode, l: Lexeme, b: Build)
    requires BuildOk(b) && !IsValueToken(l.kind) && l.kind != EOL && l.kind != EOF
    ensures Handle(m, l).Ok? && Apply(b, []) == b
    ensures l.kind == Equals ==>
              Handle(m, l).value == (if m.iden || m.varname == [] || m.equals then m else m.(equals := true), [])
    ensures l.kind == OpenBrace ==>
              Handle(m, l).value == (Mode([], false, m.iden, m.depth + 1), [OpenNode(m.varname)])
              && Apply(b, [OpenNode(m.varname)]) == Apply1(b, OpenNode(m.varname))
    ensures l.kind == CloseBrace ==>
              if m.depth == 0 || m.equals then Handle(m, l).value == (m, [])
              else Handle(m, l).value == (if m.iden then Idle(m.depth - 1) else m.(depth := m.depth - 1), [CloseNode])
                   && Apply(b, [CloseNode]) == Apply1(b, CloseNode)
    ensures l.kind in {Comment, CommentBlock, NoToken} ==> Handle(m, l).value == (m, [])
  {
    ApplyOne(b, OpenNode(m.varname));
    ApplyOne(b, CloseNode);
  }

  /** The tree Process builds from an input: the root's tree after every
      action of a successful run. */
  function ProcessTree(input: string): (r: Result<Tree>)
    ensures r.Ok? <==> ProcessSpec(input).Ok?
  {
    var p := ProcessSpec(input);
    if p.Err? then Err(p.error)
    else Ok(TreeOf(Apply(Begin, p.value.1).store, 0))
  }

  /** The actions of a drive and then those of its finish, applied in turn,
      are the actions of its conclusion applied at once, and a drive that
      concludes ends idle at the root. */
  lemma ConcludedTree(d: Result<(Mode, seq<Action>)>, b: Build)
    requires d.Ok? && Conclusion(d).Ok?
    requires b == Apply(Apply(Begin, d.value.1), FinishMode(d.value.0, EOF).value.1)
    ensures b == Apply(Begin, Conclusion(d).value.1) && Conclusion(d).value.0 == Idle(0)
  {
    ApplyConcat(Begin, d.value.1, FinishMode(d.value.0, EOF).value.1);
  }

  /** collection.Add(x) on a collection that is entry p of the store made
      mirrors: the store gains x as the last child of entry p. */
  method AddStored(collection: Variable, x: Variable, ghost m0: seq<Variable>, ghost b0: Build, ghost p: nat)
      returns (ghost m1: seq<Variable>, ghost b1: Build)
    requires Stored(m0, b0) && p < |m0| && m0[p] == collection && collection.IsCollection()
    requires x !in m0 && x.children == []
    modifies collection, x
    ensures m1 == m0 + [x] && b1 == b0.(store := Attach(b0.store, p, x.kind, x.name)) && Stored(m1, b1)
    ensures collection.children == old(collection.children) + [x] && x.parent == collection
    ensures collection.parent == old(collection.parent) && x.name == old(x.name) && x.children == old(x.children)
  {
    ghost var s0 := b0.store;
    ghost var s1 := Attach(s0, p, x.kind, x.name);
    m1, b1 := m0 + [x], b0.(store := s1);
    assert MirrorsAt(m0, s0, p);
    AttachOk(s0, p, x.kind, x.name);
    AttachMirrors(m0, s0, p, x);
    UnsharedJoin(m0, [x]);
    assert x != collection;
    var _ := collection.Add(x);
    assert MirrorsAt(m1, s1, p);
    assert MirrorsAt(m1, s1, |s0|);
    forall q | 0 <= q < |s0| && q != p
      ensures MirrorsAt(m1, s1, q)
    {
      assert m1[q] != collection && m1[q] != x;
    }
  }

  /** A node of the store may be opened, and an identifier made the open one. */
  lemma OpenStored(made: seq<Variable>, b: Build, n: nat)
    requires Stored(made, b) && n < |b.store| && b.store[n].kind == NodeKind
    ensures Stored(made, b.(open := b.open + [n]))
  {
  }

  lemma CloseStored(made: seq<Variable>, b: Build)
    requires Stored(made, b) && |b.open| > 1
    ensures Stored(made, b.(open := b.open[..|b.open| - 1]))
  {
  }

  lemma IdenStored(made: seq<Variable>, b: Build, n: nat)
    requires Stored(made, b) && n < |b.store| && b.store[n].kind == IdentifierKind
    ensures Stored(made, b.(iden := n))
  {
  }

  /** Nodes, each the parent of the next. */
  ghost predicate Chain(open: seq<Variable>)
    reads open
  {
    (forall i :: 0 <= i < |open| ==> open[i].kind == NodeKind)
    && (forall i :: 1 <= i < |open| ==> open[i].parent == open[i - 1])
  }

  /** The variables of open sit at the positions at in made. */
  ghost predicate Indexed(open: seq<Variable>, made: seq<Variable>, at: seq<nat>)
  {
    |at| == |open| && forall k :: 0 <= k < |open| ==> at[k] < |made| && open[k] == made[at[k]]
  }

  lemma ChainPush(open: seq<Variable>, x: Variable)
    requires Chain(open) && |open| > 0 && x.kind == NodeKind && x.parent == open[|open| - 1]
    ensures Chain(open + [x])
  {
  }

  lemma ChainPop(open: seq<Variable>)
    requires Chain(open) && |open| > 0
    ensures Chain(open[..|open| - 1])
  {
  }

  lemma IndexedGrow(open: seq<Variable>, made: seq<Variable>, at: seq<nat>, x: Variable)
    requires Indexed(open, made, at)
    ensures Indexed(open, made + [x], at)
  {
    forall k | 0 <= k < |open|
      ensures (made + [x])[at[k]] == made[at[k]]
    {
    }
  }

  lemma IndexedPush(open: seq<Variable>, made: seq<Variable>, at: seq<nat>, n: nat)
    requires Indexed(open, made, at) && n < |made|
    ensures Indexed(open + [made[n]], made, at + [n])
  {
  }

  lemma IndexedPop(open: seq<Variable>, made: seq<Variable>, at: seq<nat>)
    requires Indexed(open, made, at) && |open| > 0
    ensures Indexed(open[..|open| - 1], made, at[..|at| - 1])
  {
  }

  /** A value of the open identifier (opened first for a pending name) is one
      or two actions, applied one after the other. */
  lemma IdentifierActs(m: Mode, kind: ScriptToken, text: string, v: Value, b0: Build)
    requires IsValueToken(kind) && (m.varname != [] || m.iden) && !m.equals
    requires TokenValue(kind, text) == Ok(v) && BuildOk(b0)
    ensures var b1 := if m.iden then b0 else Apply1(b0, AddIdentifier(m.varname));
            ValueStep(m, kind, text).Ok? && ValueStep(m, kind, text).value.0 == Mode([], false, true, m.depth)
            && Apply(b0, ValueStep(m, kind, text).value.1) == Apply1(b1, AddValue(true, [], v))
  {
    var add := AddValue(true, [], v);
    if m.iden {
      assert [] + [add] == [add];
      ApplyOne(b0, add);
    } else {
      var acts := [AddIdentifier(m.varname), add];
      assert [AddIdentifier(m.varname)] + [add] == acts;
      assert acts[1..] == [add];
      ApplyOne(Apply1(b0, AddIdentifier(m.varname)), add);
    }
  }

  // ---------------------------------------------------------------- the handler object

  /** The variables in made are the entries of the build's store, none twice. */
  ghost predicate Stored(made: seq<Variable>, b: Build)
    reads made
  {
    BuildOk(b) && Mirrors(made, b.store) && Unshared(made)
  }

  class StandardScriptParserHandler {
    var varname: string
    var equals: bool
    var currentiden: Variable?
    var currentnode: Variable
    var root: Variable
    /** The nodes from the root to the current node. */
    ghost var open: seq<Variable>
    /** Every variable of the tree, at its position in `build`'s store. */
    ghost var made: seq<Variable>
    /** The tree as a value, with the positions of the open nodes and of the
        identifier created last. */
    ghost var build: Build

    /** The open nodes form the parent chain of the current node, up to the
        root, which has no parent; an open identifier is an identifier. */
    ghost predicate Valid()
      reads this, open
    {
      |open| >= 1 && open[0] == root && open[|open| - 1] == currentnode
      && root.parent == null && Chain(open)
      && (currentiden != null ==> currentiden.kind == IdentifierKind)
    }

    /** The variables below the root are the tree `build` describes, none of
        them twice; the open nodes and the open identifier are the ones it
        records. */
    ghost predicate Built()
      reads this, made
    {
      Stored(made, build) && |made| > 0 && made[0] == root
      && Indexed(open, made, build.open)
      && (currentiden != null ==> 0 <= build.iden && currentiden == made[build.iden])
    }

    /** The state the pure handler model speaks of. */
    ghost function Abs(): Mode
      reads this
    {
      Mode(varname, equals, currentiden != null, if |open| > 0 then |open| - 1 else 0)
    }

    /** A handler after Clean, with a fresh root node (what Process creates). */
    constructor ()
      ensures Valid() && Built() && Abs() == Idle(0) && build == Begin
      ensures fresh(root) && root.children == [] && root.name == []
    {
      varname, equals, currentiden := [], false, null;
      root := new Variable(NodeKind, [], null);
      currentnode := root;
      open := [root];
      made := [root];
      build := Begin;
    }

    /** The current node has a parent exactly when it is not the root. */
    lemma ParentOfCurrent()
      requires Valid()
      ensures currentnode.parent == null <==> |open| == 1
      ensures |open| > 1 ==> currentnode.parent == open[|open| - 2]
      ensures currentnode == root <==> |open| == 1
    {
      if |open| > 1 {
        assert open[|open| - 1].parent == open[|open| - 2];
        assert currentnode != root;
      }
    }

    /** The current node and the open identifier are variables of the tree. */
    lemma Current()
      requires Valid() && Built()
      ensures currentnode == made[Top(build)] && currentnode in made
      ensures currentiden != null ==> currentiden in made
    {
      assert open[|open| - 1] == made[build.open[|open| - 1]];
    }

    /** Reset(iden, val): clears the pending name and `=`, and the open
        identifier when asked to. */
    method Reset(iden: bool)
      modifies this
      ensures varname == [] && !equals && currentiden == (if iden then null else old(currentiden))
      ensures currentnode == old(currentnode) && root == old(root) && open == old(open)
      ensures made == old(made) && build == old(build)
    {
      varname, equals := [], false;
      if iden {
        currentiden := null;
      }
    }

    /** A new variable of the given kind and name, added to the collection at
        store position p by collection.Add, which makes the collection its
        parent; the store gains it as the last child of entry p. */
    method Adopt(collection: Variable, ghost p: nat, kind: Kind, name: string) returns (x: Variable)
      requires Valid() && Built() && p < |made| && made[p] == collection && collection.IsCollection()
      modifies this, collection
      ensures Valid() && Built() && fresh(x)
      ensures x.kind == kind && x.name == name && x.children == [] && x.parent == collection
      ensures made == old(made) + [x] && build == old(build).(store := Attach(old(build.store), p, kind, name))
      ensures collection.children == old(collection.children) + [x]
      ensures varname == old(varname) && equals == old(equals) && currentiden == old(currentiden)
      ensures currentnode == old(currentnode) && root == old(root) && open == old(open)
    {
      x := new Variable(kind, name, null);
      assert forall k :: 0 <= k < |open| ==> open[k] != x;
      IndexedGrow(open, made, build.open, x);
      made, build := AddStored(collection, x, made, build, p);
    }

    /** MakeIdentifier(token, resetiden, resetvalue, force): without an open
        identifier, or when forced, appends an identifier named by the pending
        name to the current node, makes it the open one and resets. */
    method MakeIdentifier(force: bool, resetiden: bool)
      requires Valid() && Built()
      modifies this, currentnode
      ensures Valid() && Built() && currentnode == old(currentnode) && root == old(root) && open == old(open)
      ensures forall x :: x in made ==> x in old(made) || fresh(x)
      ensures currentiden == null || currentiden == old(currentiden) || fresh(currentiden)
      ensures old(currentiden) == null || force ==>
                build == Apply1(old(build), AddIdentifier(old(varname)))
                && varname == [] && !equals
                && currentiden == (if resetiden then null else made[build.iden])
      ensures !(old(currentiden) == null || force) ==>
                build == old(build) && made == old(made) && Abs() == old(Abs()) && currentiden == old(currentiden)
    {
      if currentiden == null || force {
        var iden := Adopt(currentnode, Top(build), IdentifierKind, varname);
        Focus(iden);
        Reset(resetiden);
      }
    }

    /** The identifier last added becomes the open one. */
    method Focus(iden: Variable)
      requires Valid() && Built() && |made| > 0 && iden == made[|made| - 1] && iden.kind == IdentifierKind
      modifies this
      ensures Valid() && Built() && made == old(made) && build == old(build).(iden := |made| - 1)
      ensures currentiden == iden && varname == old(varname) && equals == old(equals)
      ensures currentnode == old(currentnode) && root == old(root) && open == old(open)
    {
      assert MirrorsAt(made, build.store, |made| - 1);
      IdenStored(made, build, |made| - 1);
      currentiden, build := iden, build.(iden := |made| - 1);
    }

    /** Finish: at an end of line or input with `=` pending a PARSER error;
        else a pending name becomes an identifier without values; the state
        is cleared. */
    method Finish(kind: ScriptToken) returns (o: Outcome)
      requires Valid() && Built()
      modifies this, currentnode
      ensures var f := FinishMode(old(Abs()), kind);
              (o.Pass? <==> f.Ok?) && (o.Fail? ==> o.error == f.error)
              && (o.Pass? ==> Valid() && Built() && Abs() == f.value.0 && build == Apply(old(build), f.value.1))
      ensures root == old(root) && currentnode == old(currentnode) && open == old(open)
      ensures forall x :: x in made ==> x in old(made) || fresh(x)
    {
      if (kind == EOL || kind == EOF) && equals {
        return Fail(ParserError(ValueExpectedAtEol));
      } else if varname != [] {
        ghost var b := build;
        MakeIdentifier(true, true);
        ApplyOne(b, AddIdentifier(old(varname)));
      } else {
        Reset(true);
      }
      return Pass;
    }

    /** AddVariableAndReset(_currentnode, value named by the pending name):
        the `name = value` statement. */
    method AddAssigned(v: Value)
      requires Valid() && Built() && varname != []
      modifies this, currentnode
      ensures Valid() && Built() && Abs() == Mode([], false, old(Abs()).iden, old(Abs()).depth)
      ensures build == Apply1(old(build), AddValue(false, old(varname), v))
      ensures root == old(root) && currentnode == old(currentnode) && open == old(open)
      ensures currentiden == old(currentiden)
      ensures forall x :: x in made ==> x in old(made) || fresh(x)
    {
      var _ := Adopt(currentnode, Top(build), Scalar(v), varname);
      Reset(false);
    }

    /** AddVariableAndReset(_currentiden, unnamed value): one more value of
        the open identifier. */
    method AddToIdentifier(v: Value)
      requires Valid() && Built() && currentiden != null
      modifies this, currentiden
      ensures Valid() && Built() && Abs() == Mode([], false, true, old(Abs()).depth)
      ensures build == Apply1(old(build), AddValue(true, [], v))
      ensures root == old(root) && currentnode == old(currentnode) && open == old(open)
      ensures currentiden == old(currentiden)
      ensures forall x :: x in made ==> x in old(made) || fresh(x)
    {
      var _ := Adopt(currentiden, build.iden, Scalar(v), []);
      Reset(false);
    }

    /** HandleToken on a String, QuotedString, Number or Double token. The
        value is converted before anything is added for `name = value`, but
        only after the identifier has been made for a value of an identifier,
        so a conversion error there leaves the new identifier in the tree. */
    method ValueToken(kind: ScriptToken, text: string) returns (o: Outcome)
      requires Valid() && Built() && IsValueToken(kind)
      modifies this, currentnode, currentiden
      ensures var h := ValueStep(old(Abs()), kind, text);
              (o.Pass? <==> h.Ok?) && (o.Fail? ==> o.error == h.error)
              && (o.Pass? ==> Valid() && Built() && Abs() == h.value.0 && build == Apply(old(build), h.value.1))
      ensures root == old(root) && currentnode == old(currentnode) && open == old(open)
      ensures forall x :: x in made ==> x in old(made) || fresh(x)
    {
      if varname != [] && equals {
        o := AssignedValue(kind, text);
      } else if (varname != [] || currentiden != null) && !equals {
        o := IdentifierValue(kind, text);
      } else {
        ghost var m := Abs();
        varname := text;
        assert ValueStep(m, kind, text) == Ok((Abs(), []));
        o := Pass;
      }
    }

    /** The value of `name = value`. */
    method AssignedValue(kind: ScriptToken, text: string) returns (o: Outcome)
      requires Valid() && Built() && IsValueToken(kind) && varname != [] && equals
      modifies this, currentnode
      ensures var h := ValueStep(old(Abs()), kind, text);
              (o.Pass? <==> h.Ok?) && (o.Fail? ==> o.error == h.error)
              && (o.Pass? ==> Valid() && Built() && Abs() == h.value.0 && build == Apply(old(build), h.value.1))
      ensures root == old(root) && currentnode == old(currentnode) && open == old(open)
      ensures forall x :: x in made ==> x in old(made) || fresh(x)
    {
      ghost var m, b := Abs(), build;
      var v := TokenValue(kind, text);
      if v.Err? {
        return Fail(v.error);
      }
      AddAssigned(v.value);
      assert ValueStep(m, kind, text) == Ok((Abs(), [AddValue(false, m.varname, v.value)]));
      ApplyOne(b, AddValue(false, m.varname, v.value));
      return Pass;
    }

    /** A value of the open identifier, which a pending name opens first. */
    method IdentifierValue(kind: ScriptToken, text: string) returns (o: Outcome)
      requires Valid() && Built() && IsValueToken(kind) && (varname != [] || currentiden != null) && !equals
      modifies this, currentnode, currentiden
      ensures var h := ValueStep(old(Abs()), kind, text);
              (o.Pass? <==> h.Ok?) && (o.Fail? ==> o.error == h.error)
              && (o.Pass? ==> Valid() && Built() && Abs() == h.value.0 && build == Apply(old(build), h.value.1))
      ensures root == old(root) && currentnode == old(currentnode) && open == old(open)
      ensures forall x :: x in made ==> x in old(made) || fresh(x)
    {
      ghost var m, b0 := Abs(), build;
      MakeIdentifier(false, false);
      ghost var b1 := build;
      var v := TokenValue(kind, text);
      if v.Err? {
        return Fail(v.error);
      }
      AddToIdentifier(v.value);
      IdentifierActs(m, kind, text, v.value, b0);
      return Pass;
    }

    /** The open-brace case: a node named by the pending name is appended to
        the current node and becomes current; an open identifier stays open. */
    method EnterNode()
      requires Valid() && Built()
      modifies this, currentnode
      ensures Valid() && Built() && Abs() == Mode([], false, old(Abs()).iden, old(Abs()).depth + 1)
      ensures build == Apply1(old(build), OpenNode(old(varname)))
      ensures currentnode.parent == old(currentnode) && fresh(currentnode) && open == old(open) + [currentnode]
      ensures root == old(root) && currentiden == old(currentiden)
      ensures forall x :: x in made ==> x in old(made) || fresh(x)
    {
      var node := Adopt(currentnode, Top(build), NodeKind, varname);
      Reset(false);
      Descend(node);
    }

    /** The node last added to the current node becomes the current one. */
    method Descend(node: Variable)
      requires Valid() && Built() && |made| > 1 && node == made[|made| - 1]
      requires node.kind == NodeKind && node.parent == currentnode
      modifies this
      ensures Valid() && Built() && made == old(made) && build == old(build).(open := old(build.open) + [|made| - 1])
      ensures currentnode == node && open == old(open) + [node]
      ensures varname == old(varname) && equals == old(equals) && currentiden == old(currentiden) && root == old(root)
    {
      assert MirrorsAt(made, build.store, |made| - 1);
      OpenStored(made, build, |made| - 1);
      ChainPush(open, node);
      IndexedPush(open, made, build.open, |made| - 1);
      currentnode, open, build := node, open + [node], build.(open := build.open + [|made| - 1]);
    }

    /** The close-brace case: at the root, or with `=` pending, nothing
        happens; otherwise the open identifier is closed and the parent of the
        current node becomes current. */
    method LeaveNode()
      requires Valid() && Built()
      modifies this
      ensures Valid() && Built() && root == old(root) && made == old(made)
      ensures old(|open|) == 1 || old(equals) ==>
                Abs() == old(Abs()) && currentnode == old(currentnode) && open == old(open)
                && currentiden == old(currentiden) && build == old(build)
      ensures old(|open|) > 1 && !old(equals) ==>
                open == old(open[..|open| - 1]) && currentnode == old(open[|open| - 2])
                && Abs() == (if old(currentiden) != null then Idle(old(Abs()).depth - 1)
                             else old(Abs()).(depth := old(Abs()).depth - 1))
                && build == Apply1(old(build), CloseNode)
    {
      ParentOfCurrent();
      if currentnode.parent == null {
      } else if equals {
      } else {
        if currentiden != null {
          Reset(true);
        }
        ChainPop(open);
        IndexedPop(open, made, build.open);
        CloseStored(made, build);
        currentnode, open, build := currentnode.parent, open[..|open| - 1], build.(open := build.open[..|build.open| - 1]);
      }
    }

    /** HandleToken: one token's effect on the state and the tree, as the pure
        handler describes it. */
    method HandleToken(l: Lexeme) returns (o: Outcome)
      requires Valid() && Built()
      modifies this, currentnode, currentiden
      ensures var h := Handle(old(Abs()), l);
              (o.Pass? <==> h.Ok?) && (o.Fail? ==> o.error == h.error)
              && (o.Pass? ==> Valid() && Built() && Abs() == h.value.0 && build == Apply(old(build), h.value.1))
      ensures root == old(root)
      ensures forall x :: x in made ==> x in old(made) || fresh(x)
    {
      ghost var m := Abs();
      if IsValueToken(l.kind) {
        assert Handle(m, l) == ValueStep(m, l.kind, l.text);
        o := ValueToken(l.kind, l.text);
      } else if l.kind == EOL || l.kind == EOF {
        assert Handle(m, l) == FinishMode(m, l.kind);
        o := Finish(l.kind);
      } else {
        o := StructureToken(l);
      }
    }

    /** HandleToken on `=`, a brace, a comment or no token. */
    method StructureToken(l: Lexeme) returns (o: Outcome)
      requires Valid() && Built() && !IsValueToken(l.kind) && l.kind != EOL && l.kind != EOF
      modifies this, currentnode
      ensures o.Pass? && Handle(old(Abs()), l).Ok? && Valid() && Built() && Abs() == Handle(old(Abs()), l).value.0
      ensures build == Apply(old(build), Handle(old(Abs()), l).value.1)
      ensures root == old(root)
      ensures forall x :: x in made ==> x in old(made) || fresh(x)
    {
      StructureActs(Abs(), l, build);
      o := Pass;
      match l.kind
      case Equals =>
        if currentiden != null || varname == [] || equals {
        } else {
          equals := true;
        }
      case OpenBrace =>
        EnterNode();
      case CloseBrace =>
        LeaveNode();
      case Comment =>
      case CommentBlock =>
      case NoToken =>
    }

    /** The tokens one call of Parse hands over, handed to HandleToken in
        order until one fails. */
    method HandAll(handed: seq<Lexeme>) returns (o: Outcome)
      requires Valid() && Built()
      modifies this, made
      ensures var h := Run(old(Abs()), handed);
              (o.Pass? <==> h.Ok?) && (o.Fail? ==> o.error == h.error)
              && (o.Pass? ==> Valid() && Built() && Abs() == h.value.0 && build == Apply(old(build), h.value.1))
      ensures root == old(root)
      ensures forall x :: x in made ==> x in old(made) || fresh(x)
    {
      ghost var m0, b0 := Abs(), build;
      ghost var done: seq<Action> := [];
      AfterAfter([], [], Run(m0, handed));
      assert handed[0..] == handed;
      var i := 0;
      while i < |handed|
        invariant 0 <= i <= |handed|
        invariant Valid() && Built() && root == old(root)
        invariant forall x :: x in made ==> x in old(made) || fresh(x)
        invariant Run(m0, handed) == After(done, Run(Abs(), handed[i..]))
        invariant build == Apply(b0, done)
      {
        assert forall k :: 0 <= k < |made| ==> made[k] in old(made) || fresh(made[k]);
        o, done := HandNext(handed, i, m0, b0, done);
        if o.Fail? {
          return;
        }
        i := i + 1;
      }
      assert handed[i..] == [];
      AfterAfter([], done, Ok((Abs(), [])));
      assert done + [] == done;
      return Pass;
    }

    /** HandleToken on the next of the tokens handed over, after the actions
        done. */
    method HandNext(handed: seq<Lexeme>, i: nat, ghost m0: Mode, ghost b0: Build, ghost done: seq<Action>)
        returns (o: Outcome, ghost done': seq<Action>)
      requires Valid() && Built() && i < |handed|
      requires Run(m0, handed) == After(done, Run(Abs(), handed[i..])) && BuildOk(b0) && build == Apply(b0, done)
      modifies this, made
      ensures o.Fail? ==> Run(m0, handed) == Err(o.error)
      ensures o.Pass? ==> Valid() && Built() && build == Apply(b0, done')
                          && Run(m0, handed) == After(done', Run(Abs(), handed[i + 1..]))
      ensures root == old(root)
      ensures forall x :: x in made ==> x in old(made) || fresh(x)
    {
      ghost var m := Abs();
      done' := done;
      Current();
      RunNext(m0, handed, i, done, m);
      o := HandleToken(handed[i]);
      if o.Pass? {
        ApplyConcat(b0, done, Handle(m, handed[i]).value.1);
        done' := done + Handle(m, handed[i]).value.1;
      }
    }

    /** One call of Parse, its tokens handed over: one round of Drive. */
    method Round(parser: ScriptParser) returns (o: Outcome, more: bool, ghost done: seq<Action>)
      requires Valid() && Built() && parser.Valid()
      modifies this, made, parser, parser.token
      ensures parser.Valid() && root == old(root)
      ensures o.Fail? ==> Drive(parser.input, old(parser.Here()), old(Abs())) == Err(o.error)
      ensures o.Pass? ==> Valid() && Built() && build == Apply(old(build), done)
                          && (more ==> Measure(parser.input, parser.Here()) < Measure(parser.input, old(parser.Here())))
      ensures o.Pass? && more ==> Drive(parser.input, old(parser.Here()), old(Abs()))
                                  == After(done, Drive(parser.input, parser.Here(), Abs()))
      ensures o.Pass? && !more ==> Drive(parser.input, old(parser.Here()), old(Abs())) == Ok((Abs(), done))
                                   && parser.token.kind == EOF
      ensures forall x :: x in made ==> x in old(made) || fresh(x)
    {
      ghost var m, c := Abs(), parser.Here();
      done := [];
      var st := parser.Parse();
      if st.Err? {
        o, more := Fail(st.error), false;
        return;
      }
      ghost var handed := st.value.handed;
      o := HandAll(st.value.handed);
      more := st.value.more;
      DriveRound(parser.input, c, m, st.value);
      if o.Pass? {
        done := Run(m, handed).value.1;
      }
    }

    /** The loop of Process: Parse until it reports the end, every token it
        reads handed to HandleToken; the first error of either ends it. */
    method ParseAll(parser: ScriptParser) returns (o: Outcome)
      requires Valid() && Built() && parser.Valid()
      modifies this, made, parser, parser.token
      ensures var d := Drive(parser.input, old(parser.Here()), old(Abs()));
              (o.Pass? <==> d.Ok?) && (o.Fail? ==> o.error == d.error)
              && (o.Pass? ==> Valid() && Built() && Abs() == d.value.0 && parser.token.kind == EOF
                              && build == Apply(old(build), d.value.1))
      ensures root == old(root)
      ensures forall x :: x in made ==> x in old(made) || fresh(x)
    {
      ghost var acts: seq<Action> := [];
      ghost var c0, m0, b0 := parser.Here(), Abs(), build;
      AfterAfter([], [], Drive(parser.input, c0, m0));
      var more := true;
      while more
        invariant Valid() && Built() && root == old(root) && parser.Valid()
        invariant forall x :: x in made ==> x in old(made) || fresh(x)
        invariant build == Apply(b0, acts)
        invariant more ==> Drive(parser.input, c0, m0) == After(acts, Drive(parser.input, parser.Here(), Abs()))
        invariant !more ==> Drive(parser.input, c0, m0) == Ok((Abs(), acts)) && parser.token.kind == EOF
        decreases more, Measure(parser.input, parser.Here())
      {
        ghost var done;
        assert forall k :: 0 <= k < |made| ==> made[k] in old(made) || fresh(made[k]);
        o, more, done := Round(parser);
        if o.Fail? {
          return;
        }
        AfterAfter(acts, done, Drive(parser.input, parser.Here(), Abs()));
        ApplyConcat(b0, acts, done);
        acts := acts + done;
      }
      return Pass;
    }

    /** The end of Process: Finish on the parser's last token, then a
        HIERARCHY error unless the current node is the root again. */
    method Conclude(kind: ScriptToken, ghost d: Result<(Mode, seq<Action>)>) returns (r: Result<Variable>)
      requires Valid() && Built() && kind == EOF && d.Ok? && d.value.0 == Abs()
      modifies this, currentnode
      ensures r.Ok? <==> Conclusion(d).Ok?
      ensures r.Err? ==> r.error == Conclusion(d).error
      ensures r.Ok? ==> r.value == root && Valid() && Built() && Abs() == Conclusion(d).value.0
                        && build == Apply(old(build), FinishMode(d.value.0, EOF).value.1)
      ensures root == old(root)
    {
      var o := Finish(kind);
      if o.Fail? {
        return Err(o.error);
      }
      ParentOfCurrent();
      if currentnode != root {
        return Err(HierarchyError);
      }
      return Ok(root);
    }

    /** A fresh root node, which is also the current node. */
    method NewRoot()
      requires varname == [] && !equals && currentiden == null
      modifies this
      ensures Valid() && Built() && Abs() == Idle(0) && open == [root] && build == Begin
      ensures fresh(root) && root.kind == NodeKind && root.parent == null && made == [root]
    {
      var node := new Variable(NodeKind, [], null);
      root, currentnode, open := node, node, [node];
      made, build := [node], Begin;
    }

    /** Process, with the stream given as its text: a new root node becomes
        current, Parse runs until it reports the end with every token handed
        to HandleToken, Finish runs on the last token, and a current node
        other than the root is a HIERARCHY error. The root returned is the
        tree ProcessTree describes. */
    method Process(input: string) returns (r: Result<Variable>)
      requires varname == [] && !equals && currentiden == null
      modifies this
      ensures r.Ok? <==> ProcessSpec(input).Ok?
      ensures r.Err? ==> r.error == ProcessSpec(input).error
      ensures r.Ok? ==> r.value == root && fresh(root) && root.kind == NodeKind && root.parent == null
                        && Valid() && Built() && Abs() == ProcessSpec(input).value.0 && Abs() == Idle(0)
                        && build == Apply(Begin, ProcessSpec(input).value.1)
                        && ProcessTree(input) == Ok(TreeOf(build.store, 0))
    {
      NewRoot();
      var parser := new ScriptParser(input);
      ghost var d := Drive(input, Start(input), Idle(0));
      assert ProcessSpec(input) == Conclusion(d);
      assert forall k :: 0 <= k < |made| ==> fresh(made[k]);
      var o := ParseAll(parser);
      if o.Fail? {
        return Err(o.error);
      }
      Current();
      assert fresh(currentnode);
      r := Conclude(parser.token.kind, d);
      if r.Ok? {
        ConcludedTree(d, build);
      }
    }
  }
}

=== FILE: script_lexer.dfy ===
/** ScriptParser: the character-at-a-time tokenizer of the script format. The
    stream is a string with a cursor; the end-of-input sentinel is kept out of
    band (a literal U+FFFF in the input reads as that sentinel, as it does in
    the source, where the sentinel is a char value). Each token the parser
    hands to its handler is returned instead, in order. */
module ScriptLexer {
  import opened Basics
  import opened CharRanges
  import opened Values
  import opened Tokens

  datatype ScriptToken =
    | NoToken
    | String
    | QuotedString
    | Number
    | Double
    | Equals
    | OpenBrace
    | CloseBrace
    | Comment
    | CommentBlock
    | EOF
    | EOL

  /** The current character: a character of the input, or the end of it. */
  datatype Ch = Chr(c: char) | EndOfInput

  /** The reading position: how much of the input the stream has consumed,
      the current character, and the line and column counters. */
  datatype Cursor = Cursor(pos: nat, cur: Ch, line: int, col: int)

  /** A token being read: where the cursor is, the kind so far and the lexeme so far. */
  datatype Lexed = Lexed(at: Cursor, kind: ScriptToken, text: string)

  /** A token as the handler receives it. */
  datatype Lexeme = Lexeme(kind: ScriptToken, text: string, line: int, col: int)

  /** The whitespace set "\t " (see CharRanges.WhitespaceSetSyntax). */
  predicate IsSpace(ch: char) { ch == '\t' || ch == ' ' }

  function Measure(input: string, c: Cursor): int
  {
    2 * (|input| - c.pos) + (if c.cur.Chr? then 1 else 0)
  }

  /** The character the stream yields at pos. */
  function CharAt(input: string, pos: nat): Ch
    requires pos < |input|
  {
    if input[pos] == NO_CHAR then EndOfInput else Chr(input[pos])
  }

  /** PeekChar compared with ch: the raw next character of the stream. */
  predicate PeekIs(input: string, c: Cursor, ch: char)
  {
    c.pos < |input| && input[c.pos] == ch
  }

  /** NextChar: a carriage return is never the current character; reading the
      character after a newline moves to the next line and restarts the column,
      and every character read advances the column by one. */
  function Next(input: string, c: Cursor): (r: Cursor)
    requires c.pos <= |input|
    ensures c.pos <= r.pos <= |input|
    ensures r.cur != Chr('\r')
    ensures r.cur.Chr? ==> c.pos < r.pos && r.cur == Chr(input[r.pos - 1])
    ensures r.line == (if c.cur == Chr('\n') then c.line + 1 else c.line)
    ensures r.col == (if c.cur == Chr('\n') then 0 else c.col) + (if r.cur.Chr? then 1 else 0)
    ensures Measure(input, r) <= Measure(input, c)
    ensures c.cur.Chr? || c.pos < |input| ==> Measure(input, r) < Measure(input, c)
    decreases |input| - c.pos
  {
    var line := if c.cur == Chr('\n') then c.line + 1 else c.line;
    var col := if c.cur == Chr('\n') then 0 else c.col;
    var cur := if c.pos < |input| then CharAt(input, c.pos) else EndOfInput;
    var pos := if c.pos < |input| then c.pos + 1 else c.pos;
    if cur == Chr('\r') then Next(input, Cursor(pos, cur, line, col))
    else Cursor(pos, cur, line, if cur.Chr? then col + 1 else col)
  }

  /** SkipWhitespace. */
  function SkipSpaces(input: string, c: Cursor): (r: Cursor)
    requires c.pos <= |input|
    ensures r.pos <= |input| && Measure(input, r) <= Measure(input, c)
    ensures !(r.cur.Chr? && IsSpace(r.cur.c))
    decreases Measure(input, c)
  {
    if c.cur.Chr? && IsSpace(c.cur.c) then SkipSpaces(input, Next(input, c)) else c
  }

  /** SkipToEOL: stops on the newline, or at the end. */
  function SkipLine(input: string, c: Cursor): (r: Cursor)
    requires c.pos <= |input|
    ensures r.pos <= |input| && Measure(input, r) <= Measure(input, c)
    ensures r.cur == EndOfInput || r.cur == Chr('\n')
    decreases Measure(input, c)
  {
    if c.cur.Chr? && c.cur != Chr('\n') then SkipLine(input, Next(input, c)) else c
  }

  /** SkipToChar: stops on ch, or at the end. */
  function SkipTo(input: string, c: Cursor, ch: char): (r: Cursor)
    requires c.pos <= |input|
    ensures r.pos <= |input| && Measure(input, r) <= Measure(input, c)
    ensures r.cur == EndOfInput || r.cur == Chr(ch)
    decreases Measure(input, c)
  {
    if c.cur.Chr? && c.cur != Chr(ch) then SkipTo(input, Next(input, c), ch) else c
  }

  /** The characters that end an unquoted token (a comment opener among them). */
  predicate EndsBare(input: string, c: Cursor, ch: char)
  {
    ch == '\n' || IsSpace(ch) || (ch == '/' && (PeekIs(input, c, '/') || PeekIs(input, c, '*')))
    || ch == '}' || ch == '='
  }

  /** ReadStringToken: decodes escapes, stops before a terminator; a quote or
      an unknown escape is a PARSER error. */
  function ReadString(input: string, s: Lexed): (r: Result<Lexed>)
    requires s.at.pos <= |input|
    ensures r.Ok? ==> r.value.at.pos <= |input| && Measure(input, r.value.at) <= Measure(input, s.at)
    ensures r.Ok? ==> r.value.kind == s.kind && |s.text| <= |r.value.text| && r.value.text[..|s.text|] == s.text
    ensures r.Ok? ==> r.value.at.cur == EndOfInput || EndsBare(input, r.value.at, r.value.at.cur.c)
    ensures r.Err? ==> r.error == ParserError(UnexpectedQuote) || r.error == ParserError(UnknownEscape)
    decreases Measure(input, s.at)
  {
    match s.at.cur
    case EndOfInput => Ok(s)
    case Chr(ch) =>
      if ch == '"' then Err(ParserError(UnexpectedQuote))
      else if ch == '\\' then
        var n := Next(input, s.at);
        var e := if n.cur.Chr? then GetEscapeChar(n.cur.c) else None;
        if e.None? then Err(ParserError(UnknownEscape))
        else ReadString(input, s.(at := Next(input, n), text := s.text + [e.value]))
      else if EndsBare(input, s.at, ch) then Ok(s)
      else ReadString(input, s.(at := Next(input, s.at), text := s.text + [ch]))
  }

  /** ReadDoubleToken: digits extend the token; anything else that does not
      end it (a second point among them) turns it into a String. */
  function ReadDouble(input: string, s: Lexed): (r: Result<Lexed>)
    requires s.at.pos <= |input|
    ensures r.Ok? ==> r.value.at.pos <= |input| && Measure(input, r.value.at) <= Measure(input, s.at)
    ensures r.Ok? ==> r.value.kind == s.kind || r.value.kind == String
    ensures r.Err? ==> r.error == ParserError(UnexpectedQuote) || r.error == ParserError(UnknownEscape)
    decreases Measure(input, s.at)
  {
    match s.at.cur
    case EndOfInput => Ok(s)
    case Chr(ch) =>
      if ch == '"' then Err(ParserError(UnexpectedQuote))
      else if ch == '/' && !(PeekIs(input, s.at, '/') || PeekIs(input, s.at, '*')) then
        ReadString(input, s.(kind := String))
      else if EndsBare(input, s.at, ch) then Ok(s)
      else if IsDigit(ch) then ReadDouble(input, s.(at := Next(input, s.at), text := s.text + [ch]))
      else ReadString(input, s.(kind := String))
  }

  /** ReadNumberToken: digits extend the token, the first point makes it a
      Double, and anything else that does not end it makes it a String. */
  function ReadNumber(input: string, s: Lexed): (r: Result<Lexed>)
    requires s.at.pos <= |input|
    ensures r.Ok? ==> r.value.at.pos <= |input| && Measure(input, r.value.at) <= Measure(input, s.at)
    ensures r.Ok? ==> r.value.kind in {s.kind, Double, String}
    ensures r.Err? ==> r.error == ParserError(UnexpectedQuote) || r.error == ParserError(UnknownEscape)
    decreases Measure(input, s.at)
  {
    match s.at.cur
    case EndOfInput => Ok(s)
    case Chr(ch) =>
      if ch == '"' then Err(ParserError(UnexpectedQuote))
      else if ch == '/' && !(PeekIs(input, s.at, '/') || PeekIs(input, s.at, '*')) then
        ReadString(input, s.(kind := String))
      else if EndsBare(input, s.at, ch) then Ok(s)
      else if IsDigit(ch) then ReadNumber(input, s.(at := Next(input, s.at), text := s.text + [ch]))
      else if ch == '.' then ReadDouble(input, Lexed(Next(input, s.at), Double, s.text + [ch]))
      else ReadString(input, s.(kind := String))
  }

  /** The loop of ReadQuotedStringToken, up to the closing quote: `eol` is
      set once a newline has been kept; further newlines and whitespace are
      dropped until the next other character, which is kept. */
  function ReadQuoted(input: string, s: Lexed, eol: bool): (r: Result<Lexed>)
    requires s.at.pos <= |input|
    ensures r.Ok? ==> r.value.at.pos <= |input| && Measure(input, r.value.at) <= Measure(input, s.at)
    ensures r.Ok? ==> r.value.kind == s.kind && r.value.at.cur == Chr('"')
    ensures r.Err? ==> r.error == ParserError(EofInQuotedString) || r.error == ParserError(UnknownEscape)
    decreases Measure(input, s.at)
  {
    match s.at.cur
    case EndOfInput => Err(ParserError(EofInQuotedString))
    case Chr(ch) =>
      if ch == '"' then Ok(s)
      else if ch == '\\' then
        var n := Next(input, s.at);
        var e := if n.cur.Chr? then GetEscapeChar(n.cur.c) else None;
        if e.None? then Err(ParserError(UnknownEscape))
        else ReadQuoted(input, s.(at := Next(input, n), text := s.text + [e.value]), eol)
      else
        var kept := if eol then s.text else s.text + [ch];
        var text := if ch != '\n' && eol && !IsSpace(ch) then kept + [ch] else kept;
        var eol' := if ch == '\n' then true else if eol && !IsSpace(ch) then false else eol;
        ReadQuoted(input, s.(at := Next(input, s.at), text := text), eol')
  }

  /** The loop of ReadCommentBlockToken: skip to an asterisk; a slash right
      after it ends the block, and the character after the slash is read. */
  function CommentLoop(input: string, c: Cursor): (r: Result<Cursor>)
    requires c.pos <= |input|
    ensures r.Ok? ==> r.value.pos <= |input| && Measure(input, r.value) < Measure(input, c)
    ensures r.Err? ==> r.error == ParserError(EofInCommentBlock)
    decreases Measure(input, c)
  {
    var s := SkipTo(input, c, '*');
    if s.cur != Chr('*') then Err(ParserError(EofInCommentBlock))
    else
      var n := Next(input, s);
      if n.cur == Chr('/') then Ok(Next(input, n)) else CommentLoop(input, n)
  }

  /** ReadCommentBlockToken, called on the slash of the opener: it moves onto
      the asterisk of the opener and starts looking for the closer there. */
  function ReadCommentBlock(input: string, c: Cursor): (r: Result<Cursor>)
    requires c.pos <= |input| && c.cur.Chr?
    ensures r.Ok? ==> r.value.pos <= |input| && Measure(input, r.value) < Measure(input, c)
    ensures r.Err? ==> r.error == ParserError(EofInCommentBlock)
  {
    var n := Next(input, c);
    if n.cur == EndOfInput then Err(ParserError(EofInCommentBlock)) else CommentLoop(input, n)
  }

  /** NextToken: the first character decides the kind, and a number, sign or
      point seeds the lexeme; an asterisk followed by a slash is a PARSER error. */
  function Classify(input: string, c: Cursor): (r: Result<(ScriptToken, string)>)
  {
    match c.cur
    case EndOfInput => Ok((EOF, ""))
    case Chr(ch) =>
      if ch == '"' then Ok((QuotedString, ""))
      else if ch == '*' then
        if PeekIs(input, c, '/') then Err(ParserError(UnexpectedCommentEnd)) else Ok((String, ""))
      else if ch == '/' then
        if PeekIs(input, c, '/') then Ok((Comment, ""))
        else if PeekIs(input, c, '*') then Ok((CommentBlock, ""))
        else Ok((String, ""))
      else if ch == '\n' then Ok((EOL, ""))
      else if ch == '.' then Ok((Double, "."))
      else if ch == '=' then Ok((Equals, ""))
      else if ch == '{' then Ok((OpenBrace, ""))
      else if ch == '}' then Ok((CloseBrace, ""))
      else if IsDigit(ch) || IsSign(ch) then Ok((Number, [ch]))
      else Ok((String, ""))
  }

  /** The first switch of ReadToken: read the rest of the token by its kind. */
  function ReadBody(input: string, s: Lexed): (r: Result<Lexed>)
    requires s.at.pos <= |input|
    ensures r.Ok? ==> r.value.at.pos <= |input| && Measure(input, r.value.at) <= Measure(input, s.at)
    ensures r.Ok? && s.at.cur.Chr? && s.kind !in {String, Comment, NoToken, EOF} ==> Measure(input, r.value.at) < Measure(input, s.at)
    ensures r.Err? ==> r.error.ParserError?
  {
    match s.kind
    case QuotedString =>
      var q := ReadQuoted(input, s.(at := Next(input, s.at)), false);
      if q.Err? then q else Ok(q.value.(at := Next(input, q.value.at)))
    case String => ReadString(input, s)
    case Number => ReadNumber(input, s.(at := Next(input, s.at)))
    case Double => ReadDouble(input, s.(at := Next(input, s.at)))
    case Comment => Ok(s.(at := SkipLine(input, s.at)))
    case CommentBlock =>
      if s.at.cur.Chr? then
        var b := ReadCommentBlock(input, s.at);
        if b.Err? then Err(b.error) else Ok(s.(at := b.value))
      else Ok(s)
    case Equals => Ok(s.(at := Next(input, s.at)))
    case OpenBrace => Ok(s.(at := Next(input, s.at)))
    case CloseBrace => Ok(s.(at := Next(input, s.at)))
    case EOL => Ok(s.(at := Next(input, s.at)))
    case EOF => Ok(s)
    case NoToken => Ok(s)
  }

  predicate AllSigns(text: string) { forall i :: 0 <= i < |text| ==> IsSign(text[i]) }

  predicate AllPoints(text: string) { forall i :: 0 <= i < |text| ==> text[i] == '.' }

  /** The ranges of the sign set "\\-+" both parsers hold. */
  const SIGN_RANGES: seq<CharRange> := [Single('-' as int), Single('+' as int)]

  /** The sign set, built from its syntax as the parsers' static field is. */
  method NewSignSet() returns (signset: CharacterSet)
    ensures fresh(signset) && signset.ranges == SIGN_RANGES
  {
    signset := new CharacterSet();
    var syntax := "\\-+";
    assert InBmp(syntax) by {
      assert |syntax| == 3 && syntax[0] == '\\' && syntax[1] == '-' && syntax[2] == '+';
    }
    SignSetSyntax('-');
    var _ := signset.AddRangesWithString(syntax);
  }

  /** Compare against the sign set: every character is in it exactly when
      every character is a sign. */
  lemma SignSetCompare(text: string)
    ensures (forall i :: 0 <= i < |text| ==> SetHas(SIGN_RANGES, text[i])) <==> AllSigns(text)
  {
    forall c
      ensures SetHas(SIGN_RANGES, c) <==> IsSign(c)
    {
      SignSetSyntax(c);
    }
  }

  /** The second switch of ReadToken: a Number of signs only, or a Double of
      signs only or of points only, is a String. */
  function Resolve(kind: ScriptToken, text: string): ScriptToken
  {
    if kind == Number && AllSigns(text) then String
    else if kind == Double && (AllSigns(text) || AllPoints(text)) then String
    else kind
  }

  /** ReadToken: read the body, then resolve the kind. */
  function ReadTokenSpec(input: string, s: Lexed): (r: Result<Lexed>)
    requires s.at.pos <= |input|
    ensures r.Ok? ==> r.value.at.pos <= |input| && Measure(input, r.value.at) <= Measure(input, s.at)
    ensures r.Ok? && s.at.cur.Chr? && s.kind !in {String, Comment, NoToken, EOF} ==> Measure(input, r.value.at) < Measure(input, s.at)
    ensures r.Err? ==> r.error.ParserError?
  {
    var b := ReadBody(input, s);
    if b.Err? then b else Ok(b.value.(kind := Resolve(b.value.kind, b.value.text)))
  }

  /** What one call of Parse leaves: the cursor, the tokens handed to the
      handler (the token read, and an EOF token when the input has ended),
      and whether the parse goes on. */
  datatype Step = Step(at: Cursor, handed: seq<Lexeme>, more: bool)

  /** Parse: skip whitespace, classify, read; at the end of the input an EOF
      token is handed over as well. */
  function ParseStep(input: string, c: Cursor): (r: Result<Step>)
    requires c.pos <= |input|
    ensures r.Ok? ==> r.value.at.pos <= |input| && 1 <= |r.value.handed| <= 2
    ensures r.Ok? && r.value.more ==> Measure(input, r.value.at) < Measure(input, c) && |r.value.handed| == 1
    ensures r.Ok? && !r.value.more ==> r.value.handed[|r.value.handed| - 1].kind == EOF
    ensures r.Err? ==> r.error.ParserError?
  {
    var w := SkipSpaces(input, c);
    var k := Classify(input, w);
    if k.Err? then Err(k.error)
    else
      var t := ReadTokenSpec(input, Lexed(w, k.value.0, k.value.1));
      if t.Err? then Err(t.error)
      else
        var read := Lexeme(t.value.kind, t.value.text, w.line, w.col);
        if t.value.at.cur == EndOfInput then
          Ok(Step(t.value.at, [read, Lexeme(EOF, "", w.line, w.col)], false))
        else if t.value.kind == EOF then
          Ok(Step(t.value.at, [read], false))
        else
          TokenMoves(input, w, k.value.0, k.value.1);
          Ok(Step(t.value.at, [read], true))
  }

  /** A token consumes its first character: the character that selects a
      String never ends an unquoted token, and a comment starts on its slash. */
  lemma TokenMoves(input: string, w: Cursor, kind: ScriptToken, text: string)
    requires w.pos <= |input| && w.cur.Chr? && !IsSpace(w.cur.c)
    requires Classify(input, w) == Ok((kind, text))
    requires ReadTokenSpec(input, Lexed(w, kind, text)).Ok?
    ensures Measure(input, ReadTokenSpec(input, Lexed(w, kind, text)).value.at) < Measure(input, w)
  {
    if kind == Comment {
      assert w.cur == Chr('/');
    } else if kind == String {
      var ch := w.cur.c;
      assert ch != '"' && !EndsBare(input, w, ch);
      if ch != '\\' {
        assert ReadString(input, Lexed(w, kind, text))
               == ReadString(input, Lexed(Next(input, w), kind, text + [ch]));
      }
    }
  }

  /** The tokens the parser hands over from cursor c until Parse reports the end. */
  function LexFrom(input: string, c: Cursor): (r: Result<seq<Lexeme>>)
    requires c.pos <= |input|
    ensures r.Ok? ==> r.value != [] && r.value[|r.value| - 1].kind == EOF
    decreases Measure(input, c)
  {
    var st := ParseStep(input, c);
    if st.Err? then Err(st.error)
    else if !st.value.more then Ok(st.value.handed)
    else
      var rest := LexFrom(input, st.value.at);
      if rest.Err? then rest else Ok(st.value.handed + rest.value)
  }

  /** Where a fresh parser stands: line 1, column 0, the first character read. */
  function Start(input: string): Cursor
  {
    Next(input, Cursor(0, EndOfInput, 1, 0))
  }

  /** Every token the parser hands over for the whole input. */
  function Lex(input: string): (r: Result<seq<Lexeme>>)
    ensures r.Ok? ==> r.value != [] && r.value[|r.value| - 1].kind == EOF
  {
    LexFrom(input, Start(input))
  }

  // ---------------------------------------------------------------- token shapes

  /** The text of a Number token: a digit or sign, then digits. */
  predicate NumberText(t: string)
  {
    |t| >= 1 && (IsDigit(t[0]) || IsSign(t[0])) && forall i :: 1 <= i < |t| ==> IsDigit(t[i])
  }

  /** The text of a Double token: digits with exactly one point, after an
      optional sign. */
  predicate DoubleText(t: string)
  {
    (forall i :: 0 <= i < |t| ==> IsDigit(t[i]) || t[i] == '.' || (i == 0 && IsSign(t[i])))
    && multiset(t)['.'] == 1
  }

  predicate HasDigit(t: string) { exists i :: 0 <= i < |t| && IsDigit(t[i]) }

  /** Token.ToDouble on the text of a Double token (an optional sign, digits
      and one point): it fails exactly when the text has no digit. Floats are
      kept as their text. */
  function DoubleOf(text: string): Result<Value>
  {
    if HasDigit(text) then Ok(FloatValue(text)) else Err(FormatError)
  }

  lemma {:induction false} DoubleShape(input: string, s: Lexed)
    requires s.at.pos <= |input| && s.kind == Double && DoubleText(s.text)
    ensures var r := ReadDouble(input, s); r.Ok? && r.value.kind == Double ==> DoubleText(r.value.text)
    decreases Measure(input, s.at)
  {
    match s.at.cur
    case EndOfInput =>
    case Chr(ch) =>
      if ch != '"' && !(ch == '/' && !(PeekIs(input, s.at, '/') || PeekIs(input, s.at, '*')))
         && !EndsBare(input, s.at, ch) && IsDigit(ch) {
        var t := s.text + [ch];
        assert multiset(t) == multiset(s.text) + multiset{ch};
        DoubleShape(input, s.(at := Next(input, s.at), text := t));
      }
  }

  lemma {:induction false} NumberShape(input: string, s: Lexed)
    requires s.at.pos <= |input| && s.kind == Number && NumberText(s.text)
    ensures var r := ReadNumber(input, s);
            r.Ok? ==> (r.value.kind == Number ==> NumberText(r.value.text))
                      && (r.value.kind == Double ==> DoubleText(r.value.text))
    decreases Measure(input, s.at)
  {
    match s.at.cur
    case EndOfInput =>
    case Chr(ch) =>
      if ch != '"' && !(ch == '/' && !(PeekIs(input, s.at, '/') || PeekIs(input, s.at, '*')))
         && !EndsBare(input, s.at, ch) {
        var t := s.text + [ch];
        if IsDigit(ch) {
          NumberShape(input, s.(at := Next(input, s.at), text := t));
        } else if ch == '.' {
          assert multiset(t) == multiset(s.text) + multiset{'.'};
          assert '.' !in multiset(s.text) by {
            if '.' in multiset(s.text) {
              var i :| 0 <= i < |s.text| && s.text[i] == '.';
            }
          }
          DoubleShape(input, Lexed(Next(input, s.at), Double, t));
        }
      }
  }

  /** Once resolved, a Number token is an optional sign and at least one
      digit, and a Double token has exactly one point and at least one digit
      unless it is a sign followed by the point (such as "-."), which the
      resolve step leaves a Double. */
  lemma TokenShapes(input: string, w: Cursor)
    requires w.pos <= |input| && Classify(input, w).Ok?
    ensures var k := Classify(input, w).value;
            var r := ReadTokenSpec(input, Lexed(w, k.0, k.1));
            r.Ok? ==> (r.value.kind == Number ==> NumberText(r.value.text) && HasDigit(r.value.text))
                      && (r.value.kind == Double ==>
                            DoubleText(r.value.text) && (HasDigit(r.value.text) || (|r.value.text| == 2 && IsSign(r.value.text[0]))))
  {
    var k := Classify(input, w).value;
    var b := ReadBody(input, Lexed(w, k.0, k.1));
    BodyShapes(input, w);
    if b.Ok? {
      var t := b.value.text;
      if b.value.kind == Number && !AllSigns(t) {
        NumberResolved(t);
      }
      if b.value.kind == Double && !AllSigns(t) && !AllPoints(t) {
        DoubleResolved(t);
      }
    }
  }

  /** Before the kind is resolved: the text of a Number token is an optional
      sign and digits, that of a Double token has one point. */
  lemma BodyShapes(input: string, w: Cursor)
    requires w.pos <= |input| && Classify(input, w).Ok?
    ensures var k := Classify(input, w).value;
            var b := ReadBody(input, Lexed(w, k.0, k.1));
            b.Ok? ==> (b.value.kind == Number ==> NumberText(b.value.text))
                      && (b.value.kind == Double ==> DoubleText(b.value.text))
  {
    var k := Classify(input, w).value;
    var s := Lexed(w, k.0, k.1);
    if k.0 == Number {
      NumberShape(input, s.(at := Next(input, s.at)));
    } else if k.0 == Double {
      assert multiset(k.1) == multiset{'.'};
      DoubleShape(input, s.(at := Next(input, s.at)));
    }
  }

  /** A Number text that is not all signs has a digit. */
  lemma NumberResolved(t: string)
    requires NumberText(t) && !AllSigns(t)
    ensures HasDigit(t)
  {
    var i :| 0 <= i < |t| && !IsSign(t[i]);
    assert IsDigit(t[i]);
  }

  /** A Double text that is neither all signs nor all points has a digit,
      or is a sign followed by the point. */
  lemma DoubleResolved(t: string)
    requires DoubleText(t) && !AllSigns(t) && !AllPoints(t)
    ensures HasDigit(t) || (|t| == 2 && IsSign(t[0]))
  {
    if !HasDigit(t) {
      var i :| 0 <= i < |t| && !IsSign(t[i]);
      var j :| 0 <= j < |t| && t[j] != '.';
      assert t[i] == '.' && i != 0;
      assert j == 0 && IsSign(t[0]);
      PointsCount(t);
    }
  }

  /** A text of signs and points with one point, the sign only in front, is two characters. */
  lemma PointsCount(t: string)
    requires DoubleText(t) && !HasDigit(t)
    ensures forall i :: 1 <= i < |t| ==> t[i] == '.'
    ensures |t| <= 2
  {
    assert forall i :: 1 <= i < |t| ==> t[i] == '.';
    if |t| > 2 {
      PointPair(t);
      assert false;
    }
  }

  lemma PointPair(t: string)
    requires |t| > 2 && t[1] == '.' && t[2] == '.'
    ensures multiset(t)['.'] >= 2
  {
    assert t == t[..1] + [t[1], t[2]] + t[3..];
  }

  /** A number-shaped text with a digit is one that Token.ToInt can
      convert unless it overflows. */
  lemma NumberTextParses(t: string)
    requires NumberText(t) && HasDigit(t)
    ensures ParseInt32(t) != Err(FormatError)
  {
    var digits := if IsSign(t[0]) then t[1..] else t;
    var i :| 0 <= i < |t| && IsDigit(t[i]);
    assert IsSign(t[0]) ==> i >= 1 && digits[i - 1] == t[i];
    assert forall j :: 0 <= j < |digits| ==> IsDigit(digits[j]) by {
      forall j | 0 <= j < |digits|
        ensures IsDigit(digits[j])
      {
        if IsSign(t[0]) {
          assert digits[j] == t[j + 1];
        } else {
          assert digits[j] == t[j];
          assert j == 0 ==> IsDigit(t[0]);
        }
      }
    }
  }

  // ---------------------------------------------------------------- examples

  /** A second point turns a number into a String: "12.3.4" is one String token. */
  lemma TwoPointsMakeString()
    ensures Classify("12.3.4", Start("12.3.4")) == Ok((Number, "1"))
    ensures ReadTokenSpec("12.3.4", Lexed(Start("12.3.4"), Number, "1"))
            == Ok(Lexed(Cursor(6, EndOfInput, 1, 6), String, "12.3.4"))
  {
    var input := "12.3.4";
    var c0 := Start(input);
    assert c0 == Cursor(1, Chr('1'), 1, 1);
    var c1 := Next(input, c0);
    assert c1 == Cursor(2, Chr('2'), 1, 2);
    var c2 := Next(input, c1);
    assert c2 == Cursor(3, Chr('.'), 1, 3);
    var c3 := Next(input, c2);
    assert c3 == Cursor(4, Chr('3'), 1, 4);
    var c4 := Next(input, c3);
    assert c4 == Cursor(5, Chr('.'), 1, 5);
    var c5 := Next(input, c4);
    assert c5 == Cursor(6, Chr('4'), 1, 6);
    var c6 := Next(input, c5);
    assert c6 == Cursor(6, EndOfInput, 1, 6);
    var r := Lexed(c6, String, "12.3.4");
    assert ReadString(input, r) == Ok(r);
    assert "12.3." + ['4'] == "12.3.4";
    assert ReadString(input, Lexed(c5, String, "12.3.")) == Ok(r);
    assert "12.3" + ['.'] == "12.3.";
    assert ReadString(input, Lexed(c4, String, "12.3")) == Ok(r);
    assert ReadDouble(input, Lexed(c4, Double, "12.3")) == Ok(r);
    assert "12." + ['3'] == "12.3";
    assert ReadDouble(input, Lexed(c3, Double, "12.")) == Ok(r);
    assert "12" + ['.'] == "12.";
    assert ReadNumber(input, Lexed(c2, Number, "12")) == Ok(r);
    assert "1" + ['2'] == "12";
    assert ReadNumber(input, Lexed(c1, Number, "1")) == Ok(r);
  }

  /** In a quoted string the first newline is kept and the indentation of the
      next line is dropped: `"a` newline two spaces `b"` reads as "a\nb". */
  lemma QuotedNewlineKeptOnce()
    ensures Classify("\"a\n  b\"", Start("\"a\n  b\"")) == Ok((QuotedString, ""))
    ensures ReadTokenSpec("\"a\n  b\"", Lexed(Start("\"a\n  b\""), QuotedString, ""))
            == Ok(Lexed(Cursor(7, EndOfInput, 2, 4), QuotedString, "a\nb"))
  {
    var input := "\"a\n  b\"";
    var c0 := Start(input);
    assert c0 == Cursor(1, Chr('"'), 1, 1);
    var c1 := Next(input, c0);
    assert c1 == Cursor(2, Chr('a'), 1, 2);
    var c2 := Next(input, c1);
    assert c2 == Cursor(3, Chr('\n'), 1, 3);
    var c3 := Next(input, c2);
    assert c3 == Cursor(4, Chr(' '), 2, 1);
    var c4 := Next(input, c3);
    assert c4 == Cursor(5, Chr(' '), 2, 2);
    var c5 := Next(input, c4);
    assert c5 == Cursor(6, Chr('b'), 2, 3);
    var c6 := Next(input, c5);
    assert c6 == Cursor(7, Chr('"'), 2, 4);
    assert Next(input, c6) == Cursor(7, EndOfInput, 2, 4);
    var q := Lexed(c6, QuotedString, "a\nb");
    assert ReadQuoted(input, q, false) == Ok(q);
    assert "a\n" + ['b'] == "a\nb";
    assert ReadQuoted(input, Lexed(c5, QuotedString, "a\n"), true) == Ok(q);
    assert ReadQuoted(input, Lexed(c4, QuotedString, "a\n"), true) == Ok(q);
    assert ReadQuoted(input, Lexed(c3, QuotedString, "a\n"), true) == Ok(q);
    assert "a" + ['\n'] == "a\n";
    assert ReadQuoted(input, Lexed(c2, QuotedString, "a"), false) == Ok(q);
    assert [] + ['a'] == "a";
    assert ReadQuoted(input, Lexed(c1, QuotedString, ""), false) == Ok(q);
  }

  // ---------------------------------------------------------------- the resolve step

  /** A sign followed by a point lexes as a Double with no digit, which
      Token.ToDouble cannot convert: the resolve step demotes only texts made
      entirely of signs or entirely of points. */
  lemma SignPointStaysDouble()
    ensures Classify("-.", Start("-.")) == Ok((Number, "-"))
    ensures ReadTokenSpec("-.", Lexed(Start("-."), Number, "-")) == Ok(Lexed(Cursor(2, EndOfInput, 1, 2), Double, "-."))
    ensures DoubleOf("-.") == Err(FormatError)
  {
    var input := "-.";
    var c0 := Start(input);
    assert c0 == Cursor(1, Chr('-'), 1, 1);
    var c1 := Next(input, c0);
    assert c1 == Cursor(2, Chr('.'), 1, 2);
    var c2 := Next(input, c1);
    assert c2 == Cursor(2, EndOfInput, 1, 2);
    assert ReadDouble(input, Lexed(c2, Double, "-.")) == Ok(Lexed(c2, Double, "-."));
    assert "-" + ['.'] == "-.";
    assert !EndsBare(input, c1, '.');
    assert ReadNumber(input, Lexed(c1, Number, "-")) == Ok(Lexed(c2, Double, "-."));
    assert !AllSigns("-.") by { assert !IsSign("-."[1]); }
    assert !AllPoints("-.") by { assert "-."[0] != '.'; }
    assert !IsDigit("-."[0]) && !IsDigit("-."[1]);
  }

  /** The resolve step as its comment describes it: a Number or Double made
      only of signs and points is a String. */
  function ResolveIntended(kind: ScriptToken, text: string): (k: ScriptToken)
    ensures (kind == Number || kind == Double) && (forall i :: 0 <= i < |text| ==> IsSign(text[i]) || text[i] == '.')
            ==> k == String
  {
    if (kind == Number || kind == Double) && (forall i :: 0 <= i < |text| ==> IsSign(text[i]) || text[i] == '.') then String
    else kind
  }

  /** With the intended resolve step every Number and Double token the lexer
      can produce has a digit. */
  lemma ResolvedTokensHaveDigits(input: string, w: Cursor)
    requires w.pos <= |input| && Classify(input, w).Ok?
    ensures var k := Classify(input, w).value;
            var b := ReadBody(input, Lexed(w, k.0, k.1));
            b.Ok? && ResolveIntended(b.value.kind, b.value.text) in {Number, Double} ==> HasDigit(b.value.text)
  {
    var k := Classify(input, w).value;
    var s := Lexed(w, k.0, k.1);
    var b := ReadBody(input, s);
    if b.Ok? && ResolveIntended(b.value.kind, b.value.text) in {Number, Double} {
      if k.0 == Number {
        NumberShape(input, s.(at := Next(input, s.at)));
      } else if k.0 == Double {
        assert multiset(k.1) == multiset{'.'};
        DoubleShape(input, s.(at := Next(input, s.at)));
      }
      ShapedHasDigit(b.value.kind, b.value.text);
    }
  }

  /** A number-shaped text that is not only signs and points has a digit. */
  lemma ShapedHasDigit(kind: ScriptToken, t: string)
    requires (kind == Number && NumberText(t)) || (kind == Double && DoubleText(t))
    requires ResolveIntended(kind, t) in {Number, Double}
    ensures HasDigit(t)
  {
    var i :| 0 <= i < |t| && !(IsSign(t[i]) || t[i] == '.');
    assert IsDigit(t[i]);
  }

  // ---------------------------------------------------------------- comment blocks

  // As written, the asterisk of the opener can also open the closer: the three
  // characters slash, asterisk, slash make a complete comment block.
  lemma SlashStarSlashCloses()
    ensures Start("/*/") == Cursor(1, Chr('/'), 1, 1)
    ensures Classify("/*/", Start("/*/")) == Ok((CommentBlock, ""))
    ensures ReadCommentBlock("/*/", Start("/*/")) == Ok(Cursor(3, EndOfInput, 1, 3))
  {
    var input := "/*/";
    var c1 := Next(input, Start(input));
    assert c1 == Cursor(2, Chr('*'), 1, 2);
    assert SkipTo(input, c1, '*') == c1;
    var c2 := Next(input, c1);
    assert c2 == Cursor(3, Chr('/'), 1, 3);
    assert Next(input, c2) == Cursor(3, EndOfInput, 1, 3);
  }

  /** ReadCommentBlockToken as intended: the search for the closer starts
      after the asterisk of the opener. */
  function ReadCommentBlockIntended(input: string, c: Cursor): (r: Result<Cursor>)
    requires c.pos <= |input| && c.cur.Chr?
    ensures r.Ok? ==> r.value.pos <= |input| && Measure(input, r.value) < Measure(input, c)
    ensures r.Err? ==> r.error == ParserError(EofInCommentBlock)
  {
    var n := Next(input, c);
    if n.cur == EndOfInput then Err(ParserError(EofInCommentBlock)) else CommentLoop(input, Next(input, n))
  }

  /** CommentLoop succeeds only from a character of the input, and reads
      past it. */
  lemma {:induction false} CommentLoopReadsCloser(input: string, c: Cursor)
    requires c.pos <= |input|
    ensures CommentLoop(input, c).Ok? ==> c.cur.Chr? && c.pos < CommentLoop(input, c).value.pos
    decreases Measure(input, c)
  {
    var s := SkipTo(input, c, '*');
    SkipToMonotone(input, c, '*');
    if s.cur == Chr('*') {
      var n := Next(input, s);
      if n.cur != Chr('/') {
        CommentLoopReadsCloser(input, n);
      }
    }
  }

  lemma {:induction false} SkipToMonotone(input: string, c: Cursor, ch: char)
    requires c.pos <= |input|
    ensures c.pos <= SkipTo(input, c, ch).pos
    ensures SkipTo(input, c, ch).cur.Chr? ==> c.cur.Chr?
    decreases Measure(input, c)
  {
    if c.cur.Chr? && c.cur != Chr(ch) {
      SkipToMonotone(input, Next(input, c), ch);
    }
  }

  // With the intended start a comment block spans at least four characters:
  // its closer begins after the opener.
  lemma IntendedCommentBlockSpan(input: string, c: Cursor)
    requires c.pos <= |input| && c.cur.Chr?
    ensures ReadCommentBlockIntended(input, c).Ok? ==> c.pos + 3 <= ReadCommentBlockIntended(input, c).value.pos
  {
    var n := Next(input, c);
    if n.cur != EndOfInput {
      CommentLoopReadsCloser(input, Next(input, n));
    }
  }

  class ScriptParser {
    const input: string
    var pos: nat
    var cur: Ch
    var line: int
    var col: int
    const token: Token<ScriptToken>
    const signset: CharacterSet

    function Here(): Cursor
      reads this
    {
      Cursor(pos, cur, line, col)
    }

    function State(): Lexed
      reads this, token
    {
      Lexed(Here(), token.kind, token.lexeme)
    }

    predicate Valid()
      reads this, token, signset
    {
      pos <= |input| && token.Valid() && signset.ranges == SIGN_RANGES
    }

    /** The token object holds the lexeme l. */
    predicate Holds(l: Lexeme)
      reads token
    {
      token.kind == l.kind && token.lexeme == l.text && token.line == l.line && token.col == l.col
    }

    /** A parser over a stream: Clean, then read the first character. */
    constructor (input: string)
      ensures Valid() && this.input == input && Here() == Start(input)
      ensures fresh(token) && token.kind == NoToken && token.lexeme == []
    {
      var signs := NewSignSet();
      this.input := input;
      token := new Token(NoToken);
      signset := signs;
      pos, cur, line, col := 0, EndOfInput, 1, 0;
      new;
      var _ := NextChar();
    }

    method NextChar() returns (ch: Ch)
      requires pos <= |input|
      modifies this
      ensures Here() == Next(input, old(Here())) && ch == cur
      decreases |input| - pos
    {
      if cur == Chr('\n') {
        line, col := line + 1, 0;
      }
      if pos < |input| {
        cur := CharAt(input, pos);
        pos := pos + 1;
      } else {
        cur := EndOfInput;
      }
      if cur == Chr('\r') {
        ch := NextChar();
      } else {
        if cur.Chr? {
          col := col + 1;
        }
        ch := cur;
      }
    }

    method SkipWhitespace()
      requires Valid()
      modifies this
      ensures Valid() && Here() == SkipSpaces(input, old(Here()))
    {
      while cur.Chr? && IsSpace(cur.c)
        invariant Valid() && SkipSpaces(input, Here()) == SkipSpaces(input, old(Here()))
        decreases Measure(input, Here())
      {
        var _ := NextChar();
      }
    }

    method SkipToEOL()
      requires Valid()
      modifies this
      ensures Valid() && Here() == SkipLine(input, old(Here()))
    {
      while cur.Chr? && cur != Chr('\n')
        invariant Valid() && SkipLine(input, Here()) == SkipLine(input, old(Here()))
        decreases Measure(input, Here())
      {
        var _ := NextChar();
      }
    }

    method SkipToChar(c: char) returns (found: bool)
      requires Valid()
      modifies this
      ensures Valid() && Here() == SkipTo(input, old(Here()), c) && (found <==> cur == Chr(c))
    {
      while cur.Chr? && cur != Chr(c)
        invariant Valid() && SkipTo(input, Here(), c) == SkipTo(input, old(Here()), c)
        decreases Measure(input, Here())
      {
        var _ := NextChar();
      }
      found := cur == Chr(c);
    }

    /** NextToken: start a token at the current position and classify it. */
    method NextToken() returns (o: Outcome)
      requires Valid()
      modifies token
      ensures Valid() && token.line == line && token.col == col
      ensures var k := Classify(input, Here());
              (o.Fail? <==> k.Err?) && (o.Fail? ==> o.error == k.error)
              && (o.Pass? ==> token.kind == k.value.0 && token.lexeme == k.value.1)
    {
      token.Reset(NoToken);
      token.SetPosition(line, col);
      if cur == EndOfInput {
        token.kind := EOF;
        return Pass;
      }
      var ch := cur.c;
      if ch == '"' {
        token.kind := QuotedString;
      } else if ch == '*' {
        if PeekIs(input, Here(), '/') {
          return Fail(ParserError(UnexpectedCommentEnd));
        }
        token.kind := String;
      } else if ch == '/' {
        if PeekIs(input, Here(), '/') {
          token.kind := Comment;
        } else if PeekIs(input, Here(), '*') {
          token.kind := CommentBlock;
        } else {
          token.kind := String;
        }
      } else if ch == '\n' {
        token.kind := EOL;
      } else if ch == '.' {
        token.kind := Double;
        token.Add(ch);
      } else if ch == '=' {
        token.kind := Equals;
      } else if ch == '{' {
        token.kind := OpenBrace;
      } else if ch == '}' {
        token.kind := CloseBrace;
      } else if IsDigit(ch) || IsSign(ch) {
        token.kind := Number;
        token.Add(ch);
      } else {
        token.kind := String;
      }
      return Pass;
    }

    method ReadStringToken() returns (o: Outcome)
      requires Valid()
      modifies this, token
      ensures Valid() && token.line == old(token.line) && token.col == old(token.col)
      ensures var spec := ReadString(input, old(State()));
              (o.Fail? <==> spec.Err?) && (o.Fail? ==> o.error == spec.error) && (o.Pass? ==> State() == spec.value)
    {
      while cur.Chr?
        invariant Valid() && token.line == old(token.line) && token.col == old(token.col)
        invariant ReadString(input, State()) == ReadString(input, old(State()))
        decreases Measure(input, Here())
      {
        var ch := cur.c;
        if ch == '"' {
          return Fail(ParserError(UnexpectedQuote));
        } else if ch == '\\' {
          var n := NextChar();
          var e := if n.Chr? then GetEscapeChar(n.c) else None;
          if e.None? {
            return Fail(ParserError(UnknownEscape));
          }
          token.Add(e.value);
        } else if EndsBare(input, Here(), ch) {
          break;
        } else {
          token.Add(ch);
        }
        var _ := NextChar();
      }
      return Pass;
    }

    method ReadDoubleToken() returns (o: Outcome)
      requires Valid()
      modifies this, token
      ensures Valid() && token.line == old(token.line) && token.col == old(token.col)
      ensures var spec := ReadDouble(input, old(State()));
              (o.Fail? <==> spec.Err?) && (o.Fail? ==> o.error == spec.error) && (o.Pass? ==> State() == spec.value)
    {
      while cur.Chr?
        invariant Valid() && token.line == old(token.line) && token.col == old(token.col)
        invariant ReadDouble(input, State()) == ReadDouble(input, old(State()))
        decreases Measure(input, Here())
      {
        var ch := cur.c;
        if ch == '"' {
          return Fail(ParserError(UnexpectedQuote));
        } else if ch == '/' && !(PeekIs(input, Here(), '/') || PeekIs(input, Here(), '*')) {
          token.kind := String;
          o := ReadStringToken();
          return;
        } else if EndsBare(input, Here(), ch) {
          break;
        } else if IsDigit(ch) {
          token.Add(ch);
        } else {
          token.kind := String;
          o := ReadStringToken();
          return;
        }
        var _ := NextChar();
      }
      return Pass;
    }

    method ReadNumberToken() returns (o: Outcome)
      requires Valid()
      modifies this, token
      ensures Valid() && token.line == old(token.line) && token.col == old(token.col)
      ensures var spec := ReadNumber(input, old(State()));
              (o.Fail? <==> spec.Err?) && (o.Fail? ==> o.error == spec.error) && (o.Pass? ==> State() == spec.value)
    {
      while cur.Chr?
        invariant Valid() && token.line == old(token.line) && token.col == old(token.col)
        invariant ReadNumber(input, State()) == ReadNumber(input, old(State()))
        decreases Measure(input, Here())
      {
        var ch := cur.c;
        if ch == '"' {
          return Fail(ParserError(UnexpectedQuote));
        } else if ch == '/' && !(PeekIs(input, Here(), '/') || PeekIs(input, Here(), '*')) {
          token.kind := String;
          o := ReadStringToken();
          return;
        } else if EndsBare(input, Here(), ch) {
          break;
        } else if IsDigit(ch) {
          token.Add(ch);
        } else if ch == '.' {
          token.Add(ch);
          var _ := NextChar();
          token.kind := Double;
          o := ReadDoubleToken();
          return;
        } else {
          token.kind := String;
          o := ReadStringToken();
          return;
        }
        var _ := NextChar();
      }
      return Pass;
    }

    /** ReadQuotedStringToken: called on the opening quote, stops on the closing one. */
    method ReadQuotedStringToken() returns (o: Outcome)
      requires Valid()
      modifies this, token
      ensures Valid() && token.line == old(token.line) && token.col == old(token.col)
      ensures var spec := ReadQuoted(input, old(State()).(at := Next(input, old(Here()))), false);
              (o.Fail? <==> spec.Err?) && (o.Fail? ==> o.error == spec.error) && (o.Pass? ==> State() == spec.value)
    {
      var eolreached := false;
      var _ := NextChar();
      while cur != Chr('"')
        invariant Valid() && token.line == old(token.line) && token.col == old(token.col)
        invariant ReadQuoted(input, State(), eolreached)
                  == ReadQuoted(input, old(State()).(at := Next(input, old(Here()))), false)
        decreases Measure(input, Here())
      {
        if cur == EndOfInput {
          return Fail(ParserError(EofInQuotedString));
        }
        var ch := cur.c;
        if ch == '\\' {
          var n := NextChar();
          var e := if n.Chr? then GetEscapeChar(n.c) else None;
          if e.None? {
            return Fail(ParserError(UnknownEscape));
          }
          token.Add(e.value);
        } else {
          if !eolreached {
            token.Add(ch);
          }
          if ch == '\n' {
            eolreached := true;
          } else if eolreached && !IsSpace(ch) {
            eolreached := false;
            token.Add(ch);
          }
        }
        var _ := NextChar();
      }
      return Pass;
    }

    /** ReadCommentBlockToken: called on the slash of the opener. */
    method ReadCommentBlockToken() returns (o: Outcome)
      requires Valid() && cur.Chr?
      modifies this
      ensures Valid()
      ensures var spec := ReadCommentBlock(input, old(Here()));
              (o.Fail? <==> spec.Err?) && (o.Fail? ==> o.error == spec.error) && (o.Pass? ==> Here() == spec.value)
    {
      var n := NextChar();
      if n != EndOfInput {
        ghost var from := Here();
        var found := SkipToChar('*');
        while found
          invariant Valid() && from.pos <= |input| && Here() == SkipTo(input, from, '*')
          invariant found <==> cur == Chr('*')
          invariant CommentLoop(input, from) == ReadCommentBlock(input, old(Here()))
          decreases Measure(input, Here())
        {
          var after := NextChar();
          if after == Chr('/') {
            var _ := NextChar();
            return Pass;
          }
          from := Here();
          found := SkipToChar('*');
        }
      }
      return Fail(ParserError(EofInCommentBlock));
    }

    /** ReadToken: read the body of the token by its kind, then resolve a
        Number or Double made of signs or points only into a String. */
    method ReadToken() returns (o: Outcome)
      requires Valid()
      modifies this, token
      ensures Valid() && token.line == old(token.line) && token.col == old(token.col)
      ensures var spec := ReadTokenSpec(input, old(State()));
              (o.Fail? <==> spec.Err?) && (o.Fail? ==> o.error == spec.error) && (o.Pass? ==> State() == spec.value)
    {
      o := ReadTokenBody();
      if o.Fail? {
        return;
      }
      SignSetCompare(token.lexeme);
      if token.kind == Number {
        var signs := token.CompareSet(signset);
        if signs {
          token.kind := String;
        }
      } else if token.kind == Double {
        var signs := token.CompareSet(signset);
        var points := token.CompareChar('.');
        if signs || points {
          token.kind := String;
        }
      }
    }

    /** The switch of ReadToken: the body of the token, by its kind. */
    method ReadTokenBody() returns (o: Outcome)
      requires Valid()
      modifies this, token
      ensures Valid() && token.line == old(token.line) && token.col == old(token.col)
      ensures var b := ReadBody(input, old(State()));
              (o.Fail? <==> b.Err?) && (o.Fail? ==> o.error == b.error) && (o.Pass? ==> State() == b.value)
    {
      o := Pass;
      match token.kind {
        case QuotedString =>
          o := ReadQuotedStringToken();
          if o.Pass? {
            var _ := NextChar();
          }
        case String =>
          o := ReadStringToken();
        case Number =>
          var _ := NextChar();
          o := ReadNumberToken();
        case Double =>
          var _ := NextChar();
          o := ReadDoubleToken();
        case Equals =>
          var _ := NextChar();
        case Comment =>
          SkipToEOL();
        case CommentBlock =>
          if cur.Chr? {
            o := ReadCommentBlockToken();
          }
        case OpenBrace =>
          var _ := NextChar();
        case CloseBrace =>
          var _ := NextChar();
        case EOL =>
          var _ := NextChar();
        case EOF =>
        case NoToken =>
      }
    }

    /** Parse: one token (and an EOF token at the end of the input) per call. */
    method Parse() returns (r: Result<Step>)
      requires Valid()
      modifies this, token
      ensures Valid() && r == ParseStep(input, old(Here()))
      ensures r.Ok? ==> Here() == r.value.at && Holds(r.value.handed[|r.value.handed| - 1])
    {
      SkipWhitespace();
      var o := NextToken();
      if o.Fail? {
        return Err(o.error);
      }
      o := ReadToken();
      if o.Fail? {
        return Err(o.error);
      }
      var read := Lexeme(token.kind, token.lexeme, token.line, token.col);
      if cur == EndOfInput {
        token.Reset(EOF);
        return Ok(Step(Here(), [read, Lexeme(EOF, "", token.line, token.col)], false));
      } else if token.kind == EOF {
        return Ok(Step(Here(), [read], false));
      }
      return Ok(Step(Here(), [read], true));
    }
  }
}

=== FILE: template.dfy ===
/** Templates: positional name and type validation of identifiers and values,
    with a variadic tail (the infinitism type), the run compaction of a
    collection, and the rename and lookup passes built on validation. */
module Templates {
  import opened Basics
  import opened Values
  import opened Variables

  /** A template: the accepted names (null in the source: None), the type slots
      (None when null), case sensitivity, and the type of the extra children
      an identifier may have (NONE: no extra children). */
  datatype Template = Template(
    identity: Option<seq<string>>,
    layout: Option<seq<VariableType>>,
    caseSensitive: bool,
    infinitism: VariableType)

  /** Template(iden, layout): case-insensitive and without infinitism. */
  function MakeTemplate(identity: Option<seq<string>>, layout: Option<seq<VariableType>>): (t: Template)
    ensures t.identity == identity && t.layout == layout
    ensures !t.caseSensitive && t.infinitism == NONE
  {
    Template(identity, layout, false, NONE)
  }

  /** Two type masks share a bit. */
  predicate Shares(mask: VariableType, tag: VariableType)
  {
    mask & tag != 0
  }

  /** _checkVariable: a null variable or a NONE mask never matches; otherwise the
      mask and the variable's tag must share a bit. */
  predicate CheckVariable(mask: VariableType, v: Variable?)
  {
    v != null && mask != NONE && Shares(mask, v.Type())
  }

  /** _checkIden as a predicate: a null identity list accepts any name. */
  predicate NameListed(identity: Option<seq<string>>, a: string, casesens: bool)
  {
    identity.None? || exists j :: 0 <= j < |identity.value| && NamesEqual(a, identity.value[j], casesens)
  }

  /** _checkIden: the loop over the identity list. */
  method CheckIden(identity: Option<seq<string>>, a: string, casesens: bool) returns (ok: bool)
    ensures ok <==> NameListed(identity, a, casesens)
  {
    if identity.None? {
      return true;
    }
    var names := identity.value;
    var i := 0;
    while i < |names|
      invariant 0 <= i <= |names|
      invariant forall j :: 0 <= j < i ==> !NamesEqual(a, names[j], casesens)
    {
      if NamesEqual(a, names[i], casesens) {
        return true;
      }
      i := i + 1;
    }
    return false;
  }

  /** What ValidateIdentifier checks of an identifier with the given name and
      children, once the layout is known to be non-null. */
  predicate IdentifierFits(t: Template, name: string, kids: seq<Variable>)
    requires t.layout.Some?
  {
    var slots := t.layout.value;
    !(|kids| > |slots| && t.infinitism == NONE)
    && !(|kids| < |slots|)
    && NameListed(t.identity, name, t.caseSensitive)
    && SlotsFit(slots, kids)
    && ExtrasFit(t.infinitism, |slots|, kids)
  }

  /** Each of the first |slots| children shares a bit with its slot. */
  predicate SlotsFit(slots: seq<VariableType>, kids: seq<Variable>)
    requires |slots| <= |kids|
  {
    forall k :: 0 <= k < |slots| ==> Shares(slots[k], kids[k].Type())
  }

  /** Every child from position `from` on passes _checkVariable with the
      infinitism mask. */
  predicate ExtrasFit(infinitism: VariableType, from: nat, kids: seq<Variable>)
  {
    forall k :: from <= k < |kids| ==> CheckVariable(infinitism, kids[k])
  }

  /** What ValidateValue checks of a value with the given name and tag. */
  predicate ValueFits(t: Template, name: string, tag: VariableType)
  {
    NameListed(t.identity, name, t.caseSensitive)
    && if t.layout.Some? && |t.layout.value| > 0 then Shares(t.layout.value[0], tag)
       else t.infinitism != NONE && Shares(t.infinitism, tag)
  }

  /** ValidateIdentifier: false for null; a null layout is dereferenced before
      anything else is looked at. */
  method ValidateIdentifier(t: Template, identifier: Variable?) returns (r: Result<bool>)
    requires identifier == null || identifier.kind.IdentifierKind?
    ensures identifier == null ==> r == Ok(false)
    ensures identifier != null && t.layout.None? ==> r == Err(NullReference)
    ensures identifier != null && t.layout.Some? ==> r == Ok(IdentifierFits(t, identifier.name, identifier.children))
  {
    if identifier == null {
      return Ok(false);
    }
    if t.layout.None? {
      return Err(NullReference);
    }
    var slots := t.layout.value;
    var kids := identifier.children;
    if !(|kids| > |slots| && t.infinitism == NONE) && !(|kids| < |slots|) {
      var listed := CheckIden(t.identity, identifier.name, t.caseSensitive);
      if listed {
        var slotsOk := SlotsMatch(slots, kids);
        if !slotsOk {
          return Ok(false);
        }
        if |kids| > |slots| && t.infinitism != NONE {
          var extrasOk := ExtrasMatch(t.infinitism, |slots|, kids);
          if !extrasOk {
            return Ok(false);
          }
        }
        return Ok(true);
      }
    }
    return Ok(false);
  }

  /** The first foreach of ValidateIdentifier: each slot against its child. */
  method SlotsMatch(slots: seq<VariableType>, kids: seq<Variable>) returns (ok: bool)
    requires |slots| <= |kids|
    ensures ok <==> SlotsFit(slots, kids)
  {
    var i := 0;
    while i < |slots|
      invariant 0 <= i <= |slots|
      invariant forall k :: 0 <= k < i ==> Shares(slots[k], kids[k].Type())
    {
      if !Shares(slots[i], kids[i].Type()) {
        return false;
      }
      i := i + 1;
    }
    return true;
  }

  /** The second foreach of ValidateIdentifier: the extra children against the
      infinitism mask. */
  method ExtrasMatch(infinitism: VariableType, from: nat, kids: seq<Variable>) returns (ok: bool)
    requires from <= |kids|
    ensures ok <==> ExtrasFit(infinitism, from, kids)
  {
    var i := from;
    while i < |kids|
      invariant from <= i <= |kids|
      invariant forall k :: from <= k < i ==> CheckVariable(infinitism, kids[k])
    {
      if !CheckVariable(infinitism, kids[i]) {
        return false;
      }
      i := i + 1;
    }
    return true;
  }

  /** ValidateValue: a name match, then the first slot's type, or the
      infinitism type when there are no slots. */
  method ValidateValue(t: Template, val: Variable?) returns (ok: bool)
    requires val == null || !val.IsCollection()
    ensures ok <==> val != null && ValueFits(t, val.name, val.Type())
  {
    if val != null {
      var listed := CheckIden(t.identity, val.name, t.caseSensitive);
      if listed {
        if t.layout.Some? && |t.layout.value| > 0 {
          return Shares(t.layout.value[0], val.Type());
        }
        if t.infinitism != NONE {
          return Shares(t.infinitism, val.Type());
        }
      }
    }
    return false;
  }

  /** A template without names, slots or infinitism accepts no value, and a
      template whose identity list is null accepts every name. */
  lemma ValueFitsEdges(t: Template, name: string, tag: VariableType)
    ensures (t.layout.None? || t.layout.value == []) && t.infinitism == NONE ==> !ValueFits(t, name, tag)
    ensures t.identity.None? ==> NameListed(t.identity, name, t.caseSensitive)
  {
  }

  /** __matchname: positional; an empty identity list accepts any name, and a
      position past the end passes only with infinitism. A null identity list
      is dereferenced. */
  function MatchName(mc: nat, identity: Option<seq<string>>, name: string, casesens: bool, infinitism: VariableType): (r: Result<bool>)
    ensures identity.None? <==> r.Err?
    ensures r.Err? ==> r.error == NullReference
    ensures identity.Some? && identity.value == [] ==> r == Ok(true)
    ensures identity.Some? && mc < |identity.value| ==> r == Ok(NamesEqual(identity.value[mc], name, casesens))
    ensures identity.Some? && identity.value != [] && mc >= |identity.value| ==> r == Ok(infinitism != NONE)
  {
    if identity.None? then Err(NullReference)
    else if |identity.value| == 0 then Ok(true)
    else if mc < |identity.value| then Ok(NamesEqual(identity.value[mc], name, casesens))
    else Ok(infinitism != NONE)
  }

  /** __matchvariable: slot mc's mask, or the infinitism mask past the slots. */
  predicate MatchVariable(mc: nat, layout: Option<seq<VariableType>>, infinitism: VariableType, tag: VariableType)
  {
    if layout.Some? && mc < |layout.value| then Shares(layout.value[mc], tag)
    else infinitism != NONE && Shares(infinitism, tag)
  }

  /** ValidateValue is the type test of compaction slot 0 together with a name
      test against the whole identity list; with a single accepted name both
      name tests agree too. */
  lemma ValidateValueIsSlotZero(t: Template, name: string, tag: VariableType)
    ensures ValueFits(t, name, tag) <==>
            NameListed(t.identity, name, t.caseSensitive) && MatchVariable(0, t.layout, t.infinitism, tag)
    ensures t.identity.Some? && |t.identity.value| == 1 ==>
            MatchName(0, t.identity, name, t.caseSensitive, t.infinitism) == Ok(NameListed(t.identity, name, t.caseSensitive))
  {
    if t.identity.Some? && |t.identity.value| == 1 {
      NamesEqualSymmetric(t.identity.value[0], name, t.caseSensitive);
    }
  }

  lemma NamesEqualSymmetric(a: string, b: string, casesens: bool)
    ensures NamesEqual(a, b, casesens) <==> NamesEqual(b, a, casesens)
  {
  }

  // ------------------------------------------------------- rename and lookup

  /** Whether the foreach of a rename or lookup pass can cast the child to the
      element type it declares: Identifier, or ValueVariable. */
  predicate Castable(v: Variable, identifiers: bool)
  {
    if identifiers then v.kind.IdentifierKind? else v.kind.Scalar?
  }

  /** Where a pass over these children stops early: at the first child the cast
      rejects or, when identifiers are validated against a null layout, at the
      first child. |kids| when it runs to the end. */
  function PassStop(t: Template, kids: seq<Variable>, identifiers: bool): (stop: nat)
    ensures stop <= |kids|
    ensures stop < |kids| ==> !Castable(kids[stop], identifiers) || (identifiers && t.layout.None?)
    ensures forall j :: 0 <= j < stop ==> Castable(kids[j], identifiers) && !(identifiers && t.layout.None?)
    decreases |kids|
  {
    if kids == [] then 0
    else if !Castable(kids[0], identifiers) || (identifiers && t.layout.None?) then 0
    else 1 + PassStop(t, kids[1..], identifiers)
  }

  /** The exception the pass raises at its stop. */
  function PassFailure(t: Template, kids: seq<Variable>, identifiers: bool): Failure
    requires PassStop(t, kids, identifiers) < |kids|
  {
    if Castable(kids[PassStop(t, kids, identifiers)], identifiers) then NullReference else InvalidCast
  }

  /** Whether a castable child validates. */
  predicate Passes(t: Template, v: Variable, identifiers: bool)
    requires Castable(v, identifiers) && (identifiers ==> t.layout.Some?)
    reads v
  {
    Validates(t, v.name, v.children, v.kind, identifiers)
  }

  /** Whether a child of this kind and with these children validates under
      the given name. */
  predicate Validates(t: Template, name: string, children: seq<Variable>, kind: Kind, identifiers: bool)
    requires identifiers ==> t.layout.Some?
  {
    if identifiers then IdentifierFits(t, name, children) else ValueFits(t, name, KindTag(kind))
  }

  /** A castable child before the stop lets the pass go on past it. */
  lemma PassContinues(t: Template, kids: seq<Variable>, identifiers: bool, i: nat)
    requires i <= PassStop(t, kids, identifiers) && i < |kids|
    requires Castable(kids[i], identifiers) && !(identifiers && t.layout.None?)
    ensures i + 1 <= PassStop(t, kids, identifiers)
  {
  }

  /** The name v carries once a rename pass to `name` has examined kids[..n]:
      each occurrence of v validates v under the name it carries at that
      point, and renames it if it validates; a variable listed twice is
      validated again under its new name. */
  function NameAfter(t: Template, kids: seq<Variable>, identifiers: bool, name: string, n: nat, v: Variable): string
    requires n <= PassStop(t, kids, identifiers)
    reads kids, v
  {
    if n == 0 then v.name
    else
      var before := NameAfter(t, kids, identifiers, name, n - 1, v);
      if kids[n - 1] == v && Validates(t, before, v.children, v.kind, identifiers) then name else before
  }

  /** Whether the pass renames kids[n], judged by the name it carries then. */
  predicate RenamesAt(t: Template, kids: seq<Variable>, identifiers: bool, name: string, n: nat)
    requires n < PassStop(t, kids, identifiers)
    reads kids
  {
    Validates(t, NameAfter(t, kids, identifiers, name, n, kids[n]), kids[n].children, kids[n].kind, identifiers)
  }

  /** The number of children among kids[..n] that validate when the pass
      reaches them. */
  function CountPassing(t: Template, kids: seq<Variable>, identifiers: bool, name: string, n: nat): nat
    requires n <= PassStop(t, kids, identifiers)
    reads kids
  {
    if n == 0 then 0
    else CountPassing(t, kids, identifiers, name, n - 1) + (if RenamesAt(t, kids, identifiers, name, n - 1) then 1 else 0)
  }

  /** A variable that occurs only once among the examined children is renamed
      exactly when it validates under the name it started with. */
  lemma {:induction false} NameAfterSingle(t: Template, kids: seq<Variable>, identifiers: bool, name: string, n: nat, j: nat)
    requires n <= PassStop(t, kids, identifiers) && j < |kids|
    requires forall k :: 0 <= k < n && k != j ==> kids[k] != kids[j]
    ensures NameAfter(t, kids, identifiers, name, n, kids[j]) ==
              (if j < n && Passes(t, kids[j], identifiers) then name else kids[j].name)
    decreases n
  {
    if n > 0 {
      NameAfterSingle(t, kids, identifiers, name, n - 1, j);
    }
  }

  /** A rename is never undone: once a variable carries the new name, later
      occurrences leave it carrying it. */
  lemma {:induction false} RenamedStays(t: Template, kids: seq<Variable>, identifiers: bool, name: string, n: nat, m: nat, v: Variable)
    requires n <= m <= PassStop(t, kids, identifiers)
    requires NameAfter(t, kids, identifiers, name, n, v) == name
    ensures NameAfter(t, kids, identifiers, name, m, v) == name
    decreases m
  {
    if n < m {
      RenamedStays(t, kids, identifiers, name, n, m - 1, v);
    }
  }

  /** The cast and the validation a pass applies to one child: the cast
      failure, the null layout that ValidateIdentifier dereferences, or
      whether the child validates. */
  method CheckChild(t: Template, v: Variable, identifiers: bool) returns (r: Result<bool>)
    ensures r.Err? <==> !Castable(v, identifiers) || (identifiers && t.layout.None?)
    ensures r.Err? ==> r.error == (if Castable(v, identifiers) then NullReference else InvalidCast)
    ensures r.Ok? ==> Castable(v, identifiers) && !(identifiers && t.layout.None?) && r.value == Passes(t, v, identifiers)
  {
    if identifiers {
      if !v.kind.IdentifierKind? {
        return Err(InvalidCast);
      }
      r := ValidateIdentifier(t, v);
    } else {
      if !v.kind.Scalar? {
        return Err(InvalidCast);
      }
      var valid := ValidateValue(t, v);
      r := Ok(valid);
    }
  }

  /** The rename loop shared by RenameIdentifiers and RenameValues: every
      child before the stop that validates, under the name it carries when
      the loop reaches it, is renamed and counted; the child at the stop ends
      the pass with its exception, after the renames already done. Nothing
      but names changes. */
  method RenamePass(t: Template, collection: Variable, name: string, identifiers: bool) returns (r: Result<int>)
    requires collection.IsCollection()
    modifies collection.children
    ensures var kids := collection.children;
            var stop := PassStop(t, kids, identifiers);
            && kids == old(collection.children)
            && r == (if stop < |kids| then Err(PassFailure(t, kids, identifiers))
                     else Ok(old(CountPassing(t, kids, identifiers, name, stop))))
            && (forall j :: 0 <= j < |kids| ==>
                  kids[j].name == old(NameAfter(t, kids, identifiers, name, stop, kids[j]))
                  && kids[j].children == old(kids[j].children) && kids[j].parent == old(kids[j].parent))
  {
    var kids := collection.children;
    var count := 0;
    var i := 0;
    while i < |kids|
      invariant 0 <= i <= PassStop(t, kids, identifiers)
      invariant kids == collection.children
      invariant count == old(CountPassing(t, kids, identifiers, name, i))
      invariant forall j :: 0 <= j < |kids| ==>
                  kids[j].name == old(NameAfter(t, kids, identifiers, name, i, kids[j]))
                  && kids[j].children == old(kids[j].children) && kids[j].parent == old(kids[j].parent)
    {
      label Step:
      var v := kids[i];
      var checked := CheckChild(t, v, identifiers);
      if checked.Err? {
        assert i == PassStop(t, kids, identifiers);
        return Err(checked.error);
      }
      PassContinues(t, kids, identifiers, i);
      assert checked.value == old(RenamesAt(t, kids, identifiers, name, i));
      if checked.value {
        v.name := name;
        count := count + 1;
      }
      forall j | 0 <= j < |kids|
        ensures kids[j].name == old(NameAfter(t, kids, identifiers, name, i + 1, kids[j]))
      {
        if kids[j] != v {
          assert kids[j].name == old@Step(kids[j].name);
        } else {
          assert old(NameAfter(t, kids, identifiers, name, i + 1, v))
              == (if old(RenamesAt(t, kids, identifiers, name, i)) then name else old(NameAfter(t, kids, identifiers, name, i, v)));
        }
      }
      i := i + 1;
    }
    return Ok(count);
  }

  /** RenameIdentifiers: the rename pass over identifier children, stopped by
      a child that is not an Identifier or by a null layout. A null collection
      gives 0. */
  method RenameIdentifiers(t: Template, collection: Variable?, name: string) returns (r: Result<int>)
    requires collection == null || collection.IsCollection()
    modifies if collection == null then [] else collection.children
    ensures collection == null ==> r == Ok(0)
    ensures collection != null ==>
              var kids := collection.children;
              var stop := PassStop(t, kids, true);
              && kids == old(collection.children)
              && r == (if stop < |kids| then Err(PassFailure(t, kids, true))
                       else Ok(old(CountPassing(t, kids, true, name, stop))))
              && (forall j :: 0 <= j < |kids| ==>
                    kids[j].name == old(NameAfter(t, kids, true, name, stop, kids[j]))
                    && kids[j].children == old(kids[j].children) && kids[j].parent == old(kids[j].parent))
  {
    if collection == null {
      return Ok(0);
    }
    r := RenamePass(t, collection, name, true);
  }

  /** RenameValues: the rename pass over value children, stopped by a child
      that is not a value. A null collection gives 0. */
  method RenameValues(t: Template, collection: Variable?, name: string) returns (r: Result<int>)
    requires collection == null || collection.IsCollection()
    modifies if collection == null then [] else collection.children
    ensures collection == null ==> r == Ok(0)
    ensures collection != null ==>
              var kids := collection.children;
              var stop := PassStop(t, kids, false);
              && kids == old(collection.children)
              && r == (if stop < |kids| then Err(PassFailure(t, kids, false))
                       else Ok(old(CountPassing(t, kids, false, name, stop))))
              && (forall j :: 0 <= j < |kids| ==>
                    kids[j].name == old(NameAfter(t, kids, false, name, stop, kids[j]))
                    && kids[j].children == old(kids[j].children) && kids[j].parent == old(kids[j].parent))
  {
    if collection == null {
      return Ok(0);
    }
    r := RenamePass(t, collection, name, false);
  }

  /** The lookup loop shared by GetMatchingIdentifier and GetMatchingValue:
      the first child before the stop that validates, or null when the pass
      runs to the end without one; the exception of the child at the stop
      otherwise. */
  method MatchPass(t: Template, collection: Variable, identifiers: bool) returns (r: Result<Variable?>)
    requires collection.IsCollection()
    ensures var kids := collection.children;
            var stop := PassStop(t, kids, identifiers);
            && (r.Ok? && r.value != null ==>
                  exists k :: 0 <= k < stop && r.value == kids[k] && Passes(t, kids[k], identifiers)
                              && forall j :: 0 <= j < k ==> !Passes(t, kids[j], identifiers))
            && (r == Ok(null) <==> stop == |kids| && forall j :: 0 <= j < stop ==> !Passes(t, kids[j], identifiers))
            && (r.Err? <==> stop < |kids| && forall j :: 0 <= j < stop ==> !Passes(t, kids[j], identifiers))
            && (r.Err? ==> r.error == PassFailure(t, kids, identifiers))
  {
    var kids := collection.children;
    var i := 0;
    while i < |kids|
      invariant 0 <= i <= PassStop(t, kids, identifiers)
      invariant forall j :: 0 <= j < i ==> !Passes(t, kids[j], identifiers)
    {
      var v := kids[i];
      var checked := CheckChild(t, v, identifiers);
      if checked.Err? {
        return Err(checked.error);
      }
      if checked.value {
        return Ok(v);
      }
      i := i + 1;
    }
    return Ok(null);
  }

  /** GetMatchingIdentifier: the lookup pass over identifier children. */
  method GetMatchingIdentifier(t: Template, collection: Variable?) returns (r: Result<Variable?>)
    requires collection == null || collection.IsCollection()
    ensures collection == null ==> r == Ok(null)
    ensures collection != null ==>
              var kids := collection.children;
              var stop := PassStop(t, kids, true);
              && (r.Ok? && r.value != null ==>
                    exists k :: 0 <= k < stop && r.value == kids[k] && Passes(t, kids[k], true)
                                && forall j :: 0 <= j < k ==> !Passes(t, kids[j], true))
              && (r == Ok(null) <==> stop == |kids| && forall j :: 0 <= j < stop ==> !Passes(t, kids[j], true))
              && (r.Err? <==> stop < |kids| && forall j :: 0 <= j < stop ==> !Passes(t, kids[j], true))
              && (r.Err? ==> r.error == PassFailure(t, kids, true))
  {
    if collection == null {
      return Ok(null);
    }
    r := MatchPass(t, collection, true);
  }

  /** GetMatchingValue: the lookup pass over value children. */
  method GetMatchingValue(t: Template, collection: Variable?) returns (r: Result<Variable?>)
    requires collection == null || collection.IsCollection()
    ensures collection == null ==> r == Ok(null)
    ensures collection != null ==>
              var kids := collection.children;
              var stop := PassStop(t, kids, false);
              && (r.Ok? && r.value != null ==>
                    exists k :: 0 <= k < stop && r.value == kids[k] && Passes(t, kids[k], false)
                                && forall j :: 0 <= j < k ==> !Passes(t, kids[j], false))
              && (r == Ok(null) <==> stop == |kids| && forall j :: 0 <= j < stop ==> !Passes(t, kids[j], false))
              && (r.Err? <==> stop < |kids| && forall j :: 0 <= j < stop ==> !Passes(t, kids[j], false))
              && (r.Err? ==> r.error == PassFailure(t, kids, false))
  {
    if collection == null {
      return Ok(null);
    }
    r := MatchPass(t, collection, false);
  }
}

=== FILE: token.dfy ===
/** The lexeme accumulator both lexers share (Token<_TokenType>): a kind, the
    characters appended so far, the position the token started at, and the
    capacity of the underlying buffer. */
module Tokens {
  import opened CharRanges

  /** The capacity a fresh StringBuilder starts with. */
  const DEFAULT_CAPACITY: nat := 16
  /** The amount Add grows the buffer by. */
  const CAPACITY_STEP: nat := 68

  class Token<K> {
    var kind: K
    var lexeme: string
    var capacity: nat
    var line: int
    var col: int

    /** The buffer never holds more characters than its capacity. */
    predicate Valid()
      reads this
    {
      |lexeme| <= capacity
    }

    constructor (kind: K)
      ensures Valid()
      ensures this.kind == kind && lexeme == [] && capacity == DEFAULT_CAPACITY
      ensures line == 0 && col == 0
    {
      this.kind := kind;
      lexeme := [];
      capacity := DEFAULT_CAPACITY;
      line := 0;
      col := 0;
    }

    /** SetPosition: only the line and the column change. */
    method SetPosition(line: int, col: int)
      modifies this
      ensures this.line == line && this.col == col
      ensures kind == old(kind) && lexeme == old(lexeme) && capacity == old(capacity)
    {
      this.line := line;
      this.col := col;
    }

    /** Add: appends exactly one character; the capacity bookkeeping never
        touches the content. */
    method Add(c: char)
      requires Valid()
      modifies this
      ensures Valid()
      ensures lexeme == old(lexeme) + [c]
      ensures capacity == (if |old(lexeme)| == 0 then CAPACITY_STEP
                           else if |old(lexeme)| == old(capacity) then old(capacity) + CAPACITY_STEP
                           else old(capacity))
      ensures kind == old(kind) && line == old(line) && col == old(col)
    {
      if |lexeme| == 0 {
        capacity := CAPACITY_STEP;
      } else if |lexeme| == capacity {
        capacity := capacity + CAPACITY_STEP;
      }
      lexeme := lexeme + [c];
    }

    /** Reset: sets the kind and empties the lexeme; the buffer keeps its capacity. */
    method Reset(kind: K)
      requires Valid()
      modifies this
      ensures Valid()
      ensures this.kind == kind && lexeme == []
      ensures capacity == old(capacity) && line == old(line) && col == old(col)
    {
      this.kind := kind;
      lexeme := [];
    }

    /** Compare(char): every character of the lexeme is c (vacuously true when empty). */
    method CompareChar(c: char) returns (b: bool)
      ensures b <==> forall i :: 0 <= i < |lexeme| ==> lexeme[i] == c
    {
      var i := 0;
      while i < |lexeme|
        invariant 0 <= i <= |lexeme|
        invariant forall j :: 0 <= j < i ==> lexeme[j] == c
      {
        if lexeme[i] != c {
          return false;
        }
        i := i + 1;
      }
      return true;
    }

    /** Compare(CharacterSet): every character of the lexeme is in the set
        (vacuously true when empty). */
    method CompareSet(charset: CharacterSet) returns (b: bool)
      ensures b <==> forall i :: 0 <= i < |lexeme| ==> SetHas(charset.ranges, lexeme[i])
    {
      var i := 0;
      while i < |lexeme|
        invariant 0 <= i <= |lexeme|
        invariant forall j :: 0 <= j < i ==> SetHas(charset.ranges, lexeme[j])
      {
        var has := charset.Contains(lexeme[i]);
        if !has {
          return false;
        }
        i := i + 1;
      }
      return true;
    }

    /** ToString: the characters in the order they were appended. */
    function ToString(): string
      reads this
    {
      lexeme
    }
  }
}

=== FILE: values.dfy ===
/** Variable type tags, value formats, escape handling, value sniffing and the
    formatting of names and scalar values (the static parts of Variable and the
    ValueVariable kinds in Variables.cs). */
module Values {
  import opened Basics

  /** VariableType: one bit per kind of variable. */
  type VariableType = bv32

  const INTEGER: VariableType := 0x1
  const STRING: VariableType := 0x2
  const FLOAT: VariableType := 0x4
  const BOOL: VariableType := 0x8
  const IDENTIFIER: VariableType := 0x40
  const NODE: VariableType := 0x80
  const NONE: VariableType := 0x0
  const ANY: VariableType := 0xFFFF_FFFF
  const VALUE: VariableType := INTEGER | STRING | FLOAT | BOOL
  const COLLECTION: VariableType := IDENTIFIER | NODE

  /** ValueFormat: flags that steer quoting and escaping. */
  type ValueFormat = bv32

  const VALUE_QUOTE_ALWAYS: ValueFormat := 0x01
  const STRING_QUOTE_WHITESPACE: ValueFormat := 0x10
  const STRING_QUOTE_EMPTY: ValueFormat := 0x20
  const STRING_QUOTE_CONTROL: ValueFormat := 0x40
  const STRING_QUOTE_ALWAYS: ValueFormat := 0x80
  const STRING_SAFE_BOOL: ValueFormat := 0x100
  const STRING_SAFE_NUMBER: ValueFormat := 0x200
  const STRING_ESCAPE_NEWLINE: ValueFormat := 0x1000
  const STRING_ESCAPE_CONTROL: ValueFormat := 0x2000
  const STRING_ESCAPE_OTHER: ValueFormat := 0x4000
  const STRING_ESCAPE_ALL: ValueFormat := STRING_ESCAPE_NEWLINE | STRING_ESCAPE_CONTROL | STRING_ESCAPE_OTHER
  const STRING_SAFE: ValueFormat := STRING_SAFE_BOOL | STRING_SAFE_NUMBER | STRING_ESCAPE_OTHER | STRING_QUOTE_CONTROL
  const STRING_DEFAULT: ValueFormat := STRING_SAFE | STRING_QUOTE_WHITESPACE | STRING_QUOTE_EMPTY
  const BOOL_QUOTE: ValueFormat := 0x1_0000
  const FORMAT_NONE: ValueFormat := 0
  const NAME_DEFAULT: ValueFormat := STRING_DEFAULT
  const ALL_DEFAULT: ValueFormat := STRING_DEFAULT

  predicate Has(format: ValueFormat, flag: ValueFormat) { format & flag != 0 }

  /** The tags of the six concrete kinds. */
  predicate IsKindTag(t: VariableType)
  {
    t == INTEGER || t == STRING || t == FLOAT || t == BOOL || t == IDENTIFIER || t == NODE
  }

  /** Lookups test a child's tag t against a mask by (t & mask) == t. For the
      one-bit tags of the concrete kinds that is the same as sharing a bit, so
      ANY selects every kind, NONE selects none, and VALUE and COLLECTION split
      the kinds in two. */
  lemma SubsetTestOnKindTags(t: VariableType, mask: VariableType)
    requires IsKindTag(t)
    ensures (t & mask == t) <==> (t & mask != 0)
    ensures t & ANY == t && t & NONE != t
    ensures (t & VALUE == t) <==> t in {INTEGER, STRING, FLOAT, BOOL}
    ensures (t & COLLECTION == t) <==> t in {IDENTIFIER, NODE}
  {
  }

  /** The value a ValueVariable holds. Float values are kept as their text. */
  datatype Value =
    | IntValue(i: int)
    | StringValue(s: string)
    | FloatValue(text: string)
    | BoolValue(b: bool)

  function TypeOf(v: Value): (t: VariableType)
    ensures t == INTEGER || t == STRING || t == FLOAT || t == BOOL
  {
    match v
    case IntValue(_) => INTEGER
    case StringValue(_) => STRING
    case FloatValue(_) => FLOAT
    case BoolValue(_) => BOOL
  }

  // ---------------------------------------------------------------- escapes

  /** GetEscapeChar: the character an escape sequence `\c` stands for; None plays
      the part of the '\xFFFF' "unknown escape" sentinel. */
  function GetEscapeChar(c: char): (r: Option<char>)
    ensures c == 'n' <==> r == Some('\n')
    ensures c == 'r' <==> r == Some('\r')
    ensures c == 't' <==> r == Some('\t')
    ensures c in "'\"\\{}=" <==> r == Some(c)
    ensures r == None <==> c !in "nrt'\"\\{}="
  {
    match c
    case 'n' => Some('\n')
    case 'r' => Some('\r')
    case 't' => Some('\t')
    case '\'' => Some(c)
    case '"' => Some(c)
    case '\\' => Some(c)
    case '{' => Some(c)
    case '}' => Some(c)
    case '=' => Some(c)
    case _ => None
  }

  /** Text is quote-delimited when it starts and ends with a quote and the last
      quote is not escaped. */
  predicate IsQuoted(s: string)
  {
    |s| >= 2 && s[0] == '"' && s[|s| - 1] == '"' && !(s[|s| - 2] == '\\')
  }

  /** What `'\\' + c2` appends at src/Variables.cs:385: char arithmetic gives an
      int, so the decimal digits of 92 + c2 are appended. */
  function PairAsWritten(c2: char): string
  {
    IntToString('\\' as int + c2 as int)
  }

  /** Which of the three escape flags a format sets. */
  datatype Escapes = Escapes(other: bool, control: bool, newline: bool)

  function EscapesOf(format: ValueFormat): Escapes
  {
    Escapes(Has(format, STRING_ESCAPE_OTHER), Has(format, STRING_ESCAPE_CONTROL), Has(format, STRING_ESCAPE_NEWLINE))
  }

  const ALL_ESCAPES := Escapes(true, true, true)

  lemma EscapeAllSetsAll(format: ValueFormat)
    requires format & STRING_ESCAPE_ALL == STRING_ESCAPE_ALL
    ensures EscapesOf(format) == ALL_ESCAPES
  {
    assert format & STRING_ESCAPE_OTHER == STRING_ESCAPE_OTHER;
    assert format & STRING_ESCAPE_CONTROL == STRING_ESCAPE_CONTROL;
    assert format & STRING_ESCAPE_NEWLINE == STRING_ESCAPE_NEWLINE;
  }

  /** One step of the EscapeString loop on the suffix t of the text: the piece
      it appends and how many characters it consumes. `atStart` says whether t
      is the whole text (the quote rule looks at the position). `fixedPair`
      chooses between the code as written (false) and the evidently intended
      behaviour (true) for a backslash that starts a valid escape pair. */
  function EscapeStep(t: string, atStart: bool, e: Escapes, quoted: bool, fixedPair: bool): (step: (string, nat))
    requires t != []
    ensures 1 <= step.1 <= |t|
  {
    var c := t[0];
    if e.other && c == '\t' then
      (if !quoted then "\\t" else "\t", 1)
    else if e.other && c == '"' then
      (if !atStart && |t| > 1 then "\\\"" else "\"", 1)
    else if e.other && c == '\\' then
      if |t| == 1 then ("\\\\", 1)
      else
        match GetEscapeChar(t[1])
        case None => ("\\\\", 1)
        case Some(c2) =>
          if c2 == '\\' then ("\\\\", 2)
          else (if fixedPair then ['\\', t[1]] else PairAsWritten(c2), 2)
    else if e.control && !quoted && (c == '{' || c == '}' || c == '=') then
      (['\\', c], 1)
    else if e.newline && !quoted && c == '\n' then
      ("\\n", 1)
    else if e.newline && !quoted && c == '\r' then
      ("\\r", 1)
    else
      ([c], 1)
  }

  /** The escaped form of the suffix t of the text being escaped. */
  function EscapedTail(t: string, atStart: bool, e: Escapes, quoted: bool, fixedPair: bool): string
    decreases |t|
  {
    if t == [] then []
    else
      var step := EscapeStep(t, atStart, e, quoted, fixedPair);
      step.0 + EscapedTail(t[step.1..], false, e, quoted, fixedPair)
  }

  /** One iteration of the EscapeString loop keeps the builder a prefix of the
      whole escaped text. */
  lemma EscapedTailUnfold(s: string, i: nat, e: Escapes, quoted: bool, built: string, whole: string)
    requires i < |s|
    requires whole == built + EscapedTail(s[i..], i == 0, e, quoted, false)
    ensures i + EscapeStep(s[i..], i == 0, e, quoted, false).1 <= |s|
    ensures whole == (built + EscapeStep(s[i..], i == 0, e, quoted, false).0)
                     + EscapedTail(s[i + EscapeStep(s[i..], i == 0, e, quoted, false).1..], false, e, quoted, false)
  {
    var step := EscapeStep(s[i..], i == 0, e, quoted, false);
    assert s[i..][step.1..] == s[i + step.1..];
  }

  predicate EscapesNothing(format: ValueFormat)
  {
    !Has(format, STRING_ESCAPE_OTHER) && !Has(format, STRING_ESCAPE_CONTROL) && !Has(format, STRING_ESCAPE_NEWLINE)
  }

  /** EscapeString with the escape-pair defect of src/Variables.cs:385 as written. */
  function EscapeStringAsWritten(s: string, format: ValueFormat): string
  {
    if s == [] || EscapesNothing(format) then s
    else EscapedTail(s, true, EscapesOf(format), IsQuoted(s), false)
  }

  /** EscapeString as intended: a backslash that already starts a valid escape
      pair is kept together with the escaped character. */
  function Escaped(s: string, format: ValueFormat): string
  {
    if s == [] || EscapesNothing(format) then s
    else EscapedTail(s, true, EscapesOf(format), IsQuoted(s), true)
  }

  /** EscapeString(str, format): empty text and a format without escape flags
      are returned unchanged; otherwise the builder loop runs, with the
      escape-pair defect as written. */
  method EscapeString(s: string, format: ValueFormat) returns (r: string)
    ensures r == EscapeStringAsWritten(s, format)
    ensures NoEscapePair(s) ==> r == Escaped(s, format)
  {
    if s == [] || EscapesNothing(format) {
      return s;
    }
    var quoted := IsQuoted(s);
    var e := EscapesOf(format);
    r := EscapeLoop(s, e, quoted);
    if NoEscapePair(s) {
      EscapeAgrees(s, format);
    }
  }

  /** The builder loop of EscapeString, as written. */
  method EscapeLoop(s: string, e: Escapes, quoted: bool) returns (r: string)
    ensures r == EscapedTail(s, true, e, quoted, false)
  {
    ghost var whole := EscapedTail(s, true, e, quoted, false);
    assert s[0..] == s;
    r := [];
    var i := 0;
    while i < |s|
      invariant 0 <= i <= |s|
      invariant whole == r + EscapedTail(s[i..], i == 0, e, quoted, false)
      decreases |s| - i
    {
      var step := EscapeStep(s[i..], i == 0, e, quoted, false);
      EscapedTailUnfold(s, i, e, quoted, r, whole);
      r := r + step.0;
      i := i + step.1;
    }
    assert s[|s|..] == [];
  }

  /** No backslash is followed by a character whose escape is anything but a
      backslash: the text holds no escape pair the defect would rewrite. */
  predicate NoEscapePair(t: string)
  {
    forall i :: 0 <= i < |t| - 1 && t[i] == '\\' ==> GetEscapeChar(t[i + 1]) in {None, Some('\\')}
  }

  lemma {:induction false} EscapedTailAgrees(t: string, atStart: bool, e: Escapes, quoted: bool)
    requires NoEscapePair(t)
    ensures EscapedTail(t, atStart, e, quoted, false) == EscapedTail(t, atStart, e, quoted, true)
    decreases |t|
  {
    if t != [] {
      var step := EscapeStep(t, atStart, e, quoted, true);
      assert EscapeStep(t, atStart, e, quoted, false) == step;
      var rest := t[step.1..];
      assert NoEscapePair(rest) by {
        forall i | 0 <= i < |rest| - 1 && rest[i] == '\\'
          ensures GetEscapeChar(rest[i + 1]) in {None, Some('\\')}
        {
          assert rest[i] == t[i + step.1] && rest[i + 1] == t[i + 1 + step.1];
        }
      }
      EscapedTailAgrees(rest, false, e, quoted);
    }
  }

  /** The code as written and the intended escape agree on every text without
      an escape pair that the defect rewrites. */
  lemma EscapeAgrees(s: string, format: ValueFormat)
    requires NoEscapePair(s)
    ensures EscapeStringAsWritten(s, format) == Escaped(s, format)
  {
    if s != [] && !EscapesNothing(format) {
      EscapedTailAgrees(s, true, EscapesOf(format), IsQuoted(s));
    }
  }

  /** Characters no escape rule touches. */
  predicate Plain(c: char)
  {
    c != '\t' && c != '"' && c != '\\' && c != '{' && c != '}' && c != '=' && c != '\n' && c != '\r'
  }

  /** Text every escape rule leaves alone: plain characters and complete escape
      pairs for characters other than the quote. */
  predicate WellEscaped(t: string)
    decreases |t|
  {
    if t == [] then true
    else if t[0] == '\\' then |t| >= 2 && t[1] != '"' && GetEscapeChar(t[1]).Some? && WellEscaped(t[2..])
    else Plain(t[0]) && WellEscaped(t[1..])
  }

  predicate QuoteFree(t: string) { forall i :: 0 <= i < |t| ==> t[i] != '"' }

  /** Every escape rule copies a plain character or a complete escape pair. */
  lemma FixedStep(t: string, atStart: bool)
    requires t != [] && WellEscaped(t)
    ensures var n := if t[0] == '\\' then 2 else 1;
            n <= |t| && EscapeStep(t, atStart, ALL_ESCAPES, false, true) == (t[..n], n)
  {
    if t[0] == '\\' {
      assert t[..2] == ['\\', t[1]];
    } else {
      assert t[..1] == [t[0]];
    }
  }

  lemma {:induction false} WellEscapedIsFixpoint(t: string, atStart: bool)
    requires WellEscaped(t)
    ensures EscapedTail(t, atStart, ALL_ESCAPES, false, true) == t
    decreases |t|
  {
    if t != [] {
      FixedStep(t, atStart);
      var n := if t[0] == '\\' then 2 else 1;
      WellEscapedIsFixpoint(t[n..], false);
      assert t == t[..n] + t[n..];
    }
  }

  lemma {:induction false} WellEscapedConcat(a: string, b: string)
    requires WellEscaped(a) && WellEscaped(b)
    ensures WellEscaped(a + b)
    decreases |a|
  {
    if a != [] {
      var ab := a + b;
      assert ab != [] && ab[0] == a[0];
      if a[0] == '\\' {
        assert ab[1] == a[1];
        assert ab[2..] == a[2..] + b;
        WellEscapedConcat(a[2..], b);
        assert WellEscaped(ab[2..]);
      } else {
        assert ab[1..] == a[1..] + b;
        WellEscapedConcat(a[1..], b);
        assert WellEscaped(ab[1..]);
      }
    } else {
      assert a + b == b;
    }
  }

  /** Every piece one escape step appends is a complete escape pair or a plain
      character, when the text is quote-free. */
  lemma EscapeStepWellEscaped(t: string, atStart: bool)
    requires t != [] && QuoteFree(t)
    ensures WellEscaped(EscapeStep(t, atStart, ALL_ESCAPES, false, true).0)
  {
    var head := EscapeStep(t, atStart, ALL_ESCAPES, false, true).0;
    assert t[0] != '"';
    assert |head| == 1 || |head| == 2;
    if |head| == 2 {
      assert head[2..] == [];
    } else {
      assert head[1..] == [];
    }
  }

  lemma {:induction false} EscapedIsWellEscaped(t: string, atStart: bool)
    requires QuoteFree(t)
    ensures WellEscaped(EscapedTail(t, atStart, ALL_ESCAPES, false, true))
    decreases |t|
  {
    if t != [] {
      var step := EscapeStep(t, atStart, ALL_ESCAPES, false, true);
      EscapeStepWellEscaped(t, atStart);
      assert QuoteFree(t[step.1..]);
      EscapedIsWellEscaped(t[step.1..], false);
      WellEscapedConcat(step.0, EscapedTail(t[step.1..], false, ALL_ESCAPES, false, true));
    }
  }

  /** Escaping quote-free text with every escape flag set is idempotent: its
      output consists of complete escape pairs and plain characters only. */
  lemma EscapeIdempotent(s: string, format: ValueFormat)
    requires QuoteFree(s)
    requires format & STRING_ESCAPE_ALL == STRING_ESCAPE_ALL
    ensures Escaped(Escaped(s, format), format) == Escaped(s, format)
  {
    EscapeAllSetsAll(format);
    assert !EscapesNothing(format);
    if s != [] {
      assert !IsQuoted(s);
      var e := Escaped(s, format);
      EscapedIsWellEscaped(s, true);
      if e != [] {
        assert e[0] == '\\' || Plain(e[0]);
        assert !IsQuoted(e);
        WellEscapedIsFixpoint(e, true);
      }
    }
  }

  /** As written, escaping the escape pair of a tab again yields decimal digits. */
  lemma EscapePairDefect()
    ensures EscapeStringAsWritten("\t", STRING_ESCAPE_OTHER) == "\\t"
    ensures EscapeStringAsWritten("\\t", STRING_ESCAPE_OTHER) == "101"
    ensures Escaped("\\t", STRING_ESCAPE_OTHER) == "\\t"
  {
    var e := EscapesOf(STRING_ESCAPE_OTHER);
    assert e == Escapes(true, false, false);
    assert !IsQuoted("\t") && !IsQuoted("\\t");
    var s := "\\t";
    assert s[1] == 't' && s[2..] == [];
    assert PairAsWritten('\t') == "101" by {
      assert IntToString(10) == IntToString(1) + "0";
      assert IntToString(101) == IntToString(10) + "1";
    }
  }

  /** How the lexers decode text with escapes: a backslash and the following
      character become GetEscapeChar of that character; None for a bad escape. */
  function Unescape(t: string): (r: Option<string>)
    decreases |t|
  {
    if t == [] then Some([])
    else if t[0] == '\\' then
      if |t| == 1 then None
      else match GetEscapeChar(t[1])
        case None => None
        case Some(d) =>
          match Unescape(t[2..])
          case None => None
          case Some(rest) => Some([d] + rest)
    else
      match Unescape(t[1..])
      case None => None
      case Some(rest) => Some([t[0]] + rest)
  }

  lemma UnescapePlain(s: string)
    requires forall i :: 0 <= i < |s| ==> s[i] != '\\'
    ensures Unescape(s) == Some(s)
    decreases |s|
  {
    if s != [] {
      UnescapePlain(s[1..]);
      assert s == [s[0]] + s[1..];
    }
  }

  lemma UnescapeAfterPiece(piece: string, rest: string, d: char)
    requires (piece == [d] && d != '\\') || (|piece| == 2 && piece[0] == '\\' && GetEscapeChar(piece[1]) == Some(d))
    ensures Unescape(piece + rest) == (match Unescape(rest) case None => None case Some(r) => Some([d] + r))
  {
    if |piece| == 2 {
      assert (piece + rest)[2..] == rest;
    } else {
      assert (piece + rest)[1..] == rest;
    }
  }

  /** For quote-free text without backslashes, decoding the escaped text gives
      the text back, whatever escape flags are set. */
  lemma {:induction false} UnescapeEscapedTail(t: string, atStart: bool, e: Escapes)
    requires QuoteFree(t)
    requires forall i :: 0 <= i < |t| ==> t[i] != '\\'
    ensures Unescape(EscapedTail(t, atStart, e, false, true)) == Some(t)
    decreases |t|
  {
    if t != [] {
      var step := EscapeStep(t, atStart, e, false, true);
      assert step.1 == 1 && t[0] != '"' && t[0] != '\\';
      var rest := t[1..];
      var er := EscapedTail(rest, false, e, false, true);
      UnescapeEscapedTail(rest, false, e);
      UnescapeAfterPiece(step.0, er, t[0]);
      assert t == [t[0]] + rest;
    }
  }

  /** Escaping is undone by the lexers' escape decoding, for quote-free text
      without backslashes. */
  lemma EscapeRoundTrip(s: string, format: ValueFormat)
    requires QuoteFree(s)
    requires forall i :: 0 <= i < |s| ==> s[i] != '\\'
    ensures Unescape(EscapeStringAsWritten(s, format)) == Some(s)
    ensures Unescape(Escaped(s, format)) == Some(s)
  {
    EscapeAgrees(s, format);
    if s == [] || EscapesNothing(format) {
      UnescapePlain(s);
    } else {
      assert !IsQuoted(s);
      UnescapeEscapedTail(s, true, EscapesOf(format));
    }
  }

  // ---------------------------------------------------------------- sniffing

  /** StringToBool: 1 for "true" (any case) or "1", 0 for "false" (any case) or
      "0", -1 otherwise, including the empty string. */
  function StringToBool(s: string): (r: int)
    ensures r == 1 <==> EqualsIgnoreCase(s, "true") || s == "1"
    ensures r == 0 <==> EqualsIgnoreCase(s, "false") || s == "0"
    ensures r == -1 <==> !(EqualsIgnoreCase(s, "true") || s == "1" || EqualsIgnoreCase(s, "false") || s == "0")
  {
    if s != [] then
      if EqualsIgnoreCase(s, "true") || s == "1" then 1
      else if EqualsIgnoreCase(s, "false") || s == "0" then 0
      else -1
    else -1
  }

  function BoolText(b: bool): string { if b then "true" else "false" }

  /** The text a bool is written as reads back as the same bool. */
  lemma BoolTextRoundTrip(b: bool)
    ensures StringToBool(BoolText(b)) == (if b then 1 else 0)
  {
    if b {
      assert EqualsIgnoreCase("true", "true");
    } else {
      assert EqualsIgnoreCase("false", "false");
      assert !EqualsIgnoreCase("false", "true");
    }
  }

  /** VariableToBool on a value; None stands for a null or collection variable. */
  function VariableToBool(source: Option<Value>): (r: int)
    ensures source.Some? && source.value.StringValue? ==> r == StringToBool(source.value.s)
    ensures source.Some? && source.value.BoolValue? ==> r == (if source.value.b then 1 else 0)
    ensures source.Some? && source.value.IntValue? ==> r == (if source.value.i == 1 then 1 else if source.value.i == 0 then 0 else -1)
    ensures source.None? || source.value.FloatValue? ==> r == -1
  {
    match source
    case None => -1
    case Some(v) =>
      match v
      case BoolValue(b) => if b then 1 else 0
      case StringValue(str) =>
        if EqualsIgnoreCase(str, "true") || str == "1" then 1
        else if EqualsIgnoreCase(str, "false") || str == "0" then 0
        else -1
      case IntValue(i) => if i == 1 then 1 else if i == 0 then 0 else -1
      case FloatValue(_) => -1
  }

  predicate NumChar(c: char) { IsDigit(c) || IsSign(c) }

  /** The type the sniffing loop of StringToValue has deduced after s[i..],
      starting from t. */
  function SniffFrom(s: string, i: nat, t: VariableType): VariableType
    requires i <= |s|
    decreases |s| - i
  {
    if i == |s| then t
    else
      var c := s[i];
      if NumChar(c) then SniffFrom(s, i + 1, if t == NONE then INTEGER else t)
      else if c == '.' then
        if t == INTEGER || t == NONE then SniffFrom(s, i + 1, FLOAT)
        else if t == FLOAT then STRING
        else SniffFrom(s, i + 1, t)
      else STRING
  }

  predicate AllNum(s: string, i: nat) { forall j :: i <= j < |s| ==> NumChar(s[j]) }

  predicate OneDot(s: string, i: nat)
  {
    exists k :: i <= k < |s| && s[k] == '.' && forall j :: i <= j < |s| && j != k ==> NumChar(s[j])
  }

  lemma {:induction false} SniffAfterDot(s: string, i: nat)
    requires i <= |s|
    ensures SniffFrom(s, i, FLOAT) == (if AllNum(s, i) then FLOAT else STRING)
    decreases |s| - i
  {
    if i < |s| {
      SniffAfterDot(s, i + 1);
    }
  }

  lemma {:induction false} SniffClassifies(s: string, i: nat, t: VariableType)
    requires i <= |s| && (t == NONE || t == INTEGER)
    ensures AllNum(s, i) ==> SniffFrom(s, i, t) == (if i == |s| then t else INTEGER)
    ensures OneDot(s, i) ==> SniffFrom(s, i, t) == FLOAT
    ensures !AllNum(s, i) && !OneDot(s, i) ==> SniffFrom(s, i, t) == STRING
    decreases |s| - i
  {
    if i < |s| {
      var c := s[i];
      if NumChar(c) {
        SniffClassifies(s, i + 1, INTEGER);
        if OneDot(s, i) {
          var k :| i <= k < |s| && s[k] == '.' && forall j :: i <= j < |s| && j != k ==> NumChar(s[j]);
          assert OneDot(s, i + 1);
        }
        if OneDot(s, i + 1) {
          var k :| i + 1 <= k < |s| && s[k] == '.' && forall j :: i + 1 <= j < |s| && j != k ==> NumChar(s[j]);
          assert OneDot(s, i);
        }
      } else if c == '.' {
        SniffAfterDot(s, i + 1);
        assert !AllNum(s, i);
        if AllNum(s, i + 1) {
          assert OneDot(s, i);
        }
        if OneDot(s, i) {
          var k :| i <= k < |s| && s[k] == '.' && forall j :: i <= j < |s| && j != k ==> NumChar(s[j]);
          assert k == i;
          assert AllNum(s, i + 1);
        }
      } else {
        assert !AllNum(s, i);
        assert !OneDot(s, i);
      }
    }
  }

  /** The sniffing loop of StringToValue (no type requested). */
  method SniffType(s: string) returns (t: VariableType)
    ensures t == SniffFrom(s, 0, NONE)
  {
    t := NONE;
    var i := 0;
    while i < |s|
      invariant 0 <= i <= |s|
      invariant t == NONE || t == INTEGER || t == FLOAT
      invariant SniffFrom(s, i, t) == SniffFrom(s, 0, NONE)
    {
      var c := s[i];
      if NumChar(c) {
        if t == NONE {
          t := INTEGER;
        }
      } else if c == '.' {
        if t == INTEGER || t == NONE {
          t := FLOAT;
        } else if t == FLOAT {
          t := STRING;
          break;
        }
      } else {
        t := STRING;
        break;
      }
      i := i + 1;
    }
  }

  /** Int32.TryParse, falling back to 0 (IntVariable.SetFromString). */
  function IntFromString(s: string): int
  {
    var r := ParseInt32(s);
    if r.Ok? then r.value else 0
  }

  /** BoolVariable.SetFromString: true exactly for "true" (any case) and "1". */
  function BoolFromString(s: string): bool
  {
    EqualsIgnoreCase(s, "true") || s == "1"
  }

  /** The value StringToValue builds for a source, once its type is decided. */
  function ValueOfType(s: string, t: VariableType): Value
  {
    if t == INTEGER then IntValue(IntFromString(s))
    else if t == FLOAT then FloatValue(s)
    else if t == BOOL then BoolValue(BoolFromString(s))
    else
      var b := StringToBool(s);
      if b > -1 then BoolValue(b == 1) else StringValue(s)
  }

  /** StringToValue(source, varname, type): the value kind is deduced from the
      text when no type is requested; a bool-looking string becomes a bool. */
  method StringToValue(s: string, requested: VariableType) returns (v: Value)
    ensures s == [] ==> v == StringValue(s)
    ensures s != [] && requested != NONE ==> v == ValueOfType(s, requested)
    ensures s != [] && requested == NONE && AllNum(s, 0) ==> v == IntValue(IntFromString(s))
    ensures s != [] && requested == NONE && OneDot(s, 0) ==> v == FloatValue(s)
    ensures s != [] && requested == NONE && !AllNum(s, 0) && !OneDot(s, 0) ==>
              v == (if StringToBool(s) > -1 then BoolValue(StringToBool(s) == 1) else StringValue(s))
  {
    if s == [] {
      return StringValue(s);
    }
    var t := requested;
    if t == NONE {
      t := SniffType(s);
      SniffClassifies(s, 0, NONE);
    }
    v := ValueOfType(s, t);
  }

  // ---------------------------------------------------------------- formatting

  function Quote(s: string): string { "\"" + s + "\"" }

  predicate HasWhitespace(s: string) { exists i :: 0 <= i < |s| && (s[i] == '\t' || s[i] == ' ' || s[i] == '\n') }

  predicate HasControl(s: string) { exists i :: 0 <= i < |s| && (s[i] == '{' || s[i] == '}' || s[i] == '=') }

  /** The quoting decision of GetNameFormatted, before escaping: None means the
      quote-empty rule returned "\"\"" outright. */
  function QuotedName(name: string, format: ValueFormat): Option<string>
  {
    if Has(format, VALUE_QUOTE_ALWAYS) then Some(Quote(name))
    else if Has(format, STRING_QUOTE_EMPTY) && name == [] then None
    else if Has(format, STRING_QUOTE_WHITESPACE) && name != [] && HasWhitespace(name) then Some(Quote(name))
    else if Has(format, STRING_QUOTE_CONTROL) && HasControl(name) then Some(Quote(name))
    else Some(name)
  }

  /** Variable.GetNameFormatted(format). */
  function NameFormatted(name: string, format: ValueFormat): string
  {
    match QuotedName(name, format)
    case None => "\"\""
    case Some(q) => EscapeStringAsWritten(q, format)
  }

  /** The name quoting rules apply in a fixed order: always-quote, quote-empty
      (which returns "\"\"" without escaping), whitespace, control characters;
      a name no rule matches is only escaped. */
  lemma NameQuoting(name: string, format: ValueFormat)
    ensures Has(format, VALUE_QUOTE_ALWAYS) ==> NameFormatted(name, format) == EscapeStringAsWritten(Quote(name), format)
    ensures !Has(format, VALUE_QUOTE_ALWAYS) && Has(format, STRING_QUOTE_EMPTY) && name == [] ==>
              NameFormatted(name, format) == "\"\""
    ensures QuotedName(name, format) == Some(name) <==>
              !Has(format, VALUE_QUOTE_ALWAYS)
              && !(Has(format, STRING_QUOTE_EMPTY) && name == [])
              && !(Has(format, STRING_QUOTE_WHITESPACE) && HasWhitespace(name))
              && !(Has(format, STRING_QUOTE_CONTROL) && HasControl(name))
    ensures EscapesNothing(format) && QuotedName(name, format).Some? ==>
              NameFormatted(name, format) == QuotedName(name, format).value
  {
    if QuotedName(name, format) == Some(name) {
      assert Quote(name) != name by {
        assert |Quote(name)| == |name| + 2;
      }
    }
  }

  /** The quoting decision of StringVariable.GetValueFormatted; `numeric` is
      what Double.TryParse says about the value. */
  function QuotedString(value: string, format: ValueFormat, numeric: bool): Option<string>
  {
    if Has(format, VALUE_QUOTE_ALWAYS) || Has(format, STRING_QUOTE_ALWAYS) then Some(Quote(value))
    else if Has(format, STRING_QUOTE_EMPTY) && value == [] then None
    else if Has(format, STRING_QUOTE_WHITESPACE) && value != [] && HasWhitespace(value) then Some(Quote(value))
    else if Has(format, STRING_SAFE_BOOL) && VariableToBool(Some(StringValue(value))) != -1 then Some(Quote(value))
    else if Has(format, STRING_SAFE_NUMBER) && numeric then Some(Quote(value))
    else if Has(format, STRING_QUOTE_CONTROL) && HasControl(value) then Some(Quote(value))
    else Some(value)
  }

  /** The quoting rules apply in a fixed order and the first that matches wins:
      always-quote, quote-empty (which bypasses escaping), whitespace, safe-bool,
      safe-number, control characters. A value no rule matches is unquoted. */
  lemma QuotingPrecedence(value: string, format: ValueFormat, numeric: bool)
    ensures Has(format, VALUE_QUOTE_ALWAYS) || Has(format, STRING_QUOTE_ALWAYS) ==>
              QuotedString(value, format, numeric) == Some(Quote(value))
    ensures Has(format, STRING_QUOTE_EMPTY) && value == [] ==>
              QuotedString(value, format, numeric) == (if Has(format, VALUE_QUOTE_ALWAYS) || Has(format, STRING_QUOTE_ALWAYS) then Some("\"\"") else None)
    ensures QuotedString(value, format, numeric) == Some(value) <==>
              !Has(format, VALUE_QUOTE_ALWAYS) && !Has(format, STRING_QUOTE_ALWAYS)
              && !(Has(format, STRING_QUOTE_EMPTY) && value == [])
              && !(Has(format, STRING_QUOTE_WHITESPACE) && HasWhitespace(value))
              && !(Has(format, STRING_SAFE_BOOL) && StringToBool(value) != -1)
              && !(Has(format, STRING_SAFE_NUMBER) && numeric)
              && !(Has(format, STRING_QUOTE_CONTROL) && HasControl(value))
  {
    assert Quote([]) == "\"\"";
    if QuotedString(value, format, numeric) == Some(value) {
      assert Quote(value) != value;
      assert |Quote(value)| == |value| + 2;
    }
  }

  /** Under the default format a bool-looking or numeric string is written in
      quotes, so it does not read back as a bool or a number. */
  lemma SafeFormatQuotesLookalikes(value: string, numeric: bool)
    requires value != []
    requires StringToBool(value) != -1 || numeric
    ensures QuotedString(value, STRING_DEFAULT, numeric) == Some(Quote(value))
  {
    assert Has(STRING_DEFAULT, STRING_SAFE_BOOL) && Has(STRING_DEFAULT, STRING_SAFE_NUMBER);
    assert !Has(STRING_DEFAULT, VALUE_QUOTE_ALWAYS) && !Has(STRING_DEFAULT, STRING_QUOTE_ALWAYS);
  }

  /** StringVariable.GetValueFormatted(format). */
  function StringFormatted(value: string, format: ValueFormat, numeric: bool): string
  {
    match QuotedString(value, format, numeric)
    case None => "\"\""
    case Some(q) => EscapeStringAsWritten(q, format)
  }

  /** IntVariable.GetValueFormatted(format). */
  function IntFormatted(i: int, format: ValueFormat): string
  {
    if Has(format, VALUE_QUOTE_ALWAYS) then Quote(IntToString(i)) else IntToString(i)
  }

  /** BoolVariable.GetValueFormatted(format). */
  function BoolFormatted(b: bool, format: ValueFormat): string
  {
    if Has(format, VALUE_QUOTE_ALWAYS) || Has(format, BOOL_QUOTE) then Quote(BoolText(b)) else BoolText(b)
  }

  /** The formatted text of a value; float values are written as their text. */
  function ValueFormatted(v: Value, format: ValueFormat, numeric: bool): string
  {
    match v
    case IntValue(i) => IntFormatted(i, format)
    case StringValue(s) => StringFormatted(s, format, numeric)
    case FloatValue(text) => if Has(format, VALUE_QUOTE_ALWAYS) then Quote(text) else text
    case BoolValue(b) => BoolFormatted(b, format)
  }

  /** Written unquoted, a bool reads back as the same bool and an int in the
      32-bit range as the same int. */
  lemma UnquotedScalarsReadBack(b: bool, i: int)
    requires MIN_INT32 <= i <= MAX_INT32
    ensures StringToBool(BoolFormatted(b, FORMAT_NONE)) == (if b then 1 else 0)
    ensures ParseInt32(IntFormatted(i, FORMAT_NONE)) == Ok(i)
  {
    BoolTextRoundTrip(b);
    IntTextRoundTrip(i);
  }
}

=== FILE: variables.dfy ===
/** The variable tree: scalar values, identifiers and nodes, with the ordered
    child lists and parent references of CollectionVariable. */
module Variables {
  import opened Basics
  import opened Values

  /** What a variable is: a scalar value, an Identifier or a Node. The kind of
      a variable never changes after construction. */
  datatype Kind = Scalar(value: Value) | IdentifierKind | NodeKind

  function KindTag(k: Kind): (t: VariableType)
    ensures k.Scalar? <==> t in {INTEGER, STRING, FLOAT, BOOL}
    ensures k.IdentifierKind? <==> t == IDENTIFIER
    ensures k.NodeKind? <==> t == NODE
  {
    match k
    case Scalar(v) => TypeOf(v)
    case IdentifierKind => IDENTIFIER
    case NodeKind => NODE
  }

  /** The VALUE mask selects exactly the scalar kinds and the COLLECTION mask
      exactly identifiers and nodes; ANY selects every kind and NONE none. */
  lemma KindMasks(k: Kind)
    ensures OfTag(KindTag(k), VALUE) <==> k.Scalar?
    ensures OfTag(KindTag(k), COLLECTION) <==> !k.Scalar?
    ensures OfTag(KindTag(k), ANY) && !OfTag(KindTag(k), NONE)
  {
    SubsetTestOnKindTags(KindTag(k), VALUE);
  }

  class Variable {
    const kind: Kind
    var name: string
    var children: seq<Variable>
    var parent: Variable?

    /** The constructors of every kind take a name and an optional parent; they
        record the parent without adding the new variable to its children. */
    constructor (kind: Kind, name: string, parent: Variable?)
      ensures this.kind == kind && this.name == name && this.parent == parent
      ensures children == []
    {
      this.kind := kind;
      this.name := name;
      this.parent := parent;
      children := [];
    }

    /** The Type property. */
    function Type(): VariableType
    {
      KindTag(kind)
    }

    predicate IsCollection()
    {
      !kind.Scalar?
    }

    /** Clear: drops every child; the dropped children keep their parent. */
    method Clear()
      modifies this
      ensures children == [] && name == old(name) && parent == old(parent)
    {
      children := [];
    }

    /** Add: appends a non-null variable and makes this collection its parent. */
    method Add(v: Variable?) returns (added: bool)
      requires IsCollection()
      modifies this, v
      ensures added <==> v != null
      ensures added ==> children == old(children) + [v] && v.parent == this
      ensures !added ==> children == old(children)
      ensures name == old(name)
      ensures v != this ==> parent == old(parent)
      ensures v != null && v != this ==> v.name == old(v.name) && v.children == old(v.children)
    {
      if v != null {
        children := children + [v];
        v.parent := this;
        return true;
      }
      return false;
    }

    /** Insert: an index outside 0..Count is refused and nothing changes; a null
        variable at a valid index fails with a null reference once the list has
        taken it. */
    method Insert(index: int, v: Variable?) returns (r: Result<bool>)
      requires IsCollection()
      modifies this, v
      ensures !(0 <= index <= |old(children)|) ==> r == Ok(false) && children == old(children)
      ensures 0 <= index <= |old(children)| && v == null ==> r == Err(NullReference) && children == old(children)
      ensures 0 <= index <= |old(children)| && v != null ==>
                r == Ok(true) && children == InsertAt(old(children), index, v) && v.parent == this
      ensures name == old(name)
      ensures v != this ==> parent == old(parent)
      ensures v != null && v != this ==> v.name == old(v.name) && v.children == old(v.children)
      ensures v != null && r != Ok(true) ==> v.parent == old(v.parent)
    {
      if !(0 <= index <= |children|) {
        return Ok(false);
      }
      if v == null {
        return Err(NullReference);
      }
      children := InsertAt(children, index, v);
      v.parent := this;
      return Ok(true);
    }

    /** InsertAfter as written: the variable is inserted at the index `after`
        occupies, so it ends up immediately before `after`. */
    method InsertAfter(v: Variable?, after: Variable?) returns (r: Result<bool>)
      requires IsCollection()
      modifies this, v
      ensures after !in old(children) ==> r == Ok(false) && children == old(children)
      ensures after in old(children) && v == null ==> r == Err(NullReference) && children == old(children)
      ensures after in old(children) && v != null ==>
                var k := IndexOf(old(children), after);
                r == Ok(true) && children == InsertAt(old(children), k, v) && v.parent == this
                && children[k] == v && children[k + 1] == after
      ensures name == old(name)
      ensures v != this ==> parent == old(parent)
      ensures v != null && v != this ==> v.name == old(v.name) && v.children == old(v.children)
      ensures v != null && r != Ok(true) ==> v.parent == old(v.parent)
    {
      var index := IndexOf(children, after);
      if index != -1 {
        r := Insert(index, v);
        if v != null {
          InsertAtPlaces(old(children), index, v);
        }
        return;
      }
      return Ok(false);
    }

    /** InsertAfter as its name promises: the variable lands immediately after
        `after`. */
    method InsertAfterIntended(v: Variable?, after: Variable?) returns (r: Result<bool>)
      requires IsCollection()
      modifies this, v
      ensures after !in old(children) ==> r == Ok(false) && children == old(children)
      ensures after in old(children) && v == null ==> r == Err(NullReference) && children == old(children)
      ensures after in old(children) && v != null ==>
                var k := IndexOf(old(children), after);
                r == Ok(true) && children == InsertAt(old(children), k + 1, v) && v.parent == this
                && children[k] == after && children[k + 1] == v
      ensures name == old(name)
      ensures v != this ==> parent == old(parent)
      ensures v != null && v != this ==> v.name == old(v.name) && v.children == old(v.children)
      ensures v != null && r != Ok(true) ==> v.parent == old(v.parent)
    {
      var index := IndexOf(children, after);
      if index != -1 {
        r := Insert(index + 1, v);
        if v != null {
          InsertAtPlaces(old(children), index + 1, v);
        }
        return;
      }
      return Ok(false);
    }

    /** Remove(variable): the first occurrence is deleted and its parent cleared;
        false when the variable is not a child. */
    method Remove(v: Variable?) returns (removed: bool)
      requires IsCollection()
      modifies this, v
      ensures removed <==> v in old(children)
      ensures removed ==> children == RemoveAt(old(children), IndexOf(old(children), v)) && v.parent == null
      ensures !removed ==> children == old(children)
      ensures name == old(name)
      ensures !(removed && v == this) ==> parent == old(parent)
      ensures v != null ==> v.name == old(v.name)
      ensures v != null && v != this ==> v.children == old(v.children)
      ensures v != null && !removed ==> v.parent == old(v.parent)
    {
      var index := IndexOf(children, v);
      if index != -1 {
        children := RemoveAt(children, index);
        v.parent := null;
        return true;
      }
      return false;
    }

    /** Remove(index): removes the variable at that index through Remove(variable),
        that is, its first occurrence. */
    method RemoveIndex(i: int) returns (removed: bool)
      requires IsCollection()
      modifies this, children
      ensures removed <==> 0 <= i < |old(children)|
      ensures removed ==> children == RemoveAt(old(children), IndexOf(old(children), old(children)[i]))
                          && old(children)[i].parent == null
      ensures !removed ==> children == old(children)
      ensures name == old(name)
      ensures !(removed && old(children)[i] == this) ==> parent == old(parent)
      ensures forall c :: c in old(children) ==> c.name == old(c.name)
      ensures forall c :: c in old(children) && c != this ==> c.children == old(c.children)
      ensures forall c :: c in old(children) && !(removed && c == old(children)[i]) ==> c.parent == old(c.parent)
    {
      if 0 <= i < |children| {
        var v := children[i];
        removed := Remove(v);
        return;
      }
      return false;
    }

    /** Remove(type): removes the first child whose tag is a subset of the mask. */
    method RemoveOfType(mask: VariableType) returns (removed: bool)
      requires IsCollection()
      modifies this, children
      ensures removed <==> FirstOfType(old(children), mask) != -1
      ensures removed ==> var k := FirstOfType(old(children), mask);
                          children == RemoveAt(old(children), k) && old(children)[k].parent == null
      ensures !removed ==> children == old(children)
      ensures name == old(name)
      ensures !(removed && old(children)[FirstOfType(old(children), mask)] == this) ==> parent == old(parent)
      ensures forall c :: c in old(children) ==> c.name == old(c.name)
      ensures forall c :: c in old(children) && c != this ==> c.children == old(c.children)
      ensures forall c :: c in old(children) && !(removed && c == old(children)[FirstOfType(old(children), mask)]) ==>
                c.parent == old(c.parent)
    {
      var i := 0;
      while i < |children|
        invariant 0 <= i <= |children|
        invariant children == old(children)
        invariant forall j :: 0 <= j < i ==> !OfType(children[j], mask)
      {
        if OfType(children[i], mask) {
          FirstOfTypeAt(children, mask, i);
          var v := children[i];
          removed := Remove(v);
          return;
        }
        i := i + 1;
      }
      return false;
    }

    /** Remove(name, casesens, type): removes the first child with a matching name
        whose tag is a subset of the mask. Remove(name) and Remove(name, casesens)
        are this with casesens true and the mask ANY. */
    method RemoveNamed(target: string, casesens: bool, mask: VariableType) returns (removed: bool)
      requires IsCollection()
      modifies this, children
      ensures removed <==> old(FirstNamed(children, target, casesens, mask)) != -1
      ensures removed ==> var k := old(FirstNamed(children, target, casesens, mask));
                          children == RemoveAt(old(children), k) && old(children)[k].parent == null
      ensures !removed ==> children == old(children)
      ensures name == old(name)
      ensures !(removed && old(children)[old(FirstNamed(children, target, casesens, mask))] == this) ==>
                parent == old(parent)
      ensures forall c :: c in old(children) ==> c.name == old(c.name)
      ensures forall c :: c in old(children) && c != this ==> c.children == old(c.children)
      ensures forall c :: c in old(children) && !(removed && c == old(children)[old(FirstNamed(children, target, casesens, mask))]) ==>
                c.parent == old(c.parent)
    {
      var i := 0;
      while i < |children|
        invariant 0 <= i <= |children|
        invariant children == old(children)
        invariant forall j :: 0 <= j < i ==> !Selected(children[j], target, casesens, mask)
      {
        if NamesEqual(children[i].name, target, casesens) && OfType(children[i], mask) {
          FirstNamedAt(children, target, casesens, mask, i);
          var v := children[i];
          removed := Remove(v);
          return;
        }
        i := i + 1;
      }
      return false;
    }

    /** Clone: a fresh variable of the same kind and name, without a parent,
        whose children are clones of this variable's children, added in order.
        `made` and `s` describe the tree below this variable (this is made[i]);
        cm and cs describe the clone, whose root cm[0] is c. The clone shares no
        variable with the original and is the same tree. */
    method Clone(ghost made: seq<Variable>, ghost s: seq<Entry>, ghost i: nat)
      returns (c: Variable, ghost cm: seq<Variable>, ghost cs: seq<Entry>)
      requires StoreOk(s) && Mirrors(made, s) && i < |s| && made[i] == this
      ensures fresh(c) && c.parent == null
      ensures |cm| > 0 && cm[0] == c && forall x :: 0 <= x < |cm| ==> fresh(cm[x])
      ensures StoreOk(cs) && Mirrors(cm, cs) && Parented(cm, cs) && Unshared(cm)
      ensures TreeOf(cs, 0) == TreeOf(s, i)
      decreases |s| - i
    {
      assert MirrorsAt(made, s, i);
      c := new Variable(kind, name, null);
      cm := [c];
      cs := [Entry(kind, name, [])];
      var j := 0;
      while j < |children|
        invariant 0 <= j <= |children| == |s[i].kids|
        invariant |cm| == |cs| > 0 && cm[0] == c && c.parent == null
        invariant forall x :: 0 <= x < |cm| ==> fresh(cm[x])
        invariant StoreOk(cs) && Mirrors(cm, cs) && Parented(cm, cs) && Unshared(cm)
        invariant cs[0].kind == kind && cs[0].name == name && |cs[0].kids| == j
        invariant forall k :: 0 <= k < j ==> TreeOf(cs, cs[0].kids[k]) == TreeOf(s, s[i].kids[k])
      {
        ghost var p := s[i].kids[j];
        assert children[j] == made[p];
        var d, dm, ds := children[j].Clone(made, s, p);
        assert forall x, y :: 0 <= x < |cm| && 0 <= y < |dm| ==> cm[x] != dm[y];
        c.AddClone(d, cm, cs, dm, ds);
        GraftTrees(cs, ds, s, i, j);
        ghost var grown := Graft(cs, ds);
        cm := cm + dm;
        cs := grown;
        j := j + 1;
      }
      CloneRoot(cs, s, i);
    }

    /** clone.Add(child clone) inside Clone: Add of a non-null variable appends
        it and sets its parent; stated on the stores, the joined variables
        describe the grafted store. */
    method AddClone(d: Variable, ghost cm: seq<Variable>, ghost cs: seq<Entry>, ghost dm: seq<Variable>, ghost ds: seq<Entry>)
      requires IsCollection() && |cm| == |cs| > 0 && cm[0] == this && |dm| == |ds| > 0 && dm[0] == d
      requires StoreOk(cs) && Mirrors(cm, cs) && Parented(cm, cs) && Unshared(cm)
      requires StoreOk(ds) && Mirrors(dm, ds) && Parented(dm, ds) && Unshared(dm)
      requires forall x, y :: 0 <= x < |cm| && 0 <= y < |dm| ==> cm[x] != dm[y]
      modifies this, d
      ensures children == old(children) + [d] && parent == old(parent)
      ensures Mirrors(cm + dm, Graft(cs, ds)) && Parented(cm + dm, Graft(cs, ds)) && Unshared(cm + dm)
    {
      assert MirrorsAt(cm, cs, 0) && ParentedAt(cm, cs, 0);
      GraftOk(cs, ds);
      GraftAll(cm, cs, dm, ds);
      UnsharedJoin(cm, dm);
      var g := Graft(cs, ds);
      var gm := cm + dm;
      var n := |cs|;
      children := children + [d];
      d.parent := this;
      assert MirrorsAt(gm, g, 0) && ParentedAt(gm, g, 0);
      assert d != this && gm[n] == d && old(MirrorsAt(gm, g, n)) && old(ParentedAt(gm, g, n));
      assert MirrorsAt(gm, g, n) && ParentedAt(gm, g, n);
      forall x | 1 <= x < |g| && x != n
        ensures MirrorsAt(gm, g, x) && ParentedAt(gm, g, x)
      {
        assert gm[x] != this && gm[x] != d;
        GraftKidsAvoid(cs, ds, x);
        assert forall k :: 0 <= k < |g[x].kids| ==> gm[g[x].kids[k]] != this && gm[g[x].kids[k]] != d;
      }
    }

    /** Get(name, casesens, type): the first child with a matching name whose tag
        is a subset of the mask, or null. Get(name) and Get(name, casesens) are
        this with casesens true and the mask ANY; GetInt(name), GetNode(name)
        and the other typed getters by name are this with the kind's tag. */
    method Get(target: string, casesens: bool, mask: VariableType) returns (r: Variable?)
      ensures var k := FirstNamed(children, target, casesens, mask);
              r == (if k == -1 then null else children[k])
    {
      var i := 0;
      while i < |children|
        invariant 0 <= i <= |children|
        invariant forall j :: 0 <= j < i ==> !Selected(children[j], target, casesens, mask)
      {
        if NamesEqual(children[i].name, target, casesens) && OfType(children[i], mask) {
          FirstNamedAt(children, target, casesens, mask, i);
          return children[i];
        }
        i := i + 1;
      }
      return null;
    }

    /** Get(index): the child at the index, or null outside 0..Count-1. */
    function GetAt(index: int): (r: Variable?)
      reads this
      ensures r != null <==> 0 <= index < |children|
      ensures r != null ==> r == children[index] && r in children
    {
      if 0 <= index < |children| then children[index] else null
    }

    /** GetInt(index), GetNode(index) and the other typed getters by index: the
        child at the index when it is of the requested kind, or null. */
    function GetKindAt(index: int, tag: VariableType): (r: Variable?)
      reads this
      ensures r != null <==> 0 <= index < |children| && children[index].Type() == tag
      ensures r != null ==> r == children[index]
    {
      var v := GetAt(index);
      if v != null && v.Type() == tag then v else null
    }
  }

  /** The subset test of the lookups: the child's tag lies within the mask. */
  predicate OfType(v: Variable, mask: VariableType)
  {
    OfTag(v.Type(), mask)
  }

  predicate OfTag(tag: VariableType, mask: VariableType)
  {
    tag & mask == tag
  }

  predicate Selected(v: Variable, target: string, casesens: bool, mask: VariableType)
    reads v
  {
    NamesEqual(v.name, target, casesens) && OfType(v, mask)
  }

  function InsertAt(xs: seq<Variable>, k: nat, v: Variable): (r: seq<Variable>)
    requires k <= |xs|
    ensures |r| == |xs| + 1 && r[k] == v
    ensures forall j :: 0 <= j < k ==> r[j] == xs[j]
    ensures forall j :: k <= j < |xs| ==> r[j + 1] == xs[j]
  {
    xs[..k] + [v] + xs[k..]
  }

  function RemoveAt(xs: seq<Variable>, k: nat): (r: seq<Variable>)
    requires k < |xs|
    ensures |r| == |xs| - 1
    ensures forall j :: 0 <= j < k ==> r[j] == xs[j]
    ensures forall j :: k <= j < |r| ==> r[j] == xs[j + 1]
  {
    xs[..k] + xs[k + 1..]
  }

  /** List.IndexOf: the first position holding v, or -1. */
  function IndexOf(xs: seq<Variable>, v: Variable?): (k: int)
    ensures -1 <= k < |xs|
    ensures k == -1 <==> v !in xs
    ensures k != -1 ==> xs[k] == v && forall j :: 0 <= j < k ==> xs[j] != v
    decreases |xs|
  {
    if xs == [] then -1
    else if xs[0] == v then 0
    else
      var k := IndexOf(xs[1..], v);
      if k == -1 then -1 else k + 1
  }

  /** The first position whose tag is a subset of the mask, or -1. */
  function FirstOfType(xs: seq<Variable>, mask: VariableType): (k: int)
    ensures -1 <= k < |xs|
    ensures k == -1 <==> forall j :: 0 <= j < |xs| ==> !OfType(xs[j], mask)
    ensures k != -1 ==> OfType(xs[k], mask) && forall j :: 0 <= j < k ==> !OfType(xs[j], mask)
    decreases |xs|
  {
    if xs == [] then -1
    else if OfType(xs[0], mask) then 0
    else
      var k := FirstOfType(xs[1..], mask);
      if k == -1 then -1 else k + 1
  }

  /** The first position with a matching name and a tag within the mask, or -1. */
  function FirstNamed(xs: seq<Variable>, target: string, casesens: bool, mask: VariableType): (k: int)
    reads xs
    ensures -1 <= k < |xs|
    ensures k == -1 <==> forall j :: 0 <= j < |xs| ==> !Selected(xs[j], target, casesens, mask)
    ensures k != -1 ==> Selected(xs[k], target, casesens, mask)
                        && forall j :: 0 <= j < k ==> !Selected(xs[j], target, casesens, mask)
    decreases |xs|
  {
    if xs == [] then -1
    else if Selected(xs[0], target, casesens, mask) then 0
    else
      var k := FirstNamed(xs[1..], target, casesens, mask);
      if k == -1 then -1 else k + 1
  }

  /** The first child of a type is also the first occurrence of that child, so
      removing it by reference removes exactly that position. */
  lemma FirstOfTypeAt(xs: seq<Variable>, mask: VariableType, i: nat)
    requires i < |xs| && OfType(xs[i], mask)
    requires forall j :: 0 <= j < i ==> !OfType(xs[j], mask)
    ensures FirstOfType(xs, mask) == i
    ensures IndexOf(xs, xs[i]) == i
  {
  }

  /** The same for the first child selected by name and type. */
  lemma FirstNamedAt(xs: seq<Variable>, target: string, casesens: bool, mask: VariableType, i: nat)
    requires i < |xs| && Selected(xs[i], target, casesens, mask)
    requires forall j :: 0 <= j < i ==> !Selected(xs[j], target, casesens, mask)
    ensures FirstNamed(xs, target, casesens, mask) == i
    ensures IndexOf(xs, xs[i]) == i
  {
  }

  /** Where Insert puts the new variable, and what follows it. */
  lemma InsertAtPlaces(xs: seq<Variable>, k: nat, v: Variable)
    requires k <= |xs|
    ensures k < |xs| ==> InsertAt(xs, k, v)[k + 1] == xs[k]
    ensures k > 0 ==> InsertAt(xs, k, v)[k - 1] == xs[k - 1]
  {
  }

  /** Add followed by Remove of the same, previously absent variable gives the
      original child list back. */
  lemma {:induction false} AddThenRemove(xs: seq<Variable>, v: Variable)
    requires v !in xs
    ensures IndexOf(xs + [v], v) == |xs|
    ensures RemoveAt(xs + [v], IndexOf(xs + [v], v)) == xs
  {
    var ys := xs + [v];
    assert ys[|xs|] == v;
    assert forall j :: 0 <= j < |xs| ==> ys[j] == xs[j];
    assert ys[..|xs|] == xs;
  }

  /** Insert followed by Remove of the same, previously absent variable gives
      the original child list back. */
  lemma {:induction false} InsertThenRemove(xs: seq<Variable>, k: nat, v: Variable)
    requires k <= |xs| && v !in xs
    ensures IndexOf(InsertAt(xs, k, v), v) == k
    ensures RemoveAt(InsertAt(xs, k, v), k) == xs
  {
    var ys := InsertAt(xs, k, v);
    forall j | 0 <= j < k
      ensures ys[j] != v
    {
      assert ys[j] == xs[j];
    }
    assert RemoveAt(ys, k) == xs;
  }

  // ---------------------------------------------------------------- trees as values

  /** A variable tree as a value: kind, name and the subtrees of the children
      in order. */
  datatype Tree = Tree(kind: Kind, name: string, kids: seq<Tree>)

  /** One variable of a store: its kind, its name and the store positions of its
      children in order. */
  datatype Entry = Entry(kind: Kind, name: string, kids: seq<nat>)

  /** A store lists children after their collection (so it has no cycles), and
      scalar values have no children. */
  predicate StoreOk(s: seq<Entry>)
  {
    forall i :: 0 <= i < |s| ==>
      (s[i].kind.Scalar? ==> s[i].kids == [])
      && forall k :: 0 <= k < |s[i].kids| ==> i < s[i].kids[k] < |s|
  }

  /** The tree rooted at position i of a store. */
  function TreeOf(s: seq<Entry>, i: nat): Tree
    requires StoreOk(s) && i < |s|
    decreases |s| - i
  {
    Tree(s[i].kind, s[i].name, seq(|s[i].kids|, k requires 0 <= k < |s[i].kids| => TreeOf(s, s[i].kids[k])))
  }

  /** The variables `made` have the kinds, names and children the store lists. */
  ghost predicate Mirrors(made: seq<Variable>, s: seq<Entry>)
    reads made
  {
    |made| == |s| && forall i :: 0 <= i < |s| ==> MirrorsAt(made, s, i)
  }

  ghost predicate MirrorsAt(made: seq<Variable>, s: seq<Entry>, i: nat)
    requires i < |made| == |s|
    reads made[i]
  {
    made[i].kind == s[i].kind && made[i].name == s[i].name && |made[i].children| == |s[i].kids|
    && forall k :: 0 <= k < |s[i].kids| ==> s[i].kids[k] < |s| && made[i].children[k] == made[s[i].kids[k]]
  }

  /** Every child in the store has its collection as parent. */
  ghost predicate Parented(made: seq<Variable>, s: seq<Entry>)
    reads made
  {
    |made| == |s| && forall i :: 0 <= i < |s| ==> ParentedAt(made, s, i)
  }

  ghost predicate ParentedAt(made: seq<Variable>, s: seq<Entry>, i: nat)
    requires i < |made| == |s|
    reads set k | 0 <= k < |s[i].kids| && s[i].kids[k] < |s| :: made[s[i].kids[k]]
  {
    forall k :: 0 <= k < |s[i].kids| && s[i].kids[k] < |s| ==> made[s[i].kids[k]].parent == made[i]
  }

  /** No variable stands at two positions. */
  predicate Unshared(made: seq<Variable>)
  {
    forall x, y :: 0 <= x < y < |made| ==> made[x] != made[y]
  }

  /** The store ds placed after n other entries. */
  function Shift(ds: seq<Entry>, n: nat): (r: seq<Entry>)
    ensures |r| == |ds|
    ensures forall y :: 0 <= y < |ds| ==> r[y].kind == ds[y].kind && r[y].name == ds[y].name && |r[y].kids| == |ds[y].kids|
    ensures forall y, k :: 0 <= y < |ds| && 0 <= k < |ds[y].kids| ==> r[y].kids[k] == ds[y].kids[k] + n
  {
    seq(|ds|, y requires 0 <= y < |ds| =>
      Entry(ds[y].kind, ds[y].name, seq(|ds[y].kids|, k requires 0 <= k < |ds[y].kids| => ds[y].kids[k] + n)))
  }

  /** The store cs with the tree of ds appended as a last child of its root. */
  function Graft(cs: seq<Entry>, ds: seq<Entry>): (r: seq<Entry>)
    requires |cs| > 0
    ensures |r| == |cs| + |ds|
  {
    cs[0 := cs[0].(kids := cs[0].kids + [|cs|])] + Shift(ds, |cs|)
  }

  /** A tree depends only on the entries from its root position on. */
  lemma {:induction false} SameTail(s1: seq<Entry>, s2: seq<Entry>, p: nat)
    requires StoreOk(s1) && StoreOk(s2) && p < |s1| <= |s2|
    requires forall x :: p <= x < |s1| ==> s1[x] == s2[x]
    ensures TreeOf(s1, p) == TreeOf(s2, p)
    decreases |s1| - p
  {
    var n := |s1[p].kids|;
    forall k | 0 <= k < n
      ensures TreeOf(s1, s1[p].kids[k]) == TreeOf(s2, s2[p].kids[k])
    {
      SameTail(s1, s2, s1[p].kids[k]);
    }
    assert TreeOf(s1, p).kids == TreeOf(s2, p).kids;
  }

  /** A shifted store holds the same trees, n positions further on. */
  lemma {:induction false} ShiftedTree(t: seq<Entry>, ds: seq<Entry>, n: nat, y: nat)
    requires StoreOk(t) && StoreOk(ds) && y < |ds| && n + |ds| <= |t|
    requires forall x :: 0 <= x < |ds| ==> t[n + x] == Shift(ds, n)[x]
    ensures TreeOf(t, n + y) == TreeOf(ds, y)
    decreases |ds| - y
  {
    var e := t[n + y];
    assert e == Shift(ds, n)[y];
    var m := |ds[y].kids|;
    assert |e.kids| == m;
    forall k | 0 <= k < m
      ensures TreeOf(t, e.kids[k]) == TreeOf(ds, ds[y].kids[k])
    {
      assert e.kids[k] == n + ds[y].kids[k];
      ShiftedTree(t, ds, n, ds[y].kids[k]);
    }
    assert TreeOf(t, n + y).kids == TreeOf(ds, y).kids;
  }

  /** Grafting onto a collection root keeps the store well formed: the old
      entries stay where they were and ds follows, shifted. */
  lemma GraftOk(cs: seq<Entry>, ds: seq<Entry>)
    requires StoreOk(cs) && StoreOk(ds) && |cs| > 0 && |ds| > 0 && !cs[0].kind.Scalar?
    ensures var g := Graft(cs, ds);
            StoreOk(g) && g[0] == cs[0].(kids := cs[0].kids + [|cs|])
            && (forall x :: 1 <= x < |cs| ==> g[x] == cs[x])
            && (forall x :: 0 <= x < |ds| ==> g[|cs| + x] == Shift(ds, |cs|)[x])
  {
    var g := Graft(cs, ds);
    var sh := Shift(ds, |cs|);
    assert forall x :: 0 <= x < |ds| ==> g[|cs| + x] == sh[x];
    forall x | 0 <= x < |g|
      ensures (g[x].kind.Scalar? ==> g[x].kids == []) && forall k :: 0 <= k < |g[x].kids| ==> x < g[x].kids[k] < |g|
    {
      if x == 0 {
        assert g[0].kids == cs[0].kids + [|cs|];
      } else if x < |cs| {
        assert g[x] == cs[x];
      } else {
        assert g[x] == sh[x - |cs|];
      }
    }
  }

  /** Grafting keeps the trees already below the root and adds the tree of ds
      as the root's last child. */
  lemma GraftTrees(cs: seq<Entry>, ds: seq<Entry>, s: seq<Entry>, i: nat, j: nat)
    requires StoreOk(cs) && StoreOk(ds) && StoreOk(s) && |cs| > 0 && |ds| > 0 && !cs[0].kind.Scalar?
    requires i < |s| && j < |s[i].kids| && |cs[0].kids| == j
    requires forall k :: 0 <= k < j ==> TreeOf(cs, cs[0].kids[k]) == TreeOf(s, s[i].kids[k])
    requires TreeOf(ds, 0) == TreeOf(s, s[i].kids[j])
    ensures StoreOk(Graft(cs, ds))
    ensures forall k :: 0 <= k <= j ==> TreeOf(Graft(cs, ds), Graft(cs, ds)[0].kids[k]) == TreeOf(s, s[i].kids[k])
  {
    var g := Graft(cs, ds);
    GraftOk(cs, ds);
    ShiftedTree(g, ds, |cs|, 0);
    forall k | 0 <= k < j
      ensures TreeOf(g, g[0].kids[k]) == TreeOf(s, s[i].kids[k])
    {
      assert g[0].kids[k] == cs[0].kids[k];
      SameTail(cs, g, cs[0].kids[k]);
    }
  }

  /** An entry of cs below the root describes the same variable after grafting. */
  lemma GraftKeeps(cm: seq<Variable>, cs: seq<Entry>, dm: seq<Variable>, ds: seq<Entry>, x: nat)
    requires |cm| == |cs| && |dm| == |ds| && 1 <= x < |cs|
    requires MirrorsAt(cm, cs, x) && ParentedAt(cm, cs, x)
    ensures MirrorsAt(cm + dm, Graft(cs, ds), x) && ParentedAt(cm + dm, Graft(cs, ds), x)
  {
    var g := Graft(cs, ds);
    assert g[x] == cs[x];
    assert forall z :: 0 <= z < |cs| ==> (cm + dm)[z] == cm[z];
  }

  /** An entry of ds describes the same variable after grafting, shifted. */
  lemma GraftMoves(cm: seq<Variable>, cs: seq<Entry>, dm: seq<Variable>, ds: seq<Entry>, y: nat)
    requires |cm| == |cs| > 0 && |dm| == |ds| && y < |ds|
    requires MirrorsAt(dm, ds, y) && ParentedAt(dm, ds, y)
    ensures MirrorsAt(cm + dm, Graft(cs, ds), |cs| + y) && ParentedAt(cm + dm, Graft(cs, ds), |cs| + y)
  {
    var g := Graft(cs, ds);
    var n := |cs|;
    assert g[n + y] == Shift(ds, n)[y];
    assert forall z :: 0 <= z < |ds| ==> (cm + dm)[n + z] == dm[z];
  }

  /** Below the root, no entry of the grafted store has the root or the
      grafted entry as a child. */
  lemma GraftKidsAvoid(cs: seq<Entry>, ds: seq<Entry>, x: nat)
    requires StoreOk(cs) && StoreOk(ds) && |cs| > 0 && |ds| > 0 && !cs[0].kind.Scalar?
    requires 1 <= x < |cs| + |ds| && x != |cs|
    ensures forall k :: 0 <= k < |Graft(cs, ds)[x].kids| ==> Graft(cs, ds)[x].kids[k] != 0 && Graft(cs, ds)[x].kids[k] != |cs|
  {
    GraftOk(cs, ds);
  }

  /** Below the root, the joined variables describe the grafted store. */
  lemma GraftAll(cm: seq<Variable>, cs: seq<Entry>, dm: seq<Variable>, ds: seq<Entry>)
    requires |cm| == |cs| > 0 && |dm| == |ds|
    requires Mirrors(cm, cs) && Parented(cm, cs) && Mirrors(dm, ds) && Parented(dm, ds)
    ensures forall x :: 1 <= x < |cs| + |ds| ==>
              MirrorsAt(cm + dm, Graft(cs, ds), x) && ParentedAt(cm + dm, Graft(cs, ds), x)
  {
    forall x | 1 <= x < |cs| + |ds|
      ensures MirrorsAt(cm + dm, Graft(cs, ds), x) && ParentedAt(cm + dm, Graft(cs, ds), x)
    {
      if x < |cs| {
        GraftKeeps(cm, cs, dm, ds, x);
      } else {
        GraftMoves(cm, cs, dm, ds, x - |cs|);
      }
    }
  }

  lemma UnsharedJoin(a: seq<Variable>, b: seq<Variable>)
    requires Unshared(a) && Unshared(b)
    requires forall x, y :: 0 <= x < |a| && 0 <= y < |b| ==> a[x] != b[y]
    ensures Unshared(a + b)
  {
  }

  /** The clone's root entry with the children's trees gives the original tree. */
  lemma CloneRoot(cs: seq<Entry>, s: seq<Entry>, i: nat)
    requires StoreOk(cs) && StoreOk(s) && |cs| > 0 && i < |s|
    requires cs[0].kind == s[i].kind && cs[0].name == s[i].name && |cs[0].kids| == |s[i].kids|
    requires forall k :: 0 <= k < |cs[0].kids| ==> TreeOf(cs, cs[0].kids[k]) == TreeOf(s, s[i].kids[k])
    ensures TreeOf(cs, 0) == TreeOf(s, i)
  {
    assert TreeOf(cs, 0).kids == TreeOf(s, i).kids;
  }
}
